=== FILE: README.md ===
# fall-2017-java, modelled in Dafny

This project models the sequential core of a two-term collection of Java
exercises: ordered sets, tries, small containers, an infix-to-postfix
calculator front end, functional combinators, a spiral matrix, a tic-tac-toe
engine with its bots, a memory-pairs game, a dependency injector and an xUnit
runner. Every class becomes an immutable datatype and every method a pure
function (or a method with a loop) returning the new value; where the Java
throws, the model returns an error through `Wrappers.Result` or a dedicated
datatype. Java's `null` has no counterpart for strings and list elements:
those are never null in the model, so the `NullPointerException` a null
argument would raise is left out (see "## Left out"). Each module follows
one source component:

- `BinarySearchTree`, `MyTreeSet`: the parent-linked search tree of the
  tree-set exercise and the set view over it that flips its order. Keys are
  integers in their natural order.
- `WeightedSet`: the search tree whose nodes count their subtree.
- `Trie`: the prefix-counting trie. Both variants share one model, in which a
  node is identified by its path; the text format of the older variant writes
  one word per line and reads whitespace-separated tokens back, so it loses
  the empty word and splits words containing whitespace (`EmptyWordIsLost`,
  `SpacedWordIsSplit`).
- `LinkedList`, `HashTable`: the doubly linked list and the chained hash table
  of the first exercise, the table's buckets being such lists. `JavaInt`
  holds Java's 32-bit arithmetic, `String.hashCode` and the truncating `%`.
- `SmartList`: the list that changes representation with its size (null, the
  element itself, an array of five, an `ArrayList`).
- `DefaultStack`: the sentinel-based stack, against the contract of its
  `Stack` interface.
- `Calculator`: the character-level validator and the shunting-yard
  conversion to reverse Polish notation; `CalculatorExamples` states the
  conversion's result on the tests' expressions.
- `Collections`, `Functions`, `Predicates`, `Maybe`, `Lazy`, `Streams`: the
  functional exercises. Exceptions a predicate or supplier throws are values
  of a result type, so short-circuiting can be stated.
- `Matrix`: validation, transposed storage, the centre-out spiral and the
  column sort.
- `TicTacToeConstants`, `TicTacToe`, `TicTacToeSearch`, `TicTacToeBot`,
  `TicTacToeProcess`: the game constants, the 18-bit board mask, the
  game-tree search that fills the tables of state values and winners, the
  easy and hard bots, and the static game state the screen uses (both copies
  of `GameProcess` behave the same).
- `Pairs`: dealing and the open/close state machine of the memory game.
- `Injector`: root look-up, implementation look-up and the three-colour
  depth-first resolution, over classes described by name, kind, supertypes
  and constructor parameter types.
- `XUnit`, `XUnitExamples`: annotation validation and the run of a test class,
  over methods described by name, annotations and the outcome of invoking
  them.

Randomness is a parameter: the pairs shuffle and the easy bot take the
generator's answers as a function or a number. The search tables, which the
Java keeps in static fields, are a value passed to the functions that read
them.

`getNodeByIndex` in the linked list never counts its index down, but the
loop does not run forever: it follows `next` until the node is null and then
throws a `NullPointerException`. That look-up is modelled as written
(`LinkedList.GetNodeByIndexAsWritten`), and so are the list's `get`, `set`
and `remove` on top of it, which throw for every index below the size other
than 0, negative ones included, and the hash table's `get`, `put` and
`remove`, which call them and so throw for a key stored after the first
entry of its bucket (the members ending in `AsWritten`). The members without the suffix are the
corrected versions, built on a look-up that does count down; the rest of
the model uses those. The pairs game's xor swap, which zeroes a cell
swapped with itself, is handled the same way (`Pairs.ShuffleAsWritten`,
`Pairs.InitializeAsWritten`), as are the calculator's validator and the
hash table's `getHash` and `rebuild` (see Findings).

Several classes exist twice in the repository with the same logic, and one
member models both copies; the table cites the first copy. The twins are
`hw3-trie/src/main/java/me/eranik/util/Trie.java` (the object-stream
variant: `add` lines 51-66, `contains` 73-82, `remove` 89-102, `size`
107-109, `howManyStartsWithPrefix` 116-124),
`hw6-fp/src/main/java/me/eranik/functional/Collections.java` (`map` lines
19-26), `hw6-fp/src/main/java/me/eranik/functional/Function2.java`
(`compose` lines 24-45, `bind1`, `bind2` and `curry` 38-68) and
`term2/hw2-tic-tac-toe/src/main/java/me/eranik/app/logic/GameProcess.java`
(lines 21-89).

## Model

| member | source | states |
|---|---|---|
| BinarySearchTree.Empty | term1/hw7-treeset/src/main/java/me/eranik/utils/Tree.java:22-24 | a new tree has no keys and satisfies the search-tree invariant |
| BinarySearchTree.Size | term1/hw7-treeset/src/main/java/me/eranik/utils/Tree.java:30-32 | `size` is the number of distinct keys stored |
| BinarySearchTree.IsEmpty | term1/hw7-treeset/src/main/java/me/eranik/utils/Tree.java:38-40 | `isEmpty` holds exactly when no key is stored |
| BinarySearchTree.LowerBound | term1/hw7-treeset/src/main/java/me/eranik/utils/Tree.java:189-204 | the node found is the least key not below `k`, null when there is none |
| BinarySearchTree.UpperBound | term1/hw7-treeset/src/main/java/me/eranik/utils/Tree.java:206-221 | the node found is the least key strictly above `k`, null when there is none |
| BinarySearchTree.Contains | term1/hw7-treeset/src/main/java/me/eranik/utils/Tree.java:75-78 | `contains(k)` holds exactly when `k` is stored (the least key not below `k` is `k` itself) |
| BinarySearchTree.FirstNode | term1/hw7-treeset/src/main/java/me/eranik/utils/Tree.java:291-296 | the leftmost node holds the least key of the subtree, null for an empty one |
| BinarySearchTree.LastNode | term1/hw7-treeset/src/main/java/me/eranik/utils/Tree.java:298-303 | the rightmost node holds the greatest key of the subtree, null for an empty one |
| BinarySearchTree.First | term1/hw7-treeset/src/main/java/me/eranik/utils/Tree.java:99-102 | `first` is the least stored key, or null on an empty tree |
| BinarySearchTree.Last | term1/hw7-treeset/src/main/java/me/eranik/utils/Tree.java:108-111 | `last` is the greatest stored key, or null on an empty tree |
| BinarySearchTree.Lower | term1/hw7-treeset/src/main/java/me/eranik/utils/Tree.java:120-128 | `lower(k)` is the greatest key strictly below `k`, or null when none exists |
| BinarySearchTree.Floor | term1/hw7-treeset/src/main/java/me/eranik/utils/Tree.java:137-145 | `floor(k)` is the greatest key not above `k`, or null when none exists |
| BinarySearchTree.Ceiling | term1/hw7-treeset/src/main/java/me/eranik/utils/Tree.java:154-157 | `ceiling(k)` is the least key not below `k`, or null when none exists |
| BinarySearchTree.Higher | term1/hw7-treeset/src/main/java/me/eranik/utils/Tree.java:166-169 | `higher(k)` is the least key strictly above `k`, or null when none exists |
| BinarySearchTree.PreviousNode | term1/hw7-treeset/src/main/java/me/eranik/utils/Tree.java:276-289 | the predecessor of a stored key is the greatest key below it, null at the first node |
| BinarySearchTree.NextNode | term1/hw7-treeset/src/main/java/me/eranik/utils/Tree.java:261-274 | the successor of a stored key is the least key above it, null at the last node |
| BinarySearchTree.PrevFrom | term1/hw7-treeset/src/main/java/me/eranik/utils/Tree.java:276-289 | the descent that remembers the last right turn finds the greatest key below `b`, or the remembered ancestor when the subtree has none |
| BinarySearchTree.NextFrom | term1/hw7-treeset/src/main/java/me/eranik/utils/Tree.java:261-274 | the mirror descent finds the least key above `b`, or the remembered ancestor |
| BinarySearchTree.Add | term1/hw7-treeset/src/main/java/me/eranik/utils/Tree.java:47-68 | `add` returns true exactly when the key was absent; the key set gains exactly `k`, the size grows by one only then, a duplicate changes nothing, and the order invariant is kept |
| BinarySearchTree.AddPlacementIsInsert | term1/hw7-treeset/src/main/java/me/eranik/utils/Tree.java:58-64 | the three placements of `add` (left child of the lower-bound node, right child of the last node of its left subtree, right child of the overall last node) coincide with textbook ordered insertion |
| BinarySearchTree.InsertKeepsOrder | term1/hw7-treeset/src/main/java/me/eranik/utils/Tree.java:58-64 | ordered insertion keeps the order and adds exactly the new key |
| BinarySearchTree.GraftAtIsInsert | term1/hw7-treeset/src/main/java/me/eranik/utils/Tree.java:58-64 | hanging the key at the lower-bound node is the same as ordered insertion |
| BinarySearchTree.AttachRightOfLastIsInsert | term1/hw7-treeset/src/main/java/me/eranik/utils/Tree.java:59-61 | hanging a key above every stored key right of the last node is ordered insertion |
| BinarySearchTree.RemoveNode | term1/hw7-treeset/src/main/java/me/eranik/utils/Tree.java:223-240 | unlinking the node of `k` (through its successor when it has two children) removes exactly `k` and keeps the order |
| BinarySearchTree.RemoveLeftmost | term1/hw7-treeset/src/main/java/me/eranik/utils/Tree.java:224-234 | unlinking the successor node, which has no left child, removes exactly the least key of the subtree |
| BinarySearchTree.Remove | term1/hw7-treeset/src/main/java/me/eranik/utils/Tree.java:85-93 | `remove` returns true exactly when the key was present; the key set loses exactly `k`, the size shrinks by one only then, and an absent key changes nothing |
| BinarySearchTree.StepUp | term1/hw7-treeset/src/main/java/me/eranik/utils/Tree.java:328-331 | the ascending iterator's `next` yields the least key not yet yielded; `None` stands for the null node whose key `next()` then reads, i.e. its `NullPointerException` |
| BinarySearchTree.StepDown | term1/hw7-treeset/src/main/java/me/eranik/utils/Tree.java:345-348 | the descending iterator's `next` yields the greatest key not yet yielded; `None` stands for the null node whose key `next()` then reads, i.e. its `NullPointerException` |
| BinarySearchTree.NextPastEndIsNone | term1/hw7-treeset/src/main/java/me/eranik/utils/Tree.java:328-348 | `next()` finds no node, so it throws a `NullPointerException`, after the last key going up, after the first key going down, and on an empty tree |
| BinarySearchTree.AheadEmptyAtLast | term1/hw7-treeset/src/main/java/me/eranik/utils/Tree.java:323-325 | the ascending `hasNext` (current node is not the last) is false exactly when no key remains |
| BinarySearchTree.BehindEmptyAtFirst | term1/hw7-treeset/src/main/java/me/eranik/utils/Tree.java:340-342 | the descending `hasNext` (current node is not the first) is false exactly when no key remains |
| BinarySearchTree.AscendFrom | term1/hw7-treeset/src/main/java/me/eranik/utils/Tree.java:317-332 | from any position the ascending iterator yields the remaining keys, each once, strictly increasing |
| BinarySearchTree.DescendFrom | term1/hw7-treeset/src/main/java/me/eranik/utils/Tree.java:334-349 | from any position the descending iterator yields the remaining keys, each once, strictly decreasing |
| BinarySearchTree.AscendingIterator | term1/hw7-treeset/src/main/java/me/eranik/utils/Tree.java:176-178 | the ascending iterator yields every stored key exactly once in increasing order, `size` of them (none on an empty tree) |
| BinarySearchTree.DescendingIterator | term1/hw7-treeset/src/main/java/me/eranik/utils/Tree.java:185-187 | the descending iterator yields every stored key exactly once in decreasing order, `size` of them |
| BinarySearchTree.DescendingIsReversedAscending | term1/hw7-treeset/src/main/java/me/eranik/utils/Tree.java:176-187 | the descending iteration is the ascending one reversed |
| BinarySearchTree.Place | term1/hw7-treeset/src/main/java/me/eranik/utils/Tree.java:58-64 | the new node is placed so that the tree stays ordered and holds exactly the old keys plus the new one |
| MyTreeSet.Empty | hw7-treeset/src/main/java/me/eranik/utils/MyTreeSet.java:23-25 | a new set is empty and viewed in ascending order |
| MyTreeSet.Size | hw7-treeset/src/main/java/me/eranik/utils/MyTreeSet.java:44-47 | the size is the number of elements, shared with the underlying tree |
| MyTreeSet.IsEmpty | hw7-treeset/src/main/java/me/eranik/utils/MyTreeSet.java:53-56 | empty exactly when no element is stored |
| MyTreeSet.Add | hw7-treeset/src/main/java/me/eranik/utils/MyTreeSet.java:63-66 | returns true exactly when the key was absent; afterwards the elements are the old ones plus the key and the view's direction is kept |
| MyTreeSet.Contains | hw7-treeset/src/main/java/me/eranik/utils/MyTreeSet.java:73-76 | true exactly when the key is an element |
| MyTreeSet.Remove | hw7-treeset/src/main/java/me/eranik/utils/MyTreeSet.java:83-86 | returns true exactly when the key was present; afterwards exactly that key is gone and the direction is kept |
| MyTreeSet.Iterator | hw7-treeset/src/main/java/me/eranik/utils/MyTreeSet.java:92-96 | yields every element once, strictly in the view's order |
| MyTreeSet.DescendingIterator | hw7-treeset/src/main/java/me/eranik/utils/MyTreeSet.java:102-106 | yields every element once, strictly against the view's order |
| MyTreeSet.DescendingSet | hw7-treeset/src/main/java/me/eranik/utils/MyTreeSet.java:35-38 | same elements, and every pair ordered the opposite way round |
| MyTreeSet.First | hw7-treeset/src/main/java/me/eranik/utils/MyTreeSet.java:122-125 | the earliest element in the view's order, null exactly when the set is empty |
| MyTreeSet.Last | hw7-treeset/src/main/java/me/eranik/utils/MyTreeSet.java:131-134 | the latest element in the view's order, null exactly when the set is empty |
| MyTreeSet.Lower | hw7-treeset/src/main/java/me/eranik/utils/MyTreeSet.java:143-146 | the latest element strictly before the key in the view's order, or null when there is none |
| MyTreeSet.Floor | hw7-treeset/src/main/java/me/eranik/utils/MyTreeSet.java:155-158 | the key if present, otherwise the latest element before it in the view's order, or null |
| MyTreeSet.Ceiling | hw7-treeset/src/main/java/me/eranik/utils/MyTreeSet.java:167-170 | the key if present, otherwise the earliest element after it in the view's order, or null |
| MyTreeSet.Higher | hw7-treeset/src/main/java/me/eranik/utils/MyTreeSet.java:179-182 | the earliest element strictly after the key in the view's order, or null when there is none |
| MyTreeSet.ViewsShareTheTree | hw7-treeset/src/main/java/me/eranik/utils/MyTreeSet.java:112-116 | an add or remove made through the descending view is the same change as one made through the original view |
| MyTreeSet.DescendingSetIteratesBackwards | hw7-treeset/src/main/java/me/eranik/utils/MyTreeSet.java:92-116 | iterating the descending set gives the original iteration reversed |
| MyTreeSet.DescendingSetInvolution | hw7-treeset/src/main/java/me/eranik/utils/MyTreeSet.java:35-38 | flipping the direction twice gives back the original view |
| WeightedSet.CountIsKeyCount | hw5-set/src/main/java/me/eranik/util/Set.java:10-14 | in an ordered tree the node count equals the number of distinct keys, so subtree weights count keys |
| WeightedSet.Contains | hw5-set/src/main/java/me/eranik/util/Set.java:55-65 | searching right past smaller keys and left otherwise finds the key exactly when some node holds it |
| WeightedSet.AddPath | hw5-set/src/main/java/me/eranik/util/Set.java:36-46 | walking the search path raising each weight by one and hanging a new leaf keeps order and weights right, and adds exactly the new key |
| WeightedSet.Add | hw5-set/src/main/java/me/eranik/util/Set.java:28-48 | returns true exactly when the key was absent; the keys become the old ones plus the key, weights stay equal to subtree sizes, and a duplicate add changes nothing |
| WeightedSet.Size | hw5-set/src/main/java/me/eranik/util/Set.java:71-73 | the root weight, or 0 when empty, is the number of stored keys |
| WeightedSet.SizeCountsDistinctAdds | term1/hw5-set/src/test/java/me/eranik/util/SetTest.java:64-84 | after adding a sequence of keys, the set holds exactly those keys and its size counts the distinct ones |
| Trie.Empty | hw3-trie/src/me/eranik/util/Trie.java:48 | a new trie stores no word and satisfies the weight invariant |
| Trie.MissingNodeHasNoWords | hw3-trie/src/me/eranik/util/Trie.java:120-127 | when the path of a prefix is missing, no stored word extends it, so `startsWith` answers 0 |
| Trie.PathExists | hw3-trie/src/me/eranik/util/Trie.java:77-85 | following existing edges reaches the end of the word exactly when the path is a node of the trie; nothing is created |
| Trie.Contains | hw3-trie/src/me/eranik/util/Trie.java:77-86 | true exactly when the word is stored, the empty word included |
| Trie.StartsWith | hw3-trie/src/me/eranik/util/Trie.java:120-128 | the number of stored words having the prefix, 0 when its path is missing |
| Trie.Size | hw3-trie/src/me/eranik/util/Trie.java:111-113 | the root weight is the number of stored words |
| Trie.StartsWithEmptyIsSize | hw3-trie/src/main/java/me/eranik/util/Trie.java:116-124 | the empty prefix is a prefix of every word, so it counts all of them |
| Trie.AddedWordCounts | hw3-trie/src/me/eranik/util/Trie.java:55-70 | adding a new word raises by one the count of every node on its path and of no other node |
| Trie.RemovedWordCounts | hw3-trie/src/me/eranik/util/Trie.java:93-106 | removing a stored word lowers by one the count of every node on its path and of no other node |
| Trie.Add | hw3-trie/src/me/eranik/util/Trie.java:55-70 | returns true exactly when the word was absent; afterwards exactly that word is added, weights still count the words below each node, and a duplicate add changes nothing |
| Trie.RaisePath | hw3-trie/src/me/eranik/util/Trie.java:60-67 | the walk of `add` creates the missing nodes of the path and raises the weight of every node on it by one |
| Trie.AddKeepsValid | hw3-trie/src/me/eranik/util/Trie.java:55-70 | the nodes and weights the walk leaves, with the end flag set, again count the words below each node |
| Trie.Remove | hw3-trie/src/me/eranik/util/Trie.java:93-106 | returns true exactly when the word was stored; afterwards exactly that word is gone, no node is removed, and other words are untouched |
| Trie.AddThenRemove | hw3-trie/src/main/java/me/eranik/util/Trie.java:51-102 | adding a word and removing it again gives back the stored words of a trie that lacked it |
| Trie.TokenLength | hw3-trie/src/me/eranik/util/Trie.java:159-166 | the first token of the input is a non-empty run of non-whitespace ending at whitespace or at the end |
| Trie.Tokens | hw3-trie/src/me/eranik/util/Trie.java:159-166 | every token the scanner yields is a non-empty run of non-whitespace characters |
| Trie.TokensOfText | hw3-trie/src/me/eranik/util/Trie.java:130-166 | reading back the lines of well-formed words yields exactly those words, in order |
| Trie.ListShortestFirst | hw3-trie/src/me/eranik/util/Trie.java:130-140 | lists every word once, a word never after a longer one |
| Trie.Serialize | hw3-trie/src/me/eranik/util/Trie.java:130-152 | prints every stored word once, one per line, a word before every word it is a prefix of; the line count is the size |
| Trie.Deserialize | hw3-trie/src/me/eranik/util/Trie.java:159-167 | a fresh root, then the stored words are exactly the whitespace-separated tokens read |
| Trie.TextRoundTrip | hw3-trie/src/me/eranik/util/Trie.java:147-167 | writing and reading back restores the words when each is a non-empty run of non-whitespace, and otherwise cannot, because only such words come back |
| Trie.EmptyWordIsLost | hw3-trie/src/me/eranik/util/Trie.java:131-133 | the empty word prints as an empty line, which reads back as no word at all |
| Trie.SpacedWordIsSplit | hw3-trie/src/me/eranik/util/Trie.java:131-133 | a word with a space reads back as two words |
| Trie.ReplaceRoot | hw3-trie/src/main/java/me/eranik/util/Trie.java:142-146 | after reading, the trie holds exactly the words and prefix counts of the trie written, whatever it held before |
| LinkedList.EmptyHoldsNothing | hw1/src/me/eranik/algorithm/LinkedList.java:4-6 | a new list has no elements |
| LinkedList.Size | hw1/src/me/eranik/algorithm/LinkedList.java:119-121 | the size is the number of elements |
| LinkedList.IsEmpty | hw1/src/me/eranik/algorithm/LinkedList.java:110-112 | empty exactly when there is no element |
| LinkedList.NextNode | hw1/src/me/eranik/algorithm/LinkedList.java:189-191 | the next node of node `i` is node `i + 1`, and null exactly after the last node |
| LinkedList.BeginNode | hw1/src/me/eranik/algorithm/LinkedList.java:4 | `begin` is null exactly when the list is empty, and otherwise node 0 |
| LinkedList.WalkAsWritten | hw1/src/me/eranik/algorithm/LinkedList.java:156-160 | the loop as written stops at once when the index is 0 and otherwise walks off the end of the chain and dereferences null |
| LinkedList.GetNodeByIndexAsWritten | hw1/src/me/eranik/algorithm/LinkedList.java:151-161 | as written, a lookup yields null for an index at least the size, node 0 for index 0, and a null dereference for every other index, negatives included |
| LinkedList.SecondNodeUnreachable | hw1/src/me/eranik/algorithm/LinkedList.java:156-159 | in a two-element list, index 1 dereferences null as written, while the corrected lookup finds node 1 |
| LinkedList.NegativeIndexThrows | hw1/src/me/eranik/algorithm/LinkedList.java:152-159 | index -1 passes the size guard and dereferences null as written, while the corrected lookup yields null |
| LinkedList.Walk | hw1/src/me/eranik/algorithm/LinkedList.java:156-160 | counting the index down while following `next` reaches the node that many steps on |
| LinkedList.GetNodeByIndex | hw1/src/me/eranik/algorithm/LinkedList.java:151-161 | corrected: never dereferences null, and finds the node at the index exactly when it lies in the list |
| LinkedList.Add | hw1/src/me/eranik/algorithm/LinkedList.java:13-23 | appends at the end: the size grows by one, the new last element is the one added, and earlier elements are unchanged |
| LinkedList.Get | hw1/src/me/eranik/algorithm/LinkedList.java:31-34 | corrected: the element at the index exactly when the index is in the list, null otherwise |
| LinkedList.Set | hw1/src/me/eranik/algorithm/LinkedList.java:42-46 | corrected: replaces exactly the element at an index in the list, and changes nothing for an index outside it |
| LinkedList.Remove | hw1/src/me/eranik/algorithm/LinkedList.java:53-69 | corrected: removes exactly the element at an index in the list, shifting later ones down by one and shrinking the size by one; an index outside the list changes nothing |
| LinkedList.GetAsWritten | hw1/src/me/eranik/algorithm/LinkedList.java:31-34 | as written, `get` throws exactly for an index below the size other than 0, negative ones included, and otherwise answers as the corrected `get` |
| LinkedList.SetAsWritten | hw1/src/me/eranik/algorithm/LinkedList.java:42-46 | as written, `set` throws exactly for an index below the size other than 0, negative ones included, and otherwise changes the list as the corrected `set` |
| LinkedList.RemoveAsWritten | hw1/src/me/eranik/algorithm/LinkedList.java:53-69 | as written, `remove` throws exactly for an index below the size other than 0, negative ones included, and otherwise changes the list as the corrected `remove` |
| LinkedList.SecondElementUnreachable | hw1/src/me/eranik/algorithm/LinkedList.java:31-69 | in a two-element list, `get(1)`, `set(1, x)` and `remove(1)` throw as written, while the corrected ones read, replace and remove the second element |
| LinkedList.RemoveRepairsEnds | hw1/src/me/eranik/algorithm/LinkedList.java:58-67 | removing the first element makes the second one first, and removing the last keeps the one before it last |
| LinkedList.IndexOf | hw1/src/me/eranik/algorithm/LinkedList.java:79-87 | the position of the first equal element, or -1 exactly when there is none |
| LinkedList.Contains | hw1/src/me/eranik/algorithm/LinkedList.java:95-101 | true exactly when some element is equal |
| LinkedList.ContainsIffIndexOf | hw1/src/me/eranik/algorithm/LinkedList.java:95-101 | `contains` holds exactly when `indexOf` is not -1 |
| LinkedList.Clear | hw1/src/me/eranik/algorithm/LinkedList.java:126-129 | afterwards the size is 0 and every lookup yields null |
| LinkedList.ToArray | hw1/src/me/eranik/algorithm/LinkedList.java:136-143 | an array of length `size` holding the elements in list order |
| JavaInt.ToInt32 | hw9-streams/src/main/java/me/eranik/sp/SecondPartTasks.java:52-53 | a value wrapped into Java's `int` range differs from the exact one by a multiple of 2^32, and a value already in range is kept |
| JavaInt.WrapAdd | hw9-streams/src/main/java/me/eranik/sp/SecondPartTasks.java:45 | wrapping a running `int` sum after each addition ends where wrapping the exact sum once does |
| JavaInt.Show | hw2-spiral/src/main/java/me/eranik/util/Matrix.java:82 | the decimal form of an `int` is not empty, starts with `-` exactly for a negative number, and is otherwise made of digits |
| JavaInt.DigitsValue | hw5-maybe/src/main/java/me/eranik/utils/Maybe.java:75 | the decimal digits of a natural number read back as that number |
| HashTable.JavaRem | hw1/src/me/eranik/algorithm/HashTable.java:18 | Java's `%`: the remainder lies strictly between `-m` and `m` and has the sign of the dividend |
| HashTable.HashCode | hw1/src/me/eranik/algorithm/HashTable.java:18 | `key.hashCode()` is a Java `int` and equals the exact polynomial in 31 over the characters, wrapped to 32 bits once |
| HashTable.Slot | hw1/src/me/eranik/algorithm/HashTable.java:17-22 | corrected: a bucket index always lies in `[0, mod)` |
| HashTable.GetHashAsWritten | hw1/src/me/eranik/algorithm/HashTable.java:17-22 | as written: the right slot when `mod` is the capacity or the remainder is not negative, and otherwise off by `capacity - mod` |
| HashTable.ReplaceEntry | hw1/src/me/eranik/algorithm/HashTable.java:112-116 | overwriting the entry of a key in its bucket keeps the keys and changes only that key's value |
| HashTable.AppendEntry | hw1/src/me/eranik/algorithm/HashTable.java:117-119 | appending an absent key to its bucket keeps keys distinct and changes only that key's value |
| HashTable.DropEntry | hw1/src/me/eranik/algorithm/HashTable.java:137-142 | removing the entry of a key from its bucket leaves no entry for it and changes no other key's value |
| HashTable.KeyInSlot | hw1/src/me/eranik/algorithm/HashTable.java:71-74 | a key is stored exactly when it is in the bucket of its own slot |
| HashTable.Empty | hw1/src/me/eranik/algorithm/HashTable.java:6-8 | a new table has one bucket and maps nothing |
| HashTable.Size | hw1/src/me/eranik/algorithm/HashTable.java:59-61 | the size is the number of mapped keys |
| HashTable.Contains | hw1/src/me/eranik/algorithm/HashTable.java:71-74 | true exactly when the key is mapped |
| HashTable.Get | hw1/src/me/eranik/algorithm/HashTable.java:82-93 | corrected: the value last put for the key, or null when it is unmapped |
| HashTable.Flatten | hw1/src/me/eranik/algorithm/HashTable.java:35-41 | the entries visited by the rebuild loop are exactly the entries of all buckets |
| HashTable.Gather | hw1/src/me/eranik/algorithm/HashTable.java:42-46 | the entries sent to bucket `j` are exactly those whose key hashes to `j` |
| HashTable.Redistribute | hw1/src/me/eranik/algorithm/HashTable.java:33-47 | the new array has `mod` buckets, each holding exactly the entries whose key hashes to it |
| HashTable.Rebuild | hw1/src/me/eranik/algorithm/HashTable.java:28-52 | the capacity doubles exactly when `size * 2 >= capacity`; the key-to-value mapping and the size are kept |
| HashTable.RebuildKeepsMap | hw1/src/me/eranik/algorithm/HashTable.java:32-51 | redistributing into twice the buckets keeps the invariant and the mapping |
| HashTable.RebuildKey | hw1/src/me/eranik/algorithm/HashTable.java:42-46 | a key is stored after the rebuild exactly when it was before |
| HashTable.RebuildValue | hw1/src/me/eranik/algorithm/HashTable.java:42-46 | a stored key keeps its value through the rebuild |
| HashTable.Put | hw1/src/me/eranik/algorithm/HashTable.java:104-122 | corrected: afterwards the key maps to the new value and nothing else changes; returns the old value or null; the size grows by one exactly for a new key |
| HashTable.PutReplaces | hw1/src/me/eranik/algorithm/HashTable.java:114-116 | for a mapped key, replacing its entry in place updates exactly its value |
| HashTable.PutAppends | hw1/src/me/eranik/algorithm/HashTable.java:117-120 | for a new key, appending to its bucket maps it and counts one more key |
| HashTable.PutInto | hw1/src/me/eranik/algorithm/HashTable.java:107-120 | corrected: the step after `rebuild` keeps the table well formed and its capacity unchanged |
| HashTable.Remove | hw1/src/me/eranik/algorithm/HashTable.java:131-145 | corrected: returns the old value or null; the key becomes unmapped, the size drops by one exactly when it was mapped, and an unmapped key changes nothing |
| HashTable.RemoveKeepsMap | hw1/src/me/eranik/algorithm/HashTable.java:137-143 | unlinking the key's entry removes exactly that key from the mapping |
| HashTable.Clear | hw1/src/me/eranik/algorithm/HashTable.java:150-157 | afterwards nothing is mapped, every lookup yields null, and the capacity is kept |
| HashTable.RebuildAsWritten | hw1/src/me/eranik/algorithm/HashTable.java:28-52 | as written, the rebuild fails with an index out of bounds exactly when it doubles and some stored key gets a negative slot |
| HashTable.GatherAsWritten | hw1/src/me/eranik/algorithm/HashTable.java:42-46 | as written, bucket `j` receives the entries whose as-written hash is `j` |
| HashTable.Position | hw1/src/me/eranik/algorithm/HashTable.java:87 | the position `indexOf` reports lies in the key's bucket, is -1 exactly when the key is absent from it, and otherwise holds an entry with that key |
| HashTable.GetAsWritten | hw1/src/me/eranik/algorithm/HashTable.java:82-93 | as written, `get` throws exactly when the key is stored after the first entry of its bucket, and otherwise answers as the corrected `get` on a valid table |
| HashTable.PutIntoAsWritten | hw1/src/me/eranik/algorithm/HashTable.java:107-120 | as written, the step after `rebuild` throws exactly when the key is stored after the first entry of its bucket, and otherwise is the corrected step |
| HashTable.PutAsWritten | hw1/src/me/eranik/algorithm/HashTable.java:104-122 | as written, `put` throws exactly when its rebuild does or when the key then sits after the first entry of its bucket; otherwise it is the corrected step on the rebuilt table, and the table stays well formed |
| HashTable.RemoveAsWritten | hw1/src/me/eranik/algorithm/HashTable.java:131-145 | as written, `remove` throws exactly when the key is stored after the first entry of its bucket, and otherwise agrees with the corrected `remove` on a valid table |
| HashTable.NegativeKeyHash | hw1/src/me/eranik/algorithm/HashTable.java:18-20 | a key whose hash code leaves a negative remainder for moduli 2 and 4 |
| HashTable.RebuildMovesNegativeKey | hw1/src/me/eranik/algorithm/HashTable.java:42-46 | as written, doubling one bucket to two sends that key to bucket 0 instead of 1 |
| HashTable.SamePutTwiceCountsTwice | hw1/src/me/eranik/algorithm/HashTable.java:104-122 | as written, putting that key twice leaves a size of 2, while the corrected table counts it once |
| HashTable.SecondPutJoinsA | hw1/src/me/eranik/algorithm/HashTable.java:104-122 | as written, the second put, of a key with a negative hash code, goes to bucket 1 of 2, where the rebuild has kept "a", and the size becomes 2 |
| HashTable.FirstPutOfA | hw1/src/me/eranik/algorithm/HashTable.java:104-122 | as written, the first put of "a" on a new table stores it alone in the single bucket, with a size of 1 |
| HashTable.SecondPutJoinsBucket | hw1/src/me/eranik/algorithm/HashTable.java:104-122 | as written, putting "c" after "a" doubles the capacity to 2, and "c" becomes the second entry of bucket 1, after "a" |
| HashTable.SecondEntryThrows | hw1/src/me/eranik/algorithm/HashTable.java:82-93 | as written, `get` and `remove` of "c" throw on the table where "c" is the second entry of its bucket |
| HashTable.SecondInBucketThrows | hw1/src/me/eranik/algorithm/HashTable.java:82-145 | as written, `put("a")`, `put("c", "x")`, then `get("c")` or `remove("c")` throws, while the corrected table answers "x" |
| HashTable.ThirdPutIndexesBelowZero | hw1/src/me/eranik/algorithm/HashTable.java:42-44 | as written, the third put's rebuild computes a negative bucket index and fails |
| SmartList.Elements | term1/cw3/src/main/java/me/eranik/SmartList.java:13-14 | the list a storage stands for has exactly `size` elements |
| SmartList.ElementAt | term1/cw3/src/main/java/me/eranik/SmartList.java:58-68 | element `i` is the single element, slot `i` of the array, or entry `i` of the array list, by representation |
| SmartList.Canonical | term1/cw3/src/main/java/me/eranik/SmartList.java:29-49 | the representation is determined by the elements: two valid lists with equal elements are equal |
| SmartList.EmptyHoldsNothing | term1/cw3/src/main/java/me/eranik/SmartList.java:19-22 | a new list is well formed and holds no element |
| SmartList.FromCollection | term1/cw3/src/main/java/me/eranik/SmartList.java:29-49 | the copy holds the collection's elements in the representation its size calls for |
| SmartList.Get | term1/cw3/src/main/java/me/eranik/SmartList.java:58-69 | fails with an out-of-bounds error exactly when `i` is outside `[0, size)`, and otherwise yields element `i` |
| SmartList.Set | term1/cw3/src/main/java/me/eranik/SmartList.java:79-94 | fails exactly when `i` is outside `[0, size)`; otherwise returns the old element `i` and replaces only it |
| SmartList.CopyRight | term1/cw3/src/main/java/me/eranik/SmartList.java:123 | the array copy moves each slot in the range one place right and leaves the others |
| SmartList.Insert | term1/cw3/src/main/java/me/eranik/SmartList.java:103-133 | fails exactly when `i` is outside `[0, size]`; otherwise inserts at `i`, shifts the tail right, and keeps the representation right across 0 to 1, 1 to 2 and 5 to 6 |
| SmartList.InsertIntoArray | term1/cw3/src/main/java/me/eranik/SmartList.java:122-126 | inserting into the array of five shifts the tail right and puts the element at `i` |
| SmartList.ShiftLeft | term1/cw3/src/main/java/me/eranik/SmartList.java:155-157 | the array copy moves each slot after the position one place left and leaves the rest |
| SmartList.RemoveAt | term1/cw3/src/main/java/me/eranik/SmartList.java:142-176 | fails exactly when `i` is outside `[0, size)`; otherwise returns element `i`, shifts the tail left, and keeps the representation right across 2 to 1 and 6 to 5 |
| SmartList.RemoveFromArray | term1/cw3/src/main/java/me/eranik/SmartList.java:152-166 | removing from the array shifts the tail left and falls back to a single element at size 2 |
| SmartList.RemoveUndoesInsert | term1/cw3/src/main/java/me/eranik/SmartList.java:103-176 | removing at `i` what was just inserted at `i` gives back that element and the original list |
| SmartList.FirstIndex | term1/cw3/src/main/java/me/eranik/SmartList.java:185-204 | the first position from `from` on holding the element, or -1 when there is none |
| SmartList.IndexOf | term1/cw3/src/main/java/me/eranik/SmartList.java:185-204 | the position of the first equal element, or -1 exactly when there is none |
| SmartList.Contains | term1/cw3/src/main/java/me/eranik/SmartList.java:230-232 | true exactly when some element is equal, through `indexOf` |
| SmartList.Size | term1/cw3/src/main/java/me/eranik/SmartList.java:211-213 | the number of elements |
| SmartList.IsEmpty | term1/cw3/src/main/java/me/eranik/SmartList.java:220-222 | true exactly when there is no element |
| SmartList.Append | term1/cw3/src/main/java/me/eranik/SmartList.java:240-243 | returns true and appends at the end |
| SmartList.RemoveFirstAt | term1/cw3/src/main/java/me/eranik/SmartList.java:251-258 | removing the first occurrence at `k` drops exactly that position |
| SmartList.RemoveFirstAbsent | term1/cw3/src/main/java/me/eranik/SmartList.java:251-258 | removing an absent element changes nothing |
| SmartList.RemoveObject | term1/cw3/src/main/java/me/eranik/SmartList.java:251-258 | returns true exactly when the element is present, and removes only its first occurrence |
| SmartList.Clear | term1/cw3/src/main/java/me/eranik/SmartList.java:264-267 | afterwards the list is empty and in the null representation |
| DefaultStack.Contents | hw8-calculator/src/main/java/me/eranik/util/DefaultStack.java:75-83 | the chain below a node lists its values from the top down, and ends at the sentinel |
| DefaultStack.EmptyHoldsNothing | hw8-calculator/src/main/java/me/eranik/util/DefaultStack.java:11-12 | a new stack is well formed and holds no element |
| DefaultStack.Size | hw8-calculator/src/main/java/me/eranik/util/DefaultStack.java:18-21 | the size is the number of elements above the sentinel |
| DefaultStack.IsEmpty | hw8-calculator/src/main/java/me/eranik/util/DefaultStack.java:27-30 | `empty` holds exactly when the size is 0, which is exactly when no element is stored |
| DefaultStack.Push | hw8-calculator/src/main/java/me/eranik/util/DefaultStack.java:36-40 | the value goes on top of the old elements and the size grows by one |
| DefaultStack.Pop | hw8-calculator/src/main/java/me/eranik/util/DefaultStack.java:46-55 | fails with an empty-stack error exactly when the stack is empty; otherwise returns the top element, leaves the rest and shrinks the size by one |
| DefaultStack.Top | hw8-calculator/src/main/java/me/eranik/util/DefaultStack.java:61-64 | the top element, or the sentinel's null exactly when the stack is empty |
| DefaultStack.Clear | hw8-calculator/src/main/java/me/eranik/util/DefaultStack.java:69-73 | afterwards the stack is the empty stack |
| DefaultStack.PushAllIsLastInFirstOut | hw8-calculator/src/test/java/me/eranik/util/DefaultStackTest.java:132-150 | pushing values one by one stacks them in reverse order above the old elements |
| DefaultStack.PopUndoesPush | hw8-calculator/src/main/java/me/eranik/util/DefaultStack.java:36-55 | popping right after pushing `v` returns `v` and the stack before the push, and `top` sees `v` |
| DefaultStack.EmptyIsUnique | hw8-calculator/src/main/java/me/eranik/util/DefaultStack.java:46-50 | an empty stack is the initial one, and `pop` on it fails while `top` yields null |
| Calculator.ToDigit | hw8-calculator/src/main/java/me/eranik/math/Calculator.java:163-169 | a character is a digit exactly when its value is 0 to 9, and the value is its distance from `'0'` |
| Calculator.DigitValues | hw8-calculator/src/main/java/me/eranik/math/Calculator.java:163-165 | `'0'` to `'9'` map to 0 to 9 |
| Calculator.Priority | hw8-calculator/src/main/java/me/eranik/math/Calculator.java:135-147 | priority 1 exactly for `+` and `-`, 2 exactly for `*` and `/`, and 0 for everything else, `(` included |
| Calculator.Padded | hw8-calculator/src/main/java/me/eranik/math/Calculator.java:97 | the validated string is the expression between `0+` and `+0` |
| Calculator.CheckFromMeaning | hw8-calculator/src/main/java/me/eranik/math/Calculator.java:99-132 | the loop accepts from a position on exactly when every later adjacent pair is allowed, the depth never goes negative and it ends at zero |
| Calculator.CheckCorrectnessMeaning | hw8-calculator/src/main/java/me/eranik/math/Calculator.java:96-133 | `checkCorrectness` accepts exactly the expressions whose padded form meets the pair and depth rules |
| Calculator.CheckCorrectnessAsWritten | hw8-calculator/src/main/java/me/eranik/math/Calculator.java:96-133 | as written, the validator accepts exactly the expressions whose padded form lets every character be followed by an allowed one, keeps the count of open parentheses from going negative and ends it at zero; whatever it accepts has balanced parentheses |
| Calculator.CheckCorrectness | hw8-calculator/src/main/java/me/eranik/math/Calculator.java:96-133 | corrected: the same rules with `()` and `)(` also refused, and whatever it accepts has balanced parentheses |
| Calculator.CheckCorrectnessStricter | hw8-calculator/src/main/java/me/eranik/math/Calculator.java:115-127 | corrected: the intended validator accepts exactly what the validator as written accepts, minus every expression containing `()` or `)(` |
| Calculator.FilterMembers | hw8-calculator/src/main/java/me/eranik/math/Calculator.java:39-58 | a filtered string holds exactly the characters of the input that pass the filter |
| Calculator.AcceptedIsBalanced | hw8-calculator/src/main/java/me/eranik/math/Calculator.java:99-132 | an accepted expression uses only digits, operations and parentheses, and its parentheses balance |
| Calculator.OpenIndex | hw8-calculator/src/main/java/me/eranik/math/Calculator.java:45-47 | the operations above the topmost `(` on the stack |
| Calculator.PopToOpen | hw8-calculator/src/main/java/me/eranik/math/Calculator.java:44-48 | `)` moves every operation above the topmost `(` to the output, in stack order |
| Calculator.LowerIndex | hw8-calculator/src/main/java/me/eranik/math/Calculator.java:52 | the run of stack entries whose priority is at least the incoming one |
| Calculator.PopNotLower | hw8-calculator/src/main/java/me/eranik/math/Calculator.java:51-55 | an operation first moves every stacked operation of priority at least its own to the output, so equal priorities associate to the left |
| Calculator.Step | hw8-calculator/src/main/java/me/eranik/math/Calculator.java:39-59 | one character never takes back output already written, and fails exactly on a `)` with no `(` on the stack, with an empty-stack failure |
| Calculator.Convert | hw8-calculator/src/main/java/me/eranik/math/Calculator.java:38-64 | the output written before stays at the front of the result, and the conversion fails only with an empty stack and only while a `)` is left to read |
| Calculator.StepKeeps | hw8-calculator/src/main/java/me/eranik/math/Calculator.java:39-59 | one character of the loop never pops an empty stack and keeps the digits read in order and every operation read either output or stacked |
| Calculator.FlushKeeps | hw8-calculator/src/main/java/me/eranik/math/Calculator.java:60-62 | after the final pops, the output holds the digits in order and each operation once |
| Calculator.ConvertKeeps | hw8-calculator/src/main/java/me/eranik/math/Calculator.java:38-64 | the conversion of an accepted expression succeeds and keeps digits in order and each operation once |
| Calculator.ReversePolishAsWrittenMeaning | hw8-calculator/src/main/java/me/eranik/math/Calculator.java:31-65 | as written, the conversion throws a parse exception exactly when the lenient check fails, and otherwise outputs no parentheses, the digits in their order and each operation once |
| Calculator.ReversePolishAsWritten | hw8-calculator/src/main/java/me/eranik/math/Calculator.java:31-65 | as written, `getReversedPolishNotation` throws a `ParseException` exactly when the lenient validator refuses, and converts everything it accepts without another failure |
| Calculator.ReversePolish | hw8-calculator/src/main/java/me/eranik/math/Calculator.java:31-65 | corrected: a `ParseException` exactly when the intended validator refuses, and a conversion without failure for everything it accepts |
| Calculator.AppendOperations | hw8-calculator/src/main/java/me/eranik/math/Calculator.java:80-82 | popping operations onto an output with enough operands keeps it evaluable, each using up one operand |
| Calculator.StrictAcceptedPairs | hw8-calculator/src/main/java/me/eranik/math/Calculator.java:100-128 | under the intended validator every character of the expression follows an allowed predecessor |
| Calculator.ShapeKeeps | hw8-calculator/src/main/java/me/eranik/math/Calculator.java:39-59 | under the intended validator each step keeps the operand count of the output equal to the stacked operations, plus one after an operand |
| Calculator.ConvertWellFormed | hw8-calculator/src/main/java/me/eranik/math/Calculator.java:38-64 | under the intended validator, the output evaluates with no empty pop and exactly one operand left |
| Calculator.ReversePolishMeaning | hw8-calculator/src/main/java/me/eranik/math/Calculator.java:31-65 | corrected: a parse exception exactly when the intended validator fails; otherwise the output keeps digit order and each operation once, and evaluates completely |
| CalculatorExamples.EmptyGroupAccepted | hw8-calculator/src/main/java/me/eranik/math/Calculator.java:115-120 | the validator as written accepts `()`, whose conversion is the empty string, which does not evaluate; the intended validator refuses it |
| CalculatorExamples.AdjacentGroupsAccepted | hw8-calculator/src/main/java/me/eranik/math/Calculator.java:122-127 | the validator as written accepts `(1)(2)`, whose conversion `12` leaves two operands; the intended validator refuses it |
| CalculatorExamples.Examples | term1/hw8-calculator/src/test/java/me/eranik/math/CalculatorTest.java:63-84 | `1-(2-3)-4` converts to `123--4-`, `1+(2-3*4)/5-6` to `1234*-5/+6-`, and `1+` is refused |
| Collections.Map | term1/hw6-fp/src/main/java/me/eranik/functional/Collections.java:21-28 | same length, with the function applied to each element in order |
| Collections.Filter | term1/hw6-fp/src/main/java/me/eranik/functional/Collections.java:38-47 | keeps exactly the elements satisfying the predicate, each as often as in the input, in their original order (a subsequence of the input) |
| Collections.FilterConcat | hw6-fp/src/main/java/me/eranik/functional/Collections.java:36-45 | filtering goes element by element, so filtering a concatenation concatenates the filtered parts, keeping the order |
| Collections.TakeWhile | term1/hw6-fp/src/main/java/me/eranik/functional/Collections.java:58-68 | a prefix of the input whose elements all satisfy the predicate, stopping only at the end or at an element that fails it |
| Collections.TakeWhileIsLongest | hw6-fp/src/main/java/me/eranik/functional/Collections.java:56-66 | any prefix of satisfying elements followed by a failing one, or by the end, is exactly what `takeWhile` returns |
| Collections.TakeUnless | term1/hw6-fp/src/main/java/me/eranik/functional/Collections.java:79-82 | a prefix of the input whose elements all fail the predicate, stopping only at the end or at an element that satisfies it |
| Collections.Foldr | term1/hw6-fp/src/main/java/me/eranik/functional/Collections.java:84-105 | `foldr` meets the equations of a right fold: the initial value for no values, and `f` of the first value and the fold of the rest otherwise |
| Collections.FoldrConcat | term1/hw6-fp/src/main/java/me/eranik/functional/Collections.java:84-105 | a right fold over a concatenation folds the front into the fold of the back |
| Collections.ApplyBackwardsConcat | hw6-fp/src/main/java/me/eranik/functional/Collections.java:82-103 | the recursive `applyBackwards` over a concatenation continues into the fold of the back |
| Collections.Foldl | term1/hw6-fp/src/main/java/me/eranik/functional/Collections.java:117-124 | the loop computes the left fold `f(... f(f(z, x1), x2) ..., xn)` |
| Collections.FoldLeft | term1/hw6-fp/src/main/java/me/eranik/functional/Collections.java:117-124 | the left fold, peeling the last value, equals feeding the first value into the initial result and folding the rest |
| Collections.FoldLeftIsFoldrOfReverse | hw6-fp/src/main/java/me/eranik/functional/Collections.java:115-122 | a left fold is a right fold of the reversed list with the arguments swapped |
| Collections.MapFusion | term1/hw6-fp/src/main/java/me/eranik/functional/Collections.java:21-28 | mapping twice is mapping the composition |
| Collections.FilterIdempotent | term1/hw6-fp/src/main/java/me/eranik/functional/Collections.java:38-47 | filtering twice by the same predicate is filtering once |
| Collections.Examples | term1/hw6-fp/src/test/java/me/eranik/functional/CollectionsTest.java:41-99 | `takeWhile` and `takeUnless` of the tests' lists, `foldr` of 18, 6, 24, 60 with division from 5 giving 6, and `foldl` from 720 over 2, 3, 4, 5 giving 6 |
| Functions.ComposeOrder | hw6-fp/src/main/java/me/eranik/functional/Function1.java:24-31 | `f.compose(g)` at `x` is `g(f(x))`, and chained composition applies the functions left to right |
| Functions.ComposeNotCommutative | term1/hw6-fp/src/test/java/me/eranik/functional/Function1Test.java:8-26 | with `f = x + 3` and `g = 8x`, `f.compose(g)` at 15 is 144 but `g.compose(f)` is 123 |
| Functions.BindLaws | term1/hw6-fp/src/main/java/me/eranik/functional/Function2.java:40-70 | binding the first argument and then the second reaches the value that binding them in the other order does, `curry(y)` is the function `bind2(y)`, and two functions whose `bind1` agree at every argument agree everywhere |
| Functions.BindThenCompose | term1/hw6-fp/src/main/java/me/eranik/functional/Function2.java:26-47 | `compose` of a two-argument function applies `g` to `f(x, y)`, and binding commutes with composing |
| Functions.Function2Examples | term1/hw6-fp/src/test/java/me/eranik/functional/Function2Test.java:21-66 | the values the tests expect from `compose`, `bind1`, `bind2` and `curry` |
| Predicates.OrShortCircuits | hw6-fp/src/main/java/me/eranik/functional/Predicate.java:44-51 | `or` propagates `p`'s exception, answers true without running `q` when `p` holds, and otherwise answers or throws what `q` does |
| Predicates.AndShortCircuits | hw6-fp/src/main/java/me/eranik/functional/Predicate.java:60-67 | `and` propagates `p`'s exception, answers false without running `q` when `p` fails, and otherwise answers or throws what `q` does |
| Predicates.NotLaws | hw6-fp/src/main/java/me/eranik/functional/Predicate.java:75-82 | `not` negates the answer and passes exceptions on; `not().not()` is the original predicate, and De Morgan's laws hold |
| Predicates.ConstantsDecide | hw6-fp/src/main/java/me/eranik/functional/Predicate.java:12-27 | `ALWAYS_TRUE` decides an `or` and `ALWAYS_FALSE` an `and` without running the other predicate, and otherwise they defer to it |
| Maybe.Just | hw5-maybe/src/main/java/me/eranik/utils/Maybe.java:22-24 | `just(v)` is present exactly when `v` is not null |
| Maybe.NothingIsAbsent | hw5-maybe/src/main/java/me/eranik/utils/Maybe.java:31-33 | `nothing()` is never present |
| Maybe.Get | hw5-maybe/src/main/java/me/eranik/utils/Maybe.java:40-44 | throws `MaybeException` exactly when nothing is present; otherwise returns the value that `just` wraps |
| Maybe.Map | hw5-maybe/src/main/java/me/eranik/utils/Maybe.java:62-66 | nothing maps to nothing, and `just(v)` to `just(f(v))` |
| Maybe.JustGet | hw5-maybe/src/main/java/me/eranik/utils/Maybe.java:22-52 | `just(v).get()` returns `v`, `nothing().get()` throws, and `just(null)` is `nothing()` |
| Maybe.MapLaws | hw5-maybe/src/main/java/me/eranik/utils/Maybe.java:62-66 | mapping a function that never yields null keeps presence, mapping the identity changes nothing, and mapping twice is mapping the composition |
| Maybe.ParseInt | hw5-maybe/src/main/java/me/eranik/utils/Maybe.java:75 | `Integer.valueOf`: an optional sign and at least one decimal digit, with a value in the 32-bit range |
| Maybe.ConvertToInteger | hw5-maybe/src/main/java/me/eranik/utils/Maybe.java:73-79 | present exactly when the string parses as an `int`, holding that number |
| Maybe.ConvertShowRoundTrip | hw5-maybe/src/main/java/me/eranik/utils/Maybe.java:73-79 | the decimal form of any `int` converts back to it |
| Maybe.Examples | hw5-maybe/src/test/java/me/eranik/utils/MaybeTest.java:39-71 | `"123"` converts to 123, `"abc"` to nothing, and a map of `just(5)` gets the mapped value |
| Lazy.CreateLazy | term2/hw1-lazy/src/main/java/me/eranik/util/LazyFactory.java:20-22 | a new lazy value holds the supplier and has not run it |
| Lazy.Get | term2/hw1-lazy/src/main/java/me/eranik/util/LazyFactory.java:54-61 | the first `get` runs the supplier once and stores its result, null included; later calls return the stored result without running it |
| Lazy.GetRepeatedly | term2/hw1-lazy/src/main/java/me/eranik/util/LazyFactory.java:84-91 | any number of calls, on either variant, all return the supplier's first result, and the supplier has run once after the first call |
| Lazy.OnlyFirstCallMatters | term2/hw1-lazy/src/main/java/me/eranik/util/LazyFactory.java:56-60 | the answer depends only on the supplier's first result, and a null result is stored like any other, with the supplier run once |
| Lazy.Examples | term2/hw1-lazy/src/test/java/me/eranik/util/LazyFactoryTest.java:18-42 | repeated calls return the first result, even from a supplier whose answers change, and a null result is kept |
| Streams.ProductsMeaning | hw9-streams/src/main/java/me/eranik/sp/SecondPartTasks.java:51-54 | the products of the union of all orders are those of some order, and a product in none has total 0 |
| Streams.AddOrder | hw9-streams/src/main/java/me/eranik/sp/SecondPartTasks.java:52-53 | adding one order keeps the totals of other products and adds its quantities, wrapping like `int` |
| Streams.CalculateGlobalOrder | hw9-streams/src/main/java/me/eranik/sp/SecondPartTasks.java:51-54 | maps each product in some order to the sum of its quantities over all orders, wrapping like `int` |
| Streams.StepTotal | hw9-streams/src/main/java/me/eranik/sp/SecondPartTasks.java:52-53 | after one more order, each total is the sum over the orders read so far |
| Streams.GlobalOrderExample | hw9-streams/src/test/java/me/eranik/sp/SecondPartTasksTest.java:42-71 | the totals the test expects for its three orders |
| Streams.SumLengths | hw9-streams/src/main/java/me/eranik/sp/SecondPartTasks.java:45 | the sum of the lengths of an author's works, wrapping like `int` |
| Streams.Heaviest | hw9-streams/src/main/java/me/eranik/sp/SecondPartTasks.java:44-46 | the first author whose total length is maximal |
| Streams.FindPrinter | hw9-streams/src/main/java/me/eranik/sp/SecondPartTasks.java:43-47 | the empty string for no authors, and otherwise the name of the first author with the maximal total length |
| Streams.FirstHeaviestUnique | hw9-streams/src/main/java/me/eranik/sp/SecondPartTasks.java:44-46 | there is only one first author of maximal total length |
| Streams.FindPrinterExample | hw9-streams/src/test/java/me/eranik/sp/SecondPartTasksTest.java:32-40 | the test's compositions pick author `c` |
| Streams.PiecesJoin | hw9-streams/src/main/java/me/eranik/sp/SecondPartTasks.java:23 | splitting a line at every space and joining the pieces with spaces gives the line back |
| Streams.JoinPieces | hw9-streams/src/main/java/me/eranik/sp/SecondPartTasks.java:23 | joining space-free pieces with spaces and splitting again gives the pieces back |
| Streams.Split | hw9-streams/src/main/java/me/eranik/sp/SecondPartTasks.java:23 | `split(" ")` yields space-free pieces, and a line without a space is one piece |
| Streams.SplitMeaning | hw9-streams/src/main/java/me/eranik/sp/SecondPartTasks.java:23 | `split(" ")` is the split at every space with the trailing empty pieces dropped |
| Streams.FindQuotes | hw9-streams/src/main/java/me/eranik/sp/SecondPartTasks.java:16-25 | exactly the space-separated tokens that contain the substring, each as often as it occurs, in the order the files and lines give them (a subsequence of all the tokens) |
| Streams.UnreadableFile | hw9-streams/src/main/java/me/eranik/sp/SecondPartTasks.java:20-22 | an unreadable file contributes one empty line, whose only token is returned exactly when the substring is empty |
| Streams.SplitExamples | hw9-streams/src/main/java/me/eranik/sp/SecondPartTasks.java:23 | leading empty pieces are kept and trailing ones dropped, so a line of spaces yields nothing |
| Matrix.New | hw2-spiral/src/main/java/me/eranik/util/Matrix.java:13-29 | fails with `IllegalArgumentException` exactly when the input is null, of even size, or has a null or ragged row; otherwise stores the transpose |
| Matrix.Rows | hw2-spiral/src/main/java/me/eranik/util/Matrix.java:79-86 | the rows printed are the stored columns read back, so entry `[i][j]` is stored entry `[j][i]` |
| Matrix.PrintAfterNew | hw2-spiral/src/main/java/me/eranik/util/Matrix.java:79-86 | printing right after construction reproduces the input row by row |
| Matrix.Ring | hw2-spiral/src/main/java/me/eranik/util/Matrix.java:45-60 | ring `r` has `8r` cells, one per step of its four sides |
| Matrix.RingAtDist | hw2-spiral/src/main/java/me/eranik/util/Matrix.java:45-60 | every cell of ring `r` lies at distance `r` from the centre |
| Matrix.RingAtInjective | hw2-spiral/src/main/java/me/eranik/util/Matrix.java:45-60 | no cell appears twice on a ring |
| Matrix.RingIndex | hw2-spiral/src/main/java/me/eranik/util/Matrix.java:45-60 | every cell at distance `r` from the centre is on ring `r` |
| Matrix.SpiralVisitsEveryCellOnce | hw2-spiral/src/main/java/me/eranik/util/Matrix.java:35-63 | the spiral starts at the centre, stays in bounds and visits each of the `size * size` cells exactly once |
| Matrix.DrawSpiral | hw2-spiral/src/main/java/me/eranik/util/Matrix.java:35-63 | prints `size * size` entries, the stored entries of the cells in spiral order |
| Matrix.DrawRing | hw2-spiral/src/main/java/me/eranik/util/Matrix.java:38-60 | one round of the outer loop prints the cells of ring `radius` in order and ends one cell beyond its start |
| Matrix.SideExit | hw2-spiral/src/main/java/me/eranik/util/Matrix.java:45-60 | the step after a side's last cell is the next side's first cell, or the next ring's start after the last side |
| Matrix.InsertMultiset | hw2-spiral/src/main/java/me/eranik/util/Matrix.java:69-73 | inserting a column keeps every column, adding exactly that one |
| Matrix.InsertSorted | hw2-spiral/src/main/java/me/eranik/util/Matrix.java:69-73 | inserting into columns sorted by first entry keeps them sorted |
| Matrix.SortByKey | hw2-spiral/src/main/java/me/eranik/util/Matrix.java:69-73 | the columns sorted by first entry, the same columns as before |
| Matrix.SortColumns | hw2-spiral/src/main/java/me/eranik/util/Matrix.java:68-74 | the same columns, each intact, ordered so that first entries never decrease |
| Matrix.RejectedExamples | hw2-spiral/src/test/java/me/eranik/util/MatrixTest.java:21-34 | a null, even-sized or ragged input is rejected with the source's message |
| Matrix.SpiralOfThree | hw2-spiral/src/main/java/me/eranik/util/Matrix.java:36-60 | the 3 by 3 spiral visits the centre, then up, right, down, left around it |
| Matrix.NewExample | hw2-spiral/src/test/java/me/eranik/util/MatrixTest.java:55-67 | the stored form of the 3 by 3 example is its transpose and prints back as the input |
| Matrix.DrawSpiralExample | hw2-spiral/src/test/java/me/eranik/util/MatrixTest.java:41-53 | the 3 by 3 example prints 5 4 7 8 9 6 3 2 1 |
| Matrix.SortColumnsExample | hw2-spiral/src/test/java/me/eranik/util/MatrixTest.java:69-83 | sorting the columns of the test's matrix gives the rows the test expects |
| TicTacToeConstants.TurnValue | term2/hw2-tic-tac-toe/src/app/options/Constants.java:17-27 | the code a mover writes into a cell is 1 or 2 |
| TicTacToeConstants.Change | term2/hw2-tic-tac-toe/src/app/options/Constants.java:29-31 | handing the turn over always gives the other player |
| TicTacToeConstants.ChangeInvolution | term2/hw2-tic-tac-toe/src/app/options/Constants.java:17-32 | handing the turn over twice gives the turn back, and the two players' codes sum to 3 |
| TicTacToeConstants.FieldCode | term2/hw2-tic-tac-toe/src/app/options/Constants.java:34-56 | a cell value's code is in 0..2 |
| TicTacToeConstants.FieldValueOf | term2/hw2-tic-tac-toe/src/app/options/Constants.java:42-51 | `FieldValue.get` answers X exactly for code 1, O exactly for code 2, and empty for every other code |
| TicTacToeConstants.CodesAgree | term2/hw2-tic-tac-toe/src/app/options/Constants.java:17-56 | `get` inverts `getValue` on cell values, and a mover's code reads back as that mover's cell value |
| TicTacToeConstants.GameTypeOf | term2/hw2-tic-tac-toe/src/app/options/Constants.java:69-79 | the three menu names map to the three game types and every other name to null |
| TicTacToe.Id | term2/hw2-tic-tac-toe/src/app/logic/GameLogic.java:108 | a cell inside the 3×3 field has a number below 9 |
| TicTacToe.PointOf | term2/hw2-tic-tac-toe/src/app/logic/GameLogic.java:108 | every cell number below 9 is the number of exactly the cell it decodes to |
| TicTacToe.Shift | term2/hw2-tic-tac-toe/src/app/logic/GameLogic.java:109 | each cell owns an even bit offset of at most 16 in the mask |
| TicTacToe.ShiftInjective | term2/hw2-tic-tac-toe/src/app/logic/GameLogic.java:109 | different cells own different two-bit slots of the mask |
| TicTacToe.Code | term2/hw2-tic-tac-toe/src/app/logic/GameLogic.java:129 | reading a cell's slot gives a code of at most 3 |
| TicTacToe.BitsFrame | term2/hw2-tic-tac-toe/src/app/logic/GameLogic.java:109-129 | or-ing a code into one slot leaves every other slot as it was and ors the code into its own |
| TicTacToe.OrCodes | term2/hw2-tic-tac-toe/src/app/logic/GameLogic.java:109-129 | a move's mask update changes only the moved cell's code, by or-ing the mover's code into it |
| TicTacToe.MaskMove | term2/hw2-tic-tac-toe/src/app/logic/GameLogic.java:107-111 | the nine codes unpacked from the new 32-bit mask are the old ones with the moved cell or-ed with the mover's code |
| TicTacToe.UnpackZero | term2/hw2-tic-tac-toe/src/app/logic/GameLogic.java:81 | the initial mask 0 holds nine empty cells |
| TicTacToe.CellOf | term2/hw2-tic-tac-toe/src/app/logic/GameLogic.java:127-130 | a code reads as X exactly when it is 1 and as O exactly when it is 2 |
| TicTacToe.Board | term2/hw2-tic-tac-toe/src/app/logic/GameLogic.java:127-130 | the board is the nine cells, each read from its code |
| TicTacToe.GetCell | term2/hw2-tic-tac-toe/src/app/logic/GameLogic.java:127-130 | `getCell(x, y)` is the board's value at the cell number of (x, y) |
| TicTacToe.TurnBits | term2/hw2-tic-tac-toe/src/app/logic/GameLogic.java:109 | the bits or-ed in are the mover's code |
| TicTacToe.MakeTurn | term2/hw2-tic-tac-toe/src/app/logic/GameLogic.java:107-111 | a move hands the turn to the other player |
| TicTacToe.MoveCells | term2/hw2-tic-tac-toe/src/app/logic/GameLogic.java:107-111 | a move changes no other cell; into an empty cell it writes the mover's value; into the mover's own cell it changes nothing; into the opponent's cell it leaves code 3, which reads as empty |
| TicTacToe.EmptyFrom | term2/hw2-tic-tac-toe/src/app/logic/GameLogic.java:36 | the empty cells counted from a cell on are at most the cells left |
| TicTacToe.NewState | term2/hw2-tic-tac-toe/src/app/logic/GameLogic.java:81-84 | a new state has every cell empty, X to move, and nine empty cells |
| TicTacToe.EmptyBoard | term2/hw2-tic-tac-toe/src/app/logic/GameLogic.java:81-84 | on an empty board every cell from a given one on is counted as empty |
| TicTacToe.EmptyFromTake | term2/hw2-tic-tac-toe/src/app/logic/GameLogic.java:107-111 | taking one empty cell lowers the empty count by one exactly when the cell is in the counted range |
| TicTacToe.FillOne | term2/hw2-tic-tac-toe/src/app/logic/GameLogic.java:107-111 | a legal move keeps the position consistent, writes the mover's value and leaves one empty cell fewer |
| TicTacToe.NextTurn | term2/hw2-tic-tac-toe/src/app/logic/GameLogic.java:110 | filling one more cell hands the turn computed from the board to the other player |
| TicTacToe.Offset | term2/hw2-tic-tac-toe/src/app/logic/GameLogic.java:77-79 | a step of `dist` in a direction moves by that multiple of the direction's `dx`, `dy` |
| TicTacToe.Lines | term2/hw2-tic-tac-toe/src/app/logic/GameLogic.java:159-178 | the scan looks at 36 candidates, four directions from each of nine cells |
| TicTacToe.FirstTrue | term2/hw2-tic-tac-toe/src/app/logic/GameLogic.java:159-179 | the first candidate found lies between the start and the end of the scan |
| TicTacToe.FirstTrueIsFirst | term2/hw2-tic-tac-toe/src/app/logic/GameLogic.java:159-179 | the candidate found stands, and none before it does |
| TicTacToe.SkipEmpty | term2/hw2-tic-tac-toe/src/app/logic/GameLogic.java:161-163 | an empty start cell contributes no line, so the scan goes on with the next cell |
| TicTacToe.StepTaken | term2/hw2-tic-tac-toe/src/app/logic/GameLogic.java:164-175 | a direction whose three cells match ends the scan there; otherwise the scan moves to the next direction |
| TicTacToe.ScanRow | term2/hw2-tic-tac-toe/src/app/logic/GameLogic.java:158-180 | the nested loops answer the ends of the first standing line from the current position on, or null past the last cell |
| TicTacToe.WinningRowIsFirst | term2/hw2-tic-tac-toe/src/app/logic/GameLogic.java:158-180 | `getWinningRow` answers null exactly when no line of three equal taken cells stands, and otherwise the ends of the first such line in scan order |
| TicTacToe.HasLineScan | term2/hw2-tic-tac-toe/src/app/logic/GameLogic.java:158-180 | `getWinningRow` is non-null exactly when some line stands |
| TicTacToeSearch.Move | term2/hw2-tic-tac-toe/src/app/logic/GameLogic.java:51 | the search's move from cell number `id` is `makeTurn` at that cell's coordinates |
| TicTacToeSearch.Children | term2/hw2-tic-tac-toe/src/app/logic/GameLogic.java:45-60 | one entry per cell, present exactly for the empty cells |
| TicTacToeSearch.Status | term2/hw2-tic-tac-toe/src/app/logic/GameLogic.java:31-39 | the recorded winner is None exactly when the game is not over |
| TicTacToeSearch.Record | term2/hw2-tic-tac-toe/src/app/logic/GameLogic.java:32-38 | recording a key's value and winner keeps the tables right about every key and only adds to them |
| TicTacToeSearch.FactOfState | term2/hw2-tic-tac-toe/src/app/logic/GameLogic.java:30-71 | a consistent position's fact is its game value, its winner and its moves |
| TicTacToeSearch.ChildEntry | term2/hw2-tic-tac-toe/src/app/logic/GameLogic.java:51-56 | after the recursive call, the table holds the value the position after the move deserves |
| TicTacToeSearch.WinnerByDepth | term2/hw2-tic-tac-toe/src/app/logic/GameLogic.java:31-33 | a line standing after an odd number of moves was made by X and otherwise by O, as `depth % 2 == 1` records |
| TicTacToeSearch.Dfs | term2/hw2-tic-tac-toe/src/app/logic/GameLogic.java:30-71 | `dfs` leaves tables that are right about every key they hold, that hold the searched position, and that only grow |
| TicTacToeSearch.SearchedMeans | term2/hw2-tic-tac-toe/src/app/logic/GameLogic.java:45-60 | after the first cells of the loop every empty one's child is a key, and a flag is set exactly when some such child has that value |
| TicTacToeSearch.SearchedGrows | term2/hw2-tic-tac-toe/src/app/logic/GameLogic.java:52-54 | a later search into a child keeps what earlier children recorded |
| TicTacToeSearch.MoveKeys | term2/hw2-tic-tac-toe/src/app/logic/GameLogic.java:51 | the keys of the moves from a position are the children's masks |
| TicTacToeSearch.ChildrenInTable | term2/hw2-tic-tac-toe/src/app/logic/GameLogic.java:45-60 | once the loop is over, every empty cell's child is in the table with the value it deserves |
| TicTacToeSearch.ClassifyOpen | term2/hw2-tic-tac-toe/src/app/logic/GameLogic.java:62-70 | an unfinished position is won if some move leads to a lost one, else a tie if some move leads to a tie, else lost |
| TicTacToeSearch.ClassifyByMoves | term2/hw2-tic-tac-toe/src/app/logic/GameLogic.java:62-70 | the value `dfs` records from its two flags is the position's game value |
| TicTacToeSearch.FoundIn | term2/hw2-tic-tac-toe/src/app/logic/GameLogic.java:56-58 | the flags `existsTie` and `existsLose` say exactly whether some child has that value |
| TicTacToeSearch.SearchMoves | term2/hw2-tic-tac-toe/src/app/logic/GameLogic.java:42-60 | the loop over the cells searches every empty cell's child and sets each flag exactly when some child has that value |
| TicTacToeSearch.GrowsTrans | term2/hw2-tic-tac-toe/src/app/logic/GameLogic.java:52-54 | tables that grow twice have grown |
| TicTacToeSearch.SearchMove | term2/hw2-tic-tac-toe/src/app/logic/GameLogic.java:51-56 | one cell of the loop: the child is searched unless already known, and its recorded value is read back |
| TicTacToeSearch.CountStates | term2/hw2-tic-tac-toe/src/app/logic/GameLogic.java:22-28 | the tables are built once, by a search from the empty board, and are right about everything they hold |
| TicTacToeSearch.GetWinner | term2/hw2-tic-tac-toe/src/app/logic/GameLogic.java:136-142 | `getWinner` answers the recorded winner, and None when the tables record none |
| TicTacToeSearch.GetStateType | term2/hw2-tic-tac-toe/src/app/logic/GameLogic.java:149-152 | `getStateType` answers a value exactly when the tables hold the position, and that value |
| TicTacToeSearch.Play | term2/hw2-tic-tac-toe/src/app/logic/GameLogic.java:84 | a game of no moves is the empty board |
| TicTacToeSearch.PlayLast | term2/hw2-tic-tac-toe/src/app/logic/GameLogic.java:97-111 | a legal game's last move goes to an empty cell of an unfinished position |
| TicTacToeSearch.PlayReachable | term2/hw2-tic-tac-toe/src/app/logic/GameLogic.java:30-71 | every legal game reaches a consistent position that the search visits |
| TicTacToeSearch.ReachableStep | term2/hw2-tic-tac-toe/src/app/logic/GameLogic.java:45-54 | a legal move from a reachable position reaches a reachable position |
| TicTacToeSearch.PlayReaches | term2/hw2-tic-tac-toe/src/app/logic/GameLogic.java:22-71 | the finished tables hold every position of a legal game |
| TicTacToeSearch.TablesAnswer | term2/hw2-tic-tac-toe/src/app/logic/GameLogic.java:136-152 | on a reachable position, `getStateType` is its game value, `getWinner` its winner, and None exactly while the game is not over |
| TicTacToeSearch.AnswerWith | term2/hw2-tic-tac-toe/src/app/logic/GameLogic.java:136-152 | after any legal game, `getStateType` and `getWinner` answer the position's game value and winner |
| TicTacToeBot.EmptyIds | term2/hw2-tic-tac-toe/src/app/logic/Bot.java:35-42 | the list holds exactly the empty cells, in increasing order |
| TicTacToeBot.EasyStrategy | term2/hw2-tic-tac-toe/src/app/logic/Bot.java:34-44 | the easy bot picks an empty cell, and has none to pick exactly when the board is full |
| TicTacToeBot.EasyCovers | term2/hw2-tic-tac-toe/src/app/logic/Bot.java:43 | every empty cell is the easy bot's choice for some draw of the random number |
| TicTacToeBot.Last | term2/hw2-tic-tac-toe/src/app/logic/Bot.java:56-70 | the remembered cell fits what was sought |
| TicTacToeBot.LastIsLast | term2/hw2-tic-tac-toe/src/app/logic/Bot.java:56-70 | the remembered cell is the last fitting one in loop order, and none is remembered exactly when none fits |
| TicTacToeBot.ChoiceIsPreferred | term2/hw2-tic-tac-toe/src/app/logic/Bot.java:51-79 | the hard bot finds no cell exactly when the board is full, and otherwise a preferred one |
| TicTacToeBot.HardStrategy | term2/hw2-tic-tac-toe/src/app/logic/Bot.java:51-79 | the hard bot picks an empty cell, the last one leading to a lost position for the opponent, else the last leading to a tie, else the last empty cell |
| TicTacToeBot.HardCell | term2/hw2-tic-tac-toe/src/app/logic/Bot.java:58-68 | one cell of the loop updates the three remembered cells as the last fitting cell so far |
| TicTacToeBot.HardKeeps | term2/hw2-tic-tac-toe/src/app/logic/Bot.java:51-79 | from a won position the hard bot's move leaves the opponent lost, and from a tie it keeps the tie |
| TicTacToeBot.AimByChildren | term2/hw2-tic-tac-toe/src/app/logic/Bot.java:72-78 | the hard bot aims for a lost child first, then a tied one, then any |
| TicTacToeBot.ChildValue | term2/hw2-tic-tac-toe/src/app/logic/Bot.java:61-62 | the value the table reads for a child is that child's game value |
| TicTacToeBot.ChildrenAnswer | term2/hw2-tic-tac-toe/src/app/logic/Bot.java:61-66 | every empty cell's child is read from finished tables with the value it deserves |
| TicTacToeBot.AnyMove | term2/hw2-tic-tac-toe/src/app/logic/GameLogic.java:62-70 | no move leads from a tie to a won position for the opponent, and every move from a lost position leaves the opponent winning |
| TicTacToeBot.FinishedValue | term2/hw2-tic-tac-toe/src/app/logic/GameLogic.java:31-39 | a finished position is never won for the player to move; if lost, the other player has a line; if tied, it is a tie |
| TicTacToeBot.SafeStatus | term2/hw2-tic-tac-toe/src/app/logic/BotTest.java:26 | a position safe for the hard bot has not been won by its opponent |
| TicTacToeBot.SafeStep | term2/hw2-tic-tac-toe/src/app/logic/Bot.java:51-79 | the hard bot's moves keep its position safe, and so does any move by the opponent |
| TicTacToeBot.HardStaysSafe | term2/hw2-tic-tac-toe/src/app/logic/BotTest.java:12-44 | if the empty board is valued a tie, every position of a game the hard bot plays is safe for it, whatever its opponent does |
| TicTacToeBot.SafeStart | term2/hw2-tic-tac-toe/src/app/logic/GameLogic.java:22-28 | the empty board, valued a tie, is safe for either player |
| TicTacToeBot.SafeGame | term2/hw2-tic-tac-toe/src/app/logic/BotTest.java:16-25 | one more move of such a game keeps it safe |
| TicTacToeBot.HardNeverLoses | term2/hw2-tic-tac-toe/src/app/logic/BotTest.java:12-44 | if the empty board is valued a tie, no game the hard bot plays ends in a win for its opponent |
| TicTacToeBot.HardVsHard | term2/hw2-tic-tac-toe/src/app/logic/BotTest.java:46-61 | if the empty board is valued a tie, a game between two hard bots never has a winner |
| TicTacToeBot.BotMakeTurn | term2/hw2-tic-tac-toe/src/app/logic/Bot.java:19-27 | in a two-player game the bot gives no move; the easy and hard game types give the easy and hard bots' choices |
| TicTacToeProcess.SetGameType | term2/hw2-tic-tac-toe/src/app/logic/GameProcess.java:14-16 | setting the game type makes it the one `getGameType` answers, and leaves the position and the turn alone |
| TicTacToeProcess.Initialize | term2/hw2-tic-tac-toe/src/app/logic/GameProcess.java:18-20 | a new game keeps the game type, has X to move and every cell empty |
| TicTacToeProcess.MakeTurn | term2/hw2-tic-tac-toe/src/app/logic/GameProcess.java:22-24 | a move keeps the game type, hands the turn over, changes no other cell, and writes the mover's value into an empty cell |
| TicTacToeProcess.GetCurrentTurn | term2/hw2-tic-tac-toe/src/app/logic/GameProcess.java:30-32 | on a consistent position, the player to move is X exactly when an even number of cells is taken |
| TicTacToeProcess.GetWinningRow | term2/hw2-tic-tac-toe/src/app/logic/GameProcess.java:34-36 | the winning row is present exactly when a line of three equal taken cells stands |
| TicTacToeProcess.GetWinner | term2/hw2-tic-tac-toe/src/app/logic/GameProcess.java:38-40 | a winner is reported only for a position the tables record |
| TicTacToeProcess.FinishedMeans | term2/hw2-tic-tac-toe/src/app/logic/GameProcess.java:38-44 | on a reachable position, `getWinner` names the position's winner and `isFinished` holds exactly when a line stands or the board is full |
| TicTacToeProcess.PossibleTurnKeeps | term2/hw2-tic-tac-toe/src/app/logic/GameProcess.java:46-48 | `possibleTurn` holds exactly when the game goes on and the cell is empty, and a move it allows keeps the position reachable |
| TicTacToeProcess.Ids | term2/hw2-tic-tac-toe/src/app/logic/GameProcess.java:22-24 | each click's cell number is `x * 3 + y` |
| TicTacToeProcess.Session | term2/hw2-tic-tac-toe/src/app/logic/GameProcess.java:22-48 | a run of clicks, each made only if `possibleTurn` allows it, never changes the game type |
| TicTacToeProcess.SessionPlays | term2/hw2-tic-tac-toe/src/app/logic/GameProcess.java:18-48 | after `initialize`, a run of clicks is accepted exactly when its moves form a legal game, and shows the position that game reaches |
| TicTacToeProcess.SessionStep | term2/hw2-tic-tac-toe/src/app/logic/GameProcess.java:46-48 | one more click is accepted exactly when its move is legal, given that the clicks before it were |
| Pairs.Numbers | term2/cw2-pairs/src/main/java/me/eranik/app/logic/GameLogic.java:30-34 | the numbers before the shuffle: slot `k` holds `k / 2` |
| Pairs.NumbersArePairs | term2/cw2-pairs/src/main/java/me/eranik/app/logic/GameLogic.java:30-34 | every number below half the cell count is dealt exactly twice, and nothing else |
| Pairs.Pick | term2/cw2-pairs/src/main/java/me/eranik/app/logic/GameLogic.java:47 | the shuffle's partner index lies between the step and the end of the array |
| Pairs.Swap | term2/cw2-pairs/src/main/java/me/eranik/app/logic/GameLogic.java:52-56 | the intended exchange swaps the two cells, keeps every other cell and keeps the multiset of numbers |
| Pairs.Shuffle | term2/cw2-pairs/src/main/java/me/eranik/app/logic/GameLogic.java:45-50 | the shuffle with a true exchange keeps the length and the multiset of numbers |
| Pairs.Rows | term2/cw2-pairs/src/main/java/me/eranik/app/logic/GameLogic.java:37-39 | the array is cut into `fieldSize` rows of `fieldSize` cells |
| Pairs.ConcatRows | term2/cw2-pairs/src/main/java/me/eranik/app/logic/GameLogic.java:37-39 | the rows laid end to end give back the shuffled array |
| Pairs.Closed | term2/cw2-pairs/src/main/java/me/eranik/app/logic/GameLogic.java:28 | a new `opened` board is square and holds no open cell |
| Pairs.Initialize | term2/cw2-pairs/src/main/java/me/eranik/app/logic/GameLogic.java:25-43 | corrected, on the exchanging shuffle: the field is dealt exactly when the size is non-negative and even (otherwise Java throws), square, with nothing opened and no position held |
| Pairs.InitializeDealsPairs | term2/cw2-pairs/src/main/java/me/eranik/app/logic/GameLogic.java:25-43 | the dealt field, with the exchange corrected, holds every number below half the cell count exactly twice |
| Pairs.EvenSquare | term2/cw2-pairs/src/main/java/me/eranik/app/logic/GameLogic.java:30-31 | an even side gives an even number of cells, so the pairing loop fills every slot |
| Pairs.XorBits | term2/cw2-pairs/src/main/java/me/eranik/app/logic/GameLogic.java:53-55 | xor acts bit by bit |
| Pairs.XorSelf | term2/cw2-pairs/src/main/java/me/eranik/app/logic/GameLogic.java:53-55 | a number xor-ed with itself is zero |
| Pairs.XorSymmetric | term2/cw2-pairs/src/main/java/me/eranik/app/logic/GameLogic.java:53-55 | xor is symmetric |
| Pairs.XorCancel | term2/cw2-pairs/src/main/java/me/eranik/app/logic/GameLogic.java:53-55 | xor-ing the same number twice cancels |
| Pairs.XorSwap | term2/cw2-pairs/src/main/java/me/eranik/app/logic/GameLogic.java:52-56 | the xor swap as written keeps the length and non-negative numbers |
| Pairs.XorSwapMeans | term2/cw2-pairs/src/main/java/me/eranik/app/logic/GameLogic.java:52-56 | on two different cells the xor swap is the exchange; on one cell it writes zero |
| Pairs.ShuffleAsWritten | term2/cw2-pairs/src/main/java/me/eranik/app/logic/GameLogic.java:45-56 | the shuffle as written keeps the length and non-negative numbers |
| Pairs.AsWrittenClearsLast | term2/cw2-pairs/src/main/java/me/eranik/app/logic/GameLogic.java:46-48 | the last step can pick only its own cell, so the shuffle as written always zeroes the last cell |
| Pairs.AsWrittenZeroDraws | term2/cw2-pairs/src/main/java/me/eranik/app/logic/GameLogic.java:45-56 | when every draw is 0, the shuffle as written zeroes every cell from the current step on |
| Pairs.AsWrittenLosesPairs | term2/cw2-pairs/src/main/java/me/eranik/app/logic/GameLogic.java:25-56 | on the 2 by 2 board with draws of 0, the shuffle as written leaves four zeros and loses the pairs, while the exchange keeps them |
| Pairs.InitializeAsWritten | term2/cw2-pairs/src/main/java/me/eranik/app/logic/GameLogic.java:25-43 | as written, `initialize` fails for the same sizes as the corrected one and deals a square field with nothing opened and no position held |
| Pairs.InitializeAsWrittenClearsLast | term2/cw2-pairs/src/main/java/me/eranik/app/logic/GameLogic.java:25-56 | as written, every field of positive size that `initialize` deals holds 0 in its last cell, whatever the generator answers |
| Pairs.CountAlreadyOpened | term2/cw2-pairs/src/main/java/me/eranik/app/logic/GameLogic.java:71-73 | the count is at most 2, 0 exactly when no position is held and 2 exactly when both are |
| Pairs.Open | term2/cw2-pairs/src/main/java/me/eranik/app/logic/GameLogic.java:94-106 | opening a cell already kept changes nothing; otherwise the cell becomes one of the held positions, the first is never replaced, and the field is untouched |
| Pairs.Close | term2/cw2-pairs/src/main/java/me/eranik/app/logic/GameLogic.java:111-114 | closing forgets both held positions and touches nothing else |
| Pairs.SetOpened | term2/cw2-pairs/src/main/java/me/eranik/app/logic/GameLogic.java:130-133 | exactly the cells that were open or held are open afterwards, and nothing else changes |
| Pairs.OpenTwo | term2/cw2-pairs/src/main/java/me/eranik/app/logic/GameLogic.java:94-125 | opening two different closed cells holds both, and `equal` holds exactly when their numbers match |
| Pairs.KeptStaysKept | term2/cw2-pairs/src/main/java/me/eranik/app/logic/GameLogic.java:94-133 | after `setOpened`, opening a kept cell changes nothing, before or after `close` |
| Injector.Unique | term1/cw2/src/main/java/me/eranik/util/Injector.java:94-112 | the scan answers a class, `NotFound` or `Ambiguous`, and no other error |
| Injector.UniqueMeans | term1/cw2/src/main/java/me/eranik/util/Injector.java:94-131 | the scan answers the only accepted class, `NotFound` only when none is accepted, and `Ambiguous` only when two are |
| Injector.GetRootClass | term1/cw2/src/main/java/me/eranik/util/Injector.java:115-132 | the answer is the only class with the root's name; `NotFound` exactly when none has it; `Ambiguous` exactly when two do |
| Injector.GetImplementation | term1/cw2/src/main/java/me/eranik/util/Injector.java:92-113 | the answer is the only non-interface, non-abstract class assignable to the type; `NotFound` exactly when there is none; `Ambiguous` exactly when there are two |
| Injector.UnreachedUpdate | term1/cw2/src/main/java/me/eranik/util/Injector.java:68 | recolouring one class changes the count of unreached classes only by that class |
| Injector.Resolve | term1/cw2/src/main/java/me/eranik/util/Injector.java:65-90 | a successful resolution builds the class, keeps the state well formed, builds every class after its parameters' implementations, never undoes earlier work, and reaches one more class |
| Injector.Finish | term1/cw2/src/main/java/me/eranik/util/Injector.java:88-89 | building a class once its parameters are built keeps the state well formed and in build order |
| Injector.ResolveParams | term1/cw2/src/main/java/me/eranik/util/Injector.java:73-86 | after a successful loop every parameter's implementation is built, and earlier work is kept |
| Injector.KeepBuilt | term1/cw2/src/main/java/me/eranik/util/Injector.java:77-85 | once a parameter resolves, it and every parameter before it are built |
| Injector.Start | term1/cw2/src/main/java/me/eranik/util/Injector.java:43-51 | `initialize` starts with every class unreached and nothing built |
| Injector.Initialize | term1/cw2/src/main/java/me/eranik/util/Injector.java:37-63 | on success the root is the class found by name, it is concrete, it is built last, every class is built once and after its parameters' implementations; a failed root look-up is passed on |
| Injector.RootLast | term1/cw2/src/main/java/me/eranik/util/Injector.java:88-89 | the class resolved is the last one built |
| Injector.NoSelfDependency | term1/cw2/src/main/java/me/eranik/util/Injector.java:78-83 | no built class has itself as the implementation of one of its parameters |
| Injector.SelfCycle | term1/cw2/src/main/java/me/eranik/util/Injector.java:78-83 | a class whose first parameter resolves to itself raises the cycle error |
| XUnit.Fill | term2/hw5-xunit/src/main/java/me/eranik/xunit/TestInvoker.java:108-136 | recording a hook's method sets that hook's slot, and leaves the tests and every other slot alone |
| XUnit.HookNameIdentifies | term2/hw5-xunit/src/main/java/me/eranik/xunit/TestInvoker.java:111-135 | the annotation name a `TooManyAnnotationsException` carries identifies the clashing hook: two names agree only for the same hook |
| XUnit.Clash | term2/hw5-xunit/src/main/java/me/eranik/xunit/TestInvoker.java:107-138 | the clash found is a hook the method carries that an earlier method carries too; none is found exactly when there is no such hook |
| XUnit.RegisterMeans | term2/hw5-xunit/src/main/java/me/eranik/xunit/TestInvoker.java:107-138 | one hook check fails, with `TooManyAnnotationsException` naming the hook, exactly when the method carries the hook and an earlier one did; otherwise it records the method for that hook only |
| XUnit.RegisterEachMeans | term2/hw5-xunit/src/main/java/me/eranik/xunit/TestInvoker.java:107-138 | the hook checks fail exactly at the first clash in check order, and otherwise record the method for the hooks it carries and nothing else |
| XUnit.AllHooks | term2/hw5-xunit/src/main/java/me/eranik/xunit/TestInvoker.java:107-138 | all four hooks are checked |
| XUnit.FilledSlots | term2/hw5-xunit/src/main/java/me/eranik/xunit/TestInvoker.java:107-138 | after successful hook checks, each slot holds a method carrying that hook exactly when one was declared |
| XUnit.AddMethodMeans | term2/hw5-xunit/src/main/java/me/eranik/xunit/TestInvoker.java:98-141 | one iteration refuses a method exactly when it raises an exception, and with that exception: a hook clash first, then `IncompatibleAnnotationsException` for two annotations |
| XUnit.CollectMeans | term2/hw5-xunit/src/main/java/me/eranik/xunit/TestInvoker.java:97-142 | the scan succeeds exactly when no method raises an exception, otherwise raises the first method's exception; on success it holds the tests in order and each hook's one method |
| XUnit.GetTestMethods | term2/hw5-xunit/src/main/java/me/eranik/xunit/TestInvoker.java:91-145 | `IllegalAccessException` exactly for a hidden default constructor, `InstantiationException` exactly for a missing one, otherwise the scan decides |
| XUnit.FaultDecides | term2/hw5-xunit/src/main/java/me/eranik/xunit/TestInvoker.java:97-142 | the first method that raises an exception decides the scan's exception |
| XUnit.ValidBefore | term2/hw5-xunit/src/main/java/me/eranik/xunit/TestInvoker.java:97-142 | every method before a failing one was accepted |
| XUnit.DuplicateHook | term2/hw5-xunit/src/test/java/me/eranik/xunit/TestInvokerTest.java:56-68 | a second method with the same hook is refused with `TooManyAnnotationsException`, naming the hook when it is its only annotation |
| XUnit.IncompatibleMethod | term2/hw5-xunit/src/test/java/me/eranik/xunit/TestInvokerTest.java:42-54 | a method with two annotations and no earlier hook clash is refused with `IncompatibleAnnotationsException` |
| XUnit.Attempt | term2/hw5-xunit/src/main/java/me/eranik/xunit/TestInvoker.java:182-211 | a run test passes exactly when Before and After return and the body meets its expectation; After runs unless Before throws |
| XUnit.CountBound | term2/hw5-xunit/src/main/java/me/eranik/xunit/TestInvoker.java:170-226 | passed and ignored tests together are at most all tests |
| XUnit.CountSnoc | term2/hw5-xunit/src/main/java/me/eranik/xunit/TestInvoker.java:216-219 | a new verdict adds one to its own count only |
| XUnit.StepMeans | term2/hw5-xunit/src/main/java/me/eranik/xunit/TestInvoker.java:170-226 | one iteration appends the test's verdict, ignored exactly when `ignore` is set, passed exactly when it is run and passes, and keeps the counters equal to the verdict counts |
| XUnit.RunTestsMeans | term2/hw5-xunit/src/main/java/me/eranik/xunit/TestInvoker.java:170-226 | after the loop every test has its verdict, `passedTests` counts the passes and `allTests` the tests not ignored |
| XUnit.Invoke | term2/hw5-xunit/src/main/java/me/eranik/xunit/TestInvoker.java:158-241 | the counts satisfy 0 <= passed <= total <= tests; a throwing BeforeClass counts nothing and reports all tests; otherwise each verdict is the test's own; an unexpected exception is reported exactly when BeforeClass or AfterClass throws |
| XUnit.ProcessClass | term2/hw5-xunit/src/main/java/me/eranik/xunit/TestInvoker.java:75-79 | a class is run exactly when it can be created and its annotations are valid, and then its run is `invoke` of what the scan collected |
| XUnit.RoundsSnoc | term2/hw5-xunit/src/main/java/me/eranik/xunit/TestInvoker.java:170-226 | each test adds its own Before, Test, After round at the end |
| XUnit.RunTestsOrder | term2/hw5-xunit/src/main/java/me/eranik/xunit/TestInvoker.java:170-226 | when Before returns, the loop invokes exactly the rounds of the tests so far, in order |
| XUnit.InvokeOrder | term2/hw5-xunit/src/main/java/me/eranik/xunit/TestInvoker.java:147-158 | BeforeClass, then Before, the test and After for each test not ignored, then AfterClass; when BeforeClass throws, nothing else runs |
| XUnit.IgnoredNotRun | term2/hw5-xunit/src/main/java/me/eranik/xunit/TestInvoker.java:171-175 | an ignored test is never invoked |
| XUnitExamples.OrderScan | term2/hw5-xunit/src/test/java/examples/Order.java:10-44 | the scan of `examples.Order` collects its three tests and its four hooks |
| XUnitExamples.OrderRuns | term2/hw5-xunit/src/test/java/me/eranik/xunit/TestInvokerTest.java:99-110 | `examples.Order` runs in the order "12342342345" and all three tests pass |
| XUnitExamples.ThreeRounds | term2/hw5-xunit/src/main/java/me/eranik/xunit/TestInvoker.java:147-158 | a run of three tests makes BeforeClass, three rounds and AfterClass |
| XUnitExamples.AllPass | term2/hw5-xunit/src/main/java/me/eranik/xunit/TestInvoker.java:216-219 | three passing tests report 3/3 |
| XUnitExamples.CountUniform | term2/hw5-xunit/src/main/java/me/eranik/xunit/TestInvoker.java:216-219 | a run of one verdict counts every test under it and none under another |
| XUnitExamples.ScanFive | term2/hw5-xunit/src/test/java/examples/CorrectTests.java:1-39 | the scan of a class with BeforeClass, Before and three tests collects them into their slots |
| XUnitExamples.CountThree | term2/hw5-xunit/src/main/java/me/eranik/xunit/TestInvoker.java:216-219 | the count over three verdicts is the sum of the three |
| XUnitExamples.CorrectTestsReport | term2/hw5-xunit/src/test/java/me/eranik/xunit/TestInvokerTest.java:112-121 | `examples.CorrectTests` reports "Tests passed: 2/2" with `test3` ignored |
| XUnitExamples.IncorrectTests1Report | term2/hw5-xunit/src/test/java/me/eranik/xunit/TestInvokerTest.java:123-132 | `examples.IncorrectTests1` reports "Tests passed: 2/3" with `test3` failed |
| XUnitExamples.RegisterEachNone | term2/hw5-xunit/src/main/java/me/eranik/xunit/TestInvoker.java:107-138 | a method with no hook passes all hook checks unchanged |
| XUnitExamples.RegisterEachSingle | term2/hw5-xunit/src/main/java/me/eranik/xunit/TestInvoker.java:107-138 | a method with one free hook is recorded for it |
| XUnitExamples.AddTest | term2/hw5-xunit/src/main/java/me/eranik/xunit/TestInvoker.java:102-106 | a method with only `@Test` is appended to the tests |
| XUnitExamples.AddHook | term2/hw5-xunit/src/main/java/me/eranik/xunit/TestInvoker.java:107-138 | a method with one free hook is recorded in that hook's slot |
| XUnitExamples.Scanned | term2/hw5-xunit/src/main/java/me/eranik/xunit/TestInvoker.java:97-142 | accepting one more method extends the scan's result |

## Left out

- The worker pool and its futures: their behaviour is concurrency. For the same reason the `synchronized` block of the concurrent lazy value is not modelled; only its sequential behaviour is.
- `Calculator.processExpression` and `apply`, and `piDividedBy4`: they compute in floating point (the last also with random numbers).
- File reading in `findQuotes`: the lines of each file are a parameter, and an unreadable file gives one empty line, as the code's fallback does.
- The object-stream serialisation of the newer trie: only its effect, replacing the root, is modelled (`Trie.ReplaceRoot`).
- The FTP servers and clients, the MD5 calculator, `UnzipRegex`, `NumberReader` and the GUI handlers: network, file and window I/O.
- The GUI activities, the handlers and `Statistics`, which reads the clock.
- `OrderedHashMap`: most of its methods are stubs that return null or false, so it promises no behaviour to model.
- Reflection in the injector and the xUnit runner (class loading, `newInstance`, `setAccessible`, `invoke`): classes and methods are abstract records. The runner's timing and printing are left out; the report is its counts, verdicts and call order.
- XUnit.Attempt: each method's outcome is fixed in its record, so state shared between test methods through the test instance is not modelled, and an expected exception matches only the exact class named, as the code compares classes with `equals`.
- Injector.Initialize: `clear()` resetting the static tables has no counterpart, since the model has no global state; the model proves that no class depends on itself (`NoSelfDependency`, `SelfCycle`) but not that every `Cycle` error comes from a real cycle of dependencies.
- TicTacToeBot.HardNeverLoses: the value of the empty board is not computed, since that needs the whole game tree to be evaluated. The lemma, and `HardVsHard`, assume the tables value the empty board as a tie.
- TicTacToeBot.HardVsHard: states that no position of the game has a winner, not that every finished game ends as a tie, for the same reason.
- TicTacToeProcess.GetGameType: the `null` game type before `setGameType` is `None`; the static position before the first `initialize` (a null pointer) is not modelled.
- Pairs.Initialize: the Java `int` overflow of `fieldSize * fieldSize` for very large fields is not modelled; this member is the corrected `initialize`, on the exchanging shuffle, and `Pairs.InitializeAsWritten` is the one on the xor swap.
- TicTacToeProcess.Session: a refused click ends the run with `None`; the screen ignores it and goes on with later clicks, which is not followed.
- LinkedList.IndexOf: elements are never null in the model; the Java calls `equals` on each stored element, so a stored null throws a `NullPointerException` there.
- LinkedList.Contains: elements are never null in the model, while a stored null makes the Java's `equals` call throw.
- SmartList.IndexOf: elements are never null in the model, while in a list of one to five elements a stored null makes the Java's `equals` call throw (the `ArrayList` used beyond five handles null).
- SmartList.Contains: elements are never null in the model, while in a list of one to five elements a stored null makes the `equals` of `indexOf` throw.
- SmartList.RemoveObject: elements are never null in the model, while in a list of one to five elements a stored null makes the `equals` of `indexOf` throw.
- Maybe.ParseInt: accepts the ASCII digits `0` to `9` only, while `Integer.valueOf` also accepts the decimal digits of other Unicode scripts.
- HashTable.HashCode: one character is one unit of the polynomial, while `String.hashCode` sums UTF-16 code units, so a character outside the Basic Multilingual Plane hashes differently.
- HashTable.Contains: keys are never null in the model, while `getHash` calls `key.hashCode()` first, so the Java throws a `NullPointerException` for a null key.
- HashTable.Get: keys are never null in the model, while a null key makes the Java's `getHash` throw a `NullPointerException`; the same holds for `HashTable.GetAsWritten`.
- HashTable.Put: keys are never null in the model, while a null key makes the Java's `getHash` throw a `NullPointerException`; the same holds for `HashTable.PutAsWritten`. A null value is modelled, as `None`.
- HashTable.Remove: keys are never null in the model, while a null key makes the Java's `getHash` throw a `NullPointerException`; the same holds for `HashTable.RemoveAsWritten`.
- Trie.Add: words are never null in the model, while the Java reads `word.length()` and so throws a `NullPointerException` for a null word; the same holds for `Trie.Contains`, `Trie.Remove` and `Trie.StartsWith`.
- Null strings in general: every string argument of the model is a value, so no method (the calculator's conversion and the streams exercises included) is modelled on a null string, on which the Java would throw a `NullPointerException`.
- BinarySearchTree.StepUp: `None` stands for the `NullPointerException` that the ascending iterator's `next()` throws past the last key or on an empty tree; the Java also leaves the iterator reset to null then, which the model does not follow.
- BinarySearchTree.StepDown: `None` stands for the `NullPointerException` that the descending iterator's `next()` throws past the first key or on an empty tree, leaving the iterator reset to null, which the model does not follow.
- Trie.Serialize: the order in which the hash map lists a node's children is left open; the model lists words shortest first.
- Matrix.SortColumns: states that the result is a reordering of the columns sorted by first entry, but not that equal first entries keep their order (the library sort is stable).
- The `Pair` and `Point` value classes are tuples and datatypes; the `Stack` and `Lazy` interfaces serve only as contract text; the demo `Main` programs are left out.
- Comparators in the ordered sets: keys are integers in their natural order.

## Findings

| source | as written | input that shows it | evidently intended | confidence | as-written member | corrected member |
|---|---|---|---|---|---|---|
| hw1/src/me/eranik/algorithm/LinkedList.java:151-161 | the walk to the node never decrements `index`, so every index other than 0 below the size runs off the end and dereferences null | a list of two elements, `get(1)`; an empty list, `get(-1)` | walk `index` steps, and answer null for any index outside `[0, size)` | not executed | LinkedList.GetNodeByIndexAsWritten, LinkedList.SecondNodeUnreachable, LinkedList.NegativeIndexThrows, LinkedList.GetAsWritten, LinkedList.SetAsWritten, LinkedList.RemoveAsWritten, LinkedList.SecondElementUnreachable | LinkedList.GetNodeByIndex, LinkedList.Get, LinkedList.Set, LinkedList.Remove |
| hw1/src/me/eranik/algorithm/HashTable.java:17-22 | a negative remainder is corrected by adding `capacity` instead of `mod`, so during `rebuild` a bucket index can be negative or wrong | `put("a")`, `put("aaaaab")`, `put("b")` on a new table (hash code of "aaaaab" is -1425372063): the third rebuild indexes bucket -1; `put("aaaaab")` twice leaves a size of 2 | add `mod`, giving an index in `[0, mod)` | not executed | HashTable.GetHashAsWritten, HashTable.ThirdPutIndexesBelowZero, HashTable.SamePutTwiceCountsTwice | HashTable.Slot, HashTable.Put |
| hw1/src/me/eranik/algorithm/HashTable.java:82-145 | `get`, `put` and `remove` reach a stored entry through the list's `get(index)` (and `set` or `remove`), which throws for every position after the first, so any key stored second in its bucket cannot be read, updated or removed | `put("a")`, `put("c", "x")`, then `get("c")`: both keys land in bucket 1 of 2 and the lookup throws | reach the entry at its position in the bucket | not executed | HashTable.GetAsWritten, HashTable.PutAsWritten, HashTable.RemoveAsWritten, HashTable.SecondInBucketThrows | HashTable.Get, HashTable.Put, HashTable.Remove |
| hw8-calculator/src/main/java/me/eranik/math/Calculator.java:115-127 | the validator lets `(` be followed by `)` and `)` by `(` | `()` converts to the empty string; `(1)(2)` converts to `12`, which leaves two operands | refuse an empty group and two adjacent groups | not executed | Calculator.CheckCorrectnessAsWritten, CalculatorExamples.EmptyGroupAccepted, CalculatorExamples.AdjacentGroupsAccepted | Calculator.CheckCorrectness, Calculator.CheckCorrectnessStricter, Calculator.ReversePolishMeaning |
| term2/cw2-pairs/src/main/java/me/eranik/app/logic/GameLogic.java:45-56 | the xor swap zeroes the cell when `i == j`, which the shuffle always allows and always does at its last step | the 2 by 2 field with a generator answering 0: all four cells become 0 | exchange the two cells, so that each number is dealt exactly twice | not executed | Pairs.ShuffleAsWritten, Pairs.AsWrittenClearsLast, Pairs.AsWrittenLosesPairs, Pairs.InitializeAsWritten, Pairs.InitializeAsWrittenClearsLast | Pairs.Shuffle, Pairs.Initialize, Pairs.InitializeDealsPairs |

=== FILE: binary_search_tree.dfy ===
/** The unbalanced binary search tree behind the tree set: add, contains,
    remove, the navigation queries and both iterators.

    A node reference is a `Link`; parent pointers are not stored, because in an
    immutable tree the parent of a node is the node above it on the search
    path, so every parent-link repair the linked Java code performs holds by
    construction. Keys are integers in their natural order. */
module BinarySearchTree {
  import opened Wrappers

  /** A possibly-null reference to a tree node. */
  datatype Link = Nil | Node(left: Link, key: int, right: Link)

  /** The tree object: its root and the separately maintained element count. */
  datatype Tree = Tree(root: Link, size: int)

  function Keys(n: Link): set<int>
  {
    match n
    case Nil => {}
    case Node(l, k, r) => Keys(l) + {k} + Keys(r)
  }

  /** The search-tree order: smaller keys to the left, larger to the right. */
  ghost predicate Ordered(n: Link)
  {
    match n
    case Nil => true
    case Node(l, k, r) =>
      && Ordered(l) && Ordered(r)
      && (forall y :: y in Keys(l) ==> y < k)
      && (forall y :: y in Keys(r) ==> k < y)
  }

  /** Representation invariant of the tree object. */
  ghost predicate Valid(t: Tree)
  {
    Ordered(t.root) && t.size == |Keys(t.root)|
  }

  // ---------------------------------------------------------------------------
  // Sets of keys used by the specifications
  // ---------------------------------------------------------------------------

  ghost function Below(s: set<int>, k: int): set<int> { set y | y in s && y < k }
  ghost function AtMost(s: set<int>, k: int): set<int> { set y | y in s && y <= k }
  ghost function AtLeast(s: set<int>, k: int): set<int> { set y | y in s && k <= y }
  ghost function Above(s: set<int>, k: int): set<int> { set y | y in s && k < y }

  /** `r` is the greatest element of `s`, or null exactly when `s` is empty. */
  ghost predicate GreatestOf(s: set<int>, r: Option<int>)
  {
    match r
    case None => s == {}
    case Some(m) => m in s && forall y :: y in s ==> y <= m
  }

  /** `r` is the least element of `s`, or null exactly when `s` is empty. */
  ghost predicate LeastOf(s: set<int>, r: Option<int>)
  {
    match r
    case None => s == {}
    case Some(m) => m in s && forall y :: y in s ==> m <= y
  }

  ghost predicate StrictlyIncreasing(s: seq<int>)
  {
    forall i, j :: 0 <= i < j < |s| ==> s[i] < s[j]
  }

  ghost predicate StrictlyDecreasing(s: seq<int>)
  {
    forall i, j :: 0 <= i < j < |s| ==> s[i] > s[j]
  }

  // ---------------------------------------------------------------------------
  // Node-level navigation (firstNode, lastNode, lowerBound, upperBound,
  // getNextNode, getPreviousNode); a node is identified by its key
  // ---------------------------------------------------------------------------

  /** Key of the leftmost node, or null for an empty subtree. */
  function FirstNode(n: Link): (r: Option<int>)
    requires Ordered(n)
    ensures LeastOf(Keys(n), r)
  {
    match n
    case Nil => None
    case Node(l, k, _) => if l == Nil then Some(k) else FirstNode(l)
  }

  /** Key of the rightmost node, or null for an empty subtree. */
  function LastNode(n: Link): (r: Option<int>)
    requires Ordered(n)
    ensures GreatestOf(Keys(n), r)
  {
    match n
    case Nil => None
    case Node(_, k, r) => if r == Nil then Some(k) else LastNode(r)
  }

  /** The node reached by the search that remembers the last node where it
      went left on `k <= key`: the least key not below `k`. */
  function LowerBound(n: Link, k: int): (r: Option<int>)
    requires Ordered(n)
    ensures LeastOf(AtLeast(Keys(n), k), r)
  {
    match n
    case Nil => None
    case Node(l, x, rt) =>
      if k <= x then
        assert AtLeast(Keys(n), k) == AtLeast(Keys(l), k) + {x} + Keys(rt);
        (match LowerBound(l, k)
         case None => Some(x)
         case Some(b) => Some(b))
      else
        assert AtLeast(Keys(n), k) == AtLeast(Keys(rt), k);
        LowerBound(rt, k)
  }

  /** As `LowerBound`, but going left only on `k < key`: the least key above `k`. */
  function UpperBound(n: Link, k: int): (r: Option<int>)
    requires Ordered(n)
    ensures LeastOf(Above(Keys(n), k), r)
  {
    match n
    case Nil => None
    case Node(l, x, rt) =>
      if k < x then
        assert Above(Keys(n), k) == Above(Keys(l), k) + {x} + Keys(rt);
        (match UpperBound(l, k)
         case None => Some(x)
         case Some(b) => Some(b))
      else
        assert Above(Keys(n), k) == Above(Keys(rt), k);
        UpperBound(rt, k)
  }

  /** Predecessor of the node holding `b`. `above` is the nearest ancestor
      whose right subtree holds that node: the node the parent-pointer climb
      of the Java code stops at when the node has no left child. */
  function PrevFrom(n: Link, b: int, above: Option<int>): (r: Option<int>)
    requires Ordered(n) && b in Keys(n)
    ensures Below(Keys(n), b) == {} ==> r == above
    ensures Below(Keys(n), b) != {} ==> r.Some? && GreatestOf(Below(Keys(n), b), r)
  {
    match n
    case Node(l, x, rt) =>
      if b < x then
        assert b !in Keys(rt);
        assert b in Keys(l);
        assert Below(Keys(n), b) == Below(Keys(l), b);
        PrevFrom(l, b, above)
      else if x < b then
        assert b !in Keys(l);
        assert b in Keys(rt);
        assert Below(Keys(n), b) == Keys(l) + {x} + Below(Keys(rt), b);
        PrevFrom(rt, b, Some(x))
      else
        assert Below(Keys(n), b) == Keys(l);
        if l != Nil then LastNode(l) else above
  }

  /** Successor of the node holding `b`; mirror image of `PrevFrom`. */
  function NextFrom(n: Link, b: int, above: Option<int>): (r: Option<int>)
    requires Ordered(n) && b in Keys(n)
    ensures Above(Keys(n), b) == {} ==> r == above
    ensures Above(Keys(n), b) != {} ==> r.Some? && LeastOf(Above(Keys(n), b), r)
  {
    match n
    case Node(l, x, rt) =>
      if x < b then
        assert b !in Keys(l);
        assert b in Keys(rt);
        assert Above(Keys(n), b) == Above(Keys(rt), b);
        NextFrom(rt, b, above)
      else if b < x then
        assert b !in Keys(rt);
        assert b in Keys(l);
        assert Above(Keys(n), b) == Above(Keys(l), b) + {x} + Keys(rt);
        NextFrom(l, b, Some(x))
      else
        assert Above(Keys(n), b) == Keys(rt);
        if rt != Nil then FirstNode(rt) else above
  }

  /** `getPreviousNode`: the in-order predecessor of the node holding `b`,
      or null when it is the first node. */
  function PreviousNode(n: Link, b: int): (r: Option<int>)
    requires Ordered(n) && b in Keys(n)
    ensures GreatestOf(Below(Keys(n), b), r)
  {
    PrevFrom(n, b, None)
  }

  /** `getNextNode`: the in-order successor of the node holding `b`, or null
      when it is the last node. */
  function NextNode(n: Link, b: int): (r: Option<int>)
    requires Ordered(n) && b in Keys(n)
    ensures LeastOf(Above(Keys(n), b), r)
  {
    NextFrom(n, b, None)
  }

  // ---------------------------------------------------------------------------
  // Public queries
  // ---------------------------------------------------------------------------

  /** A freshly constructed tree: no root, size zero. */
  function Empty(): (t: Tree)
    ensures Valid(t) && Keys(t.root) == {}
  {
    Tree(Nil, 0)
  }

  function Size(t: Tree): (r: int)
    requires Valid(t)
    ensures r == |Keys(t.root)|
  {
    t.size
  }

  function IsEmpty(t: Tree): (r: bool)
    requires Valid(t)
    ensures r <==> Keys(t.root) == {}
  {
    t.size == 0
  }

  /** `contains`: the lower-bound node exists and holds `k` itself. */
  function Contains(t: Tree, k: int): (r: bool)
    requires Valid(t)
    ensures r <==> k in Keys(t.root)
  {
    var node := LowerBound(t.root, k);
    assert k in Keys(t.root) ==> k in AtLeast(Keys(t.root), k);
    node.Some? && node.value == k
  }

  /** No key lies in `[k, b)` when `b` is the least key not below `k`. */
  lemma BelowLowerBound(s: set<int>, k: int, b: int)
    requires LeastOf(AtLeast(s, k), Some(b))
    ensures Below(s, b) == Below(s, k)
  {
    forall y | y in s && k <= y ensures b <= y {
      assert y in AtLeast(s, k);
    }
  }

  /** No key lies in `(k, b)` when `b` is the least key above `k`. */
  lemma BelowUpperBound(s: set<int>, k: int, b: int)
    requires LeastOf(Above(s, k), Some(b))
    ensures Below(s, b) == AtMost(s, k)
  {
    forall y | y in s && k < y ensures b <= y {
      assert y in Above(s, k);
    }
  }

  function First(t: Tree): (r: Option<int>)
    requires Valid(t)
    ensures LeastOf(Keys(t.root), r)
  {
    FirstNode(t.root)
  }

  function Last(t: Tree): (r: Option<int>)
    requires Valid(t)
    ensures GreatestOf(Keys(t.root), r)
  {
    LastNode(t.root)
  }

  /** `lower`: the greatest key strictly below `k`. */
  function Lower(t: Tree, k: int): (r: Option<int>)
    requires Valid(t)
    ensures GreatestOf(Below(Keys(t.root), k), r)
  {
    var node := LowerBound(t.root, k);
    if node.None? then
      assert Below(Keys(t.root), k) == Keys(t.root);
      Last(t)
    else
      BelowLowerBound(Keys(t.root), k, node.value);
      PreviousNode(t.root, node.value)
  }

  /** `floor`: the greatest key not above `k`. */
  function Floor(t: Tree, k: int): (r: Option<int>)
    requires Valid(t)
    ensures GreatestOf(AtMost(Keys(t.root), k), r)
  {
    var node := UpperBound(t.root, k);
    if node.None? then
      assert AtMost(Keys(t.root), k) == Keys(t.root);
      Last(t)
    else
      BelowUpperBound(Keys(t.root), k, node.value);
      PreviousNode(t.root, node.value)
  }

  /** `ceiling`: the least key not below `k`. */
  function Ceiling(t: Tree, k: int): (r: Option<int>)
    requires Valid(t)
    ensures LeastOf(AtLeast(Keys(t.root), k), r)
  {
    LowerBound(t.root, k)
  }

  /** `higher`: the least key strictly above `k`. */
  function Higher(t: Tree, k: int): (r: Option<int>)
    requires Valid(t)
    ensures LeastOf(Above(Keys(t.root), k), r)
  {
    UpperBound(t.root, k)
  }

  // ---------------------------------------------------------------------------
  // add
  // ---------------------------------------------------------------------------

  /** The textbook insertion, used as the reference for `add`'s placement. */
  function Insert(n: Link, k: int): Link
  {
    match n
    case Nil => Node(Nil, k, Nil)
    case Node(l, x, r) => if k < x then Node(Insert(l, k), x, r) else Node(l, x, Insert(r, k))
  }

  /** `lastNode(n).right = new Node(k)`. */
  function AttachRightOfLast(n: Link, k: int): Link
  {
    match n
    case Nil => Node(Nil, k, Nil)
    case Node(l, x, r) =>
      if r == Nil then Node(l, x, Node(Nil, k, Nil)) else Node(l, x, AttachRightOfLast(r, k))
  }

  /** At the node holding `b` (the lower bound of the new key): hang the new
      key as its left child when it has none, otherwise as the right child of
      the last node of its left subtree. */
  function GraftAt(n: Link, b: int, k: int): Link
  {
    match n
    case Nil => Nil
    case Node(l, x, r) =>
      if b < x then Node(GraftAt(l, b, k), x, r)
      else if x < b then Node(l, x, GraftAt(r, b, k))
      else if l == Nil then Node(Node(Nil, k, Nil), x, r)
      else Node(AttachRightOfLast(l, k), x, r)
  }

  lemma {:induction false} InsertKeepsOrder(n: Link, k: int)
    requires Ordered(n) && k !in Keys(n)
    ensures Ordered(Insert(n, k)) && Keys(Insert(n, k)) == Keys(n) + {k}
  {
    match n
    case Nil =>
    case Node(l, x, r) =>
      if k < x { InsertKeepsOrder(l, k); } else { InsertKeepsOrder(r, k); }
  }

  lemma {:induction false} AttachRightOfLastIsInsert(n: Link, k: int)
    requires forall y :: y in Keys(n) ==> y < k
    ensures AttachRightOfLast(n, k) == Insert(n, k)
  {
    match n
    case Nil =>
    case Node(l, x, r) =>
      assert x in Keys(n);
      if r != Nil {
        assert forall y :: y in Keys(r) ==> y in Keys(n);
        AttachRightOfLastIsInsert(r, k);
      }
  }

  lemma {:induction false} GraftAtIsInsert(n: Link, b: int, k: int)
    requires Ordered(n) && k !in Keys(n)
    requires LeastOf(AtLeast(Keys(n), k), Some(b))
    ensures GraftAt(n, b, k) == Insert(n, k)
  {
    match n
    case Node(l, x, r) =>
      assert b in Keys(n);
      if b < x {
        assert b !in Keys(r);
        assert AtLeast(Keys(l), k) <= AtLeast(Keys(n), k);
        GraftAtIsInsert(l, b, k);
      } else if x < b {
        assert b !in Keys(l);
        assert k <= x ==> x in AtLeast(Keys(n), k);
        assert AtLeast(Keys(r), k) <= AtLeast(Keys(n), k);
        GraftAtIsInsert(r, b, k);
      } else if l != Nil {
        forall y | y in Keys(l) ensures y < k {
          assert k <= y ==> y in AtLeast(Keys(n), k);
        }
        AttachRightOfLastIsInsert(l, k);
      }
  }

  /** The three placements of `add` (left child of the lower-bound node,
      right child of the last node of its left subtree, or right child of the
      overall last node) together coincide with textbook insertion. */
  lemma AddPlacementIsInsert(t: Tree, k: int)
    requires Valid(t) && t.root != Nil && k !in Keys(t.root)
    ensures
      var b := LowerBound(t.root, k);
      (if b.None? then AttachRightOfLast(t.root, k) else GraftAt(t.root, b.value, k))
        == Insert(t.root, k)
  {
    var b := LowerBound(t.root, k);
    if b.None? {
      forall y | y in Keys(t.root) ensures y < k {
        assert k <= y ==> y in AtLeast(Keys(t.root), k);
      }
      AttachRightOfLastIsInsert(t.root, k);
    } else {
      GraftAtIsInsert(t.root, b.value, k);
    }
  }

  /** `add`: returns whether the key was new, together with the new tree. */
  function Add(t: Tree, k: int): (res: (bool, Tree))
    requires Valid(t)
    ensures Valid(res.1)
    ensures res.0 <==> k !in Keys(t.root)
    ensures Keys(res.1.root) == Keys(t.root) + {k}
    ensures res.1.size == if res.0 then t.size + 1 else t.size
    ensures !res.0 ==> res.1 == t
  {
    if t.root == Nil then
      (true, Tree(Node(Nil, k, Nil), t.size + 1))
    else if Contains(t, k) then
      (false, t)
    else
      (true, Tree(Place(t, k), t.size + 1))
  }

  /** The new node of `add` on a non-empty tree: under the right end of the
      tree when no key is larger, otherwise at the lower bound's free side. */
  function Place(t: Tree, k: int): (r: Link)
    requires Valid(t) && t.root != Nil && k !in Keys(t.root)
    ensures Ordered(r) && Keys(r) == Keys(t.root) + {k}
    ensures |Keys(r)| == t.size + 1
  {
    var b := LowerBound(t.root, k);
    AddPlacementIsInsert(t, k);
    InsertKeepsOrder(t.root, k);
    if b.None? then AttachRightOfLast(t.root, k) else GraftAt(t.root, b.value, k)
  }

  // ---------------------------------------------------------------------------
  // remove
  // ---------------------------------------------------------------------------

  /** Unlinks the leftmost node of a non-empty subtree, hanging its right
      child in its place (the `removeNode` call on the successor, which never
      has a left child). */
  function RemoveLeftmost(n: Link): (r: Link)
    requires n != Nil && Ordered(n)
    ensures Ordered(r)
    ensures FirstNode(n).Some? && Keys(r) == Keys(n) - {FirstNode(n).value}
  {
    match n
    case Node(l, x, rt) => if l == Nil then rt else Node(RemoveLeftmost(l), x, rt)
  }

  /** `removeNode` applied to the node holding `k`: a node with at most one
      child is replaced by that child; a node with two children takes its
      successor's key and the successor node is unlinked instead. */
  function RemoveNode(n: Link, k: int): (r: Link)
    requires Ordered(n)
    ensures Ordered(r)
    ensures Keys(r) == Keys(n) - {k}
  {
    match n
    case Nil => Nil
    case Node(l, x, rt) =>
      if k < x then Node(RemoveNode(l, k), x, rt)
      else if x < k then Node(l, x, RemoveNode(rt, k))
      else if l == Nil || rt == Nil then (if l != Nil then l else rt)
      else Node(l, FirstNode(rt).value, RemoveLeftmost(rt))
  }

  /** `remove`: returns whether the key was present, together with the new tree. */
  function Remove(t: Tree, k: int): (res: (bool, Tree))
    requires Valid(t)
    ensures Valid(res.1)
    ensures res.0 <==> k in Keys(t.root)
    ensures Keys(res.1.root) == Keys(t.root) - {k}
    ensures res.1.size == if res.0 then t.size - 1 else t.size
    ensures !res.0 ==> res.1 == t
  {
    if !Contains(t, k) then (false, t)
    else (true, Tree(RemoveNode(t.root, k), t.size - 1))
  }

  // ---------------------------------------------------------------------------
  // Iterators
  // ---------------------------------------------------------------------------

  /** Keys the ascending iterator has yet to yield after `cur` (null: before the start). */
  ghost function Ahead(s: set<int>, cur: Option<int>): set<int>
  {
    if cur.None? then s else Above(s, cur.value)
  }

  /** Keys the descending iterator has yet to yield after `cur`. */
  ghost function Behind(s: set<int>, cur: Option<int>): set<int>
  {
    if cur.None? then s else Below(s, cur.value)
  }

  /** The ascending iterator's `next`: the first node, or the successor of `cur`.
      `None` is the null node the Java then dereferences: `next()` past the
      last key, or on an empty tree, throws a `NullPointerException`. */
  function StepUp(n: Link, cur: Option<int>): (r: Option<int>)
    requires Ordered(n)
    requires cur.Some? ==> cur.value in Keys(n)
    ensures LeastOf(Ahead(Keys(n), cur), r)
  {
    if cur.None? then FirstNode(n) else NextNode(n, cur.value)
  }

  /** The descending iterator's `next`: the last node, or the predecessor of `cur`.
      `None` is the null node the Java then dereferences: `next()` past the
      first key, or on an empty tree, throws a `NullPointerException`. */
  function StepDown(n: Link, cur: Option<int>): (r: Option<int>)
    requires Ordered(n)
    requires cur.Some? ==> cur.value in Keys(n)
    ensures GreatestOf(Behind(Keys(n), cur), r)
  {
    if cur.None? then LastNode(n) else PreviousNode(n, cur.value)
  }

  /** `next()` finds no node, so the Java throws, exactly after the last key
      going up, after the first key going down, and on an empty tree. */
  lemma NextPastEndIsNone(n: Link)
    requires Ordered(n)
    ensures LastNode(n).Some? ==> StepUp(n, LastNode(n)) == None
    ensures FirstNode(n).Some? ==> StepDown(n, FirstNode(n)) == None
    ensures Keys(n) == {} ==> StepUp(n, None) == None && StepDown(n, None) == None
  {
  }

  /** `hasNext` is false exactly when nothing is left ahead of `cur`. */
  lemma AheadEmptyAtLast(n: Link, cur: Option<int>)
    requires Ordered(n)
    requires cur.Some? ==> cur.value in Keys(n)
    ensures cur == LastNode(n) <==> Ahead(Keys(n), cur) == {}
  {
    if cur.Some? && Ahead(Keys(n), cur) == {} {
      var c := cur.value;
      forall y | y in Keys(n) ensures y <= c {
        assert c < y ==> y in Above(Keys(n), c);
      }
    }
  }

  lemma BehindEmptyAtFirst(n: Link, cur: Option<int>)
    requires Ordered(n)
    requires cur.Some? ==> cur.value in Keys(n)
    ensures cur == FirstNode(n) <==> Behind(Keys(n), cur) == {}
  {
    if cur.Some? && Behind(Keys(n), cur) == {} {
      var c := cur.value;
      forall y | y in Keys(n) ensures c <= y {
        assert y < c ==> y in Below(Keys(n), c);
      }
    }
  }

  /** Stepping to the least remaining key removes exactly that key from what remains. */
  lemma AheadShrinks(s: set<int>, cur: Option<int>, m: int)
    requires LeastOf(Ahead(s, cur), Some(m))
    ensures Ahead(s, Some(m)) == Ahead(s, cur) - {m}
  {
  }

  /** The least key ahead, then the keys ahead of it in increasing order,
      are the keys ahead in increasing order. */
  lemma AscendCons(s: set<int>, cur: Option<int>, m: int, rest: seq<int>)
    requires LeastOf(Ahead(s, cur), Some(m))
    requires StrictlyIncreasing(rest)
    requires forall x :: x in rest <==> x in Ahead(s, Some(m))
    ensures StrictlyIncreasing([m] + rest)
    ensures forall x :: x in [m] + rest <==> x in Ahead(s, cur)
  {
    AheadShrinks(s, cur, m);
    forall i | 0 <= i < |rest| ensures rest[i] in Above(s, m) {
      assert rest[i] in rest;
    }
  }

  /** The greatest key behind, then the keys behind it in decreasing order,
      are the keys behind in decreasing order. */
  lemma DescendCons(s: set<int>, cur: Option<int>, m: int, rest: seq<int>)
    requires GreatestOf(Behind(s, cur), Some(m))
    requires StrictlyDecreasing(rest)
    requires forall x :: x in rest <==> x in Behind(s, Some(m))
    ensures StrictlyDecreasing([m] + rest)
    ensures forall x :: x in [m] + rest <==> x in Behind(s, cur)
  {
    BehindShrinks(s, cur, m);
    forall i | 0 <= i < |rest| ensures rest[i] in Below(s, m) {
      assert rest[i] in rest;
    }
  }

  lemma BehindShrinks(s: set<int>, cur: Option<int>, m: int)
    requires GreatestOf(Behind(s, cur), Some(m))
    ensures Behind(s, Some(m)) == Behind(s, cur) - {m}
  {
  }

  /** What the ascending iterator yields from `cur` on: `hasNext` compares
      `cur` with the last node, `next` is `StepUp`. */
  function AscendFrom(n: Link, cur: Option<int>): (s: seq<int>)
    requires Ordered(n)
    requires cur.Some? ==> cur.value in Keys(n)
    ensures StrictlyIncreasing(s)
    ensures forall x :: x in s <==> x in Ahead(Keys(n), cur)
    decreases |Ahead(Keys(n), cur)|
  {
    AheadEmptyAtLast(n, cur);
    if cur == LastNode(n) then
      []
    else
      var next := StepUp(n, cur);
      AheadShrinks(Keys(n), cur, next.value);
      var rest := AscendFrom(n, next);
      AscendCons(Keys(n), cur, next.value, rest);
      [next.value] + rest
  }

  /** What the descending iterator yields from `cur` on: `hasNext` compares
      `cur` with the first node, `next` is `StepDown`. */
  function DescendFrom(n: Link, cur: Option<int>): (s: seq<int>)
    requires Ordered(n)
    requires cur.Some? ==> cur.value in Keys(n)
    ensures StrictlyDecreasing(s)
    ensures forall x :: x in s <==> x in Behind(Keys(n), cur)
    decreases |Behind(Keys(n), cur)|
  {
    BehindEmptyAtFirst(n, cur);
    if cur == FirstNode(n) then
      []
    else
      var next := StepDown(n, cur);
      BehindShrinks(Keys(n), cur, next.value);
      var rest := DescendFrom(n, next);
      DescendCons(Keys(n), cur, next.value, rest);
      [next.value] + rest
  }

  /** `ascendingIterator`: every key exactly once, in increasing order. */
  function AscendingIterator(t: Tree): (s: seq<int>)
    requires Valid(t)
    ensures StrictlyIncreasing(s)
    ensures forall x :: x in s <==> x in Keys(t.root)
    ensures |s| == t.size
  {
    var s := AscendFrom(t.root, None);
    DistinctSeqSize(s, Keys(t.root));
    s
  }

  /** `descendingIterator`: every key exactly once, in decreasing order. */
  function DescendingIterator(t: Tree): (s: seq<int>)
    requires Valid(t)
    ensures StrictlyDecreasing(s)
    ensures forall x :: x in s <==> x in Keys(t.root)
    ensures |s| == t.size
  {
    var s := DescendFrom(t.root, None);
    DistinctSeqSizeDown(s, Keys(t.root));
    s
  }

  /** A strictly increasing sequence listing a set has the set's size. */
  lemma {:induction false} DistinctSeqSize(s: seq<int>, k: set<int>)
    requires StrictlyIncreasing(s)
    requires forall x :: x in s <==> x in k
    ensures |s| == |k|
    decreases |s|
  {
    if s != [] {
      assert s[0] in s;
      var rest := k - {s[0]};
      assert forall x :: x in s[1..] <==> x in rest by {
        forall x ensures x in s[1..] <==> x in rest {
          if x in s[1..] {
            var i :| 1 <= i < |s| && s[i] == x;
            assert s[0] < s[i];
          }
          if x in rest { assert x in s; }
        }
      }
      DistinctSeqSize(s[1..], rest);
    } else {
      assert forall x :: x !in k;
      assert k == {};
    }
  }

  lemma {:induction false} DistinctSeqSizeDown(s: seq<int>, k: set<int>)
    requires StrictlyDecreasing(s)
    requires forall x :: x in s <==> x in k
    ensures |s| == |k|
    decreases |s|
  {
    if s != [] {
      assert s[0] in s;
      var rest := k - {s[0]};
      assert forall x :: x in s[1..] <==> x in rest by {
        forall x ensures x in s[1..] <==> x in rest {
          if x in s[1..] {
            var i :| 1 <= i < |s| && s[i] == x;
            assert s[0] > s[i];
          }
          if x in rest { assert x in s; }
        }
      }
      DistinctSeqSizeDown(s[1..], rest);
    } else {
      assert forall x :: x !in k;
      assert k == {};
    }
  }

  /** The descending iterator yields the ascending one reversed. */
  lemma DescendingIsReversedAscending(t: Tree)
    requires Valid(t)
    ensures DescendingIterator(t) == Reverse(AscendingIterator(t))
  {
    var a := AscendingIterator(t);
    var d := DescendingIterator(t);
    var r := Reverse(d);
    ReverseOfDecreasing(d);
    SortedListingsAgree(a, r);
    ReverseInvolution(d);
  }

  /** Reading a strictly decreasing listing backwards gives a strictly
      increasing listing of the same elements. */
  lemma ReverseOfDecreasing(d: seq<int>)
    requires StrictlyDecreasing(d)
    ensures StrictlyIncreasing(Reverse(d))
    ensures forall x :: x in Reverse(d) <==> x in d
  {
    var r := Reverse(d);
    forall i, j | 0 <= i < j < |r| ensures r[i] < r[j] {
      assert r[i] == d[|d| - 1 - i] && r[j] == d[|d| - 1 - j];
    }
    forall x ensures x in r <==> x in d {
      if x in r {
        var i :| 0 <= i < |r| && r[i] == x;
        assert d[|d| - 1 - i] == x;
      }
      if x in d {
        var i :| 0 <= i < |d| && d[i] == x;
        assert r[|d| - 1 - i] == x;
      }
    }
  }

  function Reverse(s: seq<int>): (r: seq<int>)
    ensures |r| == |s| && forall i :: 0 <= i < |s| ==> r[i] == s[|s| - 1 - i]
  {
    if s == [] then [] else Reverse(s[1..]) + [s[0]]
  }

  lemma {:induction false} ReverseInvolution(s: seq<int>)
    ensures Reverse(Reverse(s)) == s
  {
    var r := Reverse(s);
    assert forall i :: 0 <= i < |s| ==> Reverse(r)[i] == r[|r| - 1 - i] == s[i];
  }

  /** Two strictly increasing listings of the same elements are equal. */
  lemma {:induction false} SortedListingsAgree(a: seq<int>, b: seq<int>)
    requires StrictlyIncreasing(a) && StrictlyIncreasing(b)
    requires forall x :: x in a <==> x in b
    ensures a == b
    decreases |a|
  {
    if a != [] { assert a[0] in a; }
    if b != [] { assert b[0] in b; }
    if a != [] {
      var i :| 0 <= i < |b| && b[i] == a[0];
      var j :| 0 <= j < |a| && a[j] == b[0];
      assert b[0] <= b[i] && a[0] <= a[j];
      forall x ensures x in a[1..] <==> x in b[1..] {
        if x in a[1..] {
          var i :| 1 <= i < |a| && a[i] == x;
          assert x in b && x != b[0];
        }
        if x in b[1..] {
          var i :| 1 <= i < |b| && b[i] == x;
          assert x in a && x != a[0];
        }
      }
      SortedListingsAgree(a[1..], b[1..]);
    }
  }
}

=== FILE: calculator.dfy ===
/** The front end of the calculator: the validation that a string is an infix
    expression over single digits, `+ - * /` and parentheses, and its
    conversion to reversed Polish notation by the shunting-yard algorithm. */
module Calculator {
  import opened Wrappers

  // ---------------------------------------------------------------------------
  // Characters
  // ---------------------------------------------------------------------------

  predicate IsDigit(c: char)
  {
    '0' <= c <= '9'
  }

  // Whether `c` is one of the four operation signs.
  predicate IsOperation(c: char)
  {
    c == '+' || c == '-' || c == '*' || c == '/'
  }

  /** `symbol - '0'`, for any character. */
  function ToDigit(c: char): (r: int)
    ensures IsDigit(c) <==> 0 <= r <= 9
    ensures r + '0' as int == c as int
  {
    c as int - '0' as int
  }

  /** The ten digit characters in order are worth 0 to 9. */
  lemma DigitValues()
    ensures forall k :: 0 <= k < 10 ==> ToDigit("0123456789"[k]) == k
  {
  }

  /** `getPriority`: 1 for `+ -`, 2 for `* /`, 0 for anything else, `(`
      included, so an opening parenthesis is never popped by an operator. */
  function Priority(c: char): (r: int)
    ensures r == 1 <==> c == '+' || c == '-'
    ensures r == 2 <==> c == '*' || c == '/'
    ensures r == 0 <==> !IsOperation(c)
  {
    match c
    case '+' => 1
    case '-' => 1
    case '*' => 2
    case '/' => 2
    case _ => 0
  }

  // ---------------------------------------------------------------------------
  // checkCorrectness
  // ---------------------------------------------------------------------------

  /** The string the validator scans: the expression between `0+` and `+0`. */
  function Padded(e: string): (x: string)
    ensures |x| == |e| + 4
    ensures x[0] == '0' && x[1] == '+' && x[|x| - 2] == '+' && x[|x| - 1] == '0'
    ensures forall i :: 0 <= i < |e| ==> x[i + 2] == e[i]
  {
    "0+" + e + "+0"
  }

  /** The loop of `checkCorrectness` from position `i` with `depth`
      unmatched opening parentheses so far. With `strict` set it also
      refuses `()` and `)(`, which the code as written lets through. */
  function CheckFrom(x: string, i: nat, depth: int, strict: bool): bool
    decreases |x| - i
  {
    if i + 1 >= |x| then depth == 0
    else
      var current := x[i];
      var next := x[i + 1];
      if IsDigit(current) then
        if IsDigit(next) || next == '(' then false else CheckFrom(x, i + 1, depth, strict)
      else if IsOperation(current) then
        if IsOperation(next) || next == ')' then false else CheckFrom(x, i + 1, depth, strict)
      else if current == '(' then
        if IsOperation(next) || (strict && next == ')') then false
        else CheckFrom(x, i + 1, depth + 1, strict)
      else if current == ')' then
        if IsDigit(next) || depth - 1 < 0 || (strict && next == '(') then false
        else CheckFrom(x, i + 1, depth - 1, strict)
      else false
  }

  /** `checkCorrectness` as written: it accepts exactly the expressions
      whose padded form meets the pair and depth rules, and what it accepts
      has balanced parentheses. */
  function CheckCorrectnessAsWritten(e: string): (ok: bool)
    ensures ok <==> Accepted(Padded(e), false)
    ensures ok ==> Balanced(e)
  {
    CheckCorrectnessMeaning(e, false);
    if CheckFrom(Padded(e), 0, 0, false) then AcceptedIsBalanced(e, false); true else false
  }

  /** `checkCorrectness` as evidently intended: also refuses an empty pair
      of parentheses and a `)` directly followed by `(`. */
  function CheckCorrectness(e: string): (ok: bool)
    ensures ok <==> Accepted(Padded(e), true)
    ensures ok ==> Balanced(e)
  {
    CheckCorrectnessMeaning(e, true);
    if CheckFrom(Padded(e), 0, 0, true) then AcceptedIsBalanced(e, true); true else false
  }

  /** Which character may follow which. */
  predicate PairOk(c: char, next: char, strict: bool)
  {
    if IsDigit(c) then !IsDigit(next) && next != '('
    else if IsOperation(c) then !IsOperation(next) && next != ')'
    else if c == '(' then !IsOperation(next) && !(strict && next == ')')
    else if c == ')' then !IsDigit(next) && !(strict && next == '(')
    else false
  }

  /** How a character changes the parenthesis depth. */
  function Delta(c: char): int
  {
    if c == '(' then 1 else if c == ')' then -1 else 0
  }

  /** The parenthesis depth after `s`: opened minus closed. */
  function Depth(s: string): int
  {
    if s == [] then 0 else Depth(s[..|s| - 1]) + Delta(s[|s| - 1])
  }

  lemma DepthStep(x: string, j: nat)
    requires j < |x|
    ensures Depth(x[..j + 1]) == Depth(x[..j]) + Delta(x[j])
  {
    assert x[..j + 1][..j] == x[..j];
  }

  /** What the validator accepts, stated without the loop: every adjacent pair is
      allowed, the depth never drops below zero and ends at zero. */
  ghost predicate Accepted(x: string, strict: bool)
  {
    |x| >= 1 &&
    (forall j :: 0 <= j < |x| - 1 ==> PairOk(x[j], x[j + 1], strict)) &&
    (forall j :: 0 <= j < |x| ==> Depth(x[..j]) >= 0) &&
    Depth(x[..|x| - 1]) == 0
  }

  /** The loop from position `i` accepts exactly when the rest of the string
      meets the pair and depth rules. */
  lemma {:induction false} CheckFromMeaning(x: string, i: nat, strict: bool)
    requires i < |x|
    requires forall j :: 0 <= j <= i ==> Depth(x[..j]) >= 0
    ensures CheckFrom(x, i, Depth(x[..i]), strict) <==>
      (forall j :: i <= j < |x| - 1 ==> PairOk(x[j], x[j + 1], strict)) &&
      (forall j :: i < j < |x| ==> Depth(x[..j]) >= 0) &&
      Depth(x[..|x| - 1]) == 0
    decreases |x| - i
  {
    if i + 1 < |x| {
      DepthStep(x, i);
      var d := Depth(x[..i + 1]);
      if PairOk(x[i], x[i + 1], strict) && d >= 0 {
        CheckFromMeaning(x, i + 1, strict);
      }
    }
  }

  /** `checkCorrectness` accepts exactly the expressions whose padded form
      meets the pair and depth rules. */
  lemma CheckCorrectnessMeaning(e: string, strict: bool)
    ensures CheckFrom(Padded(e), 0, 0, strict) <==> Accepted(Padded(e), strict)
  {
    var x := Padded(e);
    assert x[..0] == [];
    CheckFromMeaning(x, 0, strict);
  }

  /** The intended validator refuses exactly what the validator as written refuses,
      plus `()` and `)(` anywhere in the expression. */
  lemma CheckCorrectnessStricter(e: string)
    ensures CheckCorrectness(e) <==>
      CheckCorrectnessAsWritten(e) &&
      forall j :: 0 <= j < |e| - 1 ==> !(e[j] == '(' && e[j + 1] == ')') && !(e[j] == ')' && e[j + 1] == '(')
  {
    var x := Padded(e);
    CheckCorrectnessMeaning(e, true);
    CheckCorrectnessMeaning(e, false);
    if CheckCorrectnessAsWritten(e) &&
       forall j :: 0 <= j < |e| - 1 ==> !(e[j] == '(' && e[j + 1] == ')') && !(e[j] == ')' && e[j + 1] == '(') {
      forall j | 0 <= j < |x| - 1
        ensures PairOk(x[j], x[j + 1], true)
      {
        assert PairOk(x[j], x[j + 1], false);
        if 2 <= j < |e| + 1 {
          assert x[j] == e[j - 2] && x[j + 1] == e[j - 1];
        }
      }
    }
    if CheckCorrectness(e) {
      forall j | 0 <= j < |e| - 1
        ensures !(e[j] == '(' && e[j + 1] == ')') && !(e[j] == ')' && e[j + 1] == '(')
      {
        assert PairOk(x[j + 2], x[j + 3], true);
      }
    }
  }

  // ---------------------------------------------------------------------------
  // Filters and depth of the padded string
  // ---------------------------------------------------------------------------

  /** The characters of `s` that satisfy `keep`, in order. */
  function Filter(keep: char -> bool, s: string): (r: string)
    ensures |r| <= |s|
  {
    if s == [] then [] else
      Filter(keep, s[..|s| - 1]) + (if keep(s[|s| - 1]) then [s[|s| - 1]] else [])
  }

  /** The filter keeps exactly the characters of `s` that satisfy `keep`. */
  lemma {:induction false} FilterMembers(keep: char -> bool, s: string)
    ensures forall c :: c in Filter(keep, s) <==> c in s && keep(c)
    decreases |s|
  {
    if s != [] {
      FilterMembers(keep, s[..|s| - 1]);
      assert s == s[..|s| - 1] + [s[|s| - 1]];
    }
  }

  lemma {:induction false} FilterConcat(keep: char -> bool, a: string, b: string)
    ensures Filter(keep, a + b) == Filter(keep, a) + Filter(keep, b)
    decreases |b|
  {
    if b == [] {
      assert a + b == a;
    } else {
      assert (a + b)[..|a + b| - 1] == a + b[..|b| - 1];
      FilterConcat(keep, a, b[..|b| - 1]);
    }
  }

  lemma {:induction false} FilterNone(keep: char -> bool, s: string)
    requires forall c :: c in s ==> !keep(c)
    ensures Filter(keep, s) == []
    decreases |s|
  {
    if s != [] {
      FilterNone(keep, s[..|s| - 1]);
    }
  }

  lemma {:induction false} FilterAll(keep: char -> bool, s: string)
    requires forall c :: c in s ==> keep(c)
    ensures Filter(keep, s) == s
    decreases |s|
  {
    if s != [] {
      FilterAll(keep, s[..|s| - 1]);
    }
  }

  predicate IsOpen(c: char)
  {
    c == '('
  }

  /** The digits of `s`, in order. */
  function Digits(s: string): string
  {
    Filter(IsDigit, s)
  }

  /** The operation signs of `s`, in order. */
  function Operations(s: string): string
  {
    Filter(IsOperation, s)
  }

  /** The number of `(` in `s`. */
  function Opens(s: string): nat
  {
    |Filter(IsOpen, s)|
  }

  /** The characters a checked expression is made of. */
  predicate InAlphabet(c: char)
  {
    IsDigit(c) || IsOperation(c) || c == '(' || c == ')'
  }

  /** What the validator guarantees about the expression itself: known
      characters only, and parentheses that balance. */
  ghost predicate Balanced(e: string)
  {
    (forall c :: c in e ==> InAlphabet(c)) &&
    (forall j :: 0 <= j <= |e| ==> Depth(e[..j]) >= 0) &&
    Depth(e) == 0
  }

  lemma {:induction false} DepthAfterPadding(s: string)
    ensures Depth("0+" + s) == Depth(s)
    decreases |s|
  {
    if s == [] {
      assert "0+" + s == "0+";
      assert ("0+")[..1] == "0";
      assert ("0")[..0] == [];
    } else {
      assert ("0+" + s)[..|"0+" + s| - 1] == "0+" + s[..|s| - 1];
      DepthAfterPadding(s[..|s| - 1]);
    }
  }

  /** The depth of the padded string at position `j + 2` is the depth of the
      expression at `j`. */
  lemma PaddedDepth(e: string, j: nat)
    requires j <= |e|
    ensures Depth(Padded(e)[..j + 2]) == Depth(e[..j])
  {
    assert Padded(e)[..j + 2] == "0+" + e[..j];
    DepthAfterPadding(e[..j]);
  }

  /** An expression either check accepts is balanced. */
  lemma AcceptedIsBalanced(e: string, strict: bool)
    requires CheckFrom(Padded(e), 0, 0, strict)
    ensures Balanced(e)
  {
    var x := Padded(e);
    CheckCorrectnessMeaning(e, strict);
    forall c | c in e
      ensures InAlphabet(c)
    {
      var j :| 0 <= j < |e| && e[j] == c;
      assert PairOk(x[j + 2], x[j + 3], strict);
    }
    forall j | 0 <= j <= |e|
      ensures Depth(e[..j]) >= 0
    {
      PaddedDepth(e, j);
    }
    PaddedDepth(e, |e|);
    assert e[..|e|] == e;
    DepthStep(x, |e| + 2);
    assert x[..|x| - 1] == x[..|e| + 3];
  }

  // ---------------------------------------------------------------------------
  // getReversedPolishNotation
  // ---------------------------------------------------------------------------

  /** `ParseException`, or the `EmptyStackException` of popping an empty
      operation stack. */
  datatype Failure = ParseException | EmptyStack

  /** The output built so far and the operation stack, top first. */
  datatype Shunt = Shunt(out: string, ops: string)

  /** The position of the topmost `(` on the stack, or the stack size. */
  function OpenIndex(ops: string): (k: nat)
    ensures k <= |ops|
    ensures '(' !in ops[..k]
    ensures k < |ops| ==> ops[k] == '('
  {
    if ops == [] || ops[0] == '(' then 0
    else
      var k := OpenIndex(ops[1..]);
      assert ops[..k + 1] == [ops[0]] + ops[1..][..k];
      k + 1
  }

  /** The loop at `)`: pops operations into the output until `(` is on top
      or the stack is empty. */
  function PopToOpen(st: Shunt): (r: Shunt)
    ensures r.out == st.out + st.ops[..OpenIndex(st.ops)]
    ensures r.ops == st.ops[OpenIndex(st.ops)..]
    decreases |st.ops|
  {
    if st.ops == [] || st.ops[0] == '(' then st
    else
      var k := OpenIndex(st.ops[1..]);
      assert OpenIndex(st.ops) == k + 1;
      assert st.ops[..k + 1] == [st.ops[0]] + st.ops[1..][..k];
      assert st.ops[k + 1..] == st.ops[1..][k..];
      PopToOpen(Shunt(st.out + [st.ops[0]], st.ops[1..]))
  }

  /** The position of the topmost stack entry whose priority is below `p`,
      or the stack size. */
  function LowerIndex(ops: string, p: int): (k: nat)
    ensures k <= |ops|
    ensures forall j :: 0 <= j < k ==> Priority(ops[j]) >= p
    ensures k < |ops| ==> Priority(ops[k]) < p
  {
    if ops == [] || Priority(ops[0]) < p then 0 else LowerIndex(ops[1..], p) + 1
  }

  /** The loop at an operation of priority `p`: pops into the output while
      the top has priority `p` or more. */
  function PopNotLower(p: int, st: Shunt): (r: Shunt)
    ensures r.out == st.out + st.ops[..LowerIndex(st.ops, p)]
    ensures r.ops == st.ops[LowerIndex(st.ops, p)..]
    decreases |st.ops|
  {
    if st.ops == [] || Priority(st.ops[0]) < p then st
    else
      PopOne(p, st.out, st.ops);
      PopNotLower(p, Shunt(st.out + [st.ops[0]], st.ops[1..]))
  }

  /** Popping the top, when its priority is `p` or more, leaves the same
      split of the stack to do. */
  lemma PopOne(p: int, out: string, ops: string)
    requires ops != [] && Priority(ops[0]) >= p
    ensures out + ops[..LowerIndex(ops, p)] == (out + [ops[0]]) + ops[1..][..LowerIndex(ops[1..], p)]
    ensures ops[LowerIndex(ops, p)..] == ops[1..][LowerIndex(ops[1..], p)..]
  {
    var k := LowerIndex(ops[1..], p);
    assert LowerIndex(ops, p) == k + 1;
    assert ops[..k + 1] == [ops[0]] + ops[1..][..k];
  }

  /** One character of the main loop: the output only grows, and the one
      way to fail is a `)` with no `(` on the stack. */
  function Step(st: Shunt, c: char): (r: Result<Shunt, Failure>)
    ensures r.Ok? ==> st.out <= r.value.out
    ensures r.Err? <==> c == ')' && '(' !in st.ops
    ensures r.Err? ==> r.error == EmptyStack
  {
    if c == '(' then Ok(Shunt(st.out, ['('] + st.ops))
    else if c == ')' then
      var r := PopToOpen(st);
      if r.ops == [] then Err(EmptyStack) else Ok(Shunt(r.out, r.ops[1..]))
    else if IsOperation(c) then
      var r := PopNotLower(Priority(c), st);
      Ok(Shunt(r.out, [c] + r.ops))
    else Ok(Shunt(st.out + [c], st.ops))
  }

  /** The main loop from character `i`, then the final loop that pops the
      rest of the stack into the output. What is already in the output
      stays at its front, and the conversion fails only on an empty stack. */
  function Convert(e: string, i: nat, st: Shunt): (r: Result<string, Failure>)
    requires i <= |e|
    ensures r.Ok? ==> st.out <= r.value
    ensures r.Err? ==> r.error == EmptyStack && ')' in e[i..]
    decreases |e| - i
  {
    if i == |e| then Ok(st.out + st.ops)
    else
      var next := Step(st, e[i]);
      if next.Err? then Err(next.error) else Convert(e, i + 1, next.value)
  }

  /** `getReversedPolishNotation` as written: the lenient check, then the
      conversion from an empty stack. */
  function ReversePolishAsWritten(e: string): (r: Result<string, Failure>)
    ensures r.Err? <==> !CheckCorrectnessAsWritten(e)
    ensures r.Err? ==> r.error == ParseException
  {
    if !CheckCorrectnessAsWritten(e) then Err(ParseException)
    else
      assert e[..0] == [];
      ConvertKeeps(e, 0, Shunt([], []));
      Convert(e, 0, Shunt([], []))
  }

  /** `getReversedPolishNotation` with the intended validator. */
  function ReversePolish(e: string): (r: Result<string, Failure>)
    ensures r.Err? <==> !CheckCorrectness(e)
    ensures r.Err? ==> r.error == ParseException
  {
    if !CheckCorrectness(e) then Err(ParseException)
    else
      assert e[..0] == [];
      ConvertKeeps(e, 0, Shunt([], []));
      Convert(e, 0, Shunt([], []))
  }

  // ---------------------------------------------------------------------------
  // What the conversion keeps
  // ---------------------------------------------------------------------------

  /** What holds once the main loop has read `e[..i]`: the output holds only
      digits and operations, the stack only operations and `(`, one `(` per
      unmatched opening parenthesis read, the digits read so far in order,
      and every operation read so far either in the output or on the stack. */
  ghost predicate LoopInvariant(e: string, i: nat, st: Shunt)
    requires i <= |e|
  {
    (forall c :: c in st.out ==> IsDigit(c) || IsOperation(c)) &&
    (forall c :: c in st.ops ==> IsOpen(c) || IsOperation(c)) &&
    Opens(st.ops) == Depth(e[..i]) &&
    Digits(st.out) == Digits(e[..i]) &&
    multiset(Operations(st.out)) + multiset(Operations(st.ops)) == multiset(Operations(e[..i]))
  }

  /** What the result promises: digits and operations only, the digits of
      the expression in their order, and each of its operations once. */
  ghost predicate ConvertedFrom(e: string, r: string)
  {
    (forall c :: c in r ==> IsDigit(c) || IsOperation(c)) &&
    Digits(r) == Digits(e) &&
    multiset(Operations(r)) == multiset(Operations(e))
  }

  lemma FilterStep(keep: char -> bool, e: string, i: nat)
    requires i < |e|
    ensures Filter(keep, e[..i + 1]) == Filter(keep, e[..i]) + (if keep(e[i]) then [e[i]] else [])
  {
    assert e[..i + 1][..i] == e[..i];
  }

  /** The facts every step needs about the character read. */
  lemma ReadOne(e: string, i: nat)
    requires i < |e|
    ensures Depth(e[..i + 1]) == Depth(e[..i]) + Delta(e[i])
    ensures Digits(e[..i + 1]) == Digits(e[..i]) + (if IsDigit(e[i]) then [e[i]] else [])
    ensures Operations(e[..i + 1]) == Operations(e[..i]) + (if IsOperation(e[i]) then [e[i]] else [])
  {
    DepthStep(e, i);
    FilterStep(IsDigit, e, i);
    FilterStep(IsOperation, e, i);
  }

  /** One step in general: the output gains `moved`, and `taken` on top of
      the stack is replaced by `put`. */
  lemma Transfer(e: string, i: nat, st: Shunt, moved: string, taken: string, put: string, rest: string)
    requires i < |e| && LoopInvariant(e, i, st) && st.ops == taken + rest
    requires forall c :: c in moved ==> IsDigit(c) || IsOperation(c)
    requires forall c :: c in put ==> IsOpen(c) || IsOperation(c)
    requires Opens(put) == Opens(taken) + Delta(e[i])
    requires Digits(moved) == (if IsDigit(e[i]) then [e[i]] else [])
    requires multiset(Operations(moved)) + multiset(Operations(put)) ==
             multiset(Operations(taken)) + multiset(if IsOperation(e[i]) then [e[i]] else [])
    ensures LoopInvariant(e, i + 1, Shunt(st.out + moved, put + rest))
  {
    ReadOne(e, i);
    TransferOpens(st.ops, taken, put, rest);
    TransferDigits(st.out, moved);
    TransferOperations(st.out, moved, st.ops, taken, put, rest);
    Rearrange(multiset(Operations(st.out)), multiset(Operations(moved)), multiset(Operations(put)),
              multiset(Operations(rest)), multiset(Operations(taken)),
              multiset(if IsOperation(e[i]) then [e[i]] else []), multiset(Operations(e[..i])));
  }

  /** The bookkeeping of operations across a step, on multisets. */
  lemma Rearrange<T>(out: multiset<T>, moved: multiset<T>, put: multiset<T>, rest: multiset<T>,
                     taken: multiset<T>, read: multiset<T>, before: multiset<T>)
    requires out + (taken + rest) == before
    requires moved + put == taken + read
    ensures (out + moved) + (put + rest) == before + read
  {
    assert (out + moved) + (put + rest) == out + (moved + put) + rest;
  }

  lemma TransferOpens(ops: string, taken: string, put: string, rest: string)
    requires ops == taken + rest
    ensures Opens(put + rest) == Opens(ops) - Opens(taken) + Opens(put)
  {
    FilterConcat(IsOpen, taken, rest);
    FilterConcat(IsOpen, put, rest);
  }

  lemma TransferDigits(out: string, moved: string)
    ensures Digits(out + moved) == Digits(out) + Digits(moved)
  {
    FilterConcat(IsDigit, out, moved);
  }

  lemma TransferOperations(out: string, moved: string, ops: string, taken: string, put: string, rest: string)
    requires ops == taken + rest
    ensures Operations(out + moved) == Operations(out) + Operations(moved)
    ensures Operations(put + rest) == Operations(put) + Operations(rest)
    ensures Operations(ops) == Operations(taken) + Operations(rest)
  {
    FilterConcat(IsOperation, taken, rest);
    FilterConcat(IsOperation, put, rest);
    FilterConcat(IsOperation, out, moved);
  }

  /** The filters of a one-character string. */
  lemma FilterOne(keep: char -> bool, c: char)
    ensures Filter(keep, [c]) == if keep(c) then [c] else []
  {
    assert [c][..0] == [];
  }

  lemma StepOpenKeeps(e: string, i: nat, st: Shunt)
    requires i < |e| && e[i] == '(' && LoopInvariant(e, i, st)
    ensures Step(st, e[i]) == Ok(Shunt(st.out, ['('] + st.ops))
    ensures LoopInvariant(e, i + 1, Step(st, e[i]).value)
  {
    FilterOne(IsOpen, '(');
    FilterOne(IsOperation, '(');
    assert st.out + [] == st.out;
    assert st.ops == [] + st.ops;
    Transfer(e, i, st, [], [], ['('], st.ops);
  }

  /** A run of operations holds no `(` and no digit. */
  lemma OperationsOnly(s: string)
    requires forall c :: c in s ==> IsOperation(c)
    ensures Opens(s) == 0 && Digits(s) == [] && Operations(s) == s
  {
    FilterNone(IsOpen, s);
    FilterNone(IsDigit, s);
    FilterAll(IsOperation, s);
  }

  /** With a `(` on the stack, `)` pops the operations above the topmost
      one into the output and then the `(` itself. */
  lemma CloseShape(st: Shunt)
    requires forall c :: c in st.ops ==> IsOpen(c) || IsOperation(c)
    requires Opens(st.ops) > 0
    ensures var k := OpenIndex(st.ops);
      k < |st.ops| &&
      Step(st, ')') == Ok(Shunt(st.out + st.ops[..k], st.ops[k + 1..])) &&
      forall c :: c in st.ops[..k] ==> IsOperation(c)
  {
    var ops := st.ops;
    var k := OpenIndex(ops);
    FilterMembers(IsOpen, ops);
    assert Filter(IsOpen, ops)[0] in ops;
    assert ops[..|ops|] == ops;
    assert ops[k..][1..] == ops[k + 1..];
  }

  /** What `)` moves and takes: the operations above `(`, and `(` itself. */
  lemma CloseFacts(above: string)
    requires forall c :: c in above ==> IsOperation(c)
    ensures Opens([]) == Opens(above + ['(']) + Delta(')')
    ensures Digits(above) == []
    ensures multiset(Operations(above)) + multiset(Operations([])) ==
            multiset(Operations(above + ['('])) + multiset([])
  {
    OperationsOnly(above);
    FilterConcat(IsOpen, above, ['(']);
    FilterConcat(IsOperation, above, ['(']);
    FilterOne(IsOpen, '(');
    FilterOne(IsOperation, '(');
  }

  /** At `)` the stack holds a `(`, and everything above it is an operation. */
  lemma StepCloseKeeps(e: string, i: nat, st: Shunt)
    requires i < |e| && e[i] == ')' && LoopInvariant(e, i, st)
    requires Depth(e[..i + 1]) >= 0
    ensures Step(st, e[i]).Ok?
    ensures var k := OpenIndex(st.ops);
      k < |st.ops| && Step(st, e[i]).value == Shunt(st.out + st.ops[..k], st.ops[k + 1..])
    ensures LoopInvariant(e, i + 1, Step(st, e[i]).value)
  {
    CloseOpens(e, i, st);
    CloseShape(st);
    CloseTransfer(e, i, st, OpenIndex(st.ops));
  }

  /** The invariant after `)` moves the operations above the topmost `(`
      into the output and drops the `(`. */
  lemma CloseTransfer(e: string, i: nat, st: Shunt, k: nat)
    requires i < |e| && e[i] == ')' && LoopInvariant(e, i, st)
    requires k < |st.ops| && st.ops[k] == '(' && forall c :: c in st.ops[..k] ==> IsOperation(c)
    ensures LoopInvariant(e, i + 1, Shunt(st.out + st.ops[..k], st.ops[k + 1..]))
  {
    var above := st.ops[..k];
    var below := st.ops[k + 1..];
    assert st.ops == (above + ['(']) + below;
    CloseFacts(above);
    assert [] + below == below;
    Transfer(e, i, st, above, above + ['('], [], below);
  }

  /** At an operation of priority `p` only operations are popped, since `(`
      has priority 0. */
  lemma OperationShape(st: Shunt, c: char)
    requires IsOperation(c)
    ensures var k := LowerIndex(st.ops, Priority(c));
      Step(st, c) == Ok(Shunt(st.out + st.ops[..k], [c] + st.ops[k..])) &&
      forall d :: d in st.ops[..k] ==> IsOperation(d)
  {
    var k := LowerIndex(st.ops, Priority(c));
    forall d | d in st.ops[..k]
      ensures IsOperation(d)
    {
      var j :| 0 <= j < k && st.ops[..k][j] == d;
      assert Priority(st.ops[j]) >= 1;
    }
  }

  /** What an operation `c` moves, takes and puts: the operations popped,
      then `c` itself on the stack. */
  lemma OperationFacts(above: string, c: char)
    requires IsOperation(c) && forall d :: d in above ==> IsOperation(d)
    ensures Opens([c]) == Opens(above) + Delta(c)
    ensures Digits(above) == []
    ensures multiset(Operations(above)) + multiset(Operations([c])) ==
            multiset(Operations(above)) + multiset([c])
  {
    OperationsOnly(above);
    FilterOne(IsOpen, c);
    FilterOne(IsOperation, c);
  }

  lemma StepOperationKeeps(e: string, i: nat, st: Shunt)
    requires i < |e| && IsOperation(e[i]) && LoopInvariant(e, i, st)
    ensures var k := LowerIndex(st.ops, Priority(e[i]));
      Step(st, e[i]) == Ok(Shunt(st.out + st.ops[..k], [e[i]] + st.ops[k..])) &&
      forall c :: c in st.ops[..k] ==> IsOperation(c)
    ensures LoopInvariant(e, i + 1, Step(st, e[i]).value)
  {
    OperationShape(st, e[i]);
    OperationTransfer(e, i, st, LowerIndex(st.ops, Priority(e[i])));
  }

  /** Moving the operations above position `k` to the output and pushing
      the operation read keeps the invariant. */
  lemma OperationTransfer(e: string, i: nat, st: Shunt, k: nat)
    requires i < |e| && IsOperation(e[i]) && LoopInvariant(e, i, st)
    requires k <= |st.ops| && forall d :: d in st.ops[..k] ==> IsOperation(d)
    ensures LoopInvariant(e, i + 1, Shunt(st.out + st.ops[..k], [e[i]] + st.ops[k..]))
  {
    var above := st.ops[..k];
    var below := st.ops[k..];
    assert st.ops == above + below;
    OperationFacts(above, e[i]);
    Transfer(e, i, st, above, above, [e[i]], below);
  }

  lemma StepDigitKeeps(e: string, i: nat, st: Shunt)
    requires i < |e| && IsDigit(e[i]) && LoopInvariant(e, i, st)
    ensures Step(st, e[i]) == Ok(Shunt(st.out + [e[i]], st.ops))
    ensures LoopInvariant(e, i + 1, Step(st, e[i]).value)
  {
    DigitFacts(e[i]);
    assert st.ops == [] + st.ops;
    Transfer(e, i, st, [e[i]], [], [], st.ops);
  }

  /** What a digit `c` moves, takes and puts: itself to the output, nothing
      on the stack. */
  lemma DigitFacts(c: char)
    requires IsDigit(c)
    ensures forall d :: d in [c] ==> IsDigit(d) || IsOperation(d)
    ensures Opens([]) == Opens([]) + Delta(c)
    ensures Digits([c]) == [c]
    ensures multiset(Operations([c])) + multiset(Operations([])) ==
            multiset(Operations([])) + multiset(if IsOperation(c) then [c] else [])
  {
    FilterOne(IsDigit, c);
    FilterOne(IsOperation, c);
  }

  lemma StepKeeps(e: string, i: nat, st: Shunt)
    requires Balanced(e) && i < |e| && LoopInvariant(e, i, st)
    ensures Step(st, e[i]).Ok? && LoopInvariant(e, i + 1, Step(st, e[i]).value)
  {
    assert e[i] in e;
    if e[i] == '(' {
      StepOpenKeeps(e, i, st);
    } else if e[i] == ')' {
      StepCloseKeeps(e, i, st);
    } else if IsOperation(e[i]) {
      StepOperationKeeps(e, i, st);
    } else {
      StepDigitKeeps(e, i, st);
    }
  }

  /** The final loop: with no `(` left, the stack holds operations only. */
  lemma FlushKeeps(e: string, st: Shunt)
    requires Balanced(e) && LoopInvariant(e, |e|, st)
    ensures forall c :: c in st.ops ==> IsOperation(c)
    ensures ConvertedFrom(e, st.out + st.ops)
  {
    assert e[..|e|] == e;
    FilterMembers(IsOpen, st.ops);
    FilterNone(IsDigit, st.ops);
    FilterConcat(IsDigit, st.out, st.ops);
    FilterConcat(IsOperation, st.out, st.ops);
  }

  lemma {:induction false} ConvertKeeps(e: string, i: nat, st: Shunt)
    requires Balanced(e) && i <= |e| && LoopInvariant(e, i, st)
    ensures Convert(e, i, st).Ok?
    ensures ConvertedFrom(e, Convert(e, i, st).value)
    decreases |e| - i
  {
    if i == |e| {
      FlushKeeps(e, st);
    } else {
      StepKeeps(e, i, st);
      ConvertKeeps(e, i + 1, Step(st, e[i]).value);
    }
  }

  /** Whatever the validator as written accepts converts without an empty-stack
      failure, to digits and operations only, with the digits in their
      original order and each operation once. */
  lemma ReversePolishAsWrittenMeaning(e: string)
    ensures ReversePolishAsWritten(e).Err? <==> !CheckCorrectnessAsWritten(e)
    ensures ReversePolishAsWritten(e).Err? ==> ReversePolishAsWritten(e).error == ParseException
    ensures ReversePolishAsWritten(e).Ok? ==> ConvertedFrom(e, ReversePolishAsWritten(e).value)
  {
    if CheckCorrectnessAsWritten(e) {
      AcceptedIsBalanced(e, false);
      assert e[..0] == [];
      ConvertKeeps(e, 0, Shunt([], []));
    }
  }

  // ---------------------------------------------------------------------------
  // Well-formed output under the intended validator
  // ---------------------------------------------------------------------------

  /** The number of operands `processExpression` holds after reading `s`:
      one more per digit, one fewer per operation. */
  function Height(s: string): int
  {
    |Digits(s)| - |Operations(s)|
  }

  /** `processExpression` reads `s` without popping an empty operand stack:
      every character is a digit or an operation that finds two operands. */
  predicate Sound(s: string)
  {
    if s == [] then true
    else
      var init := s[..|s| - 1];
      var c := s[|s| - 1];
      Sound(init) && (IsDigit(c) || (IsOperation(c) && Height(init) >= 2))
  }

  /** A reversed Polish expression `processExpression` evaluates completely:
      no empty pop on the way, and exactly one operand for the final pop. */
  predicate WellFormed(s: string)
  {
    Sound(s) && Height(s) == 1
  }

  lemma HeightAppend(a: string, b: string)
    ensures Height(a + b) == Height(a) + Height(b)
  {
    FilterConcat(IsDigit, a, b);
    FilterConcat(IsOperation, a, b);
  }

  lemma AppendDigit(out: string, c: char)
    requires Sound(out) && IsDigit(c)
    ensures Sound(out + [c]) && Height(out + [c]) == Height(out) + 1
  {
    assert (out + [c])[..|out|] == out;
    HeightAppend(out, [c]);
    FilterOne(IsDigit, c);
    FilterOne(IsOperation, c);
  }

  lemma AppendOperation(out: string, c: char)
    requires Sound(out) && IsOperation(c) && Height(out) >= 2
    ensures Sound(out + [c]) && Height(out + [c]) == Height(out) - 1
  {
    assert (out + [c])[..|out|] == out;
    HeightAppend(out, [c]);
    FilterOne(IsDigit, c);
    FilterOne(IsOperation, c);
  }

  /** Popping operations into an output with enough operands keeps it sound,
      each one taking an operand away. */
  lemma {:induction false} AppendOperations(out: string, ops: string)
    requires Sound(out) && forall c :: c in ops ==> IsOperation(c)
    requires Height(out) > |ops|
    ensures Sound(out + ops) && Height(out + ops) == Height(out) - |ops|
    decreases |ops|
  {
    if ops == [] {
      assert out + ops == out;
    } else {
      var init := ops[..|ops| - 1];
      var c := ops[|ops| - 1];
      assert forall d :: d in init ==> d in ops;
      AppendOperations(out, init);
      assert out + ops == (out + init) + [c];
      AppendOperation(out + init, c);
    }
  }

  /** The character before position `i`, where the padding puts `+` before
      the first one. */
  function Prev(e: string, i: nat): char
    requires i <= |e|
  {
    if i == 0 then '+' else e[i - 1]
  }

  /** Whether position `i` follows an operand: a digit or a `)`. */
  predicate AfterOperand(e: string, i: nat)
    requires i <= |e|
  {
    IsDigit(Prev(e, i)) || Prev(e, i) == ')'
  }

  /** The pair rules of the intended validator, read off the expression. */
  ghost predicate StrictPairs(e: string)
  {
    (forall i :: 0 <= i < |e| ==> PairOk(Prev(e, i), e[i], true)) &&
    PairOk(Prev(e, |e|), '+', true)
  }

  lemma StrictAcceptedPairs(e: string)
    requires CheckCorrectness(e)
    ensures StrictPairs(e)
  {
    var x := Padded(e);
    CheckCorrectnessMeaning(e, true);
    forall i | 0 <= i <= |e|
      ensures PairOk(Prev(e, i), x[i + 2], true)
    {
      assert x[i + 1] == Prev(e, i);
    }
    assert PairOk(Prev(e, |e|), x[|e| + 2], true);
  }

  /** The operand count in the output matches the operations waiting on the
      stack: one more after an operand than before one. */
  predicate ShapeInvariant(e: string, i: nat, st: Shunt)
    requires i <= |e|
  {
    Sound(st.out) && Height(st.out) == |Operations(st.ops)| + (if AfterOperand(e, i) then 1 else 0)
  }

  /** Before `)` or an operation the intended validator has seen an operand. */
  lemma OperandBefore(e: string, i: nat)
    requires i <= |e| && PairOk(Prev(e, i), if i < |e| then e[i] else '+', true)
    requires i == |e| || e[i] == ')' || IsOperation(e[i])
    ensures AfterOperand(e, i)
  {
  }

  /** `)` moves the operations above `(` to the output, one operand each,
      and leaves one operand more than the operations still waiting. */
  lemma CloseHeight(out: string, ops: string, above: string, below: string)
    requires ops == (above + ['(']) + below
    requires Sound(out) && forall c :: c in above ==> IsOperation(c)
    requires Height(out) == |Operations(ops)| + 1
    ensures Sound(out + above) && Height(out + above) == |Operations(below)| + 1
  {
    OperationsOnly(above);
    FilterConcat(IsOperation, above + ['('], below);
    FilterConcat(IsOperation, above, ['(']);
    FilterOne(IsOperation, '(');
    AppendOperations(out, above);
  }

  /** An operation moves the operations of no lower priority to the output
      and waits for its second operand. */
  lemma OperationHeight(out: string, ops: string, above: string, below: string, c: char)
    requires ops == above + below
    requires Sound(out) && IsOperation(c) && forall d :: d in above ==> IsOperation(d)
    requires Height(out) == |Operations(ops)| + 1
    ensures Sound(out + above) && Height(out + above) == |Operations([c] + below)|
  {
    OperationsOnly(above);
    FilterConcat(IsOperation, above, below);
    FilterConcat(IsOperation, [c], below);
    FilterOne(IsOperation, c);
    AppendOperations(out, above);
  }

  /** The stack at `)`: a `(` with only operations above it. */
  lemma CloseSplit(e: string, i: nat, st: Shunt)
    requires i < |e| && e[i] == ')' && LoopInvariant(e, i, st)
    requires Depth(e[..i + 1]) >= 0
    ensures var k := OpenIndex(st.ops);
      k < |st.ops| && Step(st, e[i]) == Ok(Shunt(st.out + st.ops[..k], st.ops[k + 1..])) &&
      st.ops == (st.ops[..k] + ['(']) + st.ops[k + 1..] &&
      forall c :: c in st.ops[..k] ==> IsOperation(c)
  {
    CloseOpens(e, i, st);
    CloseShape(st);
    SplitAtOpen(st.ops, OpenIndex(st.ops));
  }

  /** At `)` with the depth staying non-negative, the stack holds a `(`. */
  lemma CloseOpens(e: string, i: nat, st: Shunt)
    requires i < |e| && e[i] == ')' && LoopInvariant(e, i, st)
    requires Depth(e[..i + 1]) >= 0
    ensures Opens(st.ops) > 0
    ensures forall c :: c in st.ops ==> IsOpen(c) || IsOperation(c)
  {
    DepthStep(e, i);
  }

  /** A stack with `(` at `k` is what lies above it, the `(`, and what lies
      below it. */
  lemma SplitAtOpen(ops: string, k: nat)
    requires k < |ops| && ops[k] == '('
    ensures ops == (ops[..k] + ['(']) + ops[k + 1..]
  {
    assert ops[..k + 1] == ops[..k] + ['('];
  }

  lemma ShapeOpen(e: string, i: nat, st: Shunt)
    requires i < |e| && e[i] == '(' && PairOk(Prev(e, i), e[i], true)
    requires ShapeInvariant(e, i, st)
    ensures ShapeInvariant(e, i + 1, Shunt(st.out, ['('] + st.ops))
  {
    FilterConcat(IsOperation, ['('], st.ops);
    FilterOne(IsOperation, '(');
  }

  lemma ShapeClose(e: string, i: nat, st: Shunt, k: nat)
    requires i < |e| && e[i] == ')' && PairOk(Prev(e, i), e[i], true)
    requires ShapeInvariant(e, i, st)
    requires k < |st.ops| && st.ops == (st.ops[..k] + ['(']) + st.ops[k + 1..]
    requires forall c :: c in st.ops[..k] ==> IsOperation(c)
    ensures ShapeInvariant(e, i + 1, Shunt(st.out + st.ops[..k], st.ops[k + 1..]))
  {
    OperandBefore(e, i);
    CloseHeight(st.out, st.ops, st.ops[..k], st.ops[k + 1..]);
  }

  lemma ShapeOperation(e: string, i: nat, st: Shunt, k: nat)
    requires i < |e| && IsOperation(e[i]) && PairOk(Prev(e, i), e[i], true)
    requires ShapeInvariant(e, i, st)
    requires k <= |st.ops| && forall c :: c in st.ops[..k] ==> IsOperation(c)
    ensures ShapeInvariant(e, i + 1, Shunt(st.out + st.ops[..k], [e[i]] + st.ops[k..]))
  {
    OperandBefore(e, i);
    assert st.ops == st.ops[..k] + st.ops[k..];
    OperationHeight(st.out, st.ops, st.ops[..k], st.ops[k..], e[i]);
  }

  lemma ShapeDigit(e: string, i: nat, st: Shunt)
    requires i < |e| && IsDigit(e[i]) && PairOk(Prev(e, i), e[i], true)
    requires ShapeInvariant(e, i, st)
    ensures ShapeInvariant(e, i + 1, Shunt(st.out + [e[i]], st.ops))
  {
    AppendDigit(st.out, e[i]);
  }

  /** One step of the conversion keeps both invariants. */
  lemma ShapeKeeps(e: string, i: nat, st: Shunt)
    requires Balanced(e) && StrictPairs(e) && i < |e|
    requires LoopInvariant(e, i, st) && ShapeInvariant(e, i, st)
    ensures Step(st, e[i]).Ok?
    ensures LoopInvariant(e, i + 1, Step(st, e[i]).value)
    ensures ShapeInvariant(e, i + 1, Step(st, e[i]).value)
  {
    assert e[i] in e;
    StepKeeps(e, i, st);
    assert PairOk(Prev(e, i), e[i], true);
    if e[i] == '(' {
      ShapeOpen(e, i, st);
    } else if e[i] == ')' {
      CloseSplit(e, i, st);
      ShapeClose(e, i, st, OpenIndex(st.ops));
    } else if IsOperation(e[i]) {
      StepOperationKeeps(e, i, st);
      ShapeOperation(e, i, st, LowerIndex(st.ops, Priority(e[i])));
    } else {
      ShapeDigit(e, i, st);
    }
  }

  /** At the end the stack holds only operations, one fewer than the
      operands in the output, so flushing it leaves exactly one. */
  lemma FlushWellFormed(e: string, st: Shunt)
    requires Balanced(e) && StrictPairs(e)
    requires LoopInvariant(e, |e|, st) && ShapeInvariant(e, |e|, st)
    ensures WellFormed(st.out + st.ops)
  {
    FlushKeeps(e, st);
    OperandBefore(e, |e|);
    OperationsOnly(st.ops);
    AppendOperations(st.out, st.ops);
  }

  lemma {:induction false} ConvertWellFormed(e: string, i: nat, st: Shunt)
    requires Balanced(e) && StrictPairs(e) && i <= |e|
    requires LoopInvariant(e, i, st) && ShapeInvariant(e, i, st)
    ensures Convert(e, i, st).Ok?
    ensures WellFormed(Convert(e, i, st).value)
    decreases |e| - i
  {
    if i == |e| {
      FlushWellFormed(e, st);
    } else {
      ShapeKeeps(e, i, st);
      ConvertWellFormed(e, i + 1, Step(st, e[i]).value);
    }
  }

  /** With the intended validator, every accepted expression converts to a
      reversed Polish expression that evaluates completely, with the digits
      in their original order and each operation once; everything else is a
      `ParseException`. */
  lemma ReversePolishMeaning(e: string)
    ensures ReversePolish(e).Err? <==> !CheckCorrectness(e)
    ensures ReversePolish(e).Err? ==> ReversePolish(e).error == ParseException
    ensures ReversePolish(e).Ok? ==> ConvertedFrom(e, ReversePolish(e).value)
    ensures ReversePolish(e).Ok? ==> WellFormed(ReversePolish(e).value)
  {
    if CheckCorrectness(e) {
      AcceptedIsBalanced(e, true);
      StrictAcceptedPairs(e);
      var st := Shunt([], []);
      assert e[..0] == [];
      ConvertKeeps(e, 0, st);
      assert ShapeInvariant(e, 0, st) by {
        assert Sound(st.out);
      }
      ConvertWellFormed(e, 0, st);
    }
  }
}

=== FILE: calculator_examples.dfy ===
/** Worked conversions, evaluated one character at a time: the inputs that
    show the validator as written letting empty and adjacent parenthesis
    groups through, and conversions the tests of the calculator expect. */
module CalculatorExamples {
  import opened Wrappers
  import opened Calculator

  /** The conversion goes through one character at a time. */
  lemma ConvertThrough(e: string, i: nat, st: Shunt, c: char, next: Shunt, r: Result<string, Failure>)
    requires i < |e| && e[i] == c && Step(st, c) == Ok(next)
    requires Convert(e, i + 1, next) == r
    ensures Convert(e, i, st) == r
  {
  }

  /** A digit goes straight to the output. */
  lemma StepDigit(out: string, ops: string, c: char, next: string)
    requires '0' <= c <= '9' && next == out + [c]
    ensures Step(Shunt(out, ops), c) == Ok(Shunt(next, ops))
  {
  }

  /** An opening parenthesis goes on top of the stack. */
  lemma StepOpen(out: string, ops: string, next: string)
    requires next == ['('] + ops
    ensures Step(Shunt(out, ops), '(') == Ok(Shunt(out, next))
  {
  }

  /** The validator reads the padded expression. */
  lemma CheckThrough(e: string, x: string, strict: bool)
    requires x == "0+" + e + "+0"
    ensures CheckFrom(Padded(e), 0, 0, strict) == CheckFrom(x, 0, 0, strict)
    ensures strict ==> CheckCorrectness(e) == CheckFrom(x, 0, 0, true)
    ensures !strict ==> CheckCorrectnessAsWritten(e) == CheckFrom(x, 0, 0, false)
  {
  }

  // ---------------------------------------------------------------------------
  // `()`: accepted as written, with an empty conversion
  // ---------------------------------------------------------------------------

  lemma EmptyGroupCheckFrom0()
    ensures CheckFrom("0+()+0", 0, 0, false) == true
  {
    assert CheckFrom("0+()+0", 5, 0, false) == true;
    assert CheckFrom("0+()+0", 4, 0, false) == true;
    assert CheckFrom("0+()+0", 3, 1, false) == true;
    assert CheckFrom("0+()+0", 2, 0, false) == true;
    assert CheckFrom("0+()+0", 1, 0, false) == true;
  }

  lemma EmptyGroupCheck()
    ensures CheckCorrectnessAsWritten("()")
  {
    EmptyGroupCheckFrom0();
    CheckThrough("()", "0+()+0", false);
  }

  lemma EmptyGroupStep1()
    ensures Step(Shunt("", "("), ')') == Ok(Shunt("", ""))
  {
    assert OpenIndex("(") == 0;
    assert "("[..0] == "" && "("[0..] == "(";
    assert "("[1..] == "" && "" + "" == "";
  }

  lemma EmptyGroupConverting0(e: string)
    requires e == "()"
    ensures Convert(e, 2, Shunt("", "")) == Ok("")
  {
    assert "" + "" == "";
  }

  lemma EmptyGroupConverting1(e: string)
    requires e == "()"
    ensures Convert(e, 1, Shunt("", "(")) == Ok("")
  {
    EmptyGroupConverting0(e);
    EmptyGroupStep1();
    ConvertThrough(e, 1, Shunt("", "("), ')', Shunt("", ""), Ok(""));
  }

  lemma EmptyGroupConverting2(e: string)
    requires e == "()"
    ensures Convert(e, 0, Shunt("", "")) == Ok("")
  {
    EmptyGroupConverting1(e);
    assert ['('] + "" == "(";
    StepOpen("", "", "(");
    ConvertThrough(e, 0, Shunt("", ""), '(', Shunt("", "("), Ok(""));
  }

  lemma EmptyGroupConverted()
    ensures Convert("()", 0, Shunt("", "")) == Ok("")
  {
    EmptyGroupConverting2("()");
  }

  lemma EmptyGroupStrictCheckFrom0()
    ensures CheckFrom("0+()+0", 0, 0, true) == false
  {
    assert CheckFrom("0+()+0", 2, 0, true) == false;
    assert CheckFrom("0+()+0", 1, 0, true) == false;
  }

  lemma EmptyGroupStrictCheck()
    ensures !CheckCorrectness("()")
  {
    EmptyGroupStrictCheckFrom0();
    CheckThrough("()", "0+()+0", true);
  }

  /** The validator as written accepts `()`, whose conversion is the empty
      output, which has no value; the intended validator refuses it. */
  lemma EmptyGroupAccepted()
    ensures ReversePolishAsWritten("()") == Ok("")
    ensures !WellFormed("")
    ensures ReversePolish("()") == Err(ParseException)
  {
    EmptyGroupCheck();
    EmptyGroupConverted();
    EmptyGroupStrictCheck();
  }

  // ---------------------------------------------------------------------------
  // `(1)(2)`: accepted as written, with two operands left over
  // ---------------------------------------------------------------------------

  lemma AdjacentGroupsCheckFrom0()
    ensures CheckFrom("0+(1)(2)+0", 4, 1, false) == true
  {
    assert CheckFrom("0+(1)(2)+0", 9, 0, false) == true;
    assert CheckFrom("0+(1)(2)+0", 8, 0, false) == true;
    assert CheckFrom("0+(1)(2)+0", 7, 1, false) == true;
    assert CheckFrom("0+(1)(2)+0", 6, 1, false) == true;
    assert CheckFrom("0+(1)(2)+0", 5, 0, false) == true;
  }

  lemma AdjacentGroupsCheckFrom1()
    ensures CheckFrom("0+(1)(2)+0", 0, 0, false) == true
  {
    AdjacentGroupsCheckFrom0();
    assert CheckFrom("0+(1)(2)+0", 3, 1, false) == true;
    assert CheckFrom("0+(1)(2)+0", 2, 0, false) == true;
    assert CheckFrom("0+(1)(2)+0", 1, 0, false) == true;
  }

  lemma AdjacentGroupsCheck()
    ensures CheckCorrectnessAsWritten("(1)(2)")
  {
    AdjacentGroupsCheckFrom1();
    AdjacentGroupsPadded();
    CheckThrough("(1)(2)", "0+(1)(2)+0", false);
  }

  lemma AdjacentGroupsPadded()
    ensures "0+" + "(1)(2)" + "+0" == "0+(1)(2)+0"
  {
  }

  lemma AdjacentGroupsStep2()
    ensures Step(Shunt("1", "("), ')') == Ok(Shunt("1", ""))
  {
    assert OpenIndex("(") == 0;
    assert "("[..0] == "" && "("[0..] == "(";
    assert "("[1..] == "" && "1" + "" == "1";
  }

  lemma AdjacentGroupsStep5()
    ensures Step(Shunt("12", "("), ')') == Ok(Shunt("12", ""))
  {
    assert OpenIndex("(") == 0;
    assert "("[..0] == "" && "("[0..] == "(";
    assert "("[1..] == "" && "12" + "" == "12";
  }

  lemma AdjacentGroupsConverting0(e: string)
    requires e == "(1)(2)"
    ensures Convert(e, 6, Shunt("12", "")) == Ok("12")
  {
    assert "12" + "" == "12";
  }

  lemma AdjacentGroupsConverting1(e: string)
    requires e == "(1)(2)"
    ensures Convert(e, 5, Shunt("12", "(")) == Ok("12")
  {
    AdjacentGroupsConverting0(e);
    AdjacentGroupsStep5();
    ConvertThrough(e, 5, Shunt("12", "("), ')', Shunt("12", ""), Ok("12"));
  }

  lemma AdjacentGroupsConverting2(e: string)
    requires e == "(1)(2)"
    ensures Convert(e, 4, Shunt("1", "(")) == Ok("12")
  {
    AdjacentGroupsConverting1(e);
    assert "1" + ['2'] == "12";
    StepDigit("1", "(", '2', "12");
    ConvertThrough(e, 4, Shunt("1", "("), '2', Shunt("12", "("), Ok("12"));
  }

  lemma AdjacentGroupsConverting3(e: string)
    requires e == "(1)(2)"
    ensures Convert(e, 3, Shunt("1", "")) == Ok("12")
  {
    AdjacentGroupsConverting2(e);
    assert ['('] + "" == "(";
    StepOpen("1", "", "(");
    ConvertThrough(e, 3, Shunt("1", ""), '(', Shunt("1", "("), Ok("12"));
  }

  lemma AdjacentGroupsConverting4(e: string)
    requires e == "(1)(2)"
    ensures Convert(e, 2, Shunt("1", "(")) == Ok("12")
  {
    AdjacentGroupsConverting3(e);
    AdjacentGroupsStep2();
    ConvertThrough(e, 2, Shunt("1", "("), ')', Shunt("1", ""), Ok("12"));
  }

  lemma AdjacentGroupsConverting5(e: string)
    requires e == "(1)(2)"
    ensures Convert(e, 1, Shunt("", "(")) == Ok("12")
  {
    AdjacentGroupsConverting4(e);
    assert "" + ['1'] == "1";
    StepDigit("", "(", '1', "1");
    ConvertThrough(e, 1, Shunt("", "("), '1', Shunt("1", "("), Ok("12"));
  }

  lemma AdjacentGroupsConverting6(e: string)
    requires e == "(1)(2)"
    ensures Convert(e, 0, Shunt("", "")) == Ok("12")
  {
    AdjacentGroupsConverting5(e);
    assert ['('] + "" == "(";
    StepOpen("", "", "(");
    ConvertThrough(e, 0, Shunt("", ""), '(', Shunt("", "("), Ok("12"));
  }

  lemma AdjacentGroupsConverted()
    ensures Convert("(1)(2)", 0, Shunt("", "")) == Ok("12")
  {
    AdjacentGroupsConverting6("(1)(2)");
  }

  lemma AdjacentGroupsStrictCheckFrom0()
    ensures CheckFrom("0+(1)(2)+0", 0, 0, true) == false
  {
    assert CheckFrom("0+(1)(2)+0", 4, 1, true) == false;
    assert CheckFrom("0+(1)(2)+0", 3, 1, true) == false;
    assert CheckFrom("0+(1)(2)+0", 2, 0, true) == false;
    assert CheckFrom("0+(1)(2)+0", 1, 0, true) == false;
  }

  lemma AdjacentGroupsStrictCheck()
    ensures !CheckCorrectness("(1)(2)")
  {
    AdjacentGroupsStrictCheckFrom0();
    AdjacentGroupsPadded();
    CheckThrough("(1)(2)", "0+(1)(2)+0", true);
  }

  /** The validator as written accepts `(1)(2)`, whose conversion leaves two
      operands and no operation; the intended validator refuses it. */
  lemma AdjacentGroupsAccepted()
    ensures ReversePolishAsWritten("(1)(2)") == Ok("12")
    ensures !WellFormed("12")
    ensures ReversePolish("(1)(2)") == Err(ParseException)
  {
    AdjacentGroupsCheck();
    AdjacentGroupsConverted();
    AdjacentGroupsStrictCheck();
    assert Digits("12") == "12";
    assert Operations("12") == "";
  }

  // ---------------------------------------------------------------------------
  // Conversions from the tests of `getReversedPolishNotation`
  // ---------------------------------------------------------------------------

  lemma NestedCheckFrom0()
    ensures CheckFrom("0+1-(2-3)-4+0", 7, 1, true) == true
  {
    assert CheckFrom("0+1-(2-3)-4+0", 12, 0, true) == true;
    assert CheckFrom("0+1-(2-3)-4+0", 11, 0, true) == true;
    assert CheckFrom("0+1-(2-3)-4+0", 10, 0, true) == true;
    assert CheckFrom("0+1-(2-3)-4+0", 9, 0, true) == true;
    assert CheckFrom("0+1-(2-3)-4+0", 8, 1, true) == true;
  }

  lemma NestedCheckFrom1()
    ensures CheckFrom("0+1-(2-3)-4+0", 1, 0, true) == true
  {
    NestedCheckFrom0();
    assert CheckFrom("0+1-(2-3)-4+0", 6, 1, true) == true;
    assert CheckFrom("0+1-(2-3)-4+0", 5, 1, true) == true;
    assert CheckFrom("0+1-(2-3)-4+0", 4, 0, true) == true;
    assert CheckFrom("0+1-(2-3)-4+0", 3, 0, true) == true;
    assert CheckFrom("0+1-(2-3)-4+0", 2, 0, true) == true;
  }

  lemma NestedCheckFrom2()
    ensures CheckFrom("0+1-(2-3)-4+0", 0, 0, true) == true
  {
    NestedCheckFrom1();
  }

  lemma NestedCheck()
    ensures CheckCorrectness("1-(2-3)-4")
  {
    NestedCheckFrom2();
    NestedPadded();
    CheckThrough("1-(2-3)-4", "0+1-(2-3)-4+0", true);
  }

  lemma NestedPadded()
    ensures "0+" + "1-(2-3)-4" + "+0" == "0+1-(2-3)-4+0"
  {
  }

  lemma NestedStep1()
    ensures Step(Shunt("1", ""), '-') == Ok(Shunt("1", "-"))
  {
    assert LowerIndex("", 1) == 0;
    assert Priority('-') == 1;
    assert ""[..0] == "" && ""[0..] == "";
    assert "1" + "" == "1" && ['-'] + "" == "-";
  }

  lemma NestedStep4()
    ensures Step(Shunt("12", "(-"), '-') == Ok(Shunt("12", "-(-"))
  {
    assert LowerIndex("(-", 1) == 0;
    assert Priority('-') == 1;
    assert "(-"[..0] == "" && "(-"[0..] == "(-";
    assert "12" + "" == "12" && ['-'] + "(-" == "-(-";
  }

  lemma NestedStep6()
    ensures Step(Shunt("123", "-(-"), ')') == Ok(Shunt("123-", "-"))
  {
    assert OpenIndex("(-") == 0;
    assert OpenIndex("-(-") == 1;
    assert "-(-"[..1] == "-" && "-(-"[1..] == "(-";
    assert "(-"[1..] == "-" && "123" + "-" == "123-";
  }

  lemma NestedStep7()
    ensures Step(Shunt("123-", "-"), '-') == Ok(Shunt("123--", "-"))
  {
    assert LowerIndex("", 1) == 0;
    assert LowerIndex("-", 1) == 1;
    assert Priority('-') == 1;
    assert "-"[..1] == "-" && "-"[1..] == "";
    assert "123-" + "-" == "123--" && ['-'] + "" == "-";
  }

  lemma NestedConverting0(e: string)
    requires e == "1-(2-3)-4"
    ensures Convert(e, 9, Shunt("123--4", "-")) == Ok("123--4-")
  {
    assert "123--4" + "-" == "123--4-";
  }

  lemma NestedConverting1(e: string)
    requires e == "1-(2-3)-4"
    ensures Convert(e, 8, Shunt("123--", "-")) == Ok("123--4-")
  {
    NestedConverting0(e);
    assert "123--" + ['4'] == "123--4";
    StepDigit("123--", "-", '4', "123--4");
    ConvertThrough(e, 8, Shunt("123--", "-"), '4', Shunt("123--4", "-"), Ok("123--4-"));
  }

  lemma NestedConverting2(e: string)
    requires e == "1-(2-3)-4"
    ensures Convert(e, 7, Shunt("123-", "-")) == Ok("123--4-")
  {
    NestedConverting1(e);
    NestedStep7();
    ConvertThrough(e, 7, Shunt("123-", "-"), '-', Shunt("123--", "-"), Ok("123--4-"));
  }

  lemma NestedConverting3(e: string)
    requires e == "1-(2-3)-4"
    ensures Convert(e, 6, Shunt("123", "-(-")) == Ok("123--4-")
  {
    NestedConverting2(e);
    NestedStep6();
    ConvertThrough(e, 6, Shunt("123", "-(-"), ')', Shunt("123-", "-"), Ok("123--4-"));
  }

  lemma NestedConverting4(e: string)
    requires e == "1-(2-3)-4"
    ensures Convert(e, 5, Shunt("12", "-(-")) == Ok("123--4-")
  {
    NestedConverting3(e);
    assert "12" + ['3'] == "123";
    StepDigit("12", "-(-", '3', "123");
    ConvertThrough(e, 5, Shunt("12", "-(-"), '3', Shunt("123", "-(-"), Ok("123--4-"));
  }

  lemma NestedConverting5(e: string)
    requires e == "1-(2-3)-4"
    ensures Convert(e, 4, Shunt("12", "(-")) == Ok("123--4-")
  {
    NestedConverting4(e);
    NestedStep4();
    ConvertThrough(e, 4, Shunt("12", "(-"), '-', Shunt("12", "-(-"), Ok("123--4-"));
  }

  lemma NestedConverting6(e: string)
    requires e == "1-(2-3)-4"
    ensures Convert(e, 3, Shunt("1", "(-")) == Ok("123--4-")
  {
    NestedConverting5(e);
    assert "1" + ['2'] == "12";
    StepDigit("1", "(-", '2', "12");
    ConvertThrough(e, 3, Shunt("1", "(-"), '2', Shunt("12", "(-"), Ok("123--4-"));
  }

  lemma NestedConverting7(e: string)
    requires e == "1-(2-3)-4"
    ensures Convert(e, 2, Shunt("1", "-")) == Ok("123--4-")
  {
    NestedConverting6(e);
    assert ['('] + "-" == "(-";
    StepOpen("1", "-", "(-");
    ConvertThrough(e, 2, Shunt("1", "-"), '(', Shunt("1", "(-"), Ok("123--4-"));
  }

  lemma NestedConverting8(e: string)
    requires e == "1-(2-3)-4"
    ensures Convert(e, 1, Shunt("1", "")) == Ok("123--4-")
  {
    NestedConverting7(e);
    NestedStep1();
    ConvertThrough(e, 1, Shunt("1", ""), '-', Shunt("1", "-"), Ok("123--4-"));
  }

  lemma NestedConverting9(e: string)
    requires e == "1-(2-3)-4"
    ensures Convert(e, 0, Shunt("", "")) == Ok("123--4-")
  {
    NestedConverting8(e);
    assert "" + ['1'] == "1";
    StepDigit("", "", '1', "1");
    ConvertThrough(e, 0, Shunt("", ""), '1', Shunt("1", ""), Ok("123--4-"));
  }

  lemma NestedConverted()
    ensures Convert("1-(2-3)-4", 0, Shunt("", "")) == Ok("123--4-")
  {
    NestedConverting9("1-(2-3)-4");
  }

  lemma PrioritiesCheckFrom0()
    ensures CheckFrom("0+1+(2-3*4)/5-6+0", 11, 0, true) == true
  {
    assert CheckFrom("0+1+(2-3*4)/5-6+0", 16, 0, true) == true;
    assert CheckFrom("0+1+(2-3*4)/5-6+0", 15, 0, true) == true;
    assert CheckFrom("0+1+(2-3*4)/5-6+0", 14, 0, true) == true;
    assert CheckFrom("0+1+(2-3*4)/5-6+0", 13, 0, true) == true;
    assert CheckFrom("0+1+(2-3*4)/5-6+0", 12, 0, true) == true;
  }

  lemma PrioritiesCheckFrom1()
    ensures CheckFrom("0+1+(2-3*4)/5-6+0", 5, 1, true) == true
  {
    PrioritiesCheckFrom0();
    assert CheckFrom("0+1+(2-3*4)/5-6+0", 10, 1, true) == true;
    assert CheckFrom("0+1+(2-3*4)/5-6+0", 9, 1, true) == true;
    assert CheckFrom("0+1+(2-3*4)/5-6+0", 8, 1, true) == true;
    assert CheckFrom("0+1+(2-3*4)/5-6+0", 7, 1, true) == true;
    assert CheckFrom("0+1+(2-3*4)/5-6+0", 6, 1, true) == true;
  }

  lemma PrioritiesCheckFrom2()
    ensures CheckFrom("0+1+(2-3*4)/5-6+0", 0, 0, true) == true
  {
    PrioritiesCheckFrom1();
    assert CheckFrom("0+1+(2-3*4)/5-6+0", 4, 0, true) == true;
    assert CheckFrom("0+1+(2-3*4)/5-6+0", 3, 0, true) == true;
    assert CheckFrom("0+1+(2-3*4)/5-6+0", 2, 0, true) == true;
    assert CheckFrom("0+1+(2-3*4)/5-6+0", 1, 0, true) == true;
  }

  lemma PrioritiesCheck()
    ensures CheckCorrectness("1+(2-3*4)/5-6")
  {
    PrioritiesCheckFrom2();
    PrioritiesPadded();
    CheckThrough("1+(2-3*4)/5-6", "0+1+(2-3*4)/5-6+0", true);
  }

  lemma PrioritiesPadded()
    ensures "0+" + "1+(2-3*4)/5-6" + "+0" == "0+1+(2-3*4)/5-6+0"
  {
  }

  lemma PrioritiesStep1()
    ensures Step(Shunt("1", ""), '+') == Ok(Shunt("1", "+"))
  {
    assert LowerIndex("", 1) == 0;
    assert Priority('+') == 1;
    assert ""[..0] == "" && ""[0..] == "";
    assert "1" + "" == "1" && ['+'] + "" == "+";
  }

  lemma PrioritiesStep4()
    ensures Step(Shunt("12", "(+"), '-') == Ok(Shunt("12", "-(+"))
  {
    assert LowerIndex("(+", 1) == 0;
    assert Priority('-') == 1;
    assert "(+"[..0] == "" && "(+"[0..] == "(+";
    assert "12" + "" == "12" && ['-'] + "(+" == "-(+";
  }

  lemma PrioritiesStep6()
    ensures Step(Shunt("123", "-(+"), '*') == Ok(Shunt("123", "*-(+"))
  {
    assert LowerIndex("-(+", 2) == 0;
    assert Priority('*') == 2;
    assert "-(+"[..0] == "" && "-(+"[0..] == "-(+";
    assert "123" + "" == "123" && ['*'] + "-(+" == "*-(+";
  }

  lemma PrioritiesStep8()
    ensures Step(Shunt("1234", "*-(+"), ')') == Ok(Shunt("1234*-", "+"))
  {
    assert OpenIndex("(+") == 0;
    assert OpenIndex("-(+") == 1;
    assert OpenIndex("*-(+") == 2;
    assert "*-(+"[..2] == "*-" && "*-(+"[2..] == "(+";
    assert "(+"[1..] == "+" && "1234" + "*-" == "1234*-";
  }

  lemma PrioritiesStep9()
    ensures Step(Shunt("1234*-", "+"), '/') == Ok(Shunt("1234*-", "/+"))
  {
    assert LowerIndex("+", 2) == 0;
    assert Priority('/') == 2;
    assert "+"[..0] == "" && "+"[0..] == "+";
    assert "1234*-" + "" == "1234*-" && ['/'] + "+" == "/+";
  }

  lemma PrioritiesStep11()
    ensures Step(Shunt("1234*-5", "/+"), '-') == Ok(Shunt("1234*-5/+", "-"))
  {
    assert LowerIndex("", 1) == 0;
    assert LowerIndex("+", 1) == 1;
    assert LowerIndex("/+", 1) == 2;
    assert Priority('-') == 1;
    assert "/+"[..2] == "/+" && "/+"[2..] == "";
    assert "1234*-5" + "/+" == "1234*-5/+" && ['-'] + "" == "-";
  }

  lemma PrioritiesConverting0(e: string)
    requires e == "1+(2-3*4)/5-6"
    ensures Convert(e, 13, Shunt("1234*-5/+6", "-")) == Ok("1234*-5/+6-")
  {
    assert "1234*-5/+6" + "-" == "1234*-5/+6-";
  }

  lemma PrioritiesConverting1(e: string)
    requires e == "1+(2-3*4)/5-6"
    ensures Convert(e, 12, Shunt("1234*-5/+", "-")) == Ok("1234*-5/+6-")
  {
    PrioritiesConverting0(e);
    assert "1234*-5/+" + ['6'] == "1234*-5/+6";
    StepDigit("1234*-5/+", "-", '6', "1234*-5/+6");
    ConvertThrough(e, 12, Shunt("1234*-5/+", "-"), '6', Shunt("1234*-5/+6", "-"), Ok("1234*-5/+6-"));
  }

  lemma PrioritiesConverting2(e: string)
    requires e == "1+(2-3*4)/5-6"
    ensures Convert(e, 11, Shunt("1234*-5", "/+")) == Ok("1234*-5/+6-")
  {
    PrioritiesConverting1(e);
    PrioritiesStep11();
    ConvertThrough(e, 11, Shunt("1234*-5", "/+"), '-', Shunt("1234*-5/+", "-"), Ok("1234*-5/+6-"));
  }

  lemma PrioritiesConverting3(e: string)
    requires e == "1+(2-3*4)/5-6"
    ensures Convert(e, 10, Shunt("1234*-", "/+")) == Ok("1234*-5/+6-")
  {
    PrioritiesConverting2(e);
    assert "1234*-" + ['5'] == "1234*-5";
    StepDigit("1234*-", "/+", '5', "1234*-5");
    ConvertThrough(e, 10, Shunt("1234*-", "/+"), '5', Shunt("1234*-5", "/+"), Ok("1234*-5/+6-"));
  }

  lemma PrioritiesConverting4(e: string)
    requires e == "1+(2-3*4)/5-6"
    ensures Convert(e, 9, Shunt("1234*-", "+")) == Ok("1234*-5/+6-")
  {
    PrioritiesConverting3(e);
    PrioritiesStep9();
    ConvertThrough(e, 9, Shunt("1234*-", "+"), '/', Shunt("1234*-", "/+"), Ok("1234*-5/+6-"));
  }

  lemma PrioritiesConverting5(e: string)
    requires e == "1+(2-3*4)/5-6"
    ensures Convert(e, 8, Shunt("1234", "*-(+")) == Ok("1234*-5/+6-")
  {
    PrioritiesConverting4(e);
    PrioritiesStep8();
    ConvertThrough(e, 8, Shunt("1234", "*-(+"), ')', Shunt("1234*-", "+"), Ok("1234*-5/+6-"));
  }

  lemma PrioritiesConverting6(e: string)
    requires e == "1+(2-3*4)/5-6"
    ensures Convert(e, 7, Shunt("123", "*-(+")) == Ok("1234*-5/+6-")
  {
    PrioritiesConverting5(e);
    assert Step(Shunt("123", "*-(+"), '4') == Ok(Shunt("1234", "*-(+")) by {
      assert "123" + ['4'] == "1234";
      StepDigit("123", "*-(+", '4', "1234");
    }
    ConvertThrough(e, 7, Shunt("123", "*-(+"), '4', Shunt("1234", "*-(+"), Ok("1234*-5/+6-"));
  }

  lemma PrioritiesConverting7(e: string)
    requires e == "1+(2-3*4)/5-6"
    ensures Convert(e, 6, Shunt("123", "-(+")) == Ok("1234*-5/+6-")
  {
    PrioritiesConverting6(e);
    PrioritiesStep6();
    ConvertThrough(e, 6, Shunt("123", "-(+"), '*', Shunt("123", "*-(+"), Ok("1234*-5/+6-"));
  }

  lemma PrioritiesConverting8(e: string)
    requires e == "1+(2-3*4)/5-6"
    ensures Convert(e, 5, Shunt("12", "-(+")) == Ok("1234*-5/+6-")
  {
    PrioritiesConverting7(e);
    assert "12" + ['3'] == "123";
    StepDigit("12", "-(+", '3', "123");
    ConvertThrough(e, 5, Shunt("12", "-(+"), '3', Shunt("123", "-(+"), Ok("1234*-5/+6-"));
  }

  lemma PrioritiesConverting9(e: string)
    requires e == "1+(2-3*4)/5-6"
    ensures Convert(e, 4, Shunt("12", "(+")) == Ok("1234*-5/+6-")
  {
    PrioritiesConverting8(e);
    PrioritiesStep4();
    ConvertThrough(e, 4, Shunt("12", "(+"), '-', Shunt("12", "-(+"), Ok("1234*-5/+6-"));
  }

  lemma PrioritiesConverting10(e: string)
    requires e == "1+(2-3*4)/5-6"
    ensures Convert(e, 3, Shunt("1", "(+")) == Ok("1234*-5/+6-")
  {
    PrioritiesConverting9(e);
    assert "1" + ['2'] == "12";
    StepDigit("1", "(+", '2', "12");
    ConvertThrough(e, 3, Shunt("1", "(+"), '2', Shunt("12", "(+"), Ok("1234*-5/+6-"));
  }

  lemma PrioritiesConverting11(e: string)
    requires e == "1+(2-3*4)/5-6"
    ensures Convert(e, 2, Shunt("1", "+")) == Ok("1234*-5/+6-")
  {
    PrioritiesConverting10(e);
    assert ['('] + "+" == "(+";
    StepOpen("1", "+", "(+");
    ConvertThrough(e, 2, Shunt("1", "+"), '(', Shunt("1", "(+"), Ok("1234*-5/+6-"));
  }

  lemma PrioritiesConverting12(e: string)
    requires e == "1+(2-3*4)/5-6"
    ensures Convert(e, 1, Shunt("1", "")) == Ok("1234*-5/+6-")
  {
    PrioritiesConverting11(e);
    PrioritiesStep1();
    ConvertThrough(e, 1, Shunt("1", ""), '+', Shunt("1", "+"), Ok("1234*-5/+6-"));
  }

  lemma PrioritiesConverting13(e: string)
    requires e == "1+(2-3*4)/5-6"
    ensures Convert(e, 0, Shunt("", "")) == Ok("1234*-5/+6-")
  {
    PrioritiesConverting12(e);
    assert "" + ['1'] == "1";
    StepDigit("", "", '1', "1");
    ConvertThrough(e, 0, Shunt("", ""), '1', Shunt("1", ""), Ok("1234*-5/+6-"));
  }

  lemma PrioritiesConverted()
    ensures Convert("1+(2-3*4)/5-6", 0, Shunt("", "")) == Ok("1234*-5/+6-")
  {
    PrioritiesConverting13("1+(2-3*4)/5-6");
  }

  lemma DanglingCheckFrom0()
    ensures CheckFrom("0+1++0", 0, 0, true) == false
  {
    assert CheckFrom("0+1++0", 3, 0, true) == false;
    assert CheckFrom("0+1++0", 2, 0, true) == false;
    assert CheckFrom("0+1++0", 1, 0, true) == false;
  }

  lemma DanglingCheck()
    ensures !CheckCorrectness("1+")
  {
    DanglingCheckFrom0();
    CheckThrough("1+", "0+1++0", true);
  }

  /** Two conversions the tests expect, and a dangling operation refused. */
  lemma Examples()
    ensures ReversePolish("1-(2-3)-4") == Ok("123--4-")
    ensures ReversePolish("1+(2-3*4)/5-6") == Ok("1234*-5/+6-")
    ensures ReversePolish("1+") == Err(ParseException)
  {
    NestedCheck();
    NestedConverted();
    PrioritiesCheck();
    PrioritiesConverted();
    DanglingCheck();
  }
}

=== FILE: collections.dfy ===
/** The list algorithms over functions and predicates: `map`, `filter`,
    `takeWhile`, `takeUnless`, `foldr` and `foldl`. An iterable container is
    a sequence read front to back; the result list is a new sequence. */
module Collections {

  /** `map`: `f` applied to every value, in order. */
  function Map<T, U>(f: T -> U, xs: seq<T>): (r: seq<U>)
    ensures |r| == |xs|
    ensures forall i :: 0 <= i < |xs| ==> r[i] == f(xs[i])
  {
    if xs == [] then [] else [f(xs[0])] + Map(f, xs[1..])
  }

  /** `filter`: the values `p` accepts, in their original order, each as
      often as it occurs; the rest are dropped. */
  function Filter<T>(p: T -> bool, xs: seq<T>): (r: seq<T>)
    ensures |r| <= |xs|
    ensures forall i :: 0 <= i < |r| ==> p(r[i])
    ensures multiset(r) <= multiset(xs)
    ensures forall i :: 0 <= i < |xs| && p(xs[i]) ==> multiset(r)[xs[i]] == multiset(xs)[xs[i]]
    ensures SubsequenceOf(r, xs)
  {
    if xs == [] then []
    else
      var rest := Filter(p, xs[1..]);
      assert xs == [xs[0]] + xs[1..];
      if p(xs[0]) then
        assert ([xs[0]] + rest)[1..] == rest;
        [xs[0]] + rest
      else
        assert SubsequenceOf(rest, xs[1..]);
        rest
  }

  /** `r` can be read off `xs` by dropping some of its values, keeping the
      order of the rest. */
  ghost predicate SubsequenceOf<T>(r: seq<T>, xs: seq<T>)
    decreases |xs|
  {
    if r == [] then true
    else if xs == [] then false
    else (r[0] == xs[0] && SubsequenceOf(r[1..], xs[1..])) || SubsequenceOf(r, xs[1..])
  }

  /** `takeWhile`: the longest prefix of values that `p` accepts; the loop
      stops at the first value it refuses. */
  function TakeWhile<T>(p: T -> bool, xs: seq<T>): (r: seq<T>)
    ensures |r| <= |xs| && r == xs[..|r|]
    ensures forall i :: 0 <= i < |r| ==> p(r[i])
    ensures |r| < |xs| ==> !p(xs[|r|])
  {
    if xs == [] || !p(xs[0]) then []
    else [xs[0]] + TakeWhile(p, xs[1..])
  }

  /** `takeUnless`: `takeWhile` with the negated predicate, so the longest
      prefix of values that `p` refuses. */
  function TakeUnless<T>(p: T -> bool, xs: seq<T>): (r: seq<T>)
    ensures |r| <= |xs| && r == xs[..|r|]
    ensures forall i :: 0 <= i < |r| ==> !p(r[i])
    ensures |r| < |xs| ==> p(xs[|r|])
  {
    TakeWhile(x => !p(x), xs)
  }

  /** The prefix `takeWhile` describes is unique: a prefix of accepted
      values that stops at the end or at a refused value is the result. */
  lemma {:induction false} TakeWhileIsLongest<T>(p: T -> bool, xs: seq<T>, n: nat)
    requires n <= |xs|
    requires forall i :: 0 <= i < n ==> p(xs[i])
    requires n < |xs| ==> !p(xs[n])
    ensures TakeWhile(p, xs) == xs[..n]
    decreases n
  {
    if n > 0 {
      TakeWhileIsLongest(p, xs[1..], n - 1);
      assert xs[..n] == [xs[0]] + xs[1..][..n - 1];
    }
  }

  /** The recursion of `applyBackwards`: the value read from the iterator at
      position `i` combined with the reduction of the rest. */
  function ApplyBackwards<T, U>(f: (T, U) -> U, init: U, xs: seq<T>, i: nat): U
    requires i <= |xs|
    decreases |xs| - i
  {
    if i < |xs| then f(xs[i], ApplyBackwards(f, init, xs, i + 1)) else init
  }

  /** `foldr f z [x1 .. xn]`: `f(x1, f(x2, ... f(xn, z)))`. The index-based
      recursion meets the textbook equations of a right fold. */
  function Foldr<T, U>(f: (T, U) -> U, init: U, xs: seq<T>): (r: U)
    ensures xs == [] ==> r == init
    ensures xs != [] ==> r == f(xs[0], Foldr(f, init, xs[1..]))
    decreases |xs|
  {
    if xs != [] then
      ApplyBackwardsShift(f, init, [xs[0]], xs[1..], 0);
      assert [xs[0]] + xs[1..] == xs;
      ApplyBackwards(f, init, xs, 0)
    else ApplyBackwards(f, init, xs, 0)
  }

  /** A right fold over a concatenation folds the front into the fold of the
      back. */
  lemma {:induction false} FoldrConcat<T, U>(f: (T, U) -> U, init: U, xs: seq<T>, ys: seq<T>)
    ensures Foldr(f, init, xs + ys) == Foldr(f, Foldr(f, init, ys), xs)
  {
    ApplyBackwardsConcat(f, init, xs, ys, 0);
  }

  lemma {:induction false} ApplyBackwardsConcat<T, U>(f: (T, U) -> U, init: U, xs: seq<T>, ys: seq<T>, i: nat)
    requires i <= |xs|
    ensures ApplyBackwards(f, init, xs + ys, i) == ApplyBackwards(f, Foldr(f, init, ys), xs, i)
    decreases |xs| - i
  {
    if i < |xs| {
      ApplyBackwardsConcat(f, init, xs, ys, i + 1);
      assert (xs + ys)[i] == xs[i];
    } else {
      ApplyBackwardsShift(f, init, xs, ys, 0);
    }
  }

  /** Reading `ys` from position `j` inside `xs + ys`. */
  lemma {:induction false} ApplyBackwardsShift<T, U>(f: (T, U) -> U, init: U, xs: seq<T>, ys: seq<T>, j: nat)
    requires j <= |ys|
    ensures ApplyBackwards(f, init, xs + ys, |xs| + j) == ApplyBackwards(f, init, ys, j)
    decreases |ys| - j
  {
    if j < |ys| {
      ApplyBackwardsShift(f, init, xs, ys, j + 1);
      assert (xs + ys)[|xs| + j] == ys[j];
    }
  }

  /** The left fold by its definition: `f(... f(f(z, x1), x2) ..., xn)`,
      peeling the last value. It meets the textbook equation that feeds the
      first value into the initial result. */
  function FoldLeft<T, U>(f: (T, U) -> T, init: T, xs: seq<U>): (r: T)
    ensures xs != [] ==> r == FoldLeft(f, f(init, xs[0]), xs[1..])
    decreases |xs|
  {
    if xs == [] then init
    else
      var front := xs[..|xs| - 1];
      assert front != [] ==> xs[1..][..|xs| - 2] == front[1..];
      f(FoldLeft(f, init, front), xs[|xs| - 1])
  }

  /** `foldl`: the loop that combines the running result with each value in
      turn. */
  method Foldl<T, U>(f: (T, U) -> T, init: T, xs: seq<U>) returns (result: T)
    ensures result == FoldLeft(f, init, xs)
  {
    result := init;
    var i := 0;
    while i < |xs|
      invariant i <= |xs|
      invariant result == FoldLeft(f, init, xs[..i])
    {
      assert xs[..i + 1][..i] == xs[..i];
      result := f(result, xs[i]);
      i := i + 1;
    }
    assert xs[..i] == xs;
  }

  function Reverse<T>(xs: seq<T>): (r: seq<T>)
    ensures |r| == |xs|
    ensures forall i :: 0 <= i < |xs| ==> r[i] == xs[|xs| - 1 - i]
  {
    if xs == [] then [] else Reverse(xs[1..]) + [xs[0]]
  }

  /** The two folds are mirror images: a left fold is a right fold, with
      the arguments of `f` swapped, over the reversed values. */
  lemma {:induction false} FoldLeftIsFoldrOfReverse<T, U>(f: (T, U) -> T, init: T, xs: seq<U>)
    ensures FoldLeft(f, init, xs) == Foldr((x: U, acc: T) => f(acc, x), init, Reverse(xs))
    decreases |xs|
  {
    var g := (x: U, acc: T) => f(acc, x);
    if xs != [] {
      var front := xs[..|xs| - 1];
      var last := xs[|xs| - 1];
      FoldLeftIsFoldrOfReverse(f, init, front);
      assert Reverse(xs) == [last] + Reverse(front);
      FoldrConcat(g, init, [last], Reverse(front));
      var rest := Foldr(g, init, Reverse(front));
      assert ApplyBackwards(g, rest, [last], 1) == rest;
    }
  }

  /** Mapping twice is mapping the composition, `f` first. */
  lemma {:induction false} MapFusion<T, U, V>(f: T -> U, g: U -> V, xs: seq<T>)
    ensures Map(g, Map(f, xs)) == Map(x => g(f(x)), xs)
  {
  }

  /** Filtering a concatenation filters each part. */
  lemma {:induction false} FilterConcat<T>(p: T -> bool, xs: seq<T>, ys: seq<T>)
    ensures Filter(p, xs + ys) == Filter(p, xs) + Filter(p, ys)
    decreases |xs|
  {
    if xs == [] {
      assert xs + ys == ys;
    } else {
      assert (xs + ys)[1..] == xs[1..] + ys;
      FilterConcat(p, xs[1..], ys);
    }
  }

  /** Filtering twice with the same predicate changes nothing more. */
  lemma {:induction false} FilterIdempotent<T>(p: T -> bool, xs: seq<T>)
    ensures Filter(p, Filter(p, xs)) == Filter(p, xs)
    decreases |xs|
  {
    if xs != [] {
      FilterIdempotent(p, xs[1..]);
      if p(xs[0]) {
        var rest := Filter(p, xs[1..]);
        assert ([xs[0]] + rest)[1..] == rest;
      }
    }
  }

  /** The examples of the tests: `takeWhile(x < 5)` of 3, 4, 5, 6 is 3, 4;
      `takeUnless(x < 5)` of 6, 5, 4, 3 is 6, 5; `foldr` of integer division
      over 18, 6, 24, 60 from 5 and `foldl` of it over 2, 3, 4, 5 from 720
      both give 6 (no divisor in them is zero). */
  lemma Examples()
    ensures TakeWhile(x => x < 5, [3, 4, 5, 6]) == [3, 4]
    ensures TakeUnless(x => x < 5, [6, 5, 4, 3]) == [6, 5]
    ensures Foldr((x: int, y: int) => if y == 0 then 0 else x / y, 5, [18, 6, 24, 60]) == 6
    ensures FoldLeft((x: int, y: int) => if y == 0 then 0 else x / y, 720, [2, 3, 4, 5]) == 6
  {
    TakeWhileIsLongest(x => x < 5, [3, 4, 5, 6], 2);
    TakeWhileIsLongest(x => !(x < 5), [6, 5, 4, 3], 2);
    var d := (x: int, y: int) => if y == 0 then 0 else x / y;
    var xs := [18, 6, 24, 60];
    assert ApplyBackwards(d, 5, xs, 3) == 12;
    assert ApplyBackwards(d, 5, xs, 2) == 2;
    assert ApplyBackwards(d, 5, xs, 1) == 3;
    assert ApplyBackwards(d, 5, xs, 0) == 6;
    var ys := [2, 3, 4, 5];
    assert ys[..3] == [2, 3, 4] && [2, 3, 4][..2] == [2, 3] && [2, 3][..1] == [2];
    assert FoldLeft(d, 720, [2]) == 360;
    assert FoldLeft(d, 720, [2, 3]) == 120;
    assert FoldLeft(d, 720, [2, 3, 4]) == 30;
  }
}

=== FILE: default_stack.dfy ===
/** The linked stack with a sentinel: `top` is always a node, and the
    bottom node, whose `previous` is null, holds no value. */
module DefaultStack {
  import opened Wrappers

  /** A node of the chain: the sentinel at the bottom, or a value over the
      node before it. */
  datatype Node<T> = Sentinel | Link(value: T, previous: Node<T>)

  datatype Stack<T> = Stack(size: int, top: Node<T>)

  /** The exception `pop` raises on an empty stack. */
  datatype Failure = EmptyStack

  /** The values of the chain, from the top down. */
  function Contents<T>(n: Node<T>): (r: seq<T>)
    ensures n.Sentinel? <==> r == []
    ensures n.Link? ==> r == [n.value] + Contents(n.previous)
  {
    match n
    case Sentinel => []
    case Link(v, p) => [v] + Contents(p)
  }

  /** `size` counts the nodes above the sentinel. */
  predicate Valid<T>(s: Stack<T>)
  {
    s.size == |Contents(s.top)|
  }

  /** The values of the stack, from the top down. */
  function Elements<T>(s: Stack<T>): seq<T>
  {
    Contents(s.top)
  }

  /** A new stack: size 0 and a lone sentinel. */
  function Empty<T>(): Stack<T>
  {
    Stack(0, Sentinel)
  }

  /** A new stack is well formed and holds no value. */
  lemma EmptyHoldsNothing<T>()
    ensures Valid(Empty<T>()) && Elements(Empty<T>()) == []
  {
  }

  function Size<T>(s: Stack<T>): (r: int)
    requires Valid(s)
    ensures r == |Elements(s)|
  {
    s.size
  }

  /** `empty()`: whether `size` is 0. */
  function IsEmpty<T>(s: Stack<T>): (r: bool)
    requires Valid(s)
    ensures r <==> Elements(s) == []
    ensures r <==> Size(s) == 0
  {
    s.size == 0
  }

  /** `push(v)`: a new top node over the old one. */
  function Push<T>(s: Stack<T>, v: T): (r: Stack<T>)
    requires Valid(s)
    ensures Valid(r)
    ensures Elements(r) == [v] + Elements(s)
    ensures Size(r) == Size(s) + 1
  {
    Stack(s.size + 1, Link(v, s.top))
  }

  /** `pop()`: the top value and the stack below it; on an empty stack
      (the top node is the sentinel) an `EmptyStackException`. */
  function Pop<T>(s: Stack<T>): (r: Result<(T, Stack<T>), Failure>)
    requires Valid(s)
    ensures r.Err? <==> Elements(s) == []
    ensures r.Ok? ==> r.value.0 == Elements(s)[0]
    ensures r.Ok? ==> Valid(r.value.1) && Elements(r.value.1) == Elements(s)[1..]
    ensures r.Ok? ==> Size(r.value.1) == Size(s) - 1
  {
    match s.top
    case Sentinel => Err(EmptyStack)
    case Link(v, p) => Ok((v, Stack(s.size - 1, p)))
  }

  /** `top()`: the value of the top node, which is the sentinel's null on an
      empty stack. */
  function Top<T>(s: Stack<T>): (r: Option<T>)
    requires Valid(s)
    ensures r.None? <==> Elements(s) == []
    ensures r.Some? ==> r.value == Elements(s)[0]
  {
    match s.top
    case Sentinel => None
    case Link(v, _) => Some(v)
  }

  /** `clear()`: size 0 and a fresh sentinel. */
  function Clear<T>(s: Stack<T>): (r: Stack<T>)
    ensures Valid(r) && Elements(r) == []
    ensures r == Empty()
  {
    Stack(0, Sentinel)
  }

  /** Pushing a sequence of values, first to last. */
  function PushAll<T>(s: Stack<T>, vs: seq<T>): (r: Stack<T>)
    requires Valid(s)
    ensures Valid(r)
    ensures |Elements(r)| == |Elements(s)| + |vs|
    decreases |vs|
  {
    if vs == [] then s else PushAll(Push(s, vs[0]), vs[1..])
  }

  /** The values come back out in reverse order of pushing: the last one
      pushed is on top, and the old contents stay underneath. */
  function Reverse<T>(vs: seq<T>): (r: seq<T>)
    ensures |r| == |vs|
    ensures forall k :: 0 <= k < |vs| ==> r[k] == vs[|vs| - 1 - k]
  {
    if vs == [] then [] else Reverse(vs[1..]) + [vs[0]]
  }

  lemma {:induction false} PushAllIsLastInFirstOut<T>(s: Stack<T>, vs: seq<T>)
    requires Valid(s)
    ensures Elements(PushAll(s, vs)) == Reverse(vs) + Elements(s)
    decreases |vs|
  {
    if vs != [] {
      PushAllIsLastInFirstOut(Push(s, vs[0]), vs[1..]);
      assert Reverse(vs) == Reverse(vs[1..]) + [vs[0]];
    }
  }

  /** `pop` undoes `push`, giving back the pushed value and exactly the
      stack it was pushed onto. */
  lemma PopUndoesPush<T>(s: Stack<T>, v: T)
    requires Valid(s)
    ensures Pop(Push(s, v)) == Ok((v, s))
    ensures Top(Push(s, v)) == Some(v)
  {
  }

  /** A failed `pop` leaves the stack unchanged: the empty stack is the one
      value with nothing in it. */
  lemma {:induction false} EmptyIsUnique<T>(s: Stack<T>)
    requires Valid(s) && Elements(s) == []
    ensures s == Empty()
    ensures Pop(s) == Err(EmptyStack) && Top(s) == None
  {
    assert s.top.Sentinel?;
  }
}

=== FILE: functions.dfy ===
/** Functions of one and two arguments and the ways of combining them:
    composition, binding one argument, and currying. A Java function object
    is a Dafny function value; `apply` is application. */
module Functions {

  /** `Function1.compose(g)`: the function that applies this one and then
      `g` to its result. */
  function Compose<T, U, V>(f: T -> U, g: U -> V): T -> V
  {
    x => g(f(x))
  }

  /** `Function2.compose(g)`: `g` applied to the result of this function. */
  function Compose2<T, U, V, W>(f: (T, U) -> V, g: V -> W): (T, U) -> W
  {
    (x, y) => g(f(x, y))
  }

  /** `bind1(x)`: the first argument fixed to `x`. */
  function Bind1<T, U, V>(f: (T, U) -> V, x: T): U -> V
  {
    y => f(x, y)
  }

  /** `bind2(y)`: the second argument fixed to `y`. */
  function Bind2<T, U, V>(f: (T, U) -> V, y: U): T -> V
  {
    x => f(x, y)
  }

  /** `curry(y)`: delegates to `bind2(y)`. */
  function Curry<T, U, V>(f: (T, U) -> V, y: U): T -> V
  {
    Bind2(f, y)
  }

  /** Composition applies the receiver first: `f.compose(g)` at `x` is
      `g(f(x))`, and composing twice nests in the order of the calls. */
  lemma ComposeOrder<T, U, V, W>(f: T -> U, g: U -> V, h: V -> W, x: T)
    ensures Compose(f, g)(x) == g(f(x))
    ensures Compose(Compose(f, g), h)(x) == h(g(f(x)))
    ensures Compose(Compose(f, g), h)(x) == Compose(f, Compose(g, h))(x)
  {
  }

  /** Binding one argument and then the other reaches the same value in
      either order, currying is binding the second argument, and binding
      the first argument loses nothing: two functions whose bindings agree
      at every first argument agree everywhere. */
  lemma BindLaws<T, U, V>(f: (T, U) -> V, h: (T, U) -> V, x: T, y: U)
    ensures Bind1(f, x)(y) == Bind2(f, y)(x)
    ensures Curry(f, y) == Bind2(f, y)
    ensures (forall a :: Bind1(f, a) == Bind1(h, a)) ==> f(x, y) == h(x, y)
  {
  }

  /** Binding and composing commute: composing after binding is binding
      the composition. */
  lemma BindThenCompose<T, U, V, W>(f: (T, U) -> V, g: V -> W, x: T, y: U)
    ensures Compose(Bind1(f, x), g)(y) == Bind1(Compose2(f, g), x)(y)
    ensures Compose(Bind2(f, y), g)(x) == Bind2(Compose2(f, g), y)(x)
    ensures Compose2(f, g)(x, y) == g(f(x, y))
  {
  }

  /** Composition is not commutative: with `f(x) = x + 3` and `g(x) = 8x`,
      `f.compose(g)` at 15 is 144 but `g.compose(f)` is 123. */
  lemma ComposeNotCommutative()
    ensures Compose((x: int) => x + 3, (x: int) => x * 8)(15) == 144
    ensures Compose((x: int) => x * 8, (x: int) => x + 3)(15) == 123
    ensures Compose((x: int) => x + 3, (x: int) => x + 3)(15) == 21
  {
  }

  /** The two-argument examples: `f(x, y) = 2x² + y²` and `g(x) = x²`. */
  lemma Function2Examples()
    ensures Compose2(Sample, Square)(3, 4) == 1156
    ensures Bind1(Sample, 3)(2) == 22 && Compose(Bind1(Sample, 3), Square)(2) == 484
    ensures Bind2(Sample, 3)(2) == 17 && Compose(Bind2(Sample, 3), Square)(4) == 1681
    ensures Curry(Sample, 3)(4) == 41 && Compose(Curry(Sample, 3), Square)(2) == 289
  {
    assert Sample(3, 4) == 34 && Square(34) == 1156;
    assert Sample(3, 2) == 22 && Square(22) == 484;
    assert Sample(2, 3) == 17 && Square(17) == 289;
    assert Sample(4, 3) == 41 && Square(41) == 1681;
  }

  function Sample(x: int, y: int): int
  {
    2 * x * x + y * y
  }

  function Square(x: int): int
  {
    x * x
  }
}

=== FILE: hash_table.dfy ===
/** The chained hash table from `String` keys to nullable `String` values.
    Each bucket is a `LinkedList` of key/value entries compared by key only;
    a Java `null` bucket is modelled as an empty list, since every operation
    treats the two alike. The table is abstracted to a map from keys to
    values, and every public operation is proved against that map. */
module HashTable {
  import opened Wrappers
  import LL = LinkedList
  import opened JavaInt

  /** `String.hashCode`: the polynomial in 31 over the characters, computed in
      32-bit wrapping arithmetic. Wrapping at every step lands where wrapping
      the exact polynomial once does. */
  function HashCode(s: string): (r: int)
    ensures InRange(r)
    ensures r == ToInt32(Polynomial(s))
    decreases |s|
  {
    if s == [] then 0
    else
      var front := s[..|s| - 1];
      WrapScaled(Polynomial(front), 31, s[|s| - 1] as int);
      ToInt32(31 * HashCode(front) + s[|s| - 1] as int)
  }

  /** The exact value of `s[0]·31^(n-1) + … + s[n-1]`, without wrap-around. */
  function Polynomial(s: string): int
    decreases |s|
  {
    if s == [] then 0 else 31 * Polynomial(s[..|s| - 1]) + s[|s| - 1] as int
  }

  /** Wrapping a value before scaling and shifting it changes nothing. */
  lemma WrapScaled(x: int, k: int, c: int)
    ensures ToInt32(k * ToInt32(x) + c) == ToInt32(k * x + c)
  {
    var r := ToInt32(x);
    var q := (x - r) / TwoTo32;
    assert x - r == q * TwoTo32;
    assert (k * x + c) - (k * r + c) == (k * q) * TwoTo32;
    SameResidue(k * r + c, k * x + c);
  }

  /** Java's `%`: the remainder has the sign of the dividend. */
  function JavaRem(a: int, m: int): (r: int)
    requires m >= 1
    ensures -m < r < m
    ensures a >= 0 ==> r >= 0
    ensures a < 0 ==> r <= 0
  {
    if a >= 0 then a % m else -((-a) % m)
  }

  /** The bucket of `key` among `mod` buckets: `getHash` with a negative
      remainder lifted by `mod`, which always lands inside the table. */
  function Slot(key: string, mod: int): (r: int)
    requires mod >= 1
    ensures 0 <= r < mod
  {
    var h := JavaRem(HashCode(key), mod);
    if h < 0 then h + mod else h
  }

  /** `getHash` as written: a negative remainder is lifted by the current
      `capacity` instead of by `mod`. With `mod == capacity`, the case of
      every lookup, it is the bucket `Slot`; during `rebuild`, where `mod` is
      twice the capacity, a negative remainder lands `mod - capacity` below
      its bucket. */
  function GetHashAsWritten(key: string, mod: int, capacity: int): (r: int)
    requires mod >= 1
    ensures mod == capacity ==> r == Slot(key, mod)
    ensures JavaRem(HashCode(key), mod) >= 0 ==> r == Slot(key, mod)
    ensures JavaRem(HashCode(key), mod) < 0 ==> r == Slot(key, mod) - mod + capacity
  {
    var h := JavaRem(HashCode(key), mod);
    if h < 0 then h + capacity else h
  }

  // ---------------------------------------------------------------------------
  // Representation and abstraction
  // ---------------------------------------------------------------------------

  /** `Data`: a key with its (nullable) value; `equals` compares keys only. */
  datatype Entry = Entry(key: string, value: Option<string>)

  type Bucket = LL.LinkedList<Entry>

  datatype Table = Table(buckets: seq<Bucket>, capacity: int, size: int)

  /** The keys of a bucket, which is what `indexOf` and `contains` compare
      against, since `Data.equals` looks at keys alone. */
  function KeyList(b: Bucket): (r: LL.LinkedList<string>)
    ensures |r.items| == |b.items|
    ensures forall i :: 0 <= i < |b.items| ==> r.items[i] == b.items[i].key
  {
    LL.LinkedList(seq(|b.items|, i requires 0 <= i < |b.items| => b.items[i].key))
  }

  predicate WellFormed(t: Table) {
    t.capacity >= 1 && |t.buckets| == t.capacity
  }

  ghost predicate DistinctKeys(es: seq<Entry>) {
    forall i, j :: 0 <= i < j < |es| ==> es[i].key != es[j].key
  }

  /** Every entry sits in the bucket its key hashes to. */
  ghost predicate Placed(bs: seq<Bucket>, mod: int)
    requires mod >= 1
  {
    forall b, i :: 0 <= b < |bs| && 0 <= i < |bs[b].items| ==> Slot(bs[b].items[i].key, mod) == b
  }

  /** The keys stored in buckets `b..`. */
  ghost function KeysFrom(bs: seq<Bucket>, b: nat): set<string>
    requires b <= |bs|
    decreases |bs| - b
  {
    if b == |bs| then {} else (set x | x in KeyList(bs[b]).items) + KeysFrom(bs, b + 1)
  }

  /** Every key stored anywhere in the table. */
  ghost function Keys(t: Table): set<string> {
    KeysFrom(t.buckets, 0)
  }

  /** The representation invariant: `capacity` buckets, each entry in its
      key's bucket, no key twice in a bucket, and `size` counting the keys. */
  ghost predicate Valid(t: Table) {
    && WellFormed(t)
    && Placed(t.buckets, t.capacity)
    && (forall b :: 0 <= b < |t.buckets| ==> DistinctKeys(t.buckets[b].items))
    && t.size == |Keys(t)|
  }

  /** The value of the first entry with key `k`, or `null`. */
  function BucketValue(es: seq<Entry>, k: string): Option<string> {
    if es == [] then None
    else if es[0].key == k then es[0].value
    else BucketValue(es[1..], k)
  }

  /** The map the table represents: each stored key to the value found in
      its own bucket. */
  ghost function Abstract(t: Table): map<string, Option<string>>
    requires WellFormed(t)
  {
    map k | k in Keys(t) :: BucketValue(t.buckets[Slot(k, t.capacity)].items, k)
  }

  /** The value `get` is expected to return: the mapped value, or `null`. */
  ghost function Lookup(m: map<string, Option<string>>, k: string): Option<string> {
    if k in m then m[k] else None
  }

  // ---------------------------------------------------------------------------
  // Lemmas about buckets
  // ---------------------------------------------------------------------------

  /** With distinct keys, any entry with key `k` carries the bucket's value
      for `k`. */
  lemma {:induction false} BucketValueAt(es: seq<Entry>, k: string, i: int)
    requires DistinctKeys(es)
    requires 0 <= i < |es| && es[i].key == k
    ensures BucketValue(es, k) == es[i].value
    decreases |es|
  {
    if i > 0 {
      assert es[0].key != k by { assert es[0].key != es[i].key; }
      assert es[1..][i - 1] == es[i];
      BucketValueAt(es[1..], k, i - 1);
    }
  }

  lemma {:induction false} BucketValueConcat(a: seq<Entry>, c: seq<Entry>, k: string)
    ensures BucketValue(a + c, k) == if k in KeyList(LL.LinkedList(a)).items then BucketValue(a, k) else BucketValue(c, k)
    decreases |a|
  {
    if a == [] {
      assert a + c == c;
    } else {
      assert (a + c)[1..] == a[1..] + c;
      BucketValueConcat(a[1..], c, k);
      var ka := KeyList(LL.LinkedList(a)).items;
      var kr := KeyList(LL.LinkedList(a[1..])).items;
      assert k in ka <==> a[0].key == k || k in kr by {
        assert ka == [a[0].key] + kr;
      }
    }
  }

  lemma {:induction false} BucketValueAbsent(es: seq<Entry>, k: string)
    requires forall i :: 0 <= i < |es| ==> es[i].key != k
    ensures BucketValue(es, k) == None
    decreases |es|
  {
    if es != [] {
      BucketValueAbsent(es[1..], k);
    }
  }

  /** Overwriting the entry of `k` in place: the same keys, the new value for
      `k`, and every other value unchanged. */
  lemma ReplaceEntry(es: seq<Entry>, idx: int, k: string, v: Option<string>)
    requires DistinctKeys(es)
    requires 0 <= idx < |es| && es[idx].key == k
    ensures DistinctKeys(es[idx := Entry(k, v)])
    ensures forall i :: 0 <= i < |es| ==> es[idx := Entry(k, v)][i].key == es[i].key
    ensures BucketValue(es[idx := Entry(k, v)], k) == v
    ensures forall k' :: k' != k ==> BucketValue(es[idx := Entry(k, v)], k') == BucketValue(es, k')
  {
    var es' := es[idx := Entry(k, v)];
    BucketValueAt(es', k, idx);
    forall k' | k' != k
      ensures BucketValue(es', k') == BucketValue(es, k')
    {
      if i :| 0 <= i < |es| && es[i].key == k' {
        BucketValueAt(es, k', i);
        BucketValueAt(es', k', i);
      } else {
        BucketValueAbsent(es, k');
        BucketValueAbsent(es', k');
      }
    }
  }

  /** Appending an entry for an absent key. */
  lemma AppendEntry(es: seq<Entry>, k: string, v: Option<string>)
    requires DistinctKeys(es)
    requires forall i :: 0 <= i < |es| ==> es[i].key != k
    ensures DistinctKeys(es + [Entry(k, v)])
    ensures BucketValue(es + [Entry(k, v)], k) == v
    ensures forall k' :: k' != k ==> BucketValue(es + [Entry(k, v)], k') == BucketValue(es, k')
  {
    var es' := es + [Entry(k, v)];
    BucketValueAt(es', k, |es|);
    forall k' | k' != k
      ensures BucketValue(es', k') == BucketValue(es, k')
    {
      if i :| 0 <= i < |es| && es[i].key == k' {
        BucketValueAt(es, k', i);
        BucketValueAt(es', k', i);
      } else {
        BucketValueAbsent(es, k');
        BucketValueAbsent(es', k');
      }
    }
  }

  /** Unlinking the only entry of `k`. */
  lemma DropEntry(es: seq<Entry>, idx: int, k: string, es': seq<Entry>)
    requires DistinctKeys(es)
    requires 0 <= idx < |es| && es[idx].key == k
    requires es' == es[..idx] + es[idx + 1..]
    ensures DistinctKeys(es')
    ensures forall i :: 0 <= i < |es'| ==> es'[i].key != k
    ensures forall k' :: k' != k ==> BucketValue(es', k') == BucketValue(es, k')
  {
    assert |es'| == |es| - 1;
    assert forall i :: 0 <= i < |es'| ==> es'[i] == es[if i < idx then i else i + 1];
    DropDistinct(es, idx, k, es');
    DropValues(es, idx, k, es');
  }

  /** After unlinking, the keys stay distinct and `k` is gone. */
  lemma DropDistinct(es: seq<Entry>, idx: int, k: string, es': seq<Entry>)
    requires DistinctKeys(es)
    requires 0 <= idx < |es| && es[idx].key == k && |es'| == |es| - 1
    requires forall i :: 0 <= i < |es'| ==> es'[i] == es[if i < idx then i else i + 1]
    ensures DistinctKeys(es')
    ensures forall i :: 0 <= i < |es'| ==> es'[i].key != k
  {
    forall i, j | 0 <= i < j < |es'| ensures es'[i].key != es'[j].key {
      var i0, j0 := if i < idx then i else i + 1, if j < idx then j else j + 1;
      assert es'[i] == es[i0] && es'[j] == es[j0] && i0 < j0;
    }
    forall i | 0 <= i < |es'| ensures es'[i].key != k {
      var i0 := if i < idx then i else i + 1;
      assert es'[i] == es[i0] && i0 != idx;
      if i0 < idx { assert es[i0].key != es[idx].key; }
      else { assert es[idx].key != es[i0].key; }
    }
  }

  /** After unlinking, every other key keeps its value. */
  lemma DropValues(es: seq<Entry>, idx: int, k: string, es': seq<Entry>)
    requires DistinctKeys(es) && DistinctKeys(es')
    requires 0 <= idx < |es| && es[idx].key == k && |es'| == |es| - 1
    requires forall i :: 0 <= i < |es'| ==> es'[i] == es[if i < idx then i else i + 1]
    ensures forall k' :: k' != k ==> BucketValue(es', k') == BucketValue(es, k')
  {
    forall k' | k' != k
      ensures BucketValue(es', k') == BucketValue(es, k')
    {
      if i :| 0 <= i < |es| && es[i].key == k' {
        assert i != idx;
        BucketValueAt(es, k', i);
        assert es'[if i < idx then i else i - 1] == es[i];
        BucketValueAt(es', k', if i < idx then i else i - 1);
      } else {
        BucketValueAbsent(es, k');
        BucketValueAbsent(es', k');
      }
    }
  }

  // ---------------------------------------------------------------------------
  // Lemmas about the table
  // ---------------------------------------------------------------------------

  /** A key is stored iff its own bucket holds it. */
  lemma KeyInSlot(t: Table, k: string)
    requires WellFormed(t) && Placed(t.buckets, t.capacity)
    ensures k in Keys(t) <==> k in KeyList(t.buckets[Slot(k, t.capacity)]).items
  {
    KeysFromSlot(t.buckets, t.capacity, 0, k);
  }

  lemma {:induction false} KeysFromSlot(bs: seq<Bucket>, mod: int, b: nat, k: string)
    requires mod >= 1 && |bs| == mod && Placed(bs, mod) && b <= |bs|
    ensures k in KeysFrom(bs, b) <==> b <= Slot(k, mod) && k in KeyList(bs[Slot(k, mod)]).items
    decreases |bs| - b
  {
    if b < |bs| {
      KeysFromSlot(bs, mod, b + 1, k);
      if k in KeyList(bs[b]).items {
        var i :| 0 <= i < |bs[b].items| && KeyList(bs[b]).items[i] == k;
        assert Slot(bs[b].items[i].key, mod) == b;
      }
    }
  }

  /** Replacing bucket `h` by a bucket `nb` whose entries all hash to `h`
      keeps every entry in its bucket and every bucket free of repeats. */
  lemma UpdateBucket(t: Table, h: int, nb: Bucket, t': Table)
    requires WellFormed(t) && Placed(t.buckets, t.capacity)
    requires forall b :: 0 <= b < |t.buckets| ==> DistinctKeys(t.buckets[b].items)
    requires 0 <= h < t.capacity
    requires forall i :: 0 <= i < |nb.items| ==> Slot(nb.items[i].key, t.capacity) == h
    requires DistinctKeys(nb.items)
    requires t' == Table(t.buckets[h := nb], t.capacity, t'.size)
    ensures WellFormed(t') && Placed(t'.buckets, t'.capacity)
    ensures forall b :: 0 <= b < |t'.buckets| ==> DistinctKeys(t'.buckets[b].items)
  {
    forall b | 0 <= b < |t'.buckets| ensures DistinctKeys(t'.buckets[b].items) {
      if b != h { assert t'.buckets[b] == t.buckets[b]; }
    }
  }

  /** The map after a write that stores `k` with value `v` in its bucket and
      leaves the bucket's other keys and values alone. */
  lemma WriteMapPut(t: Table, k: string, v: Option<string>, nb: Bucket, t': Table)
    requires WellFormed(t) && Placed(t.buckets, t.capacity)
    requires forall i :: 0 <= i < |nb.items| ==> Slot(nb.items[i].key, t.capacity) == Slot(k, t.capacity)
    requires t' == Table(t.buckets[Slot(k, t.capacity) := nb], t.capacity, t'.size)
    requires forall k' :: k' in KeyList(nb).items <==> k' == k || k' in KeyList(t.buckets[Slot(k, t.capacity)]).items
    requires BucketValue(nb.items, k) == v
    requires forall k' :: k' != k ==> BucketValue(nb.items, k') == BucketValue(t.buckets[Slot(k, t.capacity)].items, k')
    ensures Keys(t') == Keys(t) + {k}
    ensures Abstract(t') == Abstract(t)[k := v]
  {
    WriteKeysPut(t, k, nb, t');
    WriteValuesPut(t, k, v, nb, t');
  }

  lemma WriteValuesPut(t: Table, k: string, v: Option<string>, nb: Bucket, t': Table)
    requires WellFormed(t) && Placed(t.buckets, t.capacity)
    requires t' == Table(t.buckets[Slot(k, t.capacity) := nb], t.capacity, t'.size)
    requires Keys(t') == Keys(t) + {k}
    requires BucketValue(nb.items, k) == v
    requires forall k' :: k' != k ==> BucketValue(nb.items, k') == BucketValue(t.buckets[Slot(k, t.capacity)].items, k')
    ensures Abstract(t') == Abstract(t)[k := v]
  {
    AbstractKeys(t);
    AbstractKeys(t');
    forall k' | k' in Keys(t') ensures Abstract(t')[k'] == Abstract(t)[k := v][k'] {
      PutValueAt(t, k, v, nb, t', k');
    }
    SameMap(Abstract(t'), Abstract(t)[k := v], Keys(t'));
  }

  /** The map's keys are the stored keys. */
  lemma AbstractKeys(t: Table)
    requires WellFormed(t)
    ensures Abstract(t).Keys == Keys(t)
  {
  }

  /** One key's value after a put-shaped write. */
  lemma PutValueAt(t: Table, k: string, v: Option<string>, nb: Bucket, t': Table, k': string)
    requires WellFormed(t) && Placed(t.buckets, t.capacity)
    requires t' == Table(t.buckets[Slot(k, t.capacity) := nb], t.capacity, t'.size)
    requires Keys(t') == Keys(t) + {k} && k' in Keys(t')
    requires BucketValue(nb.items, k) == v
    requires k' != k ==> BucketValue(nb.items, k') == BucketValue(t.buckets[Slot(k, t.capacity)].items, k')
    ensures Abstract(t')[k'] == Abstract(t)[k := v][k']
  {
    ValueAfterWrite(t, k, nb, t', k');
  }

  lemma WriteKeysPut(t: Table, k: string, nb: Bucket, t': Table)
    requires WellFormed(t) && Placed(t.buckets, t.capacity)
    requires forall i :: 0 <= i < |nb.items| ==> Slot(nb.items[i].key, t.capacity) == Slot(k, t.capacity)
    requires t' == Table(t.buckets[Slot(k, t.capacity) := nb], t.capacity, t'.size)
    requires forall k' :: k' in KeyList(nb).items <==> k' == k || k' in KeyList(t.buckets[Slot(k, t.capacity)]).items
    ensures Keys(t') == Keys(t) + {k}
  {
    forall k' ensures k' in Keys(t') <==> k' in Keys(t) + {k} {
      KeyAfterWrite(t, k, nb, t', k');
    }
  }

  /** The map after a write that drops `k` from its bucket and leaves the
      bucket's other keys and values alone. */
  lemma WriteMapRemove(t: Table, k: string, nb: Bucket, t': Table)
    requires WellFormed(t) && Placed(t.buckets, t.capacity)
    requires forall i :: 0 <= i < |nb.items| ==> Slot(nb.items[i].key, t.capacity) == Slot(k, t.capacity)
    requires t' == Table(t.buckets[Slot(k, t.capacity) := nb], t.capacity, t'.size)
    requires forall k' :: k' in KeyList(nb).items <==> k' != k && k' in KeyList(t.buckets[Slot(k, t.capacity)]).items
    requires forall k' :: k' != k ==> BucketValue(nb.items, k') == BucketValue(t.buckets[Slot(k, t.capacity)].items, k')
    ensures Keys(t') == Keys(t) - {k}
    ensures Abstract(t') == Abstract(t) - {k}
  {
    WriteKeysRemove(t, k, nb, t');
    WriteValuesRemove(t, k, nb, t');
  }

  lemma WriteKeysRemove(t: Table, k: string, nb: Bucket, t': Table)
    requires WellFormed(t) && Placed(t.buckets, t.capacity)
    requires forall i :: 0 <= i < |nb.items| ==> Slot(nb.items[i].key, t.capacity) == Slot(k, t.capacity)
    requires t' == Table(t.buckets[Slot(k, t.capacity) := nb], t.capacity, t'.size)
    requires forall k' :: k' in KeyList(nb).items <==> k' != k && k' in KeyList(t.buckets[Slot(k, t.capacity)]).items
    ensures Keys(t') == Keys(t) - {k}
  {
    forall k' ensures k' in Keys(t') <==> k' in Keys(t) - {k} {
      KeyAfterWrite(t, k, nb, t', k');
    }
  }

  lemma WriteValuesRemove(t: Table, k: string, nb: Bucket, t': Table)
    requires WellFormed(t) && Placed(t.buckets, t.capacity)
    requires t' == Table(t.buckets[Slot(k, t.capacity) := nb], t.capacity, t'.size)
    requires Keys(t') == Keys(t) - {k}
    requires forall k' :: k' != k ==> BucketValue(nb.items, k') == BucketValue(t.buckets[Slot(k, t.capacity)].items, k')
    ensures Abstract(t') == Abstract(t) - {k}
  {
    AbstractKeys(t);
    AbstractKeys(t');
    forall k' | k' in Keys(t') ensures Abstract(t')[k'] == (Abstract(t) - {k})[k'] {
      ValueAfterWrite(t, k, nb, t', k');
    }
    SameMap(Abstract(t'), Abstract(t) - {k}, Keys(t'));
  }

  /** One key's presence after writing the bucket of `k`. */
  lemma KeyAfterWrite(t: Table, k: string, nb: Bucket, t': Table, k': string)
    requires WellFormed(t) && Placed(t.buckets, t.capacity)
    requires forall i :: 0 <= i < |nb.items| ==> Slot(nb.items[i].key, t.capacity) == Slot(k, t.capacity)
    requires t' == Table(t.buckets[Slot(k, t.capacity) := nb], t.capacity, t'.size)
    requires k' != k ==>
      (k' in KeyList(nb).items <==> k' in KeyList(t.buckets[Slot(k, t.capacity)]).items)
    ensures k' == k ==> (k' in Keys(t') <==> k in KeyList(nb).items)
    ensures k' != k ==> (k' in Keys(t') <==> k' in Keys(t))
  {
    var h := Slot(k, t.capacity);
    KeyInSlot(t, k');
    KeyInSlot(t', k');
    if Slot(k', t.capacity) != h {
      assert t'.buckets[Slot(k', t.capacity)] == t.buckets[Slot(k', t.capacity)];
    }
  }

  /** One key's value after writing the bucket of `k`. */
  lemma ValueAfterWrite(t: Table, k: string, nb: Bucket, t': Table, k': string)
    requires WellFormed(t) && Placed(t.buckets, t.capacity)
    requires t' == Table(t.buckets[Slot(k, t.capacity) := nb], t.capacity, t'.size)
    requires k' in Keys(t') && (k' != k ==> k' in Keys(t))
    requires k' != k ==> BucketValue(nb.items, k') == BucketValue(t.buckets[Slot(k, t.capacity)].items, k')
    ensures k' == k ==> Abstract(t')[k'] == BucketValue(nb.items, k)
    ensures k' != k ==> Abstract(t')[k'] == Abstract(t)[k']
  {
    if Slot(k', t.capacity) != Slot(k, t.capacity) {
      assert t'.buckets[Slot(k', t.capacity)] == t.buckets[Slot(k', t.capacity)];
    }
  }

  // ---------------------------------------------------------------------------
  // Operations
  // ---------------------------------------------------------------------------

  /** `new HashTable()`: one bucket and no entries. */
  function Empty(): (t: Table)
    ensures Valid(t) && Abstract(t) == map[]
    ensures t.capacity == 1
  {
    var t := Table([LL.Empty()], 1, 0);
    assert Keys(t) == {};
    t
  }

  /** `size`. */
  function Size(t: Table): (r: int)
    requires Valid(t)
    ensures r == |Abstract(t)|
  {
    assert Abstract(t).Keys == Keys(t);
    t.size
  }

  /** `contains`: the key's bucket holds an entry with that key. */
  function Contains(t: Table, k: string): (r: bool)
    requires Valid(t)
    ensures r <==> k in Abstract(t)
  {
    KeyInSlot(t, k);
    LL.Contains(KeyList(t.buckets[Slot(k, t.capacity)]), k)
  }

  /** `get`, corrected: the value of the first entry with that key in its
      bucket, or `null`, reached through the list's corrected `get`. */
  function Get(t: Table, k: string): (r: Option<string>)
    requires Valid(t)
    ensures r == Lookup(Abstract(t), k)
  {
    var bucket := t.buckets[Slot(k, t.capacity)];
    var index := LL.IndexOf(KeyList(bucket), k);
    KeyInSlot(t, k);
    if index == -1 then None
    else
      BucketValueAt(bucket.items, k, index);
      bucket.items[index].value
  }

  /** The entries of buckets `b..`, in traversal order. */
  function Flatten(bs: seq<Bucket>, b: nat): (r: seq<Entry>)
    requires b <= |bs|
    ensures forall e :: e in r <==> exists c, i :: b <= c < |bs| && 0 <= i < |bs[c].items| && bs[c].items[i] == e
    decreases |bs| - b
  {
    if b == |bs| then []
    else
      var r := bs[b].items + Flatten(bs, b + 1);
      assert forall e :: e in bs[b].items ==> exists i :: 0 <= i < |bs[b].items| && bs[b].items[i] == e;
      r
  }

  /** The entries of `es` that hash to bucket `j` among `mod`, in order. */
  function Gather(es: seq<Entry>, mod: int, j: int): (r: seq<Entry>)
    requires mod >= 1
    ensures forall e :: e in r <==> e in es && Slot(e.key, mod) == j
    ensures forall i :: 0 <= i < |r| ==> Slot(r[i].key, mod) == j
  {
    if es == [] then []
    else (if Slot(es[0].key, mod) == j then [es[0]] else []) + Gather(es[1..], mod, j)
  }

  /** A fresh array of `mod` buckets, bucket `j` holding the entries of
      `es` that hash to `j`, in order. */
  function Redistribute(es: seq<Entry>, mod: int): (r: seq<Bucket>)
    requires mod >= 1
    ensures |r| == mod
    ensures forall j :: 0 <= j < mod ==> r[j].items == Gather(es, mod, j)
    ensures Placed(r, mod)
  {
    var r := seq(mod, j => LL.LinkedList(Gather(es, mod, j)));
    assert forall b, i :: 0 <= b < |r| && 0 <= i < |r[b].items| ==> Slot(r[b].items[i].key, mod) == b by {
      forall b, i | 0 <= b < |r| && 0 <= i < |r[b].items|
        ensures Slot(r[b].items[i].key, mod) == b
      {
        assert r[b].items == Gather(es, mod, b);
      }
    }
    r
  }

  /** `rebuild`: when `size * 2 >= capacity`, every entry is re-added, in
      traversal order, to its bucket in a table of twice the capacity. */
  function Rebuild(t: Table): (r: Table)
    requires Valid(t)
    ensures Valid(r) && Abstract(r) == Abstract(t)
    ensures r.size == t.size
    ensures r.capacity == if t.size * 2 < t.capacity then t.capacity else 2 * t.capacity
  {
    if t.size * 2 < t.capacity then t
    else
      var newCapacity := t.capacity * 2;
      var all := Flatten(t.buckets, 0);
      var r := Table(Redistribute(all, newCapacity), newCapacity, t.size);
      RebuildKeepsMap(t, r);
      r
  }

  lemma RebuildKeepsMap(t: Table, r: Table)
    requires Valid(t)
    requires r.capacity == 2 * t.capacity && r.size == t.size
    requires r.buckets == Redistribute(Flatten(t.buckets, 0), r.capacity)
    ensures Valid(r) && Abstract(r) == Abstract(t)
  {
    RebuildDistinct(t, r);
    RebuildKeys(t, r);
    RebuildValues(t, r);
  }

  lemma RebuildKeys(t: Table, r: Table)
    requires Valid(t)
    requires r.capacity == 2 * t.capacity
    requires r.buckets == Redistribute(Flatten(t.buckets, 0), r.capacity)
    ensures Keys(r) == Keys(t)
  {
    forall k ensures k in Keys(r) <==> k in Keys(t) {
      RebuildKey(t, r, k);
    }
  }

  lemma RebuildValues(t: Table, r: Table)
    requires Valid(t) && WellFormed(r)
    requires r.capacity == 2 * t.capacity
    requires r.buckets == Redistribute(Flatten(t.buckets, 0), r.capacity)
    requires Keys(r) == Keys(t)
    ensures Abstract(r) == Abstract(t)
  {
    AbstractKeys(r);
    AbstractKeys(t);
    RebuildEveryValue(t, r);
    SameMap(Abstract(r), Abstract(t), Keys(r));
  }

  /** Two maps with the same keys and the same value at each are equal. */
  lemma SameMap(a: map<string, Option<string>>, b: map<string, Option<string>>, ks: set<string>)
    requires a.Keys == ks && b.Keys == ks
    requires forall k :: k in ks ==> a[k] == b[k]
    ensures a == b
  {
  }

  lemma RebuildEveryValue(t: Table, r: Table)
    requires Valid(t) && WellFormed(r)
    requires r.capacity == 2 * t.capacity
    requires r.buckets == Redistribute(Flatten(t.buckets, 0), r.capacity)
    requires Keys(r) == Keys(t)
    ensures forall k :: k in Keys(r) ==> Abstract(r)[k] == Abstract(t)[k]
  {
    forall k | k in Keys(r) ensures Abstract(r)[k] == Abstract(t)[k] {
      RebuildValue(t, r, k);
    }
  }

  /** No bucket of the rebuilt table holds a key twice. */
  lemma RebuildDistinct(t: Table, r: Table)
    requires Valid(t)
    requires r.capacity == 2 * t.capacity
    requires r.buckets == Redistribute(Flatten(t.buckets, 0), r.capacity)
    ensures forall j :: 0 <= j < |r.buckets| ==> DistinctKeys(r.buckets[j].items)
  {
    FlattenDistinct(t, 0);
    forall j | 0 <= j < r.capacity
      ensures DistinctKeys(r.buckets[j].items)
    {
      GatherDistinct(Flatten(t.buckets, 0), r.capacity, j);
    }
  }

  /** A stored key keeps its value through `rebuild`. */
  lemma RebuildValue(t: Table, r: Table, k: string)
    requires Valid(t) && k in Keys(t) && k in Keys(r)
    requires r.capacity == 2 * t.capacity
    requires r.buckets == Redistribute(Flatten(t.buckets, 0), r.capacity)
    ensures Abstract(r)[k] == Abstract(t)[k]
  {
    GatherValue(Flatten(t.buckets, 0), r.capacity, k);
    FirstInFlatten(t, 0, k);
  }

  /** A key is stored after `rebuild` iff it was stored before. */
  lemma RebuildKey(t: Table, r: Table, k: string)
    requires Valid(t)
    requires r.capacity == 2 * t.capacity
    requires r.buckets == Redistribute(Flatten(t.buckets, 0), r.capacity)
    ensures k in Keys(r) <==> k in Keys(t)
  {
    KeyInSlot(r, k);
    KeyInSlot(t, k);
    RebuildKeeps(t, r, k);
    RebuildAddsNothing(t, r, k);
  }

  /** A key in its old bucket reaches its new bucket through `rebuild`. */
  lemma RebuildKeeps(t: Table, r: Table, k: string)
    requires Valid(t)
    requires r.capacity == 2 * t.capacity
    requires r.buckets == Redistribute(Flatten(t.buckets, 0), r.capacity)
    ensures k in KeyList(t.buckets[Slot(k, t.capacity)]).items ==>
      k in KeyList(r.buckets[Slot(k, r.capacity)]).items
  {
    var all := Flatten(t.buckets, 0);
    var j := Slot(k, r.capacity);
    var h := Slot(k, t.capacity);
    var nb := r.buckets[j].items;
    assert nb == Gather(all, r.capacity, j);
    if k in KeyList(t.buckets[h]).items {
      var i :| 0 <= i < |t.buckets[h].items| && KeyList(t.buckets[h]).items[i] == k;
      var e := t.buckets[h].items[i];
      assert e in all;
      assert e in nb;
      var i' :| 0 <= i' < |nb| && nb[i'] == e;
      assert KeyList(r.buckets[j]).items[i'] == k;
    }
  }

  /** A key in its new bucket after `rebuild` came from its old bucket. */
  lemma RebuildAddsNothing(t: Table, r: Table, k: string)
    requires Valid(t)
    requires r.capacity == 2 * t.capacity
    requires r.buckets == Redistribute(Flatten(t.buckets, 0), r.capacity)
    ensures k in KeyList(r.buckets[Slot(k, r.capacity)]).items ==>
      k in KeyList(t.buckets[Slot(k, t.capacity)]).items
  {
    var all := Flatten(t.buckets, 0);
    var j := Slot(k, r.capacity);
    var h := Slot(k, t.capacity);
    var nb := r.buckets[j].items;
    assert nb == Gather(all, r.capacity, j);
    if k in KeyList(r.buckets[j]).items {
      var i :| 0 <= i < |nb| && KeyList(r.buckets[j]).items[i] == k;
      var e := nb[i];
      assert e in all;
      var c, i' :| 0 <= c < |t.buckets| && 0 <= i' < |t.buckets[c].items| && t.buckets[c].items[i'] == e;
      assert c == h;
      assert KeyList(t.buckets[h]).items[i'] == k;
    }
  }

  /** All keys across the buckets from `b` on are distinct, because a key
      can only sit in its own bucket. */
  lemma {:induction false} FlattenDistinct(t: Table, b: nat)
    requires Valid(t) && b <= |t.buckets|
    ensures DistinctKeys(Flatten(t.buckets, b))
    ensures forall e :: e in Flatten(t.buckets, b) ==> Slot(e.key, t.capacity) >= b
    decreases |t.buckets| - b
  {
    if b < |t.buckets| {
      FlattenDistinct(t, b + 1);
      var a: seq<Entry> := t.buckets[b].items;
      var c: seq<Entry> := Flatten(t.buckets, b + 1);
      assert Flatten(t.buckets, b) == a + c;
      forall i, j | 0 <= i < j < |a + c|
        ensures (a + c)[i].key != (a + c)[j].key
      {
        if j >= |a| && i < |a| {
          assert (a + c)[j] in c;
          assert Slot((a + c)[i].key, t.capacity) == b;
        }
      }
      forall e | e in a + c ensures Slot(e.key, t.capacity) >= b {
        if e in a {
          var i :| 0 <= i < |a| && a[i] == e;
        }
      }
    }
  }

  lemma {:induction false} GatherDistinct(es: seq<Entry>, mod: int, j: int)
    requires mod >= 1 && DistinctKeys(es)
    ensures DistinctKeys(Gather(es, mod, j))
    decreases |es|
  {
    if es != [] {
      GatherDistinct(es[1..], mod, j);
      var rest := Gather(es[1..], mod, j);
      if Slot(es[0].key, mod) == j {
        forall i | 0 <= i < |rest| ensures rest[i].key != es[0].key {
          assert rest[i] in es[1..];
          var i' :| 0 <= i' < |es[1..]| && es[1..][i'] == rest[i];
          assert es[i' + 1] == rest[i];
        }
        assert Gather(es, mod, j) == [es[0]] + rest;
      } else {
        assert Gather(es, mod, j) == rest;
      }
    }
  }

  /** The entries of `k`'s new bucket keep their traversal order, so the
      first one with key `k` is the first in the whole traversal. */
  lemma {:induction false} GatherValue(es: seq<Entry>, mod: int, k: string)
    requires mod >= 1
    ensures BucketValue(Gather(es, mod, Slot(k, mod)), k) == BucketValue(es, k)
    decreases |es|
  {
    if es != [] {
      GatherValue(es[1..], mod, k);
      var j := Slot(k, mod);
      if Slot(es[0].key, mod) == j {
        assert Gather(es, mod, j) == [es[0]] + Gather(es[1..], mod, j);
        assert ([es[0]] + Gather(es[1..], mod, j))[1..] == Gather(es[1..], mod, j);
      } else {
        assert es[0].key != k;
        assert Gather(es, mod, j) == Gather(es[1..], mod, j);
      }
    }
  }

  /** In the traversal from bucket `b` up to `k`'s bucket, the first entry
      with key `k` is the one in `k`'s bucket. */
  lemma FirstInFlatten(t: Table, b: nat, k: string)
    requires Valid(t) && b <= Slot(k, t.capacity)
    ensures BucketValue(Flatten(t.buckets, b), k) == BucketValue(t.buckets[Slot(k, t.capacity)].items, k)
  {
    SkipBuckets(t, b, k);
    OwnBucketFirst(t, Slot(k, t.capacity), k);
  }

  /** The buckets from `b` up to `k`'s own add nothing to the search for
      `k`. */
  lemma {:induction false} SkipBuckets(t: Table, b: nat, k: string)
    requires WellFormed(t) && Placed(t.buckets, t.capacity) && b <= Slot(k, t.capacity)
    ensures BucketValue(Flatten(t.buckets, b), k) == BucketValue(Flatten(t.buckets, Slot(k, t.capacity)), k)
    decreases |t.buckets| - b
  {
    if b < Slot(k, t.capacity) {
      SkipBuckets(t, b + 1, k);
      SkipBucket(t, b, k);
    }
  }

  /** From `k`'s own bucket on, the first entry with key `k` is in that
      bucket. */
  lemma OwnBucketFirst(t: Table, b: nat, k: string)
    requires Valid(t) && b == Slot(k, t.capacity)
    ensures BucketValue(Flatten(t.buckets, b), k) == BucketValue(t.buckets[b].items, k)
  {
    var a := t.buckets[b].items;
    BucketValueConcat(a, Flatten(t.buckets, b + 1), k);
    if k !in KeyList(LL.LinkedList(a)).items {
      AbsentFromRest(t, b, k);
    }
  }

  /** A bucket before `k`'s own adds nothing to the search for `k`. */
  lemma SkipBucket(t: Table, b: nat, k: string)
    requires WellFormed(t) && Placed(t.buckets, t.capacity) && b < Slot(k, t.capacity)
    ensures BucketValue(Flatten(t.buckets, b), k) == BucketValue(Flatten(t.buckets, b + 1), k)
  {
    OtherBucket(t, b, k);
    BucketValueConcat(t.buckets[b].items, Flatten(t.buckets, b + 1), k);
  }

  /** A bucket other than `k`'s own holds no entry with key `k`. */
  lemma OtherBucket(t: Table, b: nat, k: string)
    requires WellFormed(t) && Placed(t.buckets, t.capacity) && b < |t.buckets| && b != Slot(k, t.capacity)
    ensures k !in KeyList(LL.LinkedList(t.buckets[b].items)).items
  {
    var a := t.buckets[b].items;
    assert forall i :: 0 <= i < |a| ==> Slot(a[i].key, t.capacity) == b;
  }

  /** A key absent from its own bucket `b` is absent from every later one,
      so neither part of the traversal from `b` has a value for it. */
  lemma AbsentFromRest(t: Table, b: nat, k: string)
    requires Valid(t) && b == Slot(k, t.capacity)
    requires k !in KeyList(LL.LinkedList(t.buckets[b].items)).items
    ensures BucketValue(Flatten(t.buckets, b + 1), k) == None
    ensures BucketValue(t.buckets[b].items, k) == None
  {
    var c := Flatten(t.buckets, b + 1);
    FlattenDistinct(t, b + 1);
    assert forall i :: 0 <= i < |c| ==> c[i] in c;
    BucketValueAbsent(c, k);
    BucketValueAbsent(t.buckets[b].items, k);
  }

  /** The step of `put` after `rebuild`: overwrite the entry of `k` in its
      bucket, or append one and count it. Returns the previous value. */
  function PutInto(t: Table, k: string, v: Option<string>): (res: (Option<string>, Table))
    requires WellFormed(t)
    ensures WellFormed(res.1) && res.1.capacity == t.capacity
  {
    var h := Slot(k, t.capacity);
    var bucket := t.buckets[h];
    var index := LL.IndexOf(KeyList(bucket), k);
    if index != -1 then
      (bucket.items[index].value, Table(t.buckets[h := LL.Set(bucket, index, Entry(k, v))], t.capacity, t.size))
    else
      (None, Table(t.buckets[h := LL.Add(bucket, Entry(k, v))], t.capacity, t.size + 1))
  }

  /** `put`, corrected (the slot of `getHash` and the list's `get` and `set`
      as intended): rebuilds, then maps `k` to `v`, returning the previous
      value; `size` grows only for a new key. */
  function Put(t: Table, k: string, v: Option<string>): (res: (Option<string>, Table))
    requires Valid(t)
    ensures Valid(res.1)
    ensures Abstract(res.1) == Abstract(t)[k := v]
    ensures res.0 == Lookup(Abstract(t), k)
    ensures res.1.size == if k in Abstract(t) then t.size else t.size + 1
    ensures res.1.capacity == if t.size * 2 < t.capacity then t.capacity else 2 * t.capacity
  {
    var t0 := Rebuild(t);
    var res := PutInto(t0, k, v);
    PutIntoKeepsMap(t0, k, v);
    res
  }

  lemma PutIntoKeepsMap(t: Table, k: string, v: Option<string>)
    requires Valid(t)
    ensures Valid(PutInto(t, k, v).1)
    ensures Abstract(PutInto(t, k, v).1) == Abstract(t)[k := v]
    ensures PutInto(t, k, v).0 == Lookup(Abstract(t), k)
    ensures PutInto(t, k, v).1.size == if k in Abstract(t) then t.size else t.size + 1
  {
    var h := Slot(k, t.capacity);
    var bucket := t.buckets[h];
    var index := LL.IndexOf(KeyList(bucket), k);
    KeyInSlot(t, k);
    if index != -1 {
      BucketValueAt(bucket.items, k, index);
      PutReplaces(t, k, v, index);
    } else {
      PutAppends(t, k, v);
    }
  }

  /** `put` of a stored key: the entry is overwritten in place. */
  lemma PutReplaces(t: Table, k: string, v: Option<string>, index: int)
    requires Valid(t)
    requires 0 <= index < |t.buckets[Slot(k, t.capacity)].items|
    requires t.buckets[Slot(k, t.capacity)].items[index].key == k
    ensures var r := Table(t.buckets[Slot(k, t.capacity) := LL.Set(t.buckets[Slot(k, t.capacity)], index, Entry(k, v))], t.capacity, t.size);
      Valid(r) && Abstract(r) == Abstract(t)[k := v] && k in Abstract(t)
  {
    var h := Slot(k, t.capacity);
    var bucket := t.buckets[h];
    var nb := LL.Set(bucket, index, Entry(k, v));
    var r := Table(t.buckets[h := nb], t.capacity, t.size);
    ReplaceInBucket(bucket, h, t.capacity, k, v, index, nb);
    KeyInSlot(t, k);
    UpdateBucket(t, h, nb, r);
    WriteMapPut(t, k, v, nb, r);
    assert Keys(t) + {k} == Keys(t);
  }

  /** The bucket after overwriting the entry of a stored key. */
  lemma ReplaceInBucket(bucket: Bucket, h: int, mod: int, k: string, v: Option<string>, index: int, nb: Bucket)
    requires mod >= 1 && DistinctKeys(bucket.items)
    requires forall i :: 0 <= i < |bucket.items| ==> Slot(bucket.items[i].key, mod) == h
    requires 0 <= index < |bucket.items| && bucket.items[index].key == k
    requires nb == LL.Set(bucket, index, Entry(k, v))
    ensures DistinctKeys(nb.items)
    ensures forall i :: 0 <= i < |nb.items| ==> Slot(nb.items[i].key, mod) == h
    ensures k in KeyList(bucket).items
    ensures forall k' :: k' in KeyList(nb).items <==> k' == k || k' in KeyList(bucket).items
    ensures BucketValue(nb.items, k) == v
    ensures forall k' :: k' != k ==> BucketValue(nb.items, k') == BucketValue(bucket.items, k')
  {
    ReplaceEntry(bucket.items, index, k, v);
    assert KeyList(nb).items == KeyList(bucket).items;
    assert KeyList(bucket).items[index] == k;
  }

  /** `put` of a new key: an entry is appended to its bucket. */
  lemma PutAppends(t: Table, k: string, v: Option<string>)
    requires Valid(t)
    requires k !in KeyList(t.buckets[Slot(k, t.capacity)]).items
    ensures var r := Table(t.buckets[Slot(k, t.capacity) := LL.Add(t.buckets[Slot(k, t.capacity)], Entry(k, v))], t.capacity, t.size + 1);
      Valid(r) && Abstract(r) == Abstract(t)[k := v] && k !in Abstract(t)
  {
    var h := Slot(k, t.capacity);
    var bucket := t.buckets[h];
    var nb := LL.Add(bucket, Entry(k, v));
    var r := Table(t.buckets[h := nb], t.capacity, t.size + 1);
    AppendToBucket(bucket, h, t.capacity, k, v, nb);
    KeyInSlot(t, k);
    UpdateBucket(t, h, nb, r);
    WriteMapPut(t, k, v, nb, r);
  }

  /** The bucket after appending an entry for an absent key. */
  lemma AppendToBucket(bucket: Bucket, h: int, mod: int, k: string, v: Option<string>, nb: Bucket)
    requires mod >= 1 && DistinctKeys(bucket.items)
    requires forall i :: 0 <= i < |bucket.items| ==> Slot(bucket.items[i].key, mod) == h
    requires Slot(k, mod) == h && k !in KeyList(bucket).items
    requires nb == LL.Add(bucket, Entry(k, v))
    ensures DistinctKeys(nb.items)
    ensures forall i :: 0 <= i < |nb.items| ==> Slot(nb.items[i].key, mod) == h
    ensures forall k' :: k' in KeyList(nb).items <==> k' == k || k' in KeyList(bucket).items
    ensures BucketValue(nb.items, k) == v
    ensures forall k' :: k' != k ==> BucketValue(nb.items, k') == BucketValue(bucket.items, k')
  {
    assert forall i :: 0 <= i < |bucket.items| ==> KeyList(bucket).items[i] == bucket.items[i].key;
    AppendEntry(bucket.items, k, v);
    assert KeyList(nb).items == KeyList(bucket).items + [k];
  }

  /** `remove`, corrected (the list's `get` and `remove` as intended):
      unlinks the entry of `k` and returns its value; an absent key changes
      nothing and yields `null`. */
  function Remove(t: Table, k: string): (res: (Option<string>, Table))
    requires Valid(t)
    ensures Valid(res.1)
    ensures Abstract(res.1) == Abstract(t) - {k}
    ensures res.0 == Lookup(Abstract(t), k)
    ensures res.1.size == if k in Abstract(t) then t.size - 1 else t.size
    ensures k !in Abstract(t) ==> res.1 == t
  {
    var h := Slot(k, t.capacity);
    var bucket := t.buckets[h];
    var index := LL.IndexOf(KeyList(bucket), k);
    KeyInSlot(t, k);
    if index == -1 then
      (None, t)
    else
      var r := Table(t.buckets[h := LL.Remove(bucket, index)], t.capacity, t.size - 1);
      RemoveKeepsMap(t, k, index, r);
      (bucket.items[index].value, r)
  }

  lemma RemoveKeepsMap(t: Table, k: string, index: int, r: Table)
    requires Valid(t)
    requires 0 <= index < |t.buckets[Slot(k, t.capacity)].items|
    requires t.buckets[Slot(k, t.capacity)].items[index].key == k
    requires r == Table(t.buckets[Slot(k, t.capacity) := LL.Remove(t.buckets[Slot(k, t.capacity)], index)], t.capacity, t.size - 1)
    ensures Valid(r) && Abstract(r) == Abstract(t) - {k}
    ensures k in Abstract(t) && t.buckets[Slot(k, t.capacity)].items[index].value == Abstract(t)[k]
  {
    var h := Slot(k, t.capacity);
    var bucket := t.buckets[h];
    var nb := r.buckets[h];
    var es := bucket.items;
    KeyInSlot(t, k);
    assert k in KeyList(bucket).items by { assert KeyList(bucket).items[index] == k; }
    BucketValueAt(es, k, index);
    DropEntry(es, index, k, nb.items);
    RemoveKeysOfBucket(es, index, k, nb.items);
    assert forall i :: 0 <= i < |nb.items| ==> nb.items[i] in es;
    UpdateBucket(t, h, nb, r);
    WriteMapRemove(t, k, nb, r);
  }

  /** Unlinking the entry of `k` keeps the other keys of the bucket. */
  lemma RemoveKeysOfBucket(es: seq<Entry>, idx: int, k: string, es': seq<Entry>)
    requires DistinctKeys(es)
    requires 0 <= idx < |es| && es[idx].key == k
    requires es' == es[..idx] + es[idx + 1..]
    ensures forall k' :: k' != k ==>
      (k' in KeyList(LL.LinkedList(es')).items <==> k' in KeyList(LL.LinkedList(es)).items)
  {
    assert forall i :: 0 <= i < |es'| ==> es'[i] == es[if i < idx then i else i + 1];
    forall k' | k' != k && k' in KeyList(LL.LinkedList(es)).items
      ensures k' in KeyList(LL.LinkedList(es')).items
    {
      var i :| 0 <= i < |es| && es[i].key == k';
      assert es'[if i < idx then i else i - 1] == es[i];
      assert KeyList(LL.LinkedList(es')).items[if i < idx then i else i - 1] == k';
    }
  }

  /** `clear`: every bucket emptied, `size` 0, the capacity kept. */
  function Clear(t: Table): (r: Table)
    requires Valid(t)
    ensures Valid(r) && Abstract(r) == map[]
    ensures r.capacity == t.capacity
    ensures forall k :: Get(r, k) == None && !Contains(r, k)
  {
    var r := Table(seq(t.capacity, _ => LL.Empty()), t.capacity, 0);
    forall k ensures k !in Keys(r) {
      KeyInSlot(r, k);
    }
    assert Keys(r) == {};
    r
  }

  // ---------------------------------------------------------------------------
  // rebuild with getHash as written
  // ---------------------------------------------------------------------------

  /** `rebuild` as written: each entry is re-added at `getHash(key,
      2 * capacity)`, which for a negative remainder is off by `capacity`; a
      negative index throws `ArrayIndexOutOfBoundsException` before the new
      table is installed. */
  function RebuildAsWritten(t: Table): (r: Result<Table, string>)
    requires WellFormed(t)
    ensures r.Ok? ==> WellFormed(r.value)
    ensures r.Err? <==> (t.size * 2 >= t.capacity &&
      exists e :: e in Flatten(t.buckets, 0) && GetHashAsWritten(e.key, 2 * t.capacity, t.capacity) < 0)
  {
    if t.size * 2 < t.capacity then Ok(t)
    else
      var newCapacity := t.capacity * 2;
      var all := Flatten(t.buckets, 0);
      if exists e :: e in all && GetHashAsWritten(e.key, newCapacity, t.capacity) < 0 then
        Err("ArrayIndexOutOfBoundsException")
      else
        Ok(Table(RedistributeAsWritten(all, newCapacity, t.capacity), newCapacity, t.size))
  }

  /** The new bucket array of the as-written `rebuild`. */
  function RedistributeAsWritten(es: seq<Entry>, mod: int, capacity: int): (r: seq<Bucket>)
    requires mod >= 1
    ensures |r| == mod
    ensures forall j :: 0 <= j < mod ==> r[j].items == GatherAsWritten(es, mod, capacity, j)
  {
    seq(mod, j => LL.LinkedList(GatherAsWritten(es, mod, capacity, j)))
  }

  /** The entries of `es` that the as-written `getHash` sends to bucket `j`. */
  function GatherAsWritten(es: seq<Entry>, mod: int, capacity: int, j: int): (r: seq<Entry>)
    requires mod >= 1
    ensures forall e :: e in r <==> e in es && GetHashAsWritten(e.key, mod, capacity) == j
  {
    if es == [] then []
    else
      var here := if GetHashAsWritten(es[0].key, mod, capacity) == j then [es[0]] else [];
      here + GatherAsWritten(es[1..], mod, capacity, j)
  }

  // ---------------------------------------------------------------------------
  // get, put and remove on top of the list's getNodeByIndex as written
  // ---------------------------------------------------------------------------

  /** The position `indexOf` reports for `k` in its bucket, or -1. A lookup
      computes `getHash(key, capacity)`, which is the bucket `Slot`. */
  function Position(t: Table, k: string): (r: int)
    requires WellFormed(t)
    ensures -1 <= r < |t.buckets[Slot(k, t.capacity)].items|
    ensures r == -1 <==> k !in KeyList(t.buckets[Slot(k, t.capacity)]).items
    ensures r >= 0 ==> t.buckets[Slot(k, t.capacity)].items[r].key == k
  {
    LL.IndexOf(KeyList(t.buckets[Slot(k, t.capacity)]), k)
  }

  /** `get` as written: `table[hash].get(index)` throws for any key stored
      after the first entry of its bucket; otherwise it agrees with the
      corrected `get`. */
  function GetAsWritten(t: Table, k: string): (r: Result<Option<string>, string>)
    requires WellFormed(t)
    ensures r.Err? <==> Position(t, k) > 0
    ensures Valid(t) && r.Ok? ==> r.value == Get(t, k)
  {
    var bucket := t.buckets[Slot(k, t.capacity)];
    var index := Position(t, k);
    if index == -1 then Ok(None)
    else
      match LL.GetAsWritten(bucket, index)
      case Ok(e) => Ok(e.value.value)
      case Err(_) => Err("NullPointerException")
  }

  /** The step of `put` after `rebuild`, as written: for a stored key,
      `get(index)` and `set(index, …)` throw unless the key is the first entry
      of its bucket; otherwise it is the corrected step. */
  function PutIntoAsWritten(t: Table, k: string, v: Option<string>): (res: Result<(Option<string>, Table), string>)
    requires WellFormed(t)
    ensures res.Err? <==> Position(t, k) > 0
    ensures res.Ok? ==> res.value == PutInto(t, k, v)
  {
    var h := Slot(k, t.capacity);
    var bucket := t.buckets[h];
    var index := Position(t, k);
    if index != -1 then
      match LL.GetAsWritten(bucket, index)
      case Err(_) => Err("NullPointerException")
      case Ok(e) =>
        match LL.SetAsWritten(bucket, index, Entry(k, v))
        case Err(_) => Err("NullPointerException")
        case Ok(nb) => Ok((e.value.value, Table(t.buckets[h := nb], t.capacity, t.size)))
    else
      Ok((None, Table(t.buckets[h := LL.Add(bucket, Entry(k, v))], t.capacity, t.size + 1)))
  }

  /** `put` as written: the as-written `rebuild`, then the as-written step.
      It fails exactly when the rebuild indexes below zero or the key is
      stored after the first entry of its bucket in the rebuilt table. */
  function PutAsWritten(t: Table, k: string, v: Option<string>): (res: Result<(Option<string>, Table), string>)
    requires WellFormed(t)
    ensures res.Ok? ==> WellFormed(res.value.1)
    ensures res.Err? <==> RebuildAsWritten(t).Err? || Position(RebuildAsWritten(t).value, k) > 0
    ensures res.Ok? ==> res.value == PutInto(RebuildAsWritten(t).value, k, v)
  {
    match RebuildAsWritten(t)
    case Ok(t0) => PutIntoAsWritten(t0, k, v)
    case Err(e) => Err(e)
  }

  /** `remove` as written: `get(index)` and `remove(index)` throw for any key
      stored after the first entry of its bucket; otherwise it agrees with
      the corrected `remove`. */
  function RemoveAsWritten(t: Table, k: string): (res: Result<(Option<string>, Table), string>)
    requires WellFormed(t)
    ensures res.Err? <==> Position(t, k) > 0
    ensures Valid(t) && res.Ok? ==> res.value == Remove(t, k)
  {
    var h := Slot(k, t.capacity);
    var bucket := t.buckets[h];
    var index := Position(t, k);
    if index == -1 then Ok((None, t))
    else
      match LL.GetAsWritten(bucket, index)
      case Err(_) => Err("NullPointerException")
      case Ok(e) =>
        match LL.RemoveAsWritten(bucket, index)
        case Err(_) => Err("NullPointerException")
        case Ok(nb) => Ok((e.value.value, Table(t.buckets[h := nb], t.capacity, t.size - 1)))
  }

  /** The key used by the two counterexamples below. */
  const NegativeKey: string := "aaaaab"

  lemma NegativeKeyHash()
    ensures HashCode(NegativeKey) == -1425372063
    ensures JavaRem(HashCode(NegativeKey), 2) == -1 && JavaRem(HashCode(NegativeKey), 4) == -3
  {
    assert NegativeKey[..5] == "aaaaa";
    assert "aaaaa"[..4] == "aaaa";
    assert "aaaa"[..3] == "aaa";
    assert "aaa"[..2] == "aa";
    assert "aa"[..1] == "a";
    assert "a"[..0] == "";
    assert HashCode("a") == 97;
    assert HashCode("aa") == 3104;
    assert HashCode("aaa") == 96321;
    assert HashCode("aaaa") == 2986048;
    assert HashCode("aaaaa") == 92567585;
  }

  /** `put` into an empty bucket appends the entry and counts it. */
  lemma PutIntoEmptyBucket(t: Table, k: string, v: Option<string>)
    requires WellFormed(t) && t.buckets[Slot(k, t.capacity)].items == []
    ensures PutInto(t, k, v) ==
      (None, Table(t.buckets[Slot(k, t.capacity) := LL.LinkedList([Entry(k, v)])], t.capacity, t.size + 1))
  {
    var bucket := t.buckets[Slot(k, t.capacity)];
    assert KeyList(bucket).items == [];
    assert LL.Add(bucket, Entry(k, v)).items == [Entry(k, v)];
  }

  /** The table after `put(NegativeKey, "a")` on a new table. */
  lemma FirstPutOfNegativeKey()
    ensures PutAsWritten(Empty(), NegativeKey, Some("a")) ==
      Ok((None, Table([LL.LinkedList([Entry(NegativeKey, Some("a"))])], 1, 1)))
  {
    var t0 := Empty();
    assert RebuildAsWritten(t0) == Ok(t0);
    assert Slot(NegativeKey, 1) == 0;
    PutIntoEmptyBucket(t0, NegativeKey, Some("a"));
    assert t0.buckets[0 := LL.LinkedList([Entry(NegativeKey, Some("a"))])] == [LL.LinkedList([Entry(NegativeKey, Some("a"))])];
  }

  /** The as-written `rebuild` of that table moves the entry to bucket 0. */
  lemma RebuildMovesNegativeKey(v: Option<string>)
    ensures RebuildAsWritten(Table([LL.LinkedList([Entry(NegativeKey, v)])], 1, 1)) ==
      Ok(Table([LL.LinkedList([Entry(NegativeKey, v)]), LL.LinkedList([])], 2, 1))
  {
    NegativeKeyHash();
    var t := Table([LL.LinkedList([Entry(NegativeKey, v)])], 1, 1);
    var all := [Entry(NegativeKey, v)];
    assert Flatten(t.buckets, 0) == all by {
      assert Flatten(t.buckets, 1) == [];
    }
    assert GetHashAsWritten(NegativeKey, 2, 1) == 0;
    assert GatherAsWritten(all, 2, 1, 0) == all by {
      assert all[1..] == [];
    }
    assert GatherAsWritten(all, 2, 1, 1) == [] by {
      assert all[1..] == [];
    }
    var nb := RedistributeAsWritten(all, 2, 1);
    assert nb == [LL.LinkedList(all), LL.LinkedList([])];
  }

  /** Two `put`s of the same key whose hash code is negative and odd: the
      first `rebuild` moves the entry to bucket 0 while lookups look in
      bucket 1, so the second `put` adds the key again and `size()` is 2.
      The corrected table keeps one entry. */
  lemma SamePutTwiceCountsTwice()
    ensures var t1 := PutAsWritten(Empty(), NegativeKey, Some("a"));
      && t1.Ok?
      && var t2 := PutAsWritten(t1.value.1, NegativeKey, Some("b"));
      && t2.Ok? && t2.value.1.size == 2
    ensures Put(Put(Empty(), NegativeKey, Some("a")).1, NegativeKey, Some("b")).1.size == 1
  {
    NegativeKeyHash();
    FirstPutOfNegativeKey();
    RebuildMovesNegativeKey(Some("a"));
    var t1' := Table([LL.LinkedList([Entry(NegativeKey, Some("a"))]), LL.LinkedList([])], 2, 1);
    assert Slot(NegativeKey, 2) == 1;
    PutIntoEmptyBucket(t1', NegativeKey, Some("b"));
  }

  /** The as-written `rebuild` of the table holding only "a" moves it to
      bucket 1, where it belongs. */
  lemma RebuildKeepsA()
    ensures RebuildAsWritten(Table([LL.LinkedList([Entry("a", None)])], 1, 1)) ==
      Ok(Table([LL.LinkedList([]), LL.LinkedList([Entry("a", None)])], 2, 1))
  {
    var t := Table([LL.LinkedList([Entry("a", None)])], 1, 1);
    var all := [Entry("a", None)];
    assert Flatten(t.buckets, 0) == all by {
      assert Flatten(t.buckets, 1) == [];
    }
    assert HashCode("a") == 97 by { assert "a"[..0] == ""; }
    assert GetHashAsWritten("a", 2, 1) == 1;
    assert GatherAsWritten(all, 2, 1, 0) == [] by {
      assert all[1..] == [];
    }
    assert GatherAsWritten(all, 2, 1, 1) == all by {
      assert all[1..] == [];
    }
    var nb := RedistributeAsWritten(all, 2, 1);
    assert nb == [LL.LinkedList([]), LL.LinkedList(all)];
  }

  /** The second `put`, of `NegativeKey` after "a": the `rebuild` keeps "a"
      in bucket 1, and the new key joins it there. */
  lemma SecondPutJoinsA()
    ensures PutAsWritten(Table([LL.LinkedList([Entry("a", None)])], 1, 1), NegativeKey, None) ==
      Ok((None, Table([LL.LinkedList([]), LL.LinkedList([Entry("a", None), Entry(NegativeKey, None)])], 2, 2)))
  {
    NegativeKeyHash();
    RebuildKeepsA();
    var t1' := Table([LL.LinkedList([]), LL.LinkedList([Entry("a", None)])], 2, 1);
    assert Slot(NegativeKey, 2) == 1;
    assert LL.IndexOf(KeyList(t1'.buckets[1]), NegativeKey) == -1 by {
      assert KeyList(t1'.buckets[1]).items == ["a"];
    }
    var nb := LL.Add(t1'.buckets[1], Entry(NegativeKey, None));
    assert nb == LL.LinkedList([Entry("a", None), Entry(NegativeKey, None)]);
    assert t1'.buckets[1 := nb] == [LL.LinkedList([]), nb];
  }

  /** `put("a")`, `put(NegativeKey)`, `put("b")`: the third `rebuild` sends
      the second key to bucket -1 and throws. */
  lemma ThirdPutIndexesBelowZero()
    ensures var t1 := PutAsWritten(Empty(), "a", None);
      && t1.Ok?
      && var t2 := PutAsWritten(t1.value.1, NegativeKey, None);
      && t2.Ok?
      && PutAsWritten(t2.value.1, "b", None).Err?
  {
    var t0 := Empty();
    var a := Entry("a", None);
    var k := Entry(NegativeKey, None);
    assert RebuildAsWritten(t0) == Ok(t0);
    assert Slot("a", 1) == 0;
    PutIntoEmptyBucket(t0, "a", None);
    assert t0.buckets[0 := LL.LinkedList([a])] == [LL.LinkedList([a])];
    SecondPutJoinsA();
    var t2 := Table([LL.LinkedList([]), LL.LinkedList([a, k])], 2, 2);
    assert Flatten(t2.buckets, 0) == [a, k] by {
      assert Flatten(t2.buckets, 2) == [];
      assert Flatten(t2.buckets, 1) == [a, k];
    }
    NegativeKeyHash();
    assert GetHashAsWritten(NegativeKey, 4, 2) == -1;
  }

  /** The first `put("a")` on a new table. */
  lemma FirstPutOfA()
    ensures PutAsWritten(Empty(), "a", None) == Ok((None, Table([LL.LinkedList([Entry("a", None)])], 1, 1)))
  {
    var t0 := Empty();
    assert RebuildAsWritten(t0) == Ok(t0);
    assert Slot("a", 1) == 0;
    PutIntoEmptyBucket(t0, "a", None);
    assert t0.buckets[0 := LL.LinkedList([Entry("a", None)])] == [LL.LinkedList([Entry("a", None)])];
  }

  /** `put("c", "x")` after `put("a")`: the rebuild keeps "a" in bucket 1,
      and "c" joins it there as the second entry. */
  lemma SecondPutJoinsBucket()
    ensures PutAsWritten(Table([LL.LinkedList([Entry("a", None)])], 1, 1), "c", Some("x")) ==
      Ok((None, Table([LL.LinkedList([]), LL.LinkedList([Entry("a", None), Entry("c", Some("x"))])], 2, 2)))
  {
    RebuildKeepsA();
    var t1' := Table([LL.LinkedList([]), LL.LinkedList([Entry("a", None)])], 2, 1);
    assert HashCode("c") == 99 by { assert "c"[..0] == ""; }
    assert Slot("c", 2) == 1;
    assert Position(t1', "c") == -1 by {
      assert KeyList(t1'.buckets[1]).items == ["a"];
    }
    var nb := LL.Add(t1'.buckets[1], Entry("c", Some("x")));
    assert nb == LL.LinkedList([Entry("a", None), Entry("c", Some("x"))]);
    assert t1'.buckets[1 := nb] == [LL.LinkedList([]), nb];
  }

  /** In that table "c" is the second entry of its bucket. */
  lemma SecondEntryThrows(t: Table)
    requires t == Table([LL.LinkedList([]), LL.LinkedList([Entry("a", None), Entry("c", Some("x"))])], 2, 2)
    ensures GetAsWritten(t, "c").Err? && RemoveAsWritten(t, "c").Err?
  {
    assert HashCode("c") == 99 by { assert "c"[..0] == ""; }
    assert Slot("c", 2) == 1;
    assert KeyList(t.buckets[1]).items == ["a", "c"];
  }

  /** `put("a")`, `put("c", "x")`, then `get("c")` and `remove("c")`: both
      keys hash to bucket 1 of 2, "c" is its second entry, and reaching
      position 1 of the bucket throws. The corrected table answers "x". */
  lemma SecondInBucketThrows()
    ensures var t1 := PutAsWritten(Empty(), "a", None);
      && t1.Ok?
      && var t2 := PutAsWritten(t1.value.1, "c", Some("x"));
      && t2.Ok?
      && GetAsWritten(t2.value.1, "c").Err?
      && RemoveAsWritten(t2.value.1, "c").Err?
    ensures Get(Put(Put(Empty(), "a", None).1, "c", Some("x")).1, "c") == Some("x")
  {
    FirstPutOfA();
    SecondPutJoinsBucket();
    SecondEntryThrows(Table([LL.LinkedList([]), LL.LinkedList([Entry("a", None), Entry("c", Some("x"))])], 2, 2));
  }
}

=== FILE: injector.dfy ===
/** The dependency injector: given the name of a root class and a list of
    implementation classes, it builds the root by building, depth first,
    the one implementation of each constructor parameter's type, each class
    at most once. A class here is a record: its name, whether it can be
    instantiated, the types it can be assigned to, and the parameter types
    of its first public constructor. Instances are not modelled; an
    implementation's instance is named by its index, since each is built
    once and shared. */
module Injector {
  import Wrappers

  /** Whether a class can be instantiated: an interface or an abstract
      class cannot. */
  datatype Kind = Concrete | Abstract | Interface

  /** A class: `supertypes` are the names of the classes and interfaces it
      extends or implements, directly or not, and `params` the parameter
      types of `getConstructors()[0]`. */
  datatype Impl = Impl(name: string, kind: Kind, supertypes: set<string>, params: seq<string>)

  /** The exceptions: `AmbiguousImplementationException`,
      `ImplementationNotFoundException`, `InjectionCycleException`, and the
      reflection failure of instantiating an interface or abstract root. */
  datatype Error = Ambiguous | NotFound | Cycle | NotInstantiable

  /** `t.isAssignableFrom(c)`. */
  predicate Assignable(t: string, c: Impl)
  {
    t == c.name || t in c.supertypes
  }

  // ---------------------------------------------------------------------------
  // Looking a class up: getRootClass, getImplementation
  // ---------------------------------------------------------------------------

  /** The scan both look-ups make from index `i` on: the one class `want`
      accepts, `Ambiguous` at the second accepted, `NotFound` if none is.
      `found` is the accepted class seen before `i`, if any. */
  function Unique(impls: seq<Impl>, want: Impl -> bool, i: nat, found: Wrappers.Option<nat>): (r: Wrappers.Result<nat, Error>)
    requires i <= |impls|
    ensures r.Ok? || r == Wrappers.Err(NotFound) || r == Wrappers.Err(Ambiguous)
    decreases |impls| - i
  {
    if i == |impls| then
      (if found.None? then Wrappers.Err(NotFound) else Wrappers.Ok(found.value))
    else if want(impls[i]) then
      (if found.None? then Unique(impls, want, i + 1, Wrappers.Some(i)) else Wrappers.Err(Ambiguous))
    else Unique(impls, want, i + 1, found)
  }

  /** What the scan has seen before `i`: `found` is the one accepted class,
      or there is none. */
  predicate SeenBefore(impls: seq<Impl>, want: Impl -> bool, i: nat, found: Wrappers.Option<nat>)
    requires i <= |impls|
  {
    (found.None? ==> forall k :: 0 <= k < i ==> !want(impls[k])) &&
    (found.Some? ==>
      found.value < i && want(impls[found.value]) &&
      forall k :: 0 <= k < i && k != found.value ==> !want(impls[k]))
  }

  /** The scan's answer: the index of the only accepted class, `NotFound`
      when no class is accepted, and `Ambiguous` when two are. */
  lemma {:induction false} UniqueMeans(impls: seq<Impl>, want: Impl -> bool, i: nat, found: Wrappers.Option<nat>)
    requires i <= |impls| && SeenBefore(impls, want, i, found)
    ensures var r := Unique(impls, want, i, found);
      (r.Ok? ==>
        r.value < |impls| && want(impls[r.value]) &&
        forall k :: 0 <= k < |impls| && want(impls[k]) ==> k == r.value) &&
      (r == Wrappers.Err(NotFound) ==> forall k :: 0 <= k < |impls| ==> !want(impls[k])) &&
      (r == Wrappers.Err(Ambiguous) ==> exists k1, k2 :: 0 <= k1 < k2 < |impls| && want(impls[k1]) && want(impls[k2]))
    decreases |impls| - i
  {
    if i < |impls| {
      if want(impls[i]) {
        if found.None? {
          UniqueMeans(impls, want, i + 1, Wrappers.Some(i));
        } else {
          assert want(impls[found.value]) && want(impls[i]);
        }
      } else {
        UniqueMeans(impls, want, i + 1, found);
      }
    }
  }

  /** `getRootClass`: the one class named `rootName`. */
  function GetRootClass(rootName: string, impls: seq<Impl>): (r: Wrappers.Result<nat, Error>)
    ensures r.Ok? ==> r.value < |impls| && impls[r.value].name == rootName
    ensures r.Ok? ==> forall k :: 0 <= k < |impls| && impls[k].name == rootName ==> k == r.value
    ensures r == Wrappers.Err(NotFound) <==> forall k :: 0 <= k < |impls| ==> impls[k].name != rootName
    ensures r == Wrappers.Err(Ambiguous) <==>
      exists k1, k2 :: 0 <= k1 < k2 < |impls| && impls[k1].name == rootName && impls[k2].name == rootName
  {
    var want := (c: Impl) => c.name == rootName;
    UniqueMeans(impls, want, 0, Wrappers.None);
    Unique(impls, want, 0, Wrappers.None)
  }

  /** A class `getImplementation` accepts for type `t`: one that can be
      instantiated and assigned to `t`. */
  predicate Candidate(t: string, c: Impl)
  {
    c.kind == Concrete && Assignable(t, c)
  }

  /** `getImplementation(t)`: the one instantiable class assignable to
      `t`. */
  function GetImplementation(t: string, impls: seq<Impl>): (r: Wrappers.Result<nat, Error>)
    ensures r.Ok? ==> r.value < |impls| && Candidate(t, impls[r.value])
    ensures r.Ok? ==> forall k :: 0 <= k < |impls| && Candidate(t, impls[k]) ==> k == r.value
    ensures r == Wrappers.Err(NotFound) <==> forall k :: 0 <= k < |impls| ==> !Candidate(t, impls[k])
    ensures r == Wrappers.Err(Ambiguous) <==>
      exists k1, k2 :: 0 <= k1 < k2 < |impls| && Candidate(t, impls[k1]) && Candidate(t, impls[k2])
  {
    var want := (c: Impl) => Candidate(t, c);
    UniqueMeans(impls, want, 0, Wrappers.None);
    Unique(impls, want, 0, Wrappers.None)
  }

  // ---------------------------------------------------------------------------
  // resolveDependencies: the three-colour search
  // ---------------------------------------------------------------------------

  /** The search's state: `type`, the colour of each class (0 not reached,
      1 being built, 2 built), and the classes built so far, in the order
      their constructors ran. */
  datatype Search = Search(colors: seq<int>, built: seq<nat>)

  /** The number of classes not reached. */
  function Unreached(c: seq<int>): nat
  {
    if c == [] then 0 else (if c[0] == 0 then 1 else 0) + Unreached(c[1..])
  }

  /** Recolouring one class changes the count only by that class. */
  lemma {:induction false} UnreachedUpdate(c: seq<int>, k: nat, v: int)
    requires k < |c|
    ensures Unreached(c[k := v]) ==
      Unreached(c) - (if c[k] == 0 then 1 else 0) + (if v == 0 then 1 else 0)
  {
    if k > 0 {
      UnreachedUpdate(c[1..], k - 1, v);
      assert c[k := v][1..] == c[1..][k - 1 := v];
    }
  }

  /** The state is well formed: a colour for each class, and the built
      classes are exactly those coloured 2, each once. */
  predicate Sound(impls: seq<Impl>, s: Search)
  {
    |s.colors| == |impls| &&
    (forall k :: 0 <= k < |impls| ==> 0 <= s.colors[k] <= 2) &&
    (forall p :: 0 <= p < |s.built| ==> s.built[p] < |impls|) &&
    (forall k :: 0 <= k < |impls| ==> (s.colors[k] == 2 <==> k in s.built)) &&
    (forall p, q :: 0 <= p < q < |s.built| ==> s.built[p] != s.built[q])
  }

  /** Parameter `j` of class `o` has an implementation, and it is among
      `built`. */
  predicate ParamBuilt(impls: seq<Impl>, o: nat, j: nat, built: seq<nat>)
    requires o < |impls| && j < |impls[o].params|
  {
    var d := GetImplementation(impls[o].params[j], impls);
    d.Ok? && d.value in built
  }

  /** Every class was built after the implementations of all its
      parameters. */
  predicate PostOrder(impls: seq<Impl>, built: seq<nat>)
  {
    forall p :: 0 <= p < |built| ==>
      built[p] < |impls| &&
      forall j :: 0 <= j < |impls[built[p]].params| ==> ParamBuilt(impls, built[p], j, built[..p])
  }

  /** A search step only moves on: built classes stay built and keep their
      order, and classes being built stay so. */
  predicate MovesOn(s: Search, s2: Search)
  {
    |s2.colors| == |s.colors| &&
    s.built <= s2.built &&
    (forall k :: 0 <= k < |s.colors| && s.colors[k] != 0 ==> s2.colors[k] == s.colors[k])
  }

  /** `resolveDependencies(o)` on a class not reached yet: colour it 1,
      resolve its parameters, build it and colour it 2. */
  function Resolve(impls: seq<Impl>, o: nat, s: Search): (r: Wrappers.Result<Search, Error>)
    requires o < |impls| && Sound(impls, s) && PostOrder(impls, s.built) && s.colors[o] == 0
    ensures r.Ok? ==> Sound(impls, r.value) && PostOrder(impls, r.value.built)
    ensures r.Ok? ==> MovesOn(s, r.value) && r.value.colors[o] == 2
    ensures r.Ok? ==> Unreached(r.value.colors) < Unreached(s.colors)
    decreases Unreached(s.colors), 1, 0
  {
    var s1 := s.(colors := s.colors[o := 1]);
    UnreachedUpdate(s.colors, o, 1);
    var r1 := ResolveParams(impls, o, 0, s1);
    if r1.Err? then Wrappers.Err(r1.error)
    else
      var s2 := r1.value;
      UnreachedUpdate(s2.colors, o, 2);
      Finish(impls, o, s, s1, s2);
      Wrappers.Ok(Search(s2.colors[o := 2], s2.built + [o]))
  }

  /** Building `o` once its parameters are built keeps the state sound and
      in post-order. */
  lemma Finish(impls: seq<Impl>, o: nat, s: Search, s1: Search, s2: Search)
    requires o < |impls| && Sound(impls, s) && s.colors[o] == 0
    requires s1 == s.(colors := s.colors[o := 1])
    requires Sound(impls, s2) && PostOrder(impls, s2.built) && MovesOn(s1, s2)
    requires forall j :: 0 <= j < |impls[o].params| ==> ParamBuilt(impls, o, j, s2.built)
    ensures Sound(impls, Search(s2.colors[o := 2], s2.built + [o]))
    ensures PostOrder(impls, s2.built + [o])
    ensures MovesOn(s, Search(s2.colors[o := 2], s2.built + [o]))
  {
    var b := s2.built + [o];
    assert s2.colors[o] == 1;
    assert o !in s2.built;
    forall p | 0 <= p < |b|
      ensures b[p] < |impls| &&
        forall j :: 0 <= j < |impls[b[p]].params| ==> ParamBuilt(impls, b[p], j, b[..p])
    {
      if p < |s2.built| {
        assert b[..p] == s2.built[..p];
      } else {
        assert b[..p] == s2.built;
      }
    }
  }

  /** The loop over `o`'s parameters from the `i`-th on, the earlier ones
      being built: find the implementation, resolve it if not reached, and
      fail on a cycle if it is still being built. */
  function ResolveParams(impls: seq<Impl>, o: nat, i: nat, s: Search): (r: Wrappers.Result<Search, Error>)
    requires o < |impls| && i <= |impls[o].params|
    requires Sound(impls, s) && PostOrder(impls, s.built) && s.colors[o] == 1
    requires forall j :: 0 <= j < i ==> ParamBuilt(impls, o, j, s.built)
    ensures r.Ok? ==> Sound(impls, r.value) && PostOrder(impls, r.value.built) && MovesOn(s, r.value)
    ensures r.Ok? ==> forall j :: 0 <= j < |impls[o].params| ==> ParamBuilt(impls, o, j, r.value.built)
    ensures r.Ok? ==> Unreached(r.value.colors) <= Unreached(s.colors)
    decreases Unreached(s.colors), 2, |impls[o].params| - i
  {
    if i == |impls[o].params| then Wrappers.Ok(s)
    else
      var d := GetImplementation(impls[o].params[i], impls);
      if d.Err? then Wrappers.Err(d.error)
      else
        var r1 := if s.colors[d.value] == 0 then Resolve(impls, d.value, s) else Wrappers.Ok(s);
        if r1.Err? then Wrappers.Err(r1.error)
        else if r1.value.colors[d.value] == 1 then Wrappers.Err(Cycle)
        else
          var s1 := r1.value;
          KeepBuilt(impls, o, i, s, s1);
          ResolveParams(impls, o, i + 1, s1)
  }

  /** After parameter `i` resolves, it and the parameters before it are
      built. */
  lemma KeepBuilt(impls: seq<Impl>, o: nat, i: nat, s: Search, s1: Search)
    requires o < |impls| && i < |impls[o].params|
    requires Sound(impls, s) && Sound(impls, s1) && MovesOn(s, s1)
    requires forall j :: 0 <= j < i ==> ParamBuilt(impls, o, j, s.built)
    requires GetImplementation(impls[o].params[i], impls).Ok?
    requires s1.colors[GetImplementation(impls[o].params[i], impls).value] == 2
    ensures forall j :: 0 <= j < i + 1 ==> ParamBuilt(impls, o, j, s1.built)
  {
    forall j | 0 <= j < i
      ensures ParamBuilt(impls, o, j, s1.built)
    {
      assert ParamBuilt(impls, o, j, s.built);
    }
  }

  // ---------------------------------------------------------------------------
  // initialize
  // ---------------------------------------------------------------------------

  /** The state `initialize` starts from: nothing reached, nothing built. */
  function Start(n: nat): (s: Search)
    ensures |s.colors| == n && s.built == []
    ensures forall k :: 0 <= k < n ==> s.colors[k] == 0
  {
    Search(seq(n, k => 0), [])
  }

  /** What `initialize` returns: the root's index, and every class built,
      in the order their constructors ran. */
  datatype Built = Built(root: nat, built: seq<nat>)

  /** `initialize(rootName, impls)`: the root found by name and built with
      all it depends on. An interface has no constructor, and an abstract
      root fails at `newInstance` after its parameters are built. The
      static tables are discarded either way. */
  function Initialize(rootName: string, impls: seq<Impl>): (r: Wrappers.Result<Built, Error>)
    ensures r.Ok? ==> GetRootClass(rootName, impls) == Wrappers.Ok(r.value.root)
    ensures r.Ok? ==> impls[r.value.root].kind == Concrete
    ensures r.Ok? ==> |r.value.built| > 0 && r.value.built[|r.value.built| - 1] == r.value.root
    ensures r.Ok? ==> PostOrder(impls, r.value.built)
    ensures r.Ok? ==> forall p, q :: 0 <= p < q < |r.value.built| ==> r.value.built[p] != r.value.built[q]
    ensures GetRootClass(rootName, impls).Err? ==> r == Wrappers.Err(GetRootClass(rootName, impls).error)
  {
    var root := GetRootClass(rootName, impls);
    if root.Err? then Wrappers.Err(root.error)
    else if impls[root.value].kind == Interface then Wrappers.Err(NotInstantiable)
    else
      var s := Start(|impls|);
      var r1 := Resolve(impls, root.value, s);
      if r1.Err? then Wrappers.Err(r1.error)
      else if impls[root.value].kind == Abstract then Wrappers.Err(NotInstantiable)
      else
        RootLast(impls, root.value, s, r1.value);
        Wrappers.Ok(Built(root.value, r1.value.built))
  }

  /** Starting from nothing, the root is built last. */
  lemma RootLast(impls: seq<Impl>, o: nat, s: Search, s2: Search)
    requires o < |impls| && s == Start(|impls|) && Sound(impls, s) && PostOrder(impls, s.built)
    requires Resolve(impls, o, s) == Wrappers.Ok(s2)
    ensures |s2.built| > 0 && s2.built[|s2.built| - 1] == o
  {
    var s1 := s.(colors := s.colors[o := 1]);
    UnreachedUpdate(s.colors, o, 1);
    var r1 := ResolveParams(impls, o, 0, s1);
    assert s2.built == r1.value.built + [o];
  }

  // ---------------------------------------------------------------------------
  // Cycles
  // ---------------------------------------------------------------------------

  /** A built class never depends on itself: each of its parameters'
      implementations was built strictly before it. */
  lemma NoSelfDependency(rootName: string, impls: seq<Impl>, p: nat, j: nat)
    requires Initialize(rootName, impls).Ok?
    requires p < |Initialize(rootName, impls).value.built|
    requires j < |impls[Initialize(rootName, impls).value.built[p]].params|
    ensures var b := Initialize(rootName, impls).value.built;
      GetImplementation(impls[b[p]].params[j], impls) != Wrappers.Ok(b[p])
  {
    var b := Initialize(rootName, impls).value.built;
    assert ParamBuilt(impls, b[p], j, b[..p]);
    assert b[p] !in b[..p];
  }

  /** A class whose first parameter's implementation is the class itself
      is met again while it is being built: `InjectionCycleException`. */
  lemma SelfCycle(impls: seq<Impl>, o: nat, s: Search)
    requires o < |impls| && Sound(impls, s) && PostOrder(impls, s.built) && s.colors[o] == 0
    requires |impls[o].params| > 0 && GetImplementation(impls[o].params[0], impls) == Wrappers.Ok(o)
    ensures Resolve(impls, o, s) == Wrappers.Err(Cycle)
  {
    var s1 := s.(colors := s.colors[o := 1]);
    UnreachedUpdate(s.colors, o, 1);
    assert ResolveParams(impls, o, 0, s1) == Wrappers.Err(Cycle);
  }
}

=== FILE: java_int.dfy ===
/** Java's 32-bit `int`: its range, the wrap-around of its arithmetic, and
    its decimal notation. */
module JavaInt {

  const TwoTo32: int := 0x1_0000_0000
  const MinInt: int := -0x8000_0000
  const MaxInt: int := 0x7FFF_FFFF

  predicate InRange(x: int)
  {
    MinInt <= x <= MaxInt
  }

  /** Wraps an integer into the range of a Java `int`. */
  function ToInt32(x: int): (r: int)
    ensures InRange(r)
    ensures (x - r) % TwoTo32 == 0
    ensures InRange(x) ==> r == x
  {
    var m := x % TwoTo32;
    if m >= TwoTo32 / 2 then m - TwoTo32 else m
  }

  /** Wrapping an intermediate sum changes nothing: a running total kept in
      an `int` ends where the wrapped mathematical sum does. */
  lemma WrapAdd(a: int, b: int)
    ensures ToInt32(ToInt32(a) + b) == ToInt32(a + b)
  {
    var r := ToInt32(a);
    assert (a - r) % TwoTo32 == 0;
    SameResidue(r + b, a + b);
  }

  lemma SameResidue(x: int, y: int)
    requires (y - x) % TwoTo32 == 0
    ensures ToInt32(x) == ToInt32(y)
  {
    var k := (y - x) / TwoTo32;
    assert y == x + k * TwoTo32;
    assert y % TwoTo32 == x % TwoTo32;
  }

  // ---------------------------------------------------------------------------
  // Decimal notation
  // ---------------------------------------------------------------------------

  predicate IsDigit(c: char)
  {
    '0' <= c <= '9'
  }

  predicate AllDigits(s: string)
  {
    forall i :: 0 <= i < |s| ==> IsDigit(s[i])
  }

  /** The number a string of decimal digits denotes. */
  function DecimalValue(s: string): (n: nat)
    requires AllDigits(s)
  {
    if s == [] then 0
    else DecimalValue(s[..|s| - 1]) * 10 + (s[|s| - 1] as int - '0' as int)
  }

  /** `String.valueOf(n)`: the decimal digits, after a `-` for a negative
      number. */
  function Show(n: int): (s: string)
    ensures s != []
    ensures s[0] == '-' <==> n < 0
    ensures n < 0 ==> AllDigits(s[1..]) && s[1..] != []
    ensures n >= 0 ==> AllDigits(s)
  {
    if n < 0 then "-" + Digits(-n) else Digits(n)
  }

  function Digits(n: nat): (s: string)
    ensures s != [] && AllDigits(s)
    ensures s[0] != '-' && s[0] != '+'
  {
    var last := [('0' as int + n % 10) as char];
    if n < 10 then last else Digits(n / 10) + last
  }

  lemma {:induction false} DigitsValue(n: nat)
    ensures DecimalValue(Digits(n)) == n
  {
    var s := Digits(n);
    if n >= 10 {
      DigitsValue(n / 10);
      assert s[..|s| - 1] == Digits(n / 10);
    }
  }
}

=== FILE: lazy.dfy ===
/** The memoising `Lazy` of `LazyFactory`: the supplier runs on the first
    `get` only, and every `get` answers with the value it produced, null
    included. A supplier need not give the same value twice (the tests use a
    random one), so it is modelled as the value it gives on its k-th call. */
module Lazy {
  import opened Wrappers

  /** What the supplier would return on its k-th call; `None` is null. */
  type Supplier<T> = nat -> Option<T>

  /** `LazyImpl`: `supplier` is `Some` until the first `get` clears it;
      `result` starts null; `calls` counts the supplier's runs. */
  datatype Lazy<T> = Lazy(supplier: Option<Supplier<T>>, result: Option<T>, calls: nat)

  /** `createLazy(supplier)`, and equally `createConcurrentLazy(supplier)`:
      nothing has run yet. */
  function CreateLazy<T(==)>(supplier: Supplier<T>): (l: Lazy<T>)
    ensures Fresh(l) && l.supplier == Some(supplier)
  {
    Lazy(Some(supplier), None, 0)
  }

  /** A lazy value whose supplier has not run. */
  predicate Fresh<T(==)>(l: Lazy<T>)
  {
    l.supplier.Some? && l.result.None? && l.calls == 0
  }

  /** A lazy value whose supplier has run exactly once and left `value`. */
  predicate Forced<T(==)>(l: Lazy<T>, value: Option<T>)
  {
    l.supplier.None? && l.result == value && l.calls == 1
  }

  /** `get()`: runs the supplier if it is still there, stores its result
      and drops the supplier; then answers with the stored result. The
      `synchronized` variant behaves the same when calls do not overlap. */
  function Get<T(==)>(l: Lazy<T>): (r: (Option<T>, Lazy<T>))
    requires Fresh(l) || Forced(l, l.result)
    ensures Fresh(l) ==> Forced(r.1, l.supplier.value(0)) && r.0 == l.supplier.value(0)
    ensures Forced(l, l.result) ==> r.0 == l.result && Forced(r.1, l.result)
  {
    match l.supplier
    case Some(s) =>
      var v := s(l.calls);
      (v, Lazy(None, v, l.calls + 1))
    case None => (l.result, l)
  }

  /** `n` calls of `get` in a row: every answer is what the supplier gave on
      its first run, null included, and the supplier has run once. */
  method GetRepeatedly<T(==)>(l: Lazy<T>, n: nat) returns (answers: seq<Option<T>>, after: Lazy<T>)
    requires Fresh(l)
    ensures |answers| == n
    ensures forall i :: 0 <= i < n ==> answers[i] == l.supplier.value(0)
    ensures n > 0 ==> Forced(after, l.supplier.value(0))
    ensures n == 0 ==> Fresh(after) && after.supplier == l.supplier
  {
    answers := [];
    after := l;
    while |answers| < n
      invariant |answers| <= n
      invariant forall i :: 0 <= i < |answers| ==> answers[i] == l.supplier.value(0)
      invariant |answers| == 0 ==> Fresh(after) && after.supplier == l.supplier
      invariant |answers| > 0 ==> Forced(after, l.supplier.value(0))
    {
      var step := Get(after);
      answers := answers + [step.0];
      after := step.1;
    }
  }

  /** Whatever the supplier would give later, a forced value never changes:
      two lazy values over suppliers that agree on the first call answer
      alike forever, and a null first result is kept rather than retried. */
  lemma OnlyFirstCallMatters<T>(s: Supplier<T>, t: Supplier<T>)
    requires s(0) == t(0)
    ensures Get(CreateLazy(s)).0 == Get(CreateLazy(t)).0
    ensures Get(Get(CreateLazy(s)).1).0 == s(0) && Forced(Get(Get(CreateLazy(s)).1).1, s(0))
    ensures s(0).None? ==> Get(Get(CreateLazy(s)).1).1.calls == 1
  {
    var first := Get(CreateLazy(s)).1;
    assert Forced(first, s(0));
  }

  /** The tests: a supplier of 3 answers 3 every time; a supplier whose
      calls differ answers its first value every time; a null supplier
      result stays null. */
  lemma Examples()
    ensures Get(Get(CreateLazy((_: nat) => Some(3))).1).0 == Some(3)
    ensures Get(Get(CreateLazy((k: nat) => Some(k))).1).0 == Some(0)
    ensures Get(Get(CreateLazy<int>((_: nat) => None)).1).0 == None
  {
  }
}

=== FILE: linked_list.dfy ===
/** The doubly linked list of arbitrary objects. The chain of nodes from
    `begin` to `end` is represented by the sequence of the objects it holds,
    in order: node `i` is the `i`-th element, `begin` the first, `end` the
    last, and `size` the length. */
module LinkedList {
  import opened Wrappers

  datatype LinkedList<T> = LinkedList(items: seq<T>)

  /** What a node lookup produces: a null reference, the node at a position,
      or a `NullPointerException` raised on the way. */
  datatype NodeLookup = NullNode | NodeAt(index: nat) | NullPointer

  /** The exception the operations as written raise. */
  datatype Failure = NullPointerException

  /** `new LinkedList()`: `begin` and `end` null, size 0. */
  function Empty<T>(): LinkedList<T>
  {
    LinkedList([])
  }

  /** A new list has size 0 and is empty. */
  lemma EmptyHoldsNothing<T>()
    ensures Size(Empty<T>()) == 0 && IsEmpty(Empty<T>())
  {
  }

  function Size<T>(l: LinkedList<T>): (r: nat)
    ensures r == |l.items|
  {
    |l.items|
  }

  function IsEmpty<T>(l: LinkedList<T>): (r: bool)
    ensures r <==> l.items == []
  {
    Size(l) == 0
  }

  /** The node after node `i`, or null after the last one. */
  function NextNode(size: nat, i: nat): (r: Option<nat>)
    requires i < size
    ensures r.Some? ==> r.value == i + 1 < size
    ensures r.None? <==> i + 1 == size
  {
    if i + 1 < size then Some(i + 1) else None
  }

  /** The first node, or null for an empty list. */
  function BeginNode(size: nat): (r: Option<nat>)
    ensures r.None? <==> size == 0
    ensures r.Some? ==> r.value == 0
  {
    if size == 0 then None else Some(0)
  }

  // ---------------------------------------------------------------------------
  // getNodeByIndex as written: the loop advances `node` but never decrements
  // `index`
  // ---------------------------------------------------------------------------

  /** The loop of `getNodeByIndex` as written, from `node` on. */
  function WalkAsWritten(size: nat, node: Option<nat>, index: int): (r: NodeLookup)
    requires node.Some? ==> node.value < size
    ensures index == 0 ==> r == (if node.None? then NullNode else NodeAt(node.value))
    ensures index != 0 ==> r == NullPointer
    decreases if node.None? then 0 else size - node.value
  {
    if index == 0 then
      (if node.None? then NullNode else NodeAt(node.value))
    else if node.None? then
      NullPointer
    else
      WalkAsWritten(size, NextNode(size, node.value), index)
  }

  /** `getNodeByIndex` as written: null for an index at or past the end, the
      first node for index 0, and otherwise a walk off the end of the list
      that dereferences null. */
  function GetNodeByIndexAsWritten(size: nat, index: int): (r: NodeLookup)
    ensures r == NullNode <==> index >= size
    ensures r.NodeAt? <==> index == 0 < size
    ensures r == NullPointer <==> index < size && index != 0
  {
    if index >= size then NullNode else WalkAsWritten(size, BeginNode(size), index)
  }

  /** In a two-element list the second node cannot be reached: `get(1)`
      throws, although position 1 holds an element. */
  lemma SecondNodeUnreachable()
    ensures GetNodeByIndexAsWritten(2, 1) == NullPointer
    ensures GetNodeByIndex(2, 1) == NodeAt(1)
  {
  }

  /** On an empty list `get(-1)` throws instead of returning null. */
  lemma NegativeIndexThrows()
    ensures GetNodeByIndexAsWritten(0, -1) == NullPointer
    ensures GetNodeByIndex(0, -1) == NullNode
  {
  }

  // ---------------------------------------------------------------------------
  // getNodeByIndex corrected: one step and one decrement per iteration, and
  // null for a negative index
  // ---------------------------------------------------------------------------

  /** Walks `index` nodes forward from `node`. */
  function Walk(size: nat, node: nat, index: nat): (r: NodeLookup)
    requires node + index < size
    ensures r == NodeAt(node + index)
    decreases index
  {
    if index == 0 then NodeAt(node)
    else
      var next := NextNode(size, node);
      Walk(size, next.value, index - 1)
  }

  /** The node at `index`, or null when `index` is outside `[0, size)`. */
  function GetNodeByIndex(size: nat, index: int): (r: NodeLookup)
    ensures r != NullPointer
    ensures r.NodeAt? <==> 0 <= index < size
    ensures r.NodeAt? ==> r.index == index
  {
    if index >= size || index < 0 then NullNode
    else Walk(size, BeginNode(size).value, index)
  }

  // ---------------------------------------------------------------------------
  // Public operations
  // ---------------------------------------------------------------------------

  /** `add`: a new node after `end`, which becomes the new `end`. */
  function Add<T>(l: LinkedList<T>, x: T): (r: LinkedList<T>)
    ensures Size(r) == Size(l) + 1
    ensures r.items == l.items + [x]
    ensures Get(r, Size(l)) == Some(x)
    ensures forall i :: 0 <= i < Size(l) ==> Get(r, i) == Get(l, i)
  {
    LinkedList(l.items + [x])
  }

  /** `get` on top of the corrected `getNodeByIndex`: the object of the node
      at `index`, or null. */
  function Get<T>(l: LinkedList<T>, index: int): (r: Option<T>)
    ensures r.Some? <==> 0 <= index < Size(l)
    ensures r.Some? ==> r.value == l.items[index]
  {
    match GetNodeByIndex(Size(l), index)
    case NodeAt(i) => Some(l.items[i])
    case _ => None
  }

  /** `set` on top of the corrected `getNodeByIndex`: replaces the object of
      the node at `index`; an index outside the list changes nothing. */
  function Set<T>(l: LinkedList<T>, index: int, x: T): (r: LinkedList<T>)
    ensures Size(r) == Size(l)
    ensures 0 <= index < Size(l) ==> Get(r, index) == Some(x)
    ensures forall i :: i != index ==> Get(r, i) == Get(l, i)
    ensures !(0 <= index < Size(l)) ==> r == l
    ensures 0 <= index < Size(l) ==> r.items == l.items[index := x]
  {
    match GetNodeByIndex(Size(l), index)
    case NodeAt(i) => LinkedList(l.items[i := x])
    case _ => l
  }

  /** `remove` on top of the corrected `getNodeByIndex`: unlinks the node at
      `index`, moving `begin` or `end` when it was the first or last node; an
      index outside the list changes nothing. */
  function Remove<T>(l: LinkedList<T>, index: int): (r: LinkedList<T>)
    ensures 0 <= index < Size(l) ==> Size(r) == Size(l) - 1
    ensures forall i :: 0 <= i < index ==> Get(r, i) == Get(l, i)
    ensures 0 <= index ==> forall i :: index <= i ==> Get(r, i) == Get(l, i + 1)
    ensures !(0 <= index < Size(l)) ==> r == l
    ensures 0 <= index < Size(l) ==> r.items == l.items[..index] + l.items[index + 1..]
  {
    match GetNodeByIndex(Size(l), index)
    case NodeAt(i) => LinkedList(l.items[..i] + l.items[i + 1..])
    case _ => l
  }

  // ---------------------------------------------------------------------------
  // get, set and remove on top of getNodeByIndex as written
  // ---------------------------------------------------------------------------

  /** `get` as written: it throws for every index below the size other than
      0, and otherwise agrees with the corrected `get`. */
  function GetAsWritten<T>(l: LinkedList<T>, index: int): (r: Result<Option<T>, Failure>)
    ensures r.Err? <==> index < Size(l) && index != 0
    ensures r.Ok? ==> r.value == Get(l, index)
  {
    match GetNodeByIndexAsWritten(Size(l), index)
    case NodeAt(i) => Ok(Some(l.items[i]))
    case NullNode => Ok(None)
    case NullPointer => Err(NullPointerException)
  }

  /** `set` as written: it throws, changing nothing, for every index below
      the size other than 0, and otherwise agrees with the corrected `set`. */
  function SetAsWritten<T>(l: LinkedList<T>, index: int, x: T): (r: Result<LinkedList<T>, Failure>)
    ensures r.Err? <==> index < Size(l) && index != 0
    ensures r.Ok? ==> r.value == Set(l, index, x)
  {
    match GetNodeByIndexAsWritten(Size(l), index)
    case NodeAt(i) => Ok(LinkedList(l.items[i := x]))
    case NullNode => Ok(l)
    case NullPointer => Err(NullPointerException)
  }

  /** `remove` as written: it throws, changing nothing, for every index below
      the size other than 0, and otherwise agrees with the corrected
      `remove`. */
  function RemoveAsWritten<T>(l: LinkedList<T>, index: int): (r: Result<LinkedList<T>, Failure>)
    ensures r.Err? <==> index < Size(l) && index != 0
    ensures r.Ok? ==> r.value == Remove(l, index)
  {
    match GetNodeByIndexAsWritten(Size(l), index)
    case NodeAt(i) => Ok(LinkedList(l.items[..i] + l.items[i + 1..]))
    case NullNode => Ok(l)
    case NullPointer => Err(NullPointerException)
  }

  /** In a two-element list, `get(1)`, `set(1, x)` and `remove(1)` all throw
      as written, while the corrected operations reach the second element. */
  lemma SecondElementUnreachable<T>(a: T, b: T, x: T)
    ensures GetAsWritten(LinkedList([a, b]), 1).Err?
    ensures SetAsWritten(LinkedList([a, b]), 1, x).Err?
    ensures RemoveAsWritten(LinkedList([a, b]), 1).Err?
    ensures Get(LinkedList([a, b]), 1) == Some(b)
    ensures Set(LinkedList([a, b]), 1, x).items == [a, x]
    ensures Remove(LinkedList([a, b]), 1).items == [a]
  {
    assert [a, b][1 := x] == [a, x];
    assert [a, b][..1] + [a, b][2..] == [a];
  }

  /** Removing the first node moves `begin` to the second one, and removing
      the last node moves `end` to the one before it. */
  lemma RemoveRepairsEnds<T>(l: LinkedList<T>)
    requires Size(l) >= 2
    ensures Remove(l, 0).items[0] == l.items[1]
    ensures Remove(l, Size(l) - 1).items[Size(l) - 2] == l.items[Size(l) - 2]
  {
    assert Get(Remove(l, 0), 0) == Get(l, 1);
    assert Get(Remove(l, Size(l) - 1), Size(l) - 2) == Get(l, Size(l) - 2);
  }

  /** The loop of `indexOf` from position `index`: stops at the first equal
      object, or after the last node with `index == size`. */
  function ScanIndex<T(==)>(items: seq<T>, x: T, index: nat): (r: nat)
    requires index <= |items|
    ensures index <= r <= |items|
    ensures r < |items| ==> items[r] == x
    ensures forall i :: index <= i < r ==> items[i] != x
    decreases |items| - index
  {
    if index == |items| || items[index] == x then index else ScanIndex(items, x, index + 1)
  }

  /** `indexOf`: the position of the first equal object, or -1. */
  function IndexOf<T(==)>(l: LinkedList<T>, x: T): (r: int)
    ensures -1 <= r < Size(l)
    ensures r == -1 <==> x !in l.items
    ensures 0 <= r < |l.items| ==> l.items[r] == x && x !in l.items[..r]
  {
    var index := ScanIndex(l.items, x, 0);
    if index == Size(l) then -1 else index
  }

  /** The loop of `contains` from position `index`. */
  function ScanContains<T(==)>(items: seq<T>, x: T, index: nat): (r: bool)
    requires index <= |items|
    ensures r <==> x in items[index..]
    decreases |items| - index
  {
    if index == |items| then false
    else if items[index] == x then true
    else
      assert items[index..] == [items[index]] + items[index + 1..];
      ScanContains(items, x, index + 1)
  }

  /** `contains`: the scan stops at a node holding an equal object. */
  function Contains<T(==)>(l: LinkedList<T>, x: T): (r: bool)
    ensures r <==> x in l.items
  {
    assert l.items[0..] == l.items;
    ScanContains(l.items, x, 0)
  }

  /** The two scans agree: `contains` holds exactly when `indexOf` is not -1. */
  lemma ContainsIffIndexOf<T>(l: LinkedList<T>, x: T)
    ensures Contains(l, x) <==> IndexOf(l, x) != -1
  {
  }

  /** `clear`: `begin` and `end` become null and size 0. */
  function Clear<T>(l: LinkedList<T>): (r: LinkedList<T>)
    ensures Size(r) == 0
    ensures forall i :: Get(r, i) == None
  {
    LinkedList([])
  }

  /** `toArray`: an array of length `size` filled by walking from `begin`. */
  method ToArray<T>(l: LinkedList<T>) returns (a: seq<T>)
    ensures |a| == Size(l)
    ensures forall i :: 0 <= i < |a| ==> Get(l, i) == Some(a[i])
  {
    a := [];
    var node := BeginNode(Size(l));
    while node.Some?
      invariant node.Some? ==> node.value == |a| < Size(l)
      invariant node.None? ==> |a| == Size(l)
      invariant a == l.items[..|a|]
      decreases Size(l) - |a|
    {
      a := a + [l.items[node.value]];
      node := NextNode(Size(l), node.value);
    }
    assert l.items[..|a|] == l.items;
  }
}

=== FILE: matrix.dfy ===
/** The square matrix of odd size that prints itself as a spiral from the
    centre, sorts its columns by their first entry, and prints itself row by
    row. The matrix keeps its transpose: stored row `i` is column `i` of the
    input. Printing is modelled as the sequence of printed values, or as the
    printed text. */
module Matrix {
  import opened Wrappers
  import opened JavaInt

  /** `IllegalArgumentException` with its message. */
  datatype IllegalArgument = IllegalArgument(message: string)

  /** A Java `int[][]` handed to the constructor: the array itself and any
      of its rows may be null. */
  type Input = Option<seq<Option<seq<int>>>>

  /** `cells[i][j]` is the input's entry in row `j`, column `i`. */
  datatype Matrix = Matrix(size: nat, cells: seq<seq<int>>)

  ghost predicate Valid(m: Matrix)
  {
    m.size % 2 == 1 && |m.cells| == m.size &&
    forall i :: 0 <= i < m.size ==> |m.cells[i]| == m.size
  }

  /** The constructor's check: a non-null array of odd length whose rows
      are all non-null and as long as the array. */
  predicate WellShaped(input: Input)
  {
    input.Some? && |input.value| % 2 == 1 &&
    forall i :: 0 <= i < |input.value| ==> input.value[i].Some? && |input.value[i].value| == |input.value|
  }

  /** The input's rows, nulls gone. */
  function InputRows(input: Input): (rows: seq<seq<int>>)
    requires WellShaped(input)
    ensures |rows| == |input.value|
    ensures forall i :: 0 <= i < |rows| ==> rows[i] == input.value[i].value
  {
    seq(|input.value|, i requires 0 <= i < |input.value| => input.value[i].value)
  }

  /** `new Matrix(matrix)`: the transpose of a well-shaped input, or an
      `IllegalArgumentException`. */
  function New(input: Input): (r: Result<Matrix, IllegalArgument>)
    ensures r.Ok? <==> WellShaped(input)
    ensures r.Ok? ==> Valid(r.value) && r.value.size == |input.value|
    ensures r.Ok? ==> forall i, j :: 0 <= i < r.value.size && 0 <= j < r.value.size ==>
                        r.value.cells[i][j] == input.value[j].value[i]
  {
    if !WellShaped(input) then Err(IllegalArgument("Matrix dimensions are incorrect"))
    else
      var rows := InputRows(input);
      var n := |rows|;
      Ok(Matrix(n, seq(n, i requires 0 <= i < n => seq(n, j requires 0 <= j < n => rows[j][i]))))
  }

  // ---------------------------------------------------------------------------
  // printMatrix
  // ---------------------------------------------------------------------------

  /** The rows `printMatrix` prints: row `i` holds stored entry `[j][i]` in
      column `j`, so the stored transpose is undone. */
  function Rows(m: Matrix): (rows: seq<seq<int>>)
    requires Valid(m)
    ensures |rows| == m.size
    ensures forall i :: 0 <= i < m.size ==> |rows[i]| == m.size
    ensures forall i, j :: 0 <= i < m.size && 0 <= j < m.size ==> rows[i][j] == m.cells[j][i]
  {
    seq(m.size, i requires 0 <= i < m.size => seq(m.size, j requires 0 <= j < m.size => m.cells[j][i]))
  }

  /** Printing right after construction gives the input back, row by row. */
  lemma PrintAfterNew(input: Input)
    requires WellShaped(input)
    ensures New(input).Ok? && Rows(New(input).value) == InputRows(input)
  {
    var m := New(input).value;
    var rows := Rows(m);
    assert forall i :: 0 <= i < |rows| ==> rows[i] == InputRows(input)[i];
  }

  /** A row as printed: the values with a space between each two, then a
      line break. */
  function RowText(row: seq<int>): string
    requires row != []
  {
    if |row| == 1 then Show(row[0]) + "\n" else Show(row[0]) + " " + RowText(row[1..])
  }

  function Text(rows: seq<seq<int>>): string
    requires forall i :: 0 <= i < |rows| ==> rows[i] != []
  {
    if rows == [] then "" else RowText(rows[0]) + Text(rows[1..])
  }

  /** `printMatrix`: the text of the rows. */
  function PrintMatrix(m: Matrix): string
    requires Valid(m)
  {
    Text(Rows(m))
  }

  // ---------------------------------------------------------------------------
  // drawSpiral
  // ---------------------------------------------------------------------------

  function Abs(x: int): nat
  {
    if x < 0 then -x else x
  }

  /** How many rings out from the centre `(c, c)` a cell lies. */
  function Dist(p: (int, int), c: int): nat
  {
    if Abs(p.0 - c) < Abs(p.1 - c) then Abs(p.1 - c) else Abs(p.0 - c)
  }

  /** The `k`-th cell of ring `r` in the order `drawSpiral` prints it: along
      stored row `c - r` from column `c - r + 1`, down column `c + r`, back
      along row `c + r`, and up column `c - r` to the corner. */
  function RingAt(c: int, r: nat, k: nat): (int, int)
    requires 1 <= r && k < 8 * r
  {
    if k < 2 * r - 1 then (c - r, c - r + 1 + k)
    else if k < 4 * r - 1 then (c - r + (k - (2 * r - 1)), c + r)
    else if k < 6 * r - 1 then (c + r, c + r - (k - (4 * r - 1)))
    else (c + r - (k - (6 * r - 1)), c - r)
  }

  function Ring(c: int, r: nat): (ring: seq<(int, int)>)
    requires r >= 1
    ensures |ring| == 8 * r
    ensures forall k :: 0 <= k < 8 * r ==> ring[k] == RingAt(c, r, k)
  {
    seq(8 * r, k requires 0 <= k < 8 * r => RingAt(c, r, k))
  }

  /** The centre, then rings 1 to `rings - 1`. */
  function SpiralOrder(c: int, rings: nat): seq<(int, int)>
  {
    if rings == 0 then []
    else if rings == 1 then [(c, c)]
    else SpiralOrder(c, rings - 1) + Ring(c, rings - 1)
  }

  /** The cells `drawSpiral` visits, in order, for a matrix of `size`. */
  function Spiral(size: nat): seq<(int, int)>
  {
    SpiralOrder(size / 2, (size + 1) / 2)
  }

  /** Every cell of ring `r` lies exactly `r` rings out. */
  lemma RingAtDist(c: int, r: nat, k: nat)
    requires 1 <= r && k < 8 * r
    ensures Dist(RingAt(c, r, k), c) == r
  {
  }

  /** A ring passes no cell twice. */
  lemma RingAtInjective(c: int, r: nat, a: nat, b: nat)
    requires 1 <= r && a < 8 * r && b < 8 * r
    requires RingAt(c, r, a) == RingAt(c, r, b)
    ensures a == b
  {
  }

  /** Where on its ring a cell `r` rings out lies. */
  function RingIndex(c: int, r: nat, p: (int, int)): (k: nat)
    requires 1 <= r && Dist(p, c) == r
    ensures k < 8 * r && RingAt(c, r, k) == p
  {
    if p.0 == c - r && c - r + 1 <= p.1 <= c + r - 1 then p.1 - (c - r + 1)
    else if p.1 == c + r && p.0 <= c + r - 1 then 2 * r - 1 + (p.0 - (c - r))
    else if p.0 == c + r && p.1 >= c - r + 1 then 4 * r - 1 + (c + r - p.1)
    else 6 * r - 1 + (c + r - p.0)
  }

  /** The spiral over `rings` rings has `(2 rings - 1)²` cells, all within
      `rings - 1` of the centre, no two alike, and every such cell among
      them. */
  ghost predicate SpiralFacts(c: int, rings: nat)
  {
    var s := SpiralOrder(c, rings);
    (rings >= 1 ==> |s| == (2 * rings - 1) * (2 * rings - 1)) &&
    (rings == 0 ==> s == []) &&
    (forall t :: 0 <= t < |s| ==> Dist(s[t], c) < rings) &&
    (forall a, b :: 0 <= a < b < |s| ==> s[a] != s[b]) &&
    (forall p :: Dist(p, c) < rings ==> p in s)
  }

  lemma {:induction false} SpiralOrderFacts(c: int, rings: nat)
    ensures SpiralFacts(c, rings)
  {
    if rings == 1 {
      forall p | Dist(p, c) < 1
        ensures p in SpiralOrder(c, rings)
      {
        assert p == (c, c);
      }
    } else if rings > 1 {
      SpiralOrderFacts(c, rings - 1);
      SpiralStep(c, rings - 1);
    }
  }

  /** Adding ring `r` to the spiral of `r` rings. */
  lemma SpiralStep(c: int, r: nat)
    requires r >= 1 && SpiralFacts(c, r)
    ensures SpiralFacts(c, r + 1)
  {
    var inner := SpiralOrder(c, r);
    var s := SpiralOrder(c, r + 1);
    assert s == inner + Ring(c, r);
    OddSquareStep(r);
    RingAfterInner(c, r, inner, s);
    RingCovers(c, r, inner, s);
  }

  lemma OddSquareStep(r: int)
    ensures (2 * r + 1) * (2 * r + 1) == (2 * r - 1) * (2 * r - 1) + 8 * r
  {
  }

  /** Ring `r` after cells nearer the centre: all within `r`, none twice. */
  lemma RingAfterInner(c: int, r: nat, inner: seq<(int, int)>, s: seq<(int, int)>)
    requires r >= 1 && s == inner + Ring(c, r)
    requires forall t :: 0 <= t < |inner| ==> Dist(inner[t], c) < r
    requires forall a, b :: 0 <= a < b < |inner| ==> inner[a] != inner[b]
    ensures forall t :: 0 <= t < |s| ==> Dist(s[t], c) < r + 1
    ensures forall a, b :: 0 <= a < b < |s| ==> s[a] != s[b]
  {
    forall t | 0 <= t < |s|
      ensures Dist(s[t], c) < r + 1
    {
      if t >= |inner| {
        RingAtDist(c, r, t - |inner|);
      }
    }
    forall a, b | 0 <= a < b < |s|
      ensures s[a] != s[b]
    {
      NotTwice(c, r, inner, s, a, b);
    }
  }

  /** Two positions of the spiral grown by ring `r` hold different cells. */
  lemma NotTwice(c: int, r: nat, inner: seq<(int, int)>, s: seq<(int, int)>, a: nat, b: nat)
    requires r >= 1 && s == inner + Ring(c, r) && a < b < |s|
    requires forall t :: 0 <= t < |inner| ==> Dist(inner[t], c) < r
    requires forall a, b :: 0 <= a < b < |inner| ==> inner[a] != inner[b]
    ensures s[a] != s[b]
  {
    if b >= |inner| {
      RingAtDist(c, r, b - |inner|);
      if a >= |inner| && s[a] == s[b] {
        RingAtInjective(c, r, a - |inner|, b - |inner|);
      }
    }
  }

  /** Ring `r` holds every cell exactly `r` out. */
  lemma RingCovers(c: int, r: nat, inner: seq<(int, int)>, s: seq<(int, int)>)
    requires r >= 1 && s == inner + Ring(c, r)
    requires forall p :: Dist(p, c) < r ==> p in inner
    ensures forall p :: Dist(p, c) < r + 1 ==> p in s
  {
    forall p | Dist(p, c) < r + 1
      ensures p in s
    {
      if Dist(p, c) == r {
        var k := RingIndex(c, r, p);
        assert s[|inner| + k] == p;
      } else {
        assert p in inner;
      }
    }
  }

  /** `drawSpiral` visits each of the `size²` cells of an odd-sized matrix
      exactly once, starting at the centre. */
  lemma SpiralVisitsEveryCellOnce(size: nat)
    requires size % 2 == 1
    ensures |Spiral(size)| == size * size && Spiral(size)[0] == (size / 2, size / 2)
    ensures forall t :: 0 <= t < |Spiral(size)| ==> InBounds(Spiral(size)[t], size)
    ensures forall a, b :: 0 <= a < b < |Spiral(size)| ==> Spiral(size)[a] != Spiral(size)[b]
    ensures forall i, j :: 0 <= i < size && 0 <= j < size ==> (i, j) in Spiral(size)
  {
    SpiralStarts(size / 2, size / 2 + 1);
    SpiralLength(size);
    SpiralInBounds(size);
    SpiralDistinct(size);
    SpiralCovers(size);
  }

  lemma SpiralLength(size: nat)
    requires size % 2 == 1
    ensures |Spiral(size)| == size * size
  {
    var c := size / 2;
    SpiralOrderFacts(c, c + 1);
    assert 2 * (c + 1) - 1 == size;
  }

  lemma SpiralInBounds(size: nat)
    requires size % 2 == 1
    ensures forall t :: 0 <= t < |Spiral(size)| ==> InBounds(Spiral(size)[t], size)
  {
    var c := size / 2;
    var s := SpiralOrder(c, c + 1);
    assert s == Spiral(size) && size == 2 * c + 1;
    SpiralNear(c, c + 1);
    forall t | 0 <= t < |s|
      ensures InBounds(s[t], size)
    {
      NearInBounds(s[t], c);
    }
  }

  lemma SpiralNear(c: int, rings: nat)
    ensures forall t :: 0 <= t < |SpiralOrder(c, rings)| ==> Dist(SpiralOrder(c, rings)[t], c) < rings
  {
    SpiralOrderFacts(c, rings);
  }

  lemma NearInBounds(p: (int, int), c: nat)
    requires Dist(p, c) <= c
    ensures InBounds(p, 2 * c + 1)
  {
  }

  lemma SpiralDistinct(size: nat)
    ensures forall a, b :: 0 <= a < b < |Spiral(size)| ==> Spiral(size)[a] != Spiral(size)[b]
  {
    SpiralOrderFacts(size / 2, (size + 1) / 2);
  }

  lemma SpiralCovers(size: nat)
    requires size % 2 == 1
    ensures forall i, j :: 0 <= i < size && 0 <= j < size ==> (i, j) in Spiral(size)
  {
    SpiralOrderFacts(size / 2, size / 2 + 1);
    forall i, j | 0 <= i < size && 0 <= j < size
      ensures (i, j) in Spiral(size)
    {
      NearCentre((i, j), size);
    }
  }

  /** The cells of an odd-sized matrix are those less than `size / 2 + 1`
      rings from its centre. */
  lemma NearCentre(p: (int, int), size: nat)
    requires size % 2 == 1
    ensures InBounds(p, size) <==> Dist(p, size / 2) < size / 2 + 1
  {
  }

  lemma {:induction false} SpiralStarts(c: int, rings: nat)
    requires rings >= 1
    ensures SpiralOrder(c, rings) != [] && SpiralOrder(c, rings)[0] == (c, c)
  {
    if rings > 1 {
      SpiralStarts(c, rings - 1);
    }
  }

  predicate InBounds(p: (int, int), size: nat)
  {
    0 <= p.0 < size && 0 <= p.1 < size
  }

  /** The printed values match the visited cells one for one. */
  ghost predicate Shows(m: Matrix, printed: seq<int>, visited: seq<(int, int)>)
    requires Valid(m)
  {
    |printed| == |visited| &&
    forall t :: 0 <= t < |visited| ==> InBounds(visited[t], m.size) && printed[t] == m.cells[visited[t].0][visited[t].1]
  }

  lemma RingPrefix(c: int, r: nat, k: nat)
    requires 1 <= r && k < 8 * r
    ensures Ring(c, r)[..k + 1] == Ring(c, r)[..k] + [RingAt(c, r, k)]
  {
  }

  /** Printing one more cell. */
  lemma ShowsAppend(m: Matrix, printed: seq<int>, visited: seq<(int, int)>, p: (int, int))
    requires Valid(m) && Shows(m, printed, visited) && InBounds(p, m.size)
    ensures Shows(m, printed + [m.cells[p.0][p.1]], visited + [p])
  {
  }

  /** `drawSpiral`: the centre, then each ring in turn; the values come out
      in the order of `Spiral`. */
  method DrawSpiral(m: Matrix) returns (printed: seq<int>)
    requires Valid(m)
    ensures |printed| == m.size * m.size
    ensures Shows(m, printed, Spiral(m.size))
  {
    var c := m.size / 2;
    var i, j := c, c;
    printed := [];
    var radius := 0;
    while radius < (m.size + 1) / 2
      invariant 0 <= radius <= (m.size + 1) / 2
      invariant Shows(m, printed, SpiralOrder(c, radius))
      invariant (i, j) == SpiralCursor(c, radius)
    {
      if radius == 0 {
        DrawCentre(m);
        printed := printed + [m.cells[i][j]];
        i := i - 1;
      } else {
        printed, i, j := DrawRing(m, radius, printed, SpiralOrder(c, radius));
      }
      radius := radius + 1;
    }
    SpiralVisitsEveryCellOnce(m.size);
  }

  /** Where `drawSpiral` stands before ring `radius`: the centre, or the
      second cell of the ring's top side. */
  function SpiralCursor(c: int, radius: nat): (int, int)
  {
    if radius == 0 then (c, c) else (c - radius, c - radius + 1)
  }

  /** The first value printed is the centre's. */
  lemma DrawCentre(m: Matrix)
    requires Valid(m)
    ensures InBounds((m.size / 2, m.size / 2), m.size)
    ensures Shows(m, [] + [m.cells[m.size / 2][m.size / 2]], SpiralOrder(m.size / 2, 1))
  {
  }

  /** One ring of `drawSpiral`: its four loops, along the top from
      `(c - r, c - r + 1)`, down the right side, back along the bottom and
      up the left side, ending one cell past the ring. */
  method DrawRing(m: Matrix, radius: nat, printed0: seq<int>, ghost visited0: seq<(int, int)>)
      returns (printed: seq<int>, i: int, j: int)
    requires Valid(m) && 1 <= radius <= m.size / 2
    requires Shows(m, printed0, visited0)
    ensures Shows(m, printed, visited0 + Ring(m.size / 2, radius))
    ensures i == m.size / 2 - radius - 1 && j == m.size / 2 - radius
  {
    var c := m.size / 2;
    assert visited0 + Ring(c, radius)[..0] == visited0;
    i, j := c - radius, c - radius + 1;
    printed := printed0;
    var side := 0;
    while side < 4
      invariant side <= 4
      invariant Shows(m, printed, visited0 + Ring(c, radius)[..SideStart(radius, side)])
      invariant side < 4 ==> (i, j) == RingAt(c, radius, SideStart(radius, side))
      invariant side == 4 ==> i == c - radius - 1 && j == c - radius
    {
      printed, i, j := DrawSide(m, radius, side, i, j, printed, visited0);
      side := side + 1;
    }
    assert Ring(c, radius)[..8 * radius] == Ring(c, radius);
  }

  /** Where side `side` of ring `r` starts: the top takes `2r - 1` cells,
      the other three `2r` each, so side 4 starts past the ring's end. */
  function SideStart(r: nat, side: nat): nat
    requires 1 <= r && side <= 4
  {
    match side
    case 0 => 0
    case 1 => 2 * r - 1
    case 2 => 4 * r - 1
    case 3 => 6 * r - 1
    case _ => 8 * r
  }

  /** The step of side `side`: right, down, left, up. */
  function Direction(side: nat): (int, int)
    requires side < 4
  {
    if side == 0 then (0, 1) else if side == 1 then (1, 0) else if side == 2 then (0, -1) else (-1, 0)
  }

  /** Cells `from` to `to - 1` of ring `r` lie on a straight line with step
      `(di, dj)`. */
  ghost predicate Straight(c: int, r: nat, from: nat, to: nat, di: int, dj: int)
    requires 1 <= r && to <= 8 * r
  {
    forall k :: from <= k < to - 1 ==> RingAt(c, r, k + 1) == (RingAt(c, r, k).0 + di, RingAt(c, r, k).1 + dj)
  }

  /** Each side of a ring is straight. */
  lemma SideStraight(c: int, r: nat, side: nat)
    requires 1 <= r && side < 4
    ensures Straight(c, r, SideStart(r, side), SideStart(r, side + 1), Direction(side).0, Direction(side).1)
  {
    var from, to := SideStart(r, side), SideStart(r, side + 1);
    forall k | from <= k < to - 1
      ensures RingAt(c, r, k + 1) == (RingAt(c, r, k).0 + Direction(side).0, RingAt(c, r, k).1 + Direction(side).1)
    {
    }
  }

  /** One step past the end of a side is the start of the next; past the
      last side it is the cell above the ring's top-left corner. */
  lemma SideExit(c: int, r: nat, side: nat)
    requires 1 <= r && side < 4
    ensures var last := RingAt(c, r, SideStart(r, side + 1) - 1);
      var next := (last.0 + Direction(side).0, last.1 + Direction(side).1);
      (side < 3 ==> next == RingAt(c, r, SideStart(r, side + 1))) &&
      (side == 3 ==> next == (c - r - 1, c - r))
  {
  }

  /** One loop of a ring: prints the cells of side `side`, each before
      stepping on. */
  method DrawSide(m: Matrix, radius: nat, side: nat, i0: int, j0: int,
                  printed0: seq<int>, ghost visited0: seq<(int, int)>)
      returns (printed: seq<int>, i: int, j: int)
    requires Valid(m) && 1 <= radius <= m.size / 2 && side < 4
    requires (i0, j0) == RingAt(m.size / 2, radius, SideStart(radius, side))
    requires Shows(m, printed0, visited0 + Ring(m.size / 2, radius)[..SideStart(radius, side)])
    ensures Shows(m, printed, visited0 + Ring(m.size / 2, radius)[..SideStart(radius, side + 1)])
    ensures side < 3 ==> (i, j) == RingAt(m.size / 2, radius, SideStart(radius, side + 1))
    ensures side == 3 ==> i == m.size / 2 - radius - 1 && j == m.size / 2 - radius
  {
    var (di, dj) := Direction(side);
    SideStraight(m.size / 2, radius, side);
    printed, i, j := DrawLine(m, m.size / 2, radius, SideStart(radius, side), SideStart(radius, side + 1), di, dj, i0, j0, printed0, visited0);
    SideExit(m.size / 2, radius, side);
  }

  /** The loop of one side: prints the ring's cells `from` to `to - 1`,
      each before stepping by `(di, dj)`. */
  method DrawLine(m: Matrix, c: nat, radius: nat, from: nat, to: nat, di: int, dj: int, i0: int, j0: int,
                  printed0: seq<int>, ghost visited0: seq<(int, int)>)
      returns (printed: seq<int>, i: int, j: int)
    requires Valid(m) && m.size == 2 * c + 1 && 1 <= radius <= c && from < to <= 8 * radius
    requires (i0, j0) == RingAt(c, radius, from)
    requires Straight(c, radius, from, to, di, dj)
    requires Shows(m, printed0, visited0 + Ring(c, radius)[..from])
    ensures Shows(m, printed, visited0 + Ring(c, radius)[..to])
    ensures i == RingAt(c, radius, to - 1).0 + di && j == RingAt(c, radius, to - 1).1 + dj
  {
    i, j := i0, j0;
    printed := printed0;
    var k := from;
    while k < to
      invariant from <= k <= to
      invariant Shows(m, printed, visited0 + Ring(c, radius)[..k])
      invariant (i, j) == Cursor(c, radius, to, di, dj, k)
    {
      DrawStep(m, c, radius, from, to, di, dj, k, printed, visited0, i, j);
      printed := printed + [m.cells[i][j]];
      i, j := i + di, j + dj;
      k := k + 1;
    }
  }

  /** Where the line loop stands before iteration `k`: on the `k`-th cell
      of the ring, or one step past the last cell once the loop is done. */
  function Cursor(c: int, r: nat, to: nat, di: int, dj: int, k: nat): (int, int)
    requires 1 <= r && 1 <= to <= 8 * r && k <= to
  {
    if k < to then RingAt(c, r, k)
    else (RingAt(c, r, to - 1).0 + di, RingAt(c, r, to - 1).1 + dj)
  }

  /** One iteration of the line loop: the current cell is printed and the
      position moves one step along the stretch. */
  lemma DrawStep(m: Matrix, c: nat, radius: nat, from: nat, to: nat, di: int, dj: int, k: nat,
                 printed: seq<int>, visited0: seq<(int, int)>, i: int, j: int)
    requires Valid(m) && m.size == 2 * c + 1 && 1 <= radius <= c && from <= k < to <= 8 * radius
    requires Straight(c, radius, from, to, di, dj)
    requires Shows(m, printed, visited0 + Ring(c, radius)[..k])
    requires (i, j) == Cursor(c, radius, to, di, dj, k)
    ensures InBounds((i, j), m.size)
    ensures Shows(m, printed + [m.cells[i][j]], visited0 + Ring(c, radius)[..k + 1])
    ensures (i + di, j + dj) == Cursor(c, radius, to, di, dj, k + 1)
  {
    ShowsNextOnRing(m, radius, k, printed, visited0);
    CursorStep(c, radius, from, to, di, dj, k);
  }

  /** The cursor moves one step along the stretch per iteration. */
  lemma CursorStep(c: int, r: nat, from: nat, to: nat, di: int, dj: int, k: nat)
    requires 1 <= r && to <= 8 * r && Straight(c, r, from, to, di, dj) && from <= k < to
    ensures Cursor(c, r, to, di, dj, k) == RingAt(c, r, k)
    ensures (RingAt(c, r, k).0 + di, RingAt(c, r, k).1 + dj) == Cursor(c, r, to, di, dj, k + 1)
  {
    StepAlong(c, r, from, to, di, dj, k);
  }

  /** Inside a straight stretch, the next cell is one step further. */
  lemma StepAlong(c: int, r: nat, from: nat, to: nat, di: int, dj: int, k: nat)
    requires 1 <= r && to <= 8 * r && Straight(c, r, from, to, di, dj) && from <= k < to
    ensures k + 1 < to ==> RingAt(c, r, k + 1) == (RingAt(c, r, k).0 + di, RingAt(c, r, k).1 + dj)
  {
  }

  /** Printing the `k`-th cell of a ring extends the printed prefix of the
      ring by one. */
  lemma ShowsNextOnRing(m: Matrix, radius: nat, k: nat, printed: seq<int>, visited0: seq<(int, int)>)
    requires Valid(m) && 1 <= radius <= m.size / 2 && k < 8 * radius
    requires Shows(m, printed, visited0 + Ring(m.size / 2, radius)[..k])
    ensures InBounds(RingAt(m.size / 2, radius, k), m.size)
    ensures var p := RingAt(m.size / 2, radius, k);
      Shows(m, printed + [m.cells[p.0][p.1]], visited0 + Ring(m.size / 2, radius)[..k + 1])
  {
    var c := m.size / 2;
    var p := RingAt(c, radius, k);
    RingPrefix(c, radius, k);
    RingAtDist(c, radius, k);
    ShowsAppend(m, printed, visited0 + Ring(c, radius)[..k], p);
    assert visited0 + Ring(c, radius)[..k + 1] == visited0 + Ring(c, radius)[..k] + [p];
  }

  // ---------------------------------------------------------------------------
  // sortColumns
  // ---------------------------------------------------------------------------

  /** A column's sort key: its entry in the first row. */
  function Key(column: seq<int>): int
    requires column != []
  {
    column[0]
  }

  ghost predicate NonEmpty(columns: seq<seq<int>>)
  {
    forall k :: 0 <= k < |columns| ==> columns[k] != []
  }

  ghost predicate SortedByKey(columns: seq<seq<int>>)
    requires NonEmpty(columns)
  {
    forall a, b :: 0 <= a < b < |columns| ==> Key(columns[a]) <= Key(columns[b])
  }

  /** No column's key exceeds `x`. */
  ghost predicate KeysAtMost(columns: seq<seq<int>>, x: int)
    requires NonEmpty(columns)
  {
    forall k :: 0 <= k < |columns| ==> Key(columns[k]) <= x
  }

  /** Inserts `column` after every column of a key no greater than its own,
      so that columns of equal key keep their order. */
  function Insert(column: seq<int>, sorted: seq<seq<int>>): (r: seq<seq<int>>)
    requires column != [] && NonEmpty(sorted)
    ensures NonEmpty(r)
    decreases |sorted|
  {
    if sorted == [] then [column]
    else
      var last := sorted[|sorted| - 1];
      var front := sorted[..|sorted| - 1];
      if Key(last) <= Key(column) then sorted + [column]
      else Insert(column, front) + [last]
  }

  /** Inserting adds exactly the one column. */
  lemma {:induction false} InsertMultiset(column: seq<int>, sorted: seq<seq<int>>)
    requires column != [] && NonEmpty(sorted)
    ensures multiset(Insert(column, sorted)) == multiset(sorted) + multiset{column}
    decreases |sorted|
  {
    if sorted != [] {
      var front := sorted[..|sorted| - 1];
      assert sorted == front + [sorted[|sorted| - 1]];
      if Key(sorted[|sorted| - 1]) > Key(column) {
        InsertMultiset(column, front);
      }
    }
  }

  /** Inserting raises no key above a bound that both the columns and the
      new column respect. */
  lemma {:induction false} InsertBound(column: seq<int>, sorted: seq<seq<int>>, x: int)
    requires column != [] && NonEmpty(sorted)
    requires KeysAtMost(sorted, x) && Key(column) <= x
    ensures KeysAtMost(Insert(column, sorted), x)
    decreases |sorted|
  {
    if sorted != [] && Key(sorted[|sorted| - 1]) > Key(column) {
      var front := sorted[..|sorted| - 1];
      assert KeysAtMost(front, x);
      InsertBound(column, front, x);
    }
  }

  /** Inserting into sorted columns keeps them sorted. */
  lemma {:induction false} InsertSorted(column: seq<int>, sorted: seq<seq<int>>)
    requires column != [] && NonEmpty(sorted) && SortedByKey(sorted)
    ensures SortedByKey(Insert(column, sorted))
    decreases |sorted|
  {
    if sorted != [] {
      var last := sorted[|sorted| - 1];
      var front := sorted[..|sorted| - 1];
      if Key(last) > Key(column) {
        assert SortedByKey(front);
        InsertSorted(column, front);
        assert KeysAtMost(front, Key(last));
        InsertBound(column, front, Key(last));
      } else {
        assert KeysAtMost(sorted, Key(column));
      }
    }
  }

  /** `Arrays.sort` of the stored rows, that is of the input's columns, by
      their first entry; a stable sort, here insertion from the front. */
  function SortByKey(columns: seq<seq<int>>): (r: seq<seq<int>>)
    requires NonEmpty(columns)
    ensures NonEmpty(r) && SortedByKey(r)
    ensures multiset(r) == multiset(columns)
  {
    if columns == [] then []
    else
      var front := columns[..|columns| - 1];
      assert columns == front + [columns[|columns| - 1]];
      InsertMultiset(columns[|columns| - 1], SortByKey(front));
      InsertSorted(columns[|columns| - 1], SortByKey(front));
      Insert(columns[|columns| - 1], SortByKey(front))
  }

  /** `sortColumns`: the same columns, each kept whole, reordered so that
      their first-row entries never decrease. */
  function SortColumns(m: Matrix): (r: Matrix)
    requires Valid(m)
    ensures Valid(r) && r.size == m.size
    ensures multiset(r.cells) == multiset(m.cells)
    ensures forall a, b :: 0 <= a < b < r.size ==> r.cells[a][0] <= r.cells[b][0]
  {
    var sorted := SortByKey(m.cells);
    assert forall k :: 0 <= k < |sorted| ==> sorted[k] in multiset(m.cells);
    assert |sorted| == |multiset(sorted)| == |m.cells|;
    Matrix(m.size, sorted)
  }

  // ---------------------------------------------------------------------------
  // The tests
  // ---------------------------------------------------------------------------

  /** The rejected inputs: null, an even size, and a short row. */
  lemma RejectedExamples(even: Input, ragged: Input)
    requires even == Some([Some([1, 2]), Some([3, 4])])
    requires ragged == Some([Some([1, 2, 3]), Some([4, 5]), Some([7, 8, 9])])
    ensures New(None) == Err(IllegalArgument("Matrix dimensions are incorrect"))
    ensures New(even).Err? && New(ragged).Err?
  {
    assert |ragged.value[1].value| == 2;
  }

  /** The spiral of a 3×3 matrix: the centre, then its one ring from the
      top middle round to the top-left corner. */
  lemma SpiralOfThree()
    ensures Spiral(3) == [(1, 1), (0, 1), (0, 2), (1, 2), (2, 2), (2, 1), (2, 0), (1, 0), (0, 0)]
  {
    assert Ring(1, 1) == [(0, 1), (0, 2), (1, 2), (2, 2), (2, 1), (2, 0), (1, 0), (0, 0)];
    assert SpiralOrder(1, 2) == [(1, 1)] + Ring(1, 1);
  }

  /** The 3×3 example stores its transpose and prints back its rows. */
  lemma NewExample(input: Input)
    requires input == Some([Some([1, 2, 3]), Some([4, 5, 6]), Some([7, 8, 9])])
    ensures New(input).Ok?
    ensures New(input).value.cells == [[1, 4, 7], [2, 5, 8], [3, 6, 9]]
    ensures Rows(New(input).value) == [[1, 2, 3], [4, 5, 6], [7, 8, 9]]
  {
    assert WellShaped(input);
    PrintAfterNew(input);
    var m := New(input).value;
    var want := [[1, 4, 7], [2, 5, 8], [3, 6, 9]];
    forall i, j | 0 <= i < 3 && 0 <= j < 3
      ensures m.cells[i][j] == want[i][j]
    {
      assert m.cells[i][j] == input.value[j].value[i];
    }
    SameGrid(m.cells, want, 3);
  }

  /** Two square grids that agree cell by cell are equal. */
  lemma SameGrid(a: seq<seq<int>>, b: seq<seq<int>>, n: nat)
    requires |a| == n && |b| == n
    requires forall i :: 0 <= i < n ==> |a[i]| == n && |b[i]| == n
    requires forall i, j :: 0 <= i < n && 0 <= j < n ==> a[i][j] == b[i][j]
    ensures a == b
  {
    forall i | 0 <= i < n
      ensures a[i] == b[i]
    {
    }
  }

  /** The 3×3 example draws "5 4 7 8 9 6 3 2 1". */
  method DrawSpiralExample(input: Input) returns (printed: seq<int>)
    requires input == Some([Some([1, 2, 3]), Some([4, 5, 6]), Some([7, 8, 9])])
    ensures printed == [5, 4, 7, 8, 9, 6, 3, 2, 1]
  {
    NewExample(input);
    SpiralOfThree();
    var m := New(input).value;
    printed := DrawSpiral(m);
  }

  /** `sortColumns` on the test's matrix prints "1 2 3 / 5 4 6 / 7 9 8":
      the columns headed 2, 1, 3 come out headed 1, 2, 3. */
  lemma SortColumnsExample(input: Input)
    requires input == Some([Some([2, 1, 3]), Some([4, 5, 6]), Some([9, 7, 8])])
    ensures New(input).Ok?
    ensures Rows(SortColumns(New(input).value)) == [[1, 2, 3], [5, 4, 6], [7, 9, 8]]
  {
    var columns := [[2, 4, 9], [1, 5, 7], [3, 6, 8]];
    StoredColumns(input, columns);
    SortThreeColumns(columns);
    SortedRows(SortColumns(New(input).value));
  }

  /** The matrix of the sorting test stores the input's columns. */
  lemma StoredColumns(input: Input, columns: seq<seq<int>>)
    requires input == Some([Some([2, 1, 3]), Some([4, 5, 6]), Some([9, 7, 8])])
    requires columns == [[2, 4, 9], [1, 5, 7], [3, 6, 8]]
    ensures New(input).Ok? && New(input).value.cells == columns
  {
    assert WellShaped(input);
    var m := New(input).value;
    forall i, j | 0 <= i < 3 && 0 <= j < 3
      ensures m.cells[i][j] == columns[i][j]
    {
      assert m.cells[i][j] == input.value[j].value[i];
    }
    SameGrid(m.cells, columns, 3);
  }

  /** The rows printed for the sorted columns. */
  lemma SortedRows(m: Matrix)
    requires m == Matrix(3, [[1, 5, 7], [2, 4, 9], [3, 6, 8]])
    ensures Valid(m) && Rows(m) == [[1, 2, 3], [5, 4, 6], [7, 9, 8]]
  {
    var want := [[1, 2, 3], [5, 4, 6], [7, 9, 8]];
    forall i, j | 0 <= i < 3 && 0 <= j < 3
      ensures Rows(m)[i][j] == want[i][j]
    {
    }
    SameGrid(Rows(m), want, 3);
  }

  /** Sorting the example's columns, one insertion at a time. */
  lemma SortThreeColumns(columns: seq<seq<int>>)
    requires columns == [[2, 4, 9], [1, 5, 7], [3, 6, 8]]
    ensures SortByKey(columns) == [[1, 5, 7], [2, 4, 9], [3, 6, 8]]
  {
    SortTwoColumns();
    assert columns[..|columns| - 1] == [[2, 4, 9], [1, 5, 7]];
  }

  lemma SortFirstColumn()
    ensures SortByKey([[2, 4, 9]]) == [[2, 4, 9]]
  {
    var none: seq<seq<int>> := [];
    var first: seq<seq<int>> := [[2, 4, 9]];
    assert first[..0] == none;
  }

  lemma SortTwoColumns()
    ensures SortByKey([[2, 4, 9], [1, 5, 7]]) == [[1, 5, 7], [2, 4, 9]]
  {
    SortFirstColumn();
    var none: seq<seq<int>> := [];
    var two: seq<seq<int>> := [[2, 4, 9], [1, 5, 7]];
    var first: seq<seq<int>> := [[2, 4, 9]];
    assert two[..1] == first;
    assert first[..0] == none;
    assert Insert([1, 5, 7], first) == [[1, 5, 7], [2, 4, 9]];
  }
}

=== FILE: maybe.dfy ===
/** `Maybe`: a holder of one possibly-null reference. `nothing()` holds null,
    so `just(null)` is the same value as `nothing()`. */
module Maybe {
  import opened Wrappers
  import opened JavaInt

  /** The stored reference; `None` is null. */
  datatype Maybe<T> = Maybe(value: Option<T>)

  /** The exception `get` raises on an empty holder. */
  datatype MaybeException = MaybeException

  /** `just(v)`: any reference, null included. */
  function Just<T>(v: Option<T>): (r: Maybe<T>)
    ensures IsPresent(r) <==> v.Some?
  {
    Maybe(v)
  }

  /** `nothing()`: a holder of null. */
  function Nothing<T>(): Maybe<T>
  {
    Maybe(None)
  }

  /** `nothing()` is never present. */
  lemma NothingIsAbsent<T>()
    ensures !IsPresent(Nothing<T>())
  {
  }

  /** `get()`: the value, or a `MaybeException` for null. */
  function Get<T>(m: Maybe<T>): (r: Result<T, MaybeException>)
    ensures r.Ok? <==> IsPresent(m)
    ensures r.Ok? ==> Just(Some(r.value)) == m
  {
    match m.value
    case None => Err(MaybeException)
    case Some(v) => Ok(v)
  }

  /** `isPresent()`: whether the reference is non-null. */
  predicate IsPresent<T>(m: Maybe<T>)
  {
    m.value.Some?
  }

  /** `map(f)`: nothing for nothing, otherwise a holder of `f`'s result,
      which may itself be null. */
  function Map<T, U>(m: Maybe<T>, f: T -> Option<U>): (r: Maybe<U>)
    ensures !IsPresent(m) ==> r == Nothing()
    ensures IsPresent(m) ==> r == Just(f(m.value.value))
  {
    match m.value
    case None => Maybe(None)
    case Some(v) => Maybe(f(v))
  }

  /** `just(v).get()` gives back `v` for non-null `v`; `nothing().get()` and
      `just(null).get()` both throw, since the two are one value. */
  lemma JustGet<T>(v: T)
    ensures Get(Just(Some(v))) == Ok(v)
    ensures Get(Nothing<T>()) == Err(MaybeException)
    ensures Just<T>(None) == Nothing()
  {
  }

  /** `map` keeps the holder's shape: mapping with a function that never
      returns null is present exactly when the holder is, and mapping twice
      is mapping once with both functions. */
  lemma MapLaws<T, U, V>(m: Maybe<T>, f: T -> Option<U>, g: U -> Option<V>)
    ensures (forall x :: f(x).Some?) ==> (IsPresent(Map(m, f)) <==> IsPresent(m))
    ensures Map(m, x => Some(x)) == m
    ensures Map(Map(m, f), g) == Map(m, x => if f(x).Some? then g(f(x).value) else None)
  {
  }

  // ---------------------------------------------------------------------------
  // convertToInteger: `Integer.valueOf` in radix 10
  // ---------------------------------------------------------------------------

  /** `Integer.parseInt(s, 10)`: an optional `+` or `-`, then at least one
      digit, and a value that fits in 32 bits; anything else is a
      `NumberFormatException`, here `None`. */
  function ParseInt(s: string): (r: Option<int>)
    ensures r.Some? ==> MinInt <= r.value <= MaxInt
    ensures r.Some? <==> (
      var digits := if s != [] && (s[0] == '-' || s[0] == '+') then s[1..] else s;
      digits != [] && AllDigits(digits) &&
      MinInt <= (if s[0] == '-' then -(DecimalValue(digits) as int) else DecimalValue(digits)) <= MaxInt)
  {
    if s == [] then None
    else
      var negative := s[0] == '-';
      var digits := if s[0] == '-' || s[0] == '+' then s[1..] else s;
      if digits == [] || !AllDigits(digits) then None
      else
        var n := if negative then -(DecimalValue(digits) as int) else DecimalValue(digits);
        if MinInt <= n <= MaxInt then Some(n) else None
  }

  /** `convertToInteger`: `just` the parsed number, or `nothing` when
      `Integer.valueOf` throws, a null string included. */
  function ConvertToInteger(s: Option<string>): (r: Maybe<int>)
    ensures IsPresent(r) <==> s.Some? && ParseInt(s.value).Some?
    ensures IsPresent(r) ==> r.value == ParseInt(s.value)
  {
    match s
    case None => Nothing()
    case Some(str) =>
      match ParseInt(str)
      case None => Nothing()
      case Some(n) => Just(Some(n))
  }

  /** Printing a 32-bit number and converting it back gives the number:
      `convertToInteger(String.valueOf(n))` is `just(n)`. */
  lemma {:induction false} ConvertShowRoundTrip(n: int)
    requires MinInt <= n <= MaxInt
    ensures ConvertToInteger(Some(Show(n))) == Just(Some(n))
  {
    if n < 0 {
      DigitsValue(-n);
      assert ("-" + Digits(-n))[1..] == Digits(-n);
    } else {
      DigitsValue(n);
    }
  }

  /** The examples of the tests: "123" converts and "abc" does not; a
      present 5 maps to "25" under `x -> String.valueOf(x * x)`. */
  lemma Examples()
    ensures ConvertToInteger(Some("123")) == Just(Some(123))
    ensures ConvertToInteger(Some("abc")) == Nothing()
    ensures Get(Map(Just(Some(5)), (x: int) => Some(Show(x * x)))) == Ok("25")
  {
    ConvertShowRoundTrip(123);
    assert Show(123) == "123";
    assert !IsDigit("abc"[0]);
    assert Show(25) == "25";
  }
}

=== FILE: my_tree_set.dfy ===
/** The navigable set facade over the binary search tree. A set is a view of a
    shared tree together with an iteration direction; `descendingSet` returns
    a view of the same tree with the direction flipped, so every query is
    answered by the tree query that is its mirror image when the view is
    descending. */
module MyTreeSet {
  import opened Wrappers
  import BST = BinarySearchTree

  datatype TreeSet = TreeSet(tree: BST.Tree, ascending: bool)

  ghost predicate Valid(v: TreeSet) { BST.Valid(v.tree) }

  ghost function Elements(v: TreeSet): set<int>
  {
    BST.Keys(v.tree.root)
  }

  /** `a` comes strictly before `b` in the view's iteration order. */
  ghost predicate Precedes(ascending: bool, a: int, b: int)
  {
    if ascending then a < b else b < a
  }

  /** `r` is the element of `s` that comes first in the view's order, or
      null exactly when `s` is empty. */
  ghost predicate EarliestOf(ascending: bool, s: set<int>, r: Option<int>)
  {
    match r
    case None => s == {}
    case Some(m) => m in s && forall y :: y in s && y != m ==> Precedes(ascending, m, y)
  }

  /** `r` is the element of `s` that comes last in the view's order, or null
      exactly when `s` is empty. */
  ghost predicate LatestOf(ascending: bool, s: set<int>, r: Option<int>)
  {
    match r
    case None => s == {}
    case Some(m) => m in s && forall y :: y in s && y != m ==> Precedes(ascending, y, m)
  }

  /** Elements that come before `k` in the view's order. */
  ghost function Preceding(v: TreeSet, k: int): set<int>
  {
    set y | y in Elements(v) && Precedes(v.ascending, y, k)
  }

  /** Elements that come after `k` in the view's order. */
  ghost function Following(v: TreeSet, k: int): set<int>
  {
    set y | y in Elements(v) && Precedes(v.ascending, k, y)
  }

  /** A new set: an empty tree viewed in ascending order. */
  function Empty(): (v: TreeSet)
    ensures Valid(v) && Elements(v) == {} && v.ascending
  {
    TreeSet(BST.Empty(), true)
  }

  function Size(v: TreeSet): (r: int)
    requires Valid(v)
    ensures r == |Elements(v)|
  {
    BST.Size(v.tree)
  }

  function IsEmpty(v: TreeSet): (r: bool)
    requires Valid(v)
    ensures r <==> Elements(v) == {}
  {
    BST.IsEmpty(v.tree)
  }

  function Add(v: TreeSet, k: int): (res: (bool, TreeSet))
    requires Valid(v)
    ensures Valid(res.1) && res.1.ascending == v.ascending
    ensures res.0 <==> k !in Elements(v)
    ensures Elements(res.1) == Elements(v) + {k}
  {
    var (added, t) := BST.Add(v.tree, k);
    (added, TreeSet(t, v.ascending))
  }

  function Contains(v: TreeSet, k: int): (r: bool)
    requires Valid(v)
    ensures r <==> k in Elements(v)
  {
    BST.Contains(v.tree, k)
  }

  function Remove(v: TreeSet, k: int): (res: (bool, TreeSet))
    requires Valid(v)
    ensures Valid(res.1) && res.1.ascending == v.ascending
    ensures res.0 <==> k in Elements(v)
    ensures Elements(res.1) == Elements(v) - {k}
  {
    var (removed, t) := BST.Remove(v.tree, k);
    (removed, TreeSet(t, v.ascending))
  }

  /** `iterator`: every element once, in the view's order. */
  function Iterator(v: TreeSet): (s: seq<int>)
    requires Valid(v)
    ensures forall i, j :: 0 <= i < j < |s| ==> Precedes(v.ascending, s[i], s[j])
    ensures forall x :: x in s <==> x in Elements(v)
  {
    if v.ascending then BST.AscendingIterator(v.tree) else BST.DescendingIterator(v.tree)
  }

  /** `descendingIterator`: every element once, against the view's order. */
  function DescendingIterator(v: TreeSet): (s: seq<int>)
    requires Valid(v)
    ensures forall i, j :: 0 <= i < j < |s| ==> Precedes(v.ascending, s[j], s[i])
    ensures forall x :: x in s <==> x in Elements(v)
  {
    if v.ascending then BST.DescendingIterator(v.tree) else BST.AscendingIterator(v.tree)
  }

  /** `descendingSet`: the same tree, the opposite direction. */
  function DescendingSet(v: TreeSet): (d: TreeSet)
    requires Valid(v)
    ensures Valid(d) && Elements(d) == Elements(v)
    ensures forall a, b :: Precedes(d.ascending, a, b) <==> Precedes(v.ascending, b, a)
  {
    TreeSet(v.tree, !v.ascending)
  }

  function First(v: TreeSet): (r: Option<int>)
    requires Valid(v)
    ensures EarliestOf(v.ascending, Elements(v), r)
  {
    if v.ascending then BST.First(v.tree) else BST.Last(v.tree)
  }

  function Last(v: TreeSet): (r: Option<int>)
    requires Valid(v)
    ensures LatestOf(v.ascending, Elements(v), r)
  {
    if v.ascending then BST.Last(v.tree) else BST.First(v.tree)
  }

  /** `lower`: the last element strictly before `k` in the view's order. */
  function Lower(v: TreeSet, k: int): (r: Option<int>)
    requires Valid(v)
    ensures LatestOf(v.ascending, Preceding(v, k), r)
  {
    if v.ascending then
      assert Preceding(v, k) == BST.Below(Elements(v), k);
      BST.Lower(v.tree, k)
    else
      assert Preceding(v, k) == BST.Above(Elements(v), k);
      BST.Higher(v.tree, k)
  }

  /** `floor`: `k` itself when present, otherwise the last element before it. */
  function Floor(v: TreeSet, k: int): (r: Option<int>)
    requires Valid(v)
    ensures LatestOf(v.ascending, Preceding(v, k) + (Elements(v) * {k}), r)
  {
    if v.ascending then
      assert Preceding(v, k) + (Elements(v) * {k}) == BST.AtMost(Elements(v), k);
      BST.Floor(v.tree, k)
    else
      assert Preceding(v, k) + (Elements(v) * {k}) == BST.AtLeast(Elements(v), k);
      BST.Ceiling(v.tree, k)
  }

  /** `ceiling`: `k` itself when present, otherwise the first element after it. */
  function Ceiling(v: TreeSet, k: int): (r: Option<int>)
    requires Valid(v)
    ensures EarliestOf(v.ascending, Following(v, k) + (Elements(v) * {k}), r)
  {
    if v.ascending then
      assert Following(v, k) + (Elements(v) * {k}) == BST.AtLeast(Elements(v), k);
      BST.Ceiling(v.tree, k)
    else
      assert Following(v, k) + (Elements(v) * {k}) == BST.AtMost(Elements(v), k);
      BST.Floor(v.tree, k)
  }

  /** `higher`: the first element strictly after `k` in the view's order. */
  function Higher(v: TreeSet, k: int): (r: Option<int>)
    requires Valid(v)
    ensures EarliestOf(v.ascending, Following(v, k), r)
  {
    if v.ascending then
      assert Following(v, k) == BST.Above(Elements(v), k);
      BST.Higher(v.tree, k)
    else
      assert Following(v, k) == BST.Below(Elements(v), k);
      BST.Lower(v.tree, k)
  }

  /** Both views share one tree: a change made through the descending view is
      the change made through the original one, seen the other way round. */
  lemma ViewsShareTheTree(v: TreeSet, k: int)
    requires Valid(v)
    ensures DescendingSet(Add(DescendingSet(v), k).1) == Add(v, k).1
    ensures DescendingSet(Remove(DescendingSet(v), k).1) == Remove(v, k).1
  {
  }

  /** Iterating the descending set yields the original iteration reversed. */
  lemma DescendingSetIteratesBackwards(v: TreeSet)
    requires Valid(v)
    ensures Iterator(DescendingSet(v)) == BST.Reverse(Iterator(v))
  {
    BST.DescendingIsReversedAscending(v.tree);
    if !v.ascending {
      BST.ReverseInvolution(BST.AscendingIterator(v.tree));
    }
  }

  /** Flipping the direction twice gives back the original view. */
  lemma DescendingSetInvolution(v: TreeSet)
    requires Valid(v)
    ensures DescendingSet(DescendingSet(v)) == v
  {
  }
}

=== FILE: pairs.dfy ===
/** The memory game "pairs": an even-sized square board holds every number
    below half the cell count twice, in shuffled order; the player opens two
    cells at a time, and a matching pair stays open for good. `GameLogic`
    keeps the board and the two open slots in static fields; here they are
    a `Game` value passed in and returned, and the random generator is a
    parameter. */
module Pairs {
  import Wrappers

  /** `Pair<Integer, Integer>` as a cell: `first` is the row, `second` the
      column. */
  datatype Position = Position(first: int, second: int)

  /** The static fields: the side, the numbers, which cells stay open
      (`opened`), and the two cells opened in the current turn (null is
      `None`). */
  datatype Game = Game(
    fieldSize: nat,
    field: seq<seq<int>>,
    openCells: seq<seq<bool>>,
    positionFirst: Wrappers.Option<Position>,
    positionSecond: Wrappers.Option<Position>)

  /** `m` is an `n` by `n` array. */
  predicate Square<T>(m: seq<seq<T>>, n: nat)
  {
    |m| == n && forall i :: 0 <= i < n ==> |m[i]| == n
  }

  /** Both arrays have the game's side. */
  predicate Shaped(g: Game)
  {
    Square(g.field, g.fieldSize) && Square(g.openCells, g.fieldSize)
  }

  /** `p` names a cell of the board; any other index throws. */
  predicate OnBoard(g: Game, p: Position)
  {
    0 <= p.first < g.fieldSize && 0 <= p.second < g.fieldSize
  }

  // ---------------------------------------------------------------------------
  // Dealing: the numbers, the shuffle, the rows
  // ---------------------------------------------------------------------------

  /** The numbers `initialize` writes before shuffling: slots `i` and `i + 1`
      get `i / 2` for every even `i`, so slot `k` holds `k / 2`. */
  function Numbers(m: nat): (a: seq<int>)
    ensures |a| == m
    ensures forall k :: 0 <= k < m ==> a[k] == k / 2
  {
    seq(m, k requires 0 <= k < m => k / 2)
  }

  /** Every number below `m / 2` appears exactly twice, and nothing else
      appears. */
  lemma {:induction false} NumbersArePairs(m: nat, v: int)
    requires m % 2 == 0
    ensures multiset(Numbers(m))[v] == if 0 <= v < m / 2 then 2 else 0
  {
    if m > 0 {
      NumbersArePairs(m - 2, v);
      assert Numbers(m) == Numbers(m - 2) + [(m - 2) / 2, (m - 2) / 2];
    }
  }

  /** The index step `i` of `randomShuffle` swaps with:
      `i + random.nextInt(length - i)`, the generator's answer at step `i`
      being `draws(i)` reduced to the bound. */
  function Pick(draws: nat -> nat, len: nat, i: nat): (j: nat)
    requires i < len
    ensures i <= j < len
  {
    i + draws(i) % (len - i)
  }

  /** Cells `i` and `j` exchanged. */
  function Swap(a: seq<int>, i: nat, j: nat): (r: seq<int>)
    requires i < |a| && j < |a|
    ensures |r| == |a| && r[i] == a[j] && r[j] == a[i]
    ensures forall k :: 0 <= k < |a| && k != i && k != j ==> r[k] == a[k]
    ensures multiset(r) == multiset(a)
  {
    a[i := a[j]][j := a[i]]
  }

  /** `randomShuffle` from step `i` on, with a true exchange at each step. */
  function Shuffle(a: seq<int>, draws: nat -> nat, i: nat): (r: seq<int>)
    requires i <= |a|
    ensures |r| == |a| && multiset(r) == multiset(a)
    decreases |a| - i
  {
    if i == |a| then a else Shuffle(Swap(a, i, Pick(draws, |a|, i)), draws, i + 1)
  }

  /** `k` rows of `n` cells make `k * n` cells: one row and `k - 1` more. */
  lemma RowStep(k: nat, n: nat)
    requires k > 0
    ensures k * n == (k - 1) * n + n && (k - 1) * n >= 0
  {
  }

  /** The `k` rows of `n` cells `System.arraycopy` cuts the shuffled numbers
      into: row `i` is slots `i * n` up to `i * n + n`. */
  function Rows(a: seq<int>, n: nat, k: nat): (rows: seq<seq<int>>)
    requires |a| == k * n
    ensures |rows| == k
    ensures forall i :: 0 <= i < k ==> |rows[i]| == n
  {
    if k == 0 then []
    else
      RowStep(k, n);
      [a[..n]] + Rows(a[n..], n, k - 1)
  }

  /** The rows read back in order. */
  function Concat(rows: seq<seq<int>>): seq<int>
  {
    if rows == [] then [] else rows[0] + Concat(rows[1..])
  }

  /** Reading the rows back in order gives the numbers cut. */
  lemma {:induction false} ConcatRows(a: seq<int>, n: nat, k: nat)
    requires |a| == k * n
    ensures Concat(Rows(a, n, k)) == a
  {
    if k > 0 {
      RowStep(k, n);
      ConcatRows(a[n..], n, k - 1);
      assert a == a[..n] + a[n..];
    } else {
      assert |a| == 0;
    }
  }

  /** `n` rows of `n` cells that are all closed. */
  function Closed(n: nat): (m: seq<seq<bool>>)
    ensures Square(m, n)
    ensures forall i, j :: 0 <= i < n && 0 <= j < n ==> !m[i][j]
  {
    seq(n, i => seq(n, j => false))
  }

  /** `initialize(fieldSize)` on top of the corrected shuffle, which
      exchanges the two cells: `None` when it throws, which is for a
      negative side (the arrays cannot be made) and for an odd side (the
      loop writes one slot past the end); otherwise a shuffled board with
      nothing open. */
  function Initialize(fieldSize: int, draws: nat -> nat): (r: Wrappers.Option<Game>)
    ensures r.None? <==> fieldSize < 0 || fieldSize % 2 == 1
    ensures r.Some? ==> Shaped(r.value) && r.value.fieldSize == fieldSize
    ensures r.Some? ==> r.value.positionFirst.None? && r.value.positionSecond.None?
    ensures r.Some? ==> forall i, j :: 0 <= i < fieldSize && 0 <= j < fieldSize ==> !r.value.openCells[i][j]
  {
    if fieldSize < 0 || fieldSize % 2 == 1 then Wrappers.None
    else
      var a := Shuffle(Numbers(fieldSize * fieldSize), draws, 0);
      Wrappers.Some(Game(fieldSize, Rows(a, fieldSize, fieldSize), Closed(fieldSize), Wrappers.None, Wrappers.None))
  }

  /** A board dealt by `initialize` holds every number below half the cell
      count in exactly two cells, and no other number. */
  lemma InitializeDealsPairs(fieldSize: int, draws: nat -> nat, v: int)
    requires Initialize(fieldSize, draws).Some?
    ensures multiset(Concat(Initialize(fieldSize, draws).value.field))[v] ==
      if 0 <= v < fieldSize * fieldSize / 2 then 2 else 0
  {
    var m := fieldSize * fieldSize;
    var a := Shuffle(Numbers(m), draws, 0);
    assert Initialize(fieldSize, draws).value.field == Rows(a, fieldSize, fieldSize);
    ConcatRows(a, fieldSize, fieldSize);
    EvenSquare(fieldSize);
    NumbersArePairs(m, v);
  }

  /** An even side makes an even cell count. */
  lemma EvenSquare(n: int)
    requires n >= 0 && n % 2 == 0
    ensures (n * n) % 2 == 0
  {
    var h := n / 2;
    assert n * n == 2 * (h * n);
  }

  // ---------------------------------------------------------------------------
  // The swap as written
  // ---------------------------------------------------------------------------

  /** The dealt numbers are never negative. */
  predicate NonNegative(a: seq<int>)
  {
    forall k :: 0 <= k < |a| ==> a[k] >= 0
  }

  /** Java's `^` on two numbers that are not negative, bit by bit from the
      lowest. */
  function Xor(a: nat, b: nat): nat
    decreases a + b
  {
    if a == 0 && b == 0 then 0
    else 2 * Xor(a / 2, b / 2) + (if a % 2 == b % 2 then 0 else 1)
  }

  /** The lowest bit of `a ^ b` and the bits above it. */
  lemma XorBits(a: nat, b: nat)
    ensures Xor(a, b) / 2 == Xor(a / 2, b / 2)
    ensures Xor(a, b) % 2 == if a % 2 == b % 2 then 0 else 1
  {
  }

  /** A number xor-ed with itself is zero. */
  lemma {:induction false} XorSelf(a: nat)
    ensures Xor(a, a) == 0
    decreases a
  {
    if a != 0 {
      XorSelf(a / 2);
    }
  }

  /** The order of the two numbers does not matter. */
  lemma {:induction false} XorSymmetric(a: nat, b: nat)
    ensures Xor(a, b) == Xor(b, a)
    decreases a + b
  {
    if a != 0 || b != 0 {
      XorSymmetric(a / 2, b / 2);
    }
  }

  /** Xor-ing `b` out again gives `a` back, on either side. */
  lemma {:induction false} XorCancel(a: nat, b: nat)
    ensures Xor(Xor(a, b), b) == a && Xor(a, Xor(a, b)) == b
    decreases a + b
  {
    XorBits(a, b);
    var c := Xor(a, b);
    if a != 0 || b != 0 {
      XorCancel(a / 2, b / 2);
      XorBits(c, b);
      XorBits(a, c);
    }
  }

  /** `swap` as written: three xor-assignments, which exchange the two
      cells when they differ but clear the cell when `i == j`. */
  function XorSwap(a: seq<int>, i: nat, j: nat): (r: seq<int>)
    requires NonNegative(a) && i < |a| && j < |a|
    ensures |r| == |a| && NonNegative(r)
  {
    var a1 := a[i := Xor(a[i], a[j])];
    var a2 := a1[j := Xor(a1[j], a1[i])];
    a2[i := Xor(a2[i], a2[j])]
  }

  /** On two different cells the xor swap is the exchange; on one cell it
      writes zero there. */
  lemma XorSwapMeans(a: seq<int>, i: nat, j: nat)
    requires NonNegative(a) && i < |a| && j < |a|
    ensures i != j ==> XorSwap(a, i, j) == Swap(a, i, j)
    ensures i == j ==> XorSwap(a, i, j) == a[i := 0]
  {
    XorCancel(a[i], a[j]);
    XorSymmetric(a[j], Xor(a[i], a[j]));
    XorSymmetric(Xor(a[i], a[j]), a[i]);
    XorSelf(a[i]);
    XorSelf(0);
  }

  /** `randomShuffle` from step `i` on, as written with the xor swap. */
  function ShuffleAsWritten(a: seq<int>, draws: nat -> nat, i: nat): (r: seq<int>)
    requires NonNegative(a) && i <= |a|
    ensures |r| == |a| && NonNegative(r)
    decreases |a| - i
  {
    if i == |a| then a else ShuffleAsWritten(XorSwap(a, i, Pick(draws, |a|, i)), draws, i + 1)
  }

  /** The last step of the shuffle can only pick its own cell, so the
      written shuffle always clears the last cell. */
  lemma {:induction false} AsWrittenClearsLast(a: seq<int>, draws: nat -> nat, i: nat)
    requires NonNegative(a) && i < |a|
    ensures ShuffleAsWritten(a, draws, i)[|a| - 1] == 0
    decreases |a| - i
  {
    var j := Pick(draws, |a|, i);
    XorSwapMeans(a, i, j);
    if i < |a| - 1 {
      AsWrittenClearsLast(XorSwap(a, i, j), draws, i + 1);
    }
  }

  /** `n` zeros. */
  function Zeros(n: nat): (z: seq<int>)
    ensures |z| == n && forall k :: 0 <= k < n ==> z[k] == 0
  {
    seq(n, k => 0)
  }

  /** When the generator answers 0 at every step, each step picks its own
      cell, and the written shuffle clears every cell from step `i` on. */
  lemma {:induction false} AsWrittenZeroDraws(a: seq<int>, draws: nat -> nat, i: nat)
    requires NonNegative(a) && i <= |a|
    requires forall k :: draws(k) == 0
    ensures ShuffleAsWritten(a, draws, i) == a[..i] + Zeros(|a| - i)
    decreases |a| - i
  {
    if i < |a| {
      assert Pick(draws, |a|, i) == i;
      XorSwapMeans(a, i, i);
      var b := a[i := 0];
      AsWrittenZeroDraws(b, draws, i + 1);
      assert b[..i + 1] + Zeros(|a| - i - 1) == a[..i] + Zeros(|a| - i);
    }
  }

  /** On the 2 by 2 board, with a generator answering 0, the written shuffle
      leaves four zeros instead of two pairs: the multiset of numbers is not
      kept, while the exchange keeps it. */
  lemma AsWrittenLosesPairs(draws: nat -> nat)
    requires forall k :: draws(k) == 0
    ensures ShuffleAsWritten(Numbers(4), draws, 0) == Zeros(4)
    ensures multiset(ShuffleAsWritten(Numbers(4), draws, 0)) != multiset(Numbers(4))
    ensures multiset(Shuffle(Numbers(4), draws, 0)) == multiset(Numbers(4))
  {
    var a := Numbers(4);
    AsWrittenZeroDraws(a, draws, 0);
    assert a[..0] + Zeros(4) == Zeros(4);
    assert multiset(Zeros(4))[1] == 0 by {
      assert Zeros(4) == [0, 0, 0, 0];
    }
    NumbersArePairs(4, 1);
  }

  /** `initialize(fieldSize)` as written, on top of the xor-swap shuffle:
      the same failures and the same shape, but the last cell of the board
      always holds 0. */
  function InitializeAsWritten(fieldSize: int, draws: nat -> nat): (r: Wrappers.Option<Game>)
    ensures r.None? <==> fieldSize < 0 || fieldSize % 2 == 1
    ensures r.Some? ==> Shaped(r.value) && r.value.fieldSize == fieldSize
    ensures r.Some? ==> r.value.positionFirst.None? && r.value.positionSecond.None?
    ensures r.Some? ==> forall i, j :: 0 <= i < fieldSize && 0 <= j < fieldSize ==> !r.value.openCells[i][j]
  {
    if fieldSize < 0 || fieldSize % 2 == 1 then Wrappers.None
    else
      var a := ShuffleAsWritten(Numbers(fieldSize * fieldSize), draws, 0);
      Wrappers.Some(Game(fieldSize, Rows(a, fieldSize, fieldSize), Closed(fieldSize), Wrappers.None, Wrappers.None))
  }

  /** On every board of a positive side that `initialize` as written deals,
      the cells read row by row are the cell count long and the last one
      holds 0, whatever the generator answers. */
  lemma InitializeAsWrittenClearsLast(fieldSize: int, draws: nat -> nat)
    requires fieldSize > 0
    requires InitializeAsWritten(fieldSize, draws).Some?
    ensures |Concat(InitializeAsWritten(fieldSize, draws).value.field)| == fieldSize * fieldSize
    ensures Concat(InitializeAsWritten(fieldSize, draws).value.field)[fieldSize * fieldSize - 1] == 0
  {
    var m := fieldSize * fieldSize;
    var a := ShuffleAsWritten(Numbers(m), draws, 0);
    ConcatRows(a, fieldSize, fieldSize);
    AsWrittenClearsLast(Numbers(m), draws, 0);
  }

  // ---------------------------------------------------------------------------
  // Playing
  // ---------------------------------------------------------------------------

  /** `getNumber`. */
  function GetNumber(g: Game, p: Position): int
    requires Shaped(g) && OnBoard(g, p)
  {
    g.field[p.first][p.second]
  }

  /** The open slots are filled first one, then two, and never with the
      same cell twice. */
  predicate Slots(g: Game)
  {
    g.positionSecond.Some? ==> g.positionFirst.Some? && g.positionFirst != g.positionSecond
  }

  /** `countAlreadyOpened`: how many of the two slots are filled. */
  function CountAlreadyOpened(g: Game): (n: nat)
    ensures n <= 2
    ensures n == 0 <==> g.positionFirst.None? && g.positionSecond.None?
    ensures n == 2 <==> g.positionFirst.Some? && g.positionSecond.Some?
  {
    (if g.positionFirst.None? then 0 else 1) + (if g.positionSecond.None? then 0 else 1)
  }

  /** `alreadyOpened(p)`: `p` fills one of the two slots. */
  predicate AlreadyOpened(g: Game, p: Position)
  {
    (g.positionFirst.Some? && g.positionFirst.value == p) ||
    (g.positionSecond.Some? && g.positionSecond.value == p)
  }

  /** `open(p)`: a cell open for good is ignored; otherwise `p` fills the
      first slot if it is empty, else the second slot unless `p` is the
      first cell again. */
  function Open(g: Game, p: Position): (r: Game)
    requires Shaped(g) && OnBoard(g, p)
    ensures r.fieldSize == g.fieldSize && r.field == g.field && r.openCells == g.openCells
    ensures g.openCells[p.first][p.second] ==> r == g
    ensures !g.openCells[p.first][p.second] ==> AlreadyOpened(r, p)
    ensures g.positionFirst.Some? ==> r.positionFirst == g.positionFirst
    ensures Slots(g) ==> Slots(r)
    ensures CountAlreadyOpened(r) >= CountAlreadyOpened(g)
  {
    if g.openCells[p.first][p.second] then g
    else if g.positionFirst.None? then g.(positionFirst := Wrappers.Some(p))
    else if g.positionFirst.value != p then g.(positionSecond := Wrappers.Some(p))
    else g
  }

  /** `close`: both slots emptied, the board kept. */
  function Close(g: Game): (r: Game)
    ensures CountAlreadyOpened(r) == 0 && Slots(r)
    ensures forall p :: !AlreadyOpened(r, p)
    ensures r.fieldSize == g.fieldSize && r.field == g.field && r.openCells == g.openCells
  {
    g.(positionFirst := Wrappers.None, positionSecond := Wrappers.None)
  }

  /** `equal`: both slots are filled and their cells hold the same number. */
  predicate Equal(g: Game)
    requires Shaped(g)
    requires g.positionFirst.Some? ==> OnBoard(g, g.positionFirst.value)
    requires g.positionSecond.Some? ==> OnBoard(g, g.positionSecond.value)
  {
    g.positionFirst.Some? && g.positionSecond.Some? &&
    GetNumber(g, g.positionFirst.value) == GetNumber(g, g.positionSecond.value)
  }

  /** `setOpened`: both open cells stay open for good; it needs both slots
      filled, since it reads through both. */
  function SetOpened(g: Game): (r: Game)
    requires Shaped(g) && g.positionFirst.Some? && g.positionSecond.Some?
    requires OnBoard(g, g.positionFirst.value) && OnBoard(g, g.positionSecond.value)
    ensures Shaped(r) && r.fieldSize == g.fieldSize && r.field == g.field
    ensures r.positionFirst == g.positionFirst && r.positionSecond == g.positionSecond
    ensures forall i, j :: 0 <= i < g.fieldSize && 0 <= j < g.fieldSize ==>
      (r.openCells[i][j] <==> g.openCells[i][j] || AlreadyOpened(g, Position(i, j)))
  {
    var p, q := g.positionFirst.value, g.positionSecond.value;
    var o1 := g.openCells[p.first := g.openCells[p.first][p.second := true]];
    var o2 := o1[q.first := o1[q.first][q.second := true]];
    g.(openCells := o2)
  }

  // ---------------------------------------------------------------------------
  // A turn
  // ---------------------------------------------------------------------------

  /** From a turn with nothing open, opening two different cells that are
      not open for good fills both slots, and `equal` then holds exactly
      when the two cells hold the same number. */
  lemma OpenTwo(g: Game, p: Position, q: Position)
    requires Shaped(g) && OnBoard(g, p) && OnBoard(g, q) && p != q
    requires CountAlreadyOpened(g) == 0
    requires !g.openCells[p.first][p.second] && !g.openCells[q.first][q.second]
    ensures var r := Open(Open(g, p), q);
      CountAlreadyOpened(r) == 2 && AlreadyOpened(r, p) && AlreadyOpened(r, q) &&
      (Equal(r) <==> GetNumber(g, p) == GetNumber(g, q))
  {
  }

  /** Once `setOpened` has kept a pair, opening either of its cells again
      changes nothing. */
  lemma KeptStaysKept(g: Game, p: Position)
    requires Shaped(g) && g.positionFirst.Some? && g.positionSecond.Some?
    requires OnBoard(g, g.positionFirst.value) && OnBoard(g, g.positionSecond.value)
    requires AlreadyOpened(g, p)
    ensures OnBoard(SetOpened(g), p) && Open(SetOpened(g), p) == SetOpened(g)
    ensures Open(Close(SetOpened(g)), p) == Close(SetOpened(g))
  {
    var r := SetOpened(g);
    assert r.openCells[p.first][p.second];
  }
}

=== FILE: predicates.dfy ===
/** Predicates with the short-circuit combinators `or`, `and` and `not`.
    A predicate's `apply` may throw, so a predicate gives either a boolean
    or the exception it raised. */
module Predicates {
  import opened Wrappers

  /** An exception raised inside a predicate, such as the
      `StringIndexOutOfBoundsException` of the tests. */
  datatype Thrown = Thrown(name: string)

  type Predicate<!T> = T -> Result<bool, Thrown>

  /** `ALWAYS_TRUE`. */
  function AlwaysTrue<T>(): Predicate<T>
  {
    _ => Ok(true)
  }

  /** `ALWAYS_FALSE`. */
  function AlwaysFalse<T>(): Predicate<T>
  {
    _ => Ok(false)
  }

  /** `p.or(q)`: Java's `||`, so `q` runs only when `p` answered false. */
  function Or<T>(p: Predicate<T>, q: Predicate<T>): Predicate<T>
  {
    x => match p(x)
         case Err(e) => Err(e)
         case Ok(b) => if b then Ok(true) else q(x)
  }

  /** `p.and(q)`: Java's `&&`, so `q` runs only when `p` answered true. */
  function And<T>(p: Predicate<T>, q: Predicate<T>): Predicate<T>
  {
    x => match p(x)
         case Err(e) => Err(e)
         case Ok(b) => if b then q(x) else Ok(false)
  }

  /** `p.not()`. */
  function Not<T>(p: Predicate<T>): Predicate<T>
  {
    x => match p(x)
         case Err(e) => Err(e)
         case Ok(b) => Ok(!b)
  }

  /** What `or` answers: `p`'s exception, true without consulting `q` when
      `p` holds, and otherwise whatever `q` answers or throws. */
  lemma OrShortCircuits<T>(p: Predicate<T>, q: Predicate<T>, x: T)
    ensures p(x).Err? ==> Or(p, q)(x) == p(x)
    ensures p(x) == Ok(true) ==> Or(p, q)(x) == Ok(true)
    ensures p(x) == Ok(false) ==> Or(p, q)(x) == q(x)
    ensures p(x).Ok? && q(x).Ok? ==> Or(p, q)(x) == Ok(p(x).value || q(x).value)
  {
  }

  /** What `and` answers: `p`'s exception, false without consulting `q`
      when `p` fails, and otherwise whatever `q` answers or throws. */
  lemma AndShortCircuits<T>(p: Predicate<T>, q: Predicate<T>, x: T)
    ensures p(x).Err? ==> And(p, q)(x) == p(x)
    ensures p(x) == Ok(false) ==> And(p, q)(x) == Ok(false)
    ensures p(x) == Ok(true) ==> And(p, q)(x) == q(x)
    ensures p(x).Ok? && q(x).Ok? ==> And(p, q)(x) == Ok(p(x).value && q(x).value)
  {
  }

  /** `not` flips an answer and passes an exception on, so `not().not()`
      answers as the original, and `not` turns `or` into `and` of the
      negations, exceptions included. */
  lemma NotLaws<T>(p: Predicate<T>, q: Predicate<T>, x: T)
    ensures p(x).Ok? ==> Not(p)(x) == Ok(!p(x).value)
    ensures p(x).Err? ==> Not(p)(x) == p(x)
    ensures Not(Not(p))(x) == p(x)
    ensures Not(Or(p, q))(x) == And(Not(p), Not(q))(x)
    ensures Not(And(p, q))(x) == Or(Not(p), Not(q))(x)
  {
  }

  /** The constant predicates decide `or` and `and` alone: a throwing second
      predicate is never reached after `ALWAYS_TRUE.or` or
      `ALWAYS_FALSE.and`, and is reached after `ALWAYS_FALSE.or`. */
  lemma ConstantsDecide<T>(q: Predicate<T>, x: T)
    ensures Or(AlwaysTrue(), q)(x) == Ok(true)
    ensures And(AlwaysFalse(), q)(x) == Ok(false)
    ensures Or(AlwaysFalse(), q)(x) == q(x)
    ensures And(AlwaysTrue(), q)(x) == q(x)
  {
  }
}

=== FILE: smart_list.dfy ===
/** The list that changes representation with its size: nothing for the
    empty list, the element itself for one element, an array of five slots
    for two to five elements, and an array list beyond that. */
module SmartList {
  import opened Wrappers

  /** What the `storage` field holds. */
  datatype Storage<E> = Null | Single(element: E) | Small(slots: seq<Option<E>>) | Big(list: seq<E>)

  datatype SmartList<E> = SmartList(size: int, storage: Storage<E>)

  /** The only exception the index operations raise. */
  datatype Failure = IndexOutOfBounds

  /** The length of the array used for two to five elements. */
  const ArrayCapacity: nat := 5

  /** The representation invariant: the shape of `storage` is fixed by
      `size`, the first `size` array slots are in use and the others null. */
  predicate Valid<E>(l: SmartList<E>)
  {
    match l.storage
    case Null => l.size == 0
    case Single(_) => l.size == 1
    case Small(slots) =>
      2 <= l.size <= ArrayCapacity && |slots| == ArrayCapacity &&
      forall k :: 0 <= k < |slots| ==> (slots[k].Some? <==> k < l.size)
    case Big(list) => l.size > ArrayCapacity && |list| == l.size
  }

  /** The objects held by a run of occupied slots. */
  function Values<E>(slots: seq<Option<E>>): (r: seq<E>)
    requires forall k :: 0 <= k < |slots| ==> slots[k].Some?
    ensures |r| == |slots|
    ensures forall k :: 0 <= k < |r| ==> slots[k] == Some(r[k])
  {
    if slots == [] then [] else Values(slots[..|slots| - 1]) + [slots[|slots| - 1].value]
  }

  /** The occupied slots holding `s`, in order. */
  function Occupied<E>(s: seq<E>): (r: seq<Option<E>>)
    ensures |r| == |s|
    ensures forall k :: 0 <= k < |r| ==> r[k] == Some(s[k])
  {
    seq(|s|, k requires 0 <= k < |s| => Some(s[k]))
  }

  /** `n` null slots. */
  function Nulls<E>(n: nat): seq<Option<E>>
  {
    seq(n, _ => None)
  }

  /** The list the object stands for. */
  function Elements<E>(l: SmartList<E>): (r: seq<E>)
    requires Valid(l)
    ensures |r| == l.size
  {
    match l.storage
    case Null => []
    case Single(e) => [e]
    case Small(slots) => Values(slots[..l.size])
    case Big(list) => list
  }

  /** Element `i` of a valid list, wherever it is stored. */
  lemma ElementAt<E>(l: SmartList<E>, i: int)
    requires Valid(l) && 0 <= i < l.size
    ensures l.storage.Single? ==> Elements(l)[i] == l.storage.element
    ensures l.storage.Small? ==> l.storage.slots[i] == Some(Elements(l)[i])
    ensures l.storage.Big? ==> Elements(l)[i] == l.storage.list[i]
  {
    if l.storage.Small? {
      assert l.storage.slots[..l.size][i] == l.storage.slots[i];
    }
  }

  /** The representation is a function of the contents: two valid lists
      holding the same objects are the same value. */
  lemma {:induction false} Canonical<E>(a: SmartList<E>, b: SmartList<E>)
    requires Valid(a) && Valid(b) && Elements(a) == Elements(b)
    ensures a == b
  {
    assert a.size == b.size;
    match a.storage
    case Null =>
    case Single(_) =>
      assert b.storage.Single?;
      ElementAt(a, 0);
      ElementAt(b, 0);
    case Small(sa) =>
      var sb := b.storage.slots;
      forall k | 0 <= k < ArrayCapacity
        ensures sa[k] == sb[k]
      {
        if k < a.size {
          ElementAt(a, k);
          ElementAt(b, k);
        }
      }
    case Big(_) =>
      assert b.storage.Big?;
  }

  // ---------------------------------------------------------------------------
  // Construction
  // ---------------------------------------------------------------------------

  /** `new SmartList()`. */
  function Empty<E>(): SmartList<E>
  {
    SmartList(0, Null)
  }

  /** A new list is well formed and holds no element. */
  lemma EmptyHoldsNothing<E>()
    ensures Valid(Empty<E>()) && Elements(Empty<E>()) == []
  {
  }

  /** `new SmartList(c)`: the shape is chosen from the size of `c`, and an
      array is filled with the objects of `c` in iteration order. */
  function FromCollection<E>(c: seq<E>): (r: SmartList<E>)
    ensures Valid(r)
    ensures Elements(r) == c
  {
    if |c| == 0 then SmartList(0, Null)
    else if |c| == 1 then SmartList(1, Single(c[0]))
    else if |c| <= ArrayCapacity then
      var slots := Occupied(c) + Nulls(ArrayCapacity - |c|);
      assert slots[..|c|] == Occupied(c);
      assert forall k :: 0 <= k < |c| ==> Values(slots[..|c|])[k] == c[k];
      SmartList(|c|, Small(slots))
    else SmartList(|c|, Big(c))
  }

  // ---------------------------------------------------------------------------
  // Positional access
  // ---------------------------------------------------------------------------

  /** `get(i)`: element `i`, read from wherever the current shape keeps it. */
  function Get<E>(l: SmartList<E>, i: int): (r: Result<E, Failure>)
    requires Valid(l)
    ensures r.Err? <==> !(0 <= i < l.size)
    ensures r.Ok? ==> r.value == Elements(l)[i]
  {
    if i < 0 || i >= l.size then Err(IndexOutOfBounds)
    else
      ElementAt(l, i);
      if l.size == 1 then Ok(l.storage.element)
      else if l.size <= ArrayCapacity then Ok(l.storage.slots[i].value)
      else Ok(l.storage.list[i])
  }

  /** `set(i, e)`: the previous element `i` and the list with `e` in its
      place; the shape does not change. */
  function Set<E>(l: SmartList<E>, i: int, e: E): (r: Result<(E, SmartList<E>), Failure>)
    requires Valid(l)
    ensures r.Err? <==> !(0 <= i < l.size)
    ensures r.Ok? ==> r.value.0 == Elements(l)[i]
    ensures r.Ok? ==> Valid(r.value.1) && Elements(r.value.1) == Elements(l)[i := e]
  {
    if i < 0 || i >= l.size then Err(IndexOutOfBounds)
    else
      ElementAt(l, i);
      if l.size == 1 then
        Ok((l.storage.element, SmartList(1, Single(e))))
      else if l.size <= ArrayCapacity then
        var slots := l.storage.slots[i := Some(e)];
        var r := SmartList(l.size, Small(slots));
        assert forall k :: 0 <= k < l.size ==> Elements(r)[k] == Elements(l)[i := e][k] by {
          forall k | 0 <= k < l.size
            ensures Elements(r)[k] == Elements(l)[i := e][k]
          {
            ElementAt(l, k);
            ElementAt(r, k);
          }
        }
        Ok((l.storage.slots[i].value, r))
      else
        Ok((l.storage.list[i], SmartList(l.size, Big(l.storage.list[i := e]))))
  }

  /** `System.arraycopy(a, from, a, from + 1, count)`: slots `from` to
      `from + count - 1` move one place right; the others keep their value. */
  function CopyRight<E>(a: seq<Option<E>>, from: nat, count: nat): (r: seq<Option<E>>)
    requires from + count < |a|
    ensures |r| == |a|
    ensures forall k :: 0 <= k < |a| && !(from < k <= from + count) ==> r[k] == a[k]
    ensures forall k :: from < k <= from + count ==> r[k] == a[k - 1]
  {
    a[..from + 1] + a[from..from + count] + a[from + count + 1..]
  }

  /** `add(i, e)`: inserts `e` before element `i`, for `0 <= i <= size`. The
      shape changes from nothing to the element itself at size 1, to an array
      at size 2, and to an array list at size 6. */
  function Insert<E>(l: SmartList<E>, i: int, e: E): (r: Result<SmartList<E>, Failure>)
    requires Valid(l)
    ensures r.Err? <==> !(0 <= i <= l.size)
    ensures r.Ok? ==> Valid(r.value) && r.value.size == l.size + 1
    ensures r.Ok? ==> Elements(r.value) == Elements(l)[..i] + [e] + Elements(l)[i..]
  {
    if i < 0 || i > l.size then Err(IndexOutOfBounds)
    else if l.size == 0 then Ok(SmartList(1, Single(e)))
    else if l.size == 1 then
      var first := l.storage.element;
      var r := SmartList(2, Small(if i == 0 then [Some(e), Some(first), None, None, None]
                                  else [Some(first), Some(e), None, None, None]));
      assert Elements(l) == [first];
      assert Elements(r)[0] == (if i == 0 then e else first) by { ElementAt(r, 0); }
      assert Elements(r)[1] == (if i == 0 then first else e) by { ElementAt(r, 1); }
      Ok(r)
    else if l.size < ArrayCapacity then
      var slots := CopyRight(l.storage.slots, i, l.size - i)[i := Some(e)];
      var r := SmartList(l.size + 1, Small(slots));
      InsertIntoArray(l, i, e, r);
      Ok(r)
    else
      var list := if l.size == ArrayCapacity then Values(l.storage.slots) else l.storage.list;
      assert list == Elements(l) by {
        if l.size == ArrayCapacity {
          assert l.storage.slots[..l.size] == l.storage.slots;
        }
      }
      Ok(SmartList(l.size + 1, Big(list[..i] + [e] + list[i..])))
  }

  /** The array branch of `add(i, e)` inserts `e` at `i`. */
  lemma InsertIntoArray<E>(l: SmartList<E>, i: int, e: E, r: SmartList<E>)
    requires Valid(l) && l.storage.Small? && 0 <= i <= l.size < ArrayCapacity
    requires r == SmartList(l.size + 1, Small(CopyRight(l.storage.slots, i, l.size - i)[i := Some(e)]))
    ensures Valid(r)
    ensures Elements(r) == Elements(l)[..i] + [e] + Elements(l)[i..]
  {
    var want := Elements(l)[..i] + [e] + Elements(l)[i..];
    forall k | 0 <= k < r.size
      ensures Elements(r)[k] == want[k]
    {
      ElementAt(r, k);
      if k < i {
        ElementAt(l, k);
      } else if k > i {
        ElementAt(l, k - 1);
      }
    }
  }

  /** The loop of `remove(i)` over the array: slots `pos + 1` to `size - 1`
      move one place left; the others keep their value. */
  function ShiftLeft<E>(slots: seq<Option<E>>, pos: nat, size: nat): (r: seq<Option<E>>)
    requires pos < size <= |slots|
    ensures |r| == |slots|
    ensures forall k :: 0 <= k < pos ==> r[k] == slots[k]
    ensures forall k :: pos <= k < size - 1 ==> r[k] == slots[k + 1]
    ensures forall k :: size - 1 <= k < |slots| ==> r[k] == slots[k]
    decreases size - pos
  {
    if pos + 1 < size then ShiftLeft(slots[pos := slots[pos + 1]], pos + 1, size) else slots
  }

  /** `remove(i)`: element `i` and the list without it. The shape changes
      from an array to the element itself at size 1, and from an array list
      back to an array at size 5. */
  function RemoveAt<E>(l: SmartList<E>, i: int): (r: Result<(E, SmartList<E>), Failure>)
    requires Valid(l)
    ensures r.Err? <==> !(0 <= i < l.size)
    ensures r.Ok? ==> r.value.0 == Elements(l)[i]
    ensures r.Ok? ==> Valid(r.value.1) && r.value.1.size == l.size - 1
    ensures r.Ok? ==> Elements(r.value.1) == Elements(l)[..i] + Elements(l)[i + 1..]
  {
    if i < 0 || i >= l.size then Err(IndexOutOfBounds)
    else if l.size == 1 then
      Ok((l.storage.element, SmartList(0, Null)))
    else if l.size <= ArrayCapacity then
      ElementAt(l, i);
      var shifted := ShiftLeft(l.storage.slots, i, l.size);
      var size := l.size - 1;
      var r := if size == 1 then SmartList(1, Single(shifted[0].value))
               else SmartList(size, Small(shifted[size := None]));
      RemoveFromArray(l, i, r);
      Ok((l.storage.slots[i].value, r))
    else
      var list := l.storage.list[..i] + l.storage.list[i + 1..];
      var size := l.size - 1;
      if size == ArrayCapacity then
        var r := SmartList(size, Small(Occupied(list)));
        assert Occupied(list)[..size] == Occupied(list);
        assert forall k :: 0 <= k < size ==> Elements(r)[k] == list[k];
        Ok((l.storage.list[i], r))
      else
        Ok((l.storage.list[i], SmartList(size, Big(list))))
  }

  /** The array branch of `remove(i)` drops element `i`. */
  lemma RemoveFromArray<E>(l: SmartList<E>, i: int, r: SmartList<E>)
    requires Valid(l) && l.storage.Small? && 0 <= i < l.size
    requires var shifted := ShiftLeft(l.storage.slots, i, l.size);
             r == if l.size == 2 then SmartList(1, Single(shifted[0].value))
                  else SmartList(l.size - 1, Small(shifted[l.size - 1 := None]))
    ensures Valid(r)
    ensures Elements(r) == Elements(l)[..i] + Elements(l)[i + 1..]
  {
    var want := Elements(l)[..i] + Elements(l)[i + 1..];
    forall k | 0 <= k < r.size
      ensures Elements(r)[k] == want[k]
    {
      ElementAt(r, k);
      if k < i {
        ElementAt(l, k);
      } else {
        ElementAt(l, k + 1);
      }
    }
  }

  /** Inserting and then removing at the same position gives back the element
      and exactly the original object, shape included. */
  lemma {:induction false} RemoveUndoesInsert<E>(l: SmartList<E>, i: int, e: E)
    requires Valid(l) && 0 <= i <= l.size
    ensures RemoveAt(Insert(l, i, e).value, i) == Ok((e, l))
  {
    var m := Insert(l, i, e).value;
    var r := RemoveAt(m, i).value.1;
    var s := Elements(l);
    assert Elements(m) == s[..i] + [e] + s[i..];
    assert Elements(r) == Elements(m)[..i] + Elements(m)[i + 1..];
    assert Elements(m)[..i] == s[..i];
    assert Elements(m)[i + 1..] == s[i..];
    assert s[..i] + s[i..] == s;
    Canonical(r, l);
  }

  // ---------------------------------------------------------------------------
  // Search
  // ---------------------------------------------------------------------------

  /** The position of the first object equal to `x` at or after `from`, or
      -1: the library's `ArrayList.indexOf`. */
  function FirstIndex<E(==)>(s: seq<E>, x: E, from: nat): (r: int)
    requires from <= |s|
    ensures r == -1 <==> x !in s[from..]
    ensures r != -1 ==> from <= r < |s| && s[r] == x
    ensures forall k :: from <= k < |s| && (r == -1 || k < r) ==> s[k] != x
    decreases |s| - from
  {
    if from == |s| then -1
    else if s[from] == x then from
    else
      assert s[from..] == [s[from]] + s[from + 1..];
      FirstIndex(s, x, from + 1)
  }

  /** The loop of `indexOf` over the occupied array slots, from slot `i`. */
  function ScanSlots<E(==)>(slots: seq<Option<E>>, size: nat, x: E, i: nat): (r: int)
    requires i <= size <= |slots|
    requires forall k :: 0 <= k < size ==> slots[k].Some?
    ensures r == -1 || i <= r < size
    ensures r != -1 ==> slots[r] == Some(x)
    ensures forall k :: i <= k < size && (r == -1 || k < r) ==> slots[k] != Some(x)
    decreases size - i
  {
    if i == size then -1
    else if slots[i].value == x then i
    else ScanSlots(slots, size, x, i + 1)
  }

  /** `indexOf(o)`: the position of the first equal object, or -1. */
  function IndexOf<E(==)>(l: SmartList<E>, x: E): (r: int)
    requires Valid(l)
    ensures -1 <= r < l.size
    ensures r == -1 <==> x !in Elements(l)
    ensures 0 <= r < |Elements(l)| ==> Elements(l)[r] == x && x !in Elements(l)[..r]
  {
    var s := Elements(l);
    var r :=
      if l.size == 0 then -1
      else if l.size == 1 then (if l.storage.element == x then 0 else -1)
      else if l.size <= ArrayCapacity then ScanSlots(l.storage.slots, l.size, x, 0)
      else FirstIndex(l.storage.list, x, 0);
    assert forall k :: 0 <= k < l.size && (r == -1 || k < r) ==> s[k] != x by {
      forall k | 0 <= k < l.size && (r == -1 || k < r)
        ensures s[k] != x
      {
        ElementAt(l, k);
      }
    }
    assert r != -1 ==> s[r] == x by {
      if r != -1 {
        ElementAt(l, r);
      }
    }
    r
  }

  /** `contains(o)`: whether `indexOf(o)` found a position. */
  function Contains<E(==)>(l: SmartList<E>, x: E): (r: bool)
    requires Valid(l)
    ensures r <==> x in Elements(l)
  {
    IndexOf(l, x) != -1
  }

  // ---------------------------------------------------------------------------
  // Collection operations
  // ---------------------------------------------------------------------------

  function Size<E>(l: SmartList<E>): (r: int)
    requires Valid(l)
    ensures r == |Elements(l)|
  {
    l.size
  }

  function IsEmpty<E>(l: SmartList<E>): (r: bool)
    requires Valid(l)
    ensures r <==> Elements(l) == []
  {
    l.size == 0
  }

  /** `add(e)`: inserts at position `size`, and reports `true`. */
  function Append<E>(l: SmartList<E>, e: E): (r: (bool, SmartList<E>))
    requires Valid(l)
    ensures r.0
    ensures Valid(r.1) && Elements(r.1) == Elements(l) + [e]
  {
    assert Elements(l)[..l.size] == Elements(l);
    (true, Insert(l, l.size, e).value)
  }

  /** The list without its first occurrence of `x`: the reference for
      `remove(o)`. */
  function RemoveFirst<E(==)>(s: seq<E>, x: E): seq<E>
  {
    if s == [] then []
    else if s[0] == x then s[1..]
    else [s[0]] + RemoveFirst(s[1..], x)
  }

  /** Dropping position `k`, where the first occurrence of `x` is, is the
      reference removal. */
  lemma {:induction false} RemoveFirstAt<E>(s: seq<E>, x: E, k: nat)
    requires k < |s| && s[k] == x && x !in s[..k]
    ensures RemoveFirst(s, x) == s[..k] + s[k + 1..]
    decreases k
  {
    if k > 0 {
      assert s[0] != x by { assert s[0] == s[..k][0]; }
      assert x !in s[1..][..k - 1] by { assert s[1..][..k - 1] == s[1..k]; }
      RemoveFirstAt(s[1..], x, k - 1);
      assert s[..k] == [s[0]] + s[1..][..k - 1];
      assert s[k + 1..] == s[1..][k - 1 + 1..];
    }
  }

  /** Without `x`, the reference removal changes nothing. */
  lemma {:induction false} RemoveFirstAbsent<E>(s: seq<E>, x: E)
    requires x !in s
    ensures RemoveFirst(s, x) == s
    decreases |s|
  {
    if s != [] {
      RemoveFirstAbsent(s[1..], x);
      assert s == [s[0]] + s[1..];
    }
  }

  /** `remove(o)`: whether an equal object was found, and the list without
      its first occurrence. */
  function RemoveObject<E(==)>(l: SmartList<E>, x: E): (r: (bool, SmartList<E>))
    requires Valid(l)
    ensures r.0 <==> x in Elements(l)
    ensures Valid(r.1)
    ensures Elements(r.1) == RemoveFirst(Elements(l), x)
    ensures !r.0 ==> r.1 == l
  {
    var i := IndexOf(l, x);
    if i != -1 then
      RemoveFirstAt(Elements(l), x, i);
      (true, RemoveAt(l, i).value.1)
    else
      RemoveFirstAbsent(Elements(l), x);
      (false, l)
  }

  /** `clear()`: size 0 and no storage. */
  function Clear<E>(l: SmartList<E>): (r: SmartList<E>)
    ensures Valid(r) && Elements(r) == []
    ensures r == Empty()
  {
    SmartList(0, Null)
  }
}

=== FILE: streams.dfy ===
/** The stream reductions of `SecondPartTasks`: the global order summed over
    the orders of every chain, the author with the longest works, and the
    tokens of some lines that contain a given substring. Java's `int`
    totals wrap around; a `Map` handed over for iteration is the sequence of
    its entries in iteration order. */
module Streams {
  import opened Wrappers
  import opened JavaInt
  import Collections

  // ---------------------------------------------------------------------------
  // calculateGlobalOrder
  // ---------------------------------------------------------------------------

  /** One chain's order: a quantity per product. */
  type Order = map<string, int>

  /** The products named in at least one order. */
  function Products(orders: seq<Order>): set<string>
  {
    if orders == [] then {} else Products(orders[..|orders| - 1]) + orders[|orders| - 1].Keys
  }

  /** The exact total of `k` over all orders; an order without `k` adds
      nothing. */
  function Quantity(orders: seq<Order>, k: string): int
  {
    if orders == [] then 0
    else
      var last := orders[|orders| - 1];
      Quantity(orders[..|orders| - 1], k) + (if k in last then last[k] else 0)
  }

  /** A product is among the `Products` exactly when some order names it,
      and a product no order names has total zero. */
  lemma {:induction false} ProductsMeaning(orders: seq<Order>, k: string)
    ensures k in Products(orders) <==> exists i :: 0 <= i < |orders| && k in orders[i]
    ensures k !in Products(orders) ==> Quantity(orders, k) == 0
    decreases |orders|
  {
    if orders != [] {
      var front := orders[..|orders| - 1];
      ProductsMeaning(front, k);
      if k in Products(orders) && k !in orders[|orders| - 1] {
        var i :| 0 <= i < |front| && k in front[i];
        assert orders[i] == front[i];
      }
      if exists i :: 0 <= i < |orders| && k in orders[i] {
        var i :| 0 <= i < |orders| && k in orders[i];
        if i < |front| {
          assert front[i] == orders[i];
        }
      }
    }
  }

  /** The collector's step for one order: every product in it has its
      quantity added to the running `int` total, which starts at 0. */
  method AddOrder(total: Order, order: Order) returns (r: Order)
    ensures r.Keys == total.Keys + order.Keys
    ensures forall k :: k in r && k in order ==> r[k] == ToInt32((if k in total then total[k] else 0) + order[k])
    ensures forall k :: k in r && k !in order ==> r[k] == total[k]
  {
    r := total;
    var rest := order.Keys;
    while rest != {}
      invariant rest <= order.Keys
      invariant r.Keys == total.Keys + (order.Keys - rest)
      invariant forall k :: k in r && k in order && k !in rest ==> r[k] == ToInt32((if k in total then total[k] else 0) + order[k])
      invariant forall k :: k in r && (k !in order || k in rest) ==> r[k] == total[k]
      decreases rest
    {
      var k :| k in rest;
      r := r[k := ToInt32((if k in total then total[k] else 0) + order[k])];
      rest := rest - {k};
    }
  }

  /** `calculateGlobalOrder`: every product of any order, mapped to the sum
      of its quantities over all orders, wrapped to an `int`. */
  method CalculateGlobalOrder(orders: seq<Order>) returns (total: Order)
    ensures total.Keys == Products(orders)
    ensures forall k :: k in total ==> total[k] == ToInt32(Quantity(orders, k))
  {
    total := map[];
    var i := 0;
    while i < |orders|
      invariant i <= |orders|
      invariant total.Keys == Products(orders[..i])
      invariant forall k :: k in total ==> total[k] == ToInt32(Quantity(orders[..i], k))
    {
      var next := AddOrder(total, orders[i]);
      assert orders[..i + 1] == orders[..i] + [orders[i]];
      StepTotals(orders[..i], orders[i], total, next);
      total := next;
      i := i + 1;
    }
    assert orders[..i] == orders;
  }

  /** The totals after one more order. */
  lemma StepTotals(done: seq<Order>, order: Order, total: Order, next: Order)
    requires total.Keys == Products(done)
    requires forall k :: k in total ==> total[k] == ToInt32(Quantity(done, k))
    requires next.Keys == total.Keys + order.Keys
    requires forall k :: k in next && k in order ==> next[k] == ToInt32((if k in total then total[k] else 0) + order[k])
    requires forall k :: k in next && k !in order ==> next[k] == total[k]
    ensures next.Keys == Products(done + [order])
    ensures forall k :: k in next ==> next[k] == ToInt32(Quantity(done + [order], k))
  {
    assert (done + [order])[..|done|] == done;
    forall k | k in next
      ensures next[k] == ToInt32(Quantity(done + [order], k))
    {
      StepTotal(done, order, total, next, k);
    }
  }

  /** One product's total after one more order. */
  lemma StepTotal(done: seq<Order>, order: Order, total: Order, next: Order, k: string)
    requires total.Keys == Products(done)
    requires forall k :: k in total ==> total[k] == ToInt32(Quantity(done, k))
    requires k in next && next.Keys == total.Keys + order.Keys
    requires k in order ==> next[k] == ToInt32((if k in total then total[k] else 0) + order[k])
    requires k !in order ==> next[k] == total[k]
    ensures next[k] == ToInt32(Quantity(done + [order], k))
  {
    assert (done + [order])[..|done|] == done;
    if k in order {
      if k in total {
        WrapAdd(Quantity(done, k), order[k]);
      } else {
        ProductsMeaning(done, k);
      }
    }
  }

  /** One more order adds its products and its quantities. */
  lemma Snoc(orders: seq<Order>, order: Order, k: string)
    ensures Products(orders + [order]) == Products(orders) + order.Keys
    ensures Quantity(orders + [order], k) == Quantity(orders, k) + (if k in order then order[k] else 0)
  {
    assert (orders + [order])[..|orders|] == orders;
  }

  /** The orders of the test: 5 a, 3 b, 4 c; 4 b, 2 d; 5 c, 1 b, 4 e. */
  method GlobalOrderExample() returns (total: Order)
    ensures total == map["a" := 5, "b" := 8, "c" := 9, "d" := 2, "e" := 4]
  {
    var c1: Order := map["a" := 5, "b" := 3, "c" := 4];
    var c2: Order := map["b" := 4, "d" := 2];
    var c3: Order := map["c" := 5, "b" := 1, "e" := 4];
    var none: seq<Order> := [];
    var orders := none + [c1] + [c2] + [c3];
    total := CalculateGlobalOrder(orders);
    ExampleProducts(none, c1, c2, c3);
    ExampleQuantity(none, c1, c2, c3, "a", 5);
    ExampleQuantity(none, c1, c2, c3, "b", 8);
    ExampleQuantity(none, c1, c2, c3, "c", 9);
    ExampleQuantity(none, c1, c2, c3, "d", 2);
    ExampleQuantity(none, c1, c2, c3, "e", 4);
  }

  lemma ExampleProducts(none: seq<Order>, c1: Order, c2: Order, c3: Order)
    requires none == [] && c1 == map["a" := 5, "b" := 3, "c" := 4]
    requires c2 == map["b" := 4, "d" := 2] && c3 == map["c" := 5, "b" := 1, "e" := 4]
    ensures Products(none + [c1] + [c2] + [c3]) == {"a", "b", "c", "d", "e"}
  {
    Snoc(none, c1, "");
    Snoc(none + [c1], c2, "");
    Snoc(none + [c1] + [c2], c3, "");
  }

  lemma ExampleQuantity(none: seq<Order>, c1: Order, c2: Order, c3: Order, k: string, q: int)
    requires none == [] && c1 == map["a" := 5, "b" := 3, "c" := 4]
    requires c2 == map["b" := 4, "d" := 2] && c3 == map["c" := 5, "b" := 1, "e" := 4]
    requires (k, q) in {("a", 5), ("b", 8), ("c", 9), ("d", 2), ("e", 4)}
    ensures Quantity(none + [c1] + [c2] + [c3], k) == q
  {
    Snoc(none, c1, k);
    Snoc(none + [c1], c2, k);
    Snoc(none + [c1] + [c2], c3, k);
  }

  // ---------------------------------------------------------------------------
  // findPrinter
  // ---------------------------------------------------------------------------

  /** An author and the texts of their compositions. */
  type Author = (string, seq<string>)

  /** The exact total length of some texts. */
  function TotalLength(works: seq<string>): nat
  {
    if works == [] then 0 else TotalLength(works[..|works| - 1]) + |works[|works| - 1]|
  }

  /** The key `findPrinter` compares: `mapToInt(String::length).sum()`,
      which wraps around in `int`. */
  function Weight(a: Author): int
  {
    ToInt32(TotalLength(a.1))
  }

  /** `IntStream.sum` as the loop it is: adding each length to an `int`. */
  method SumLengths(works: seq<string>) returns (sum: int)
    ensures sum == ToInt32(TotalLength(works))
  {
    sum := 0;
    var i := 0;
    while i < |works|
      invariant i <= |works|
      invariant sum == ToInt32(TotalLength(works[..i]))
    {
      assert works[..i + 1][..i] == works[..i];
      WrapAdd(TotalLength(works[..i]), |works[i]|);
      sum := ToInt32(sum + |works[i]|);
      i := i + 1;
    }
    assert works[..i] == works;
  }

  /** Author `i` weighs at least as much as every author, and more than
      every author before it. */
  ghost predicate FirstHeaviest(authors: seq<Author>, i: int)
  {
    0 <= i < |authors| &&
    (forall j :: 0 <= j < |authors| ==> Weight(authors[j]) <= Weight(authors[i])) &&
    (forall j :: 0 <= j < i ==> Weight(authors[j]) < Weight(authors[i]))
  }

  /** `Stream.max` by weight, a reduction that keeps the earlier of two
      equally heavy authors. */
  function Heaviest(authors: seq<Author>): (i: nat)
    requires authors != []
    ensures FirstHeaviest(authors, i)
  {
    if |authors| == 1 then 0
    else
      var front := authors[..|authors| - 1];
      var best := Heaviest(front);
      assert forall j :: 0 <= j < |front| ==> front[j] == authors[j];
      if Weight(front[best]) >= Weight(authors[|authors| - 1]) then best else |authors| - 1
  }

  /** `findPrinter`: the name of the first author with the greatest total
      length, or "" when there are no authors. */
  function FindPrinter(authors: seq<Author>): (name: string)
    ensures authors == [] ==> name == ""
    ensures authors != [] ==> exists i :: FirstHeaviest(authors, i) && name == authors[i].0
  {
    if authors == [] then "" else authors[Heaviest(authors)].0
  }

  /** At most one author is the first heaviest, so the name is determined. */
  lemma FirstHeaviestUnique(authors: seq<Author>, i: int, j: int)
    requires FirstHeaviest(authors, i) && FirstHeaviest(authors, j)
    ensures i == j
  {
    assert Weight(authors[i]) == Weight(authors[j]);
  }

  /** The test's authors: totals 15, 11, 29 and 19, so "c". */
  lemma FindPrinterExample(a: seq<string>, b: seq<string>, c: seq<string>, d: seq<string>)
    requires a == ["hello world!", "1", "2", "3"] && b == ["abacaba", "aba", "a"]
    requires c == ["we", "all", "live", "in", "the", "yellow", "submarine"]
    requires d == ["abracadabra", "kazak", "pop"]
    ensures FindPrinter([("a", a), ("b", b), ("c", c), ("d", d)]) == "c"
  {
    var authors := [("a", a), ("b", b), ("c", c), ("d", d)];
    ExampleLengths(a, b, c, d);
    assert Weight(authors[0]) == 15 && Weight(authors[1]) == 11;
    assert Weight(authors[2]) == 29 && Weight(authors[3]) == 19;
    assert FirstHeaviest(authors, 2);
    FirstHeaviestUnique(authors, 2, Heaviest(authors));
  }

  lemma ExampleLengths(a: seq<string>, b: seq<string>, c: seq<string>, d: seq<string>)
    requires a == ["hello world!", "1", "2", "3"] && b == ["abacaba", "aba", "a"]
    requires c == ["we", "all", "live", "in", "the", "yellow", "submarine"]
    requires d == ["abracadabra", "kazak", "pop"]
    ensures TotalLength(a) == 15 && TotalLength(b) == 11
    ensures TotalLength(c) == 29 && TotalLength(d) == 19
  {
    LengthsOfA(a);
    LengthsOfB(b);
    LengthsOfC(c);
    LengthsOfD(d);
  }

  lemma LengthsOfA(a: seq<string>)
    requires a == ["hello world!", "1", "2", "3"]
    ensures TotalLength(a) == 15
  {
    LengthsOf(a, [12, 1, 1, 1]);
  }

  lemma LengthsOfB(b: seq<string>)
    requires b == ["abacaba", "aba", "a"]
    ensures TotalLength(b) == 11
  {
    LengthsOf(b, [7, 3, 1]);
  }

  lemma LengthsOfC(c: seq<string>)
    requires c == ["we", "all", "live", "in", "the", "yellow", "submarine"]
    ensures TotalLength(c) == 29
  {
    LengthsOf(c, [2, 3, 4, 2, 3, 6, 9]);
  }

  lemma LengthsOfD(d: seq<string>)
    requires d == ["abracadabra", "kazak", "pop"]
    ensures TotalLength(d) == 19
  {
    LengthsOf(d, [11, 5, 3]);
  }

  /** The lengths, added from the front. */
  function Sum(ns: seq<nat>): nat
  {
    if ns == [] then 0 else ns[0] + Sum(ns[1..])
  }

  lemma {:induction false} LengthsOf(works: seq<string>, lengths: seq<nat>)
    requires |works| == |lengths|
    requires forall i :: 0 <= i < |works| ==> |works[i]| == lengths[i]
    ensures TotalLength(works) == Sum(lengths)
    decreases |works|
  {
    if works != [] {
      LengthsOf(works[1..], lengths[1..]);
      TotalLengthCons(works[0], works[1..]);
      assert [works[0]] + works[1..] == works;
    }
  }

  lemma {:induction false} TotalLengthCons(w: string, works: seq<string>)
    ensures TotalLength([w] + works) == |w| + TotalLength(works)
    decreases |works|
  {
    if works != [] {
      var front := works[..|works| - 1];
      TotalLengthCons(w, front);
      assert ([w] + works)[..|works|] == [w] + front;
    }
  }

  // ---------------------------------------------------------------------------
  // findQuotes
  // ---------------------------------------------------------------------------

  /** The pieces between the spaces of a line: one more than there are
      spaces, empty ones included. */
  function Pieces(line: string): (r: seq<string>)
    ensures |r| >= 1
    ensures forall i :: 0 <= i < |r| ==> ' ' !in r[i]
  {
    if line == [] then [""]
    else
      var rest := Pieces(line[1..]);
      if line[0] == ' ' then [""] + rest
      else
        assert forall i :: 1 <= i < |rest| ==> rest[i] == rest[1..][i - 1];
        [[line[0]] + rest[0]] + rest[1..]
  }

  /** Pieces put back together with a space between each two. */
  function JoinWithSpaces(pieces: seq<string>): string
    requires pieces != []
  {
    if |pieces| == 1 then pieces[0] else pieces[0] + " " + JoinWithSpaces(pieces[1..])
  }

  /** Cutting at the spaces and joining with spaces are inverse: joining the
      pieces gives the line, and cutting a join of space-free pieces gives
      the pieces. */
  lemma {:induction false} PiecesJoin(line: string)
    ensures JoinWithSpaces(Pieces(line)) == line
    decreases |line|
  {
    if line != [] {
      PiecesJoin(line[1..]);
      var rest := Pieces(line[1..]);
      if line[0] == ' ' {
        assert ([""] + rest)[1..] == rest;
      } else if |rest| > 1 {
        var r := Pieces(line);
        assert r[1..] == rest[1..];
        assert JoinWithSpaces(rest) == rest[0] + " " + JoinWithSpaces(rest[1..]);
      }
    }
  }

  lemma {:induction false} JoinPieces(pieces: seq<string>)
    requires pieces != []
    requires forall i :: 0 <= i < |pieces| ==> ' ' !in pieces[i]
    ensures Pieces(JoinWithSpaces(pieces)) == pieces
    decreases |pieces|, |pieces[0]|
  {
    var p := pieces[0];
    if |pieces| == 1 {
      if p != [] {
        assert ' ' !in p[1..];
        JoinPieces([p[1..]]);
        assert [p[0]] + p[1..] == p;
      }
    } else {
      var line := JoinWithSpaces(pieces);
      if p == [] {
        assert line == " " + JoinWithSpaces(pieces[1..]);
        assert line[1..] == JoinWithSpaces(pieces[1..]);
        JoinPieces(pieces[1..]);
        assert [""] + pieces[1..] == pieces;
      } else {
        var shorter := [p[1..]] + pieces[1..];
        assert shorter[1..] == pieces[1..];
        assert forall i :: 1 <= i < |shorter| ==> shorter[i] == pieces[i];
        JoinPieces(shorter);
        assert line[1..] == JoinWithSpaces(shorter);
        assert line[0] == p[0];
        assert [p[0]] + p[1..] == p;
        assert [p] + pieces[1..] == pieces;
      }
    }
  }

  /** The pieces without the empty ones at the end. */
  function DropTrailingEmpty(pieces: seq<string>): (r: seq<string>)
    ensures |r| <= |pieces| && r == pieces[..|r|]
    ensures r == [] || r[|r| - 1] != ""
    ensures forall i :: |r| <= i < |pieces| ==> pieces[i] == ""
  {
    if pieces == [] || pieces[|pieces| - 1] != "" then pieces
    else DropTrailingEmpty(pieces[..|pieces| - 1])
  }

  /** `line.split(" ")`: the whole line when it has no space, the empty line
      included; otherwise the pieces between the spaces, less the empty
      ones at the end. */
  function Split(line: string): (r: seq<string>)
    ensures forall i :: 0 <= i < |r| ==> ' ' !in r[i]
    ensures ' ' !in line ==> r == [line]
  {
    if ' ' !in line then [line] else DropTrailingEmpty(Pieces(line))
  }

  /** A space-free line splits to itself; otherwise the tokens are the
      pieces up to the last non-empty one. */
  lemma SplitMeaning(line: string)
    ensures ' ' in line ==> Split(line) == Pieces(line)[..|Split(line)|]
    ensures ' ' in line ==> forall i :: |Split(line)| <= i < |Pieces(line)| ==> Pieces(line)[i] == ""
    ensures ' ' in line && Split(line) != [] ==> Split(line)[|Split(line)| - 1] != ""
  {
  }

  /** `String.contains`: `sub` occurs somewhere in `s`. */
  predicate Contains(s: string, sub: string)
  {
    exists i :: 0 <= i <= |s| - |sub| && OccursAt(s, sub, i)
  }

  predicate OccursAt(s: string, sub: string, i: int)
  {
    0 <= i <= |s| - |sub| && s[i..i + |sub|] == sub
  }

  /** A file's lines, or the single empty line `findQuotes` substitutes for
      a file it cannot read. */
  function LinesOf(file: Option<seq<string>>): seq<string>
  {
    match file
    case None => [""]
    case Some(lines) => lines
  }

  /** The tokens of every line of every file, in order. */
  function Tokens(files: seq<Option<seq<string>>>): seq<string>
  {
    if files == [] then [] else TokensOfLines(LinesOf(files[0])) + Tokens(files[1..])
  }

  function TokensOfLines(lines: seq<string>): seq<string>
  {
    if lines == [] then [] else Split(lines[0]) + TokensOfLines(lines[1..])
  }

  /** `findQuotes`: the tokens that contain `sub`, in order and as often as
      they occur; every other token is dropped. */
  function FindQuotes(files: seq<Option<seq<string>>>, sub: string): (r: seq<string>)
    ensures forall i :: 0 <= i < |r| ==> Contains(r[i], sub)
    ensures forall t :: multiset(r)[t] == if Contains(t, sub) then multiset(Tokens(files))[t] else 0
    ensures Collections.SubsequenceOf(r, Tokens(files))
  {
    Collections.Filter(t => Contains(t, sub), Tokens(files))
  }

  /** An unreadable file contributes one empty token, which is kept only
      when the substring is empty. */
  lemma UnreadableFile(files: seq<Option<seq<string>>>, sub: string)
    requires files == [None]
    ensures Tokens(files) == [""]
    ensures FindQuotes(files, sub) == (if sub == "" then [""] else [])
  {
    var noFiles: seq<Option<seq<string>>> := [];
    var noLines: seq<string> := [];
    assert files[1..] == noFiles;
    assert Tokens(noFiles) == noLines;
    assert [""][1..] == noLines;
    assert TokensOfLines(noLines) == noLines;
    assert Split("") == [""];
    assert TokensOfLines([""]) == [""];
    var tokens := Tokens(files);
    assert tokens == [""];
    assert tokens[1..] == noLines;
    if sub == "" {
      assert OccursAt("", sub, 0);
    }
  }

  /** The pieces of a line from the pieces after its first character. */
  lemma PiecesCons(line: string, rest: seq<string>)
    requires line != [] && Pieces(line[1..]) == rest
    ensures line[0] == ' ' ==> Pieces(line) == [""] + rest
    ensures line[0] != ' ' ==> Pieces(line) == [[line[0]] + rest[0]] + rest[1..]
  {
  }

  lemma PiecesExample(a: string)
    requires a == " a b  "
    ensures Pieces(a) == ["", "a", "b", "", ""]
    ensures Pieces("  ") == ["", "", ""]
  {
    var empty: string := "";
    assert Pieces(empty) == [""];
    PiecesCons(" ", [""]);
    PiecesCons("  ", ["", ""]);
    PiecesCons("b  ", ["", "", ""]);
    assert ['b'] + empty == "b";
    PiecesCons(" b  ", ["b", "", ""]);
    PiecesCons("a b  ", ["", "b", "", ""]);
    assert ['a'] + empty == "a";
    PiecesCons(a, ["a", "b", "", ""]);
  }

  /** Examples of `split(" ")`: leading empty pieces stay, trailing ones go,
      and a line of spaces has no tokens. */
  lemma SplitExamples(a: string, b: string)
    requires a == " a b  " && b == "  "
    ensures Split(a) == ["", "a", "b"]
    ensures Split(b) == []
    ensures Split("") == [""]
  {
    PiecesExample(a);
    SplitDropsTrailing(a, ["", "a", "b", "", ""], 2);
    assert ["", "a", "b", "", ""][..3] == ["", "a", "b"];
    SplitDropsTrailing(b, ["", "", ""], 3);
    var none: seq<string> := [];
    assert ["", "", ""][..0] == none;
  }

  /** A line with a space whose last `n` pieces are empty, and the one
      before them is not, loses exactly those `n`. */
  lemma {:induction false} SplitDropsTrailing(line: string, pieces: seq<string>, n: nat)
    requires Pieces(line) == pieces && n <= |pieces|
    requires ' ' in line
    requires forall i :: |pieces| - n <= i < |pieces| ==> pieces[i] == ""
    requires n < |pieces| ==> pieces[|pieces| - n - 1] != ""
    ensures Split(line) == pieces[..|pieces| - n]
  {
    DropTrailingExactly(pieces, n);
  }

  lemma {:induction false} DropTrailingExactly(pieces: seq<string>, n: nat)
    requires n <= |pieces|
    requires forall i :: |pieces| - n <= i < |pieces| ==> pieces[i] == ""
    requires n < |pieces| ==> pieces[|pieces| - n - 1] != ""
    ensures DropTrailingEmpty(pieces) == pieces[..|pieces| - n]
    decreases n
  {
    if n > 0 {
      var front := pieces[..|pieces| - 1];
      assert forall i :: |front| - (n - 1) <= i < |front| ==> front[i] == pieces[i];
      DropTrailingExactly(front, n - 1);
      assert front[..|front| - (n - 1)] == pieces[..|pieces| - n];
    } else {
      assert pieces[..|pieces|] == pieces;
    }
  }
}

=== FILE: tic_tac_toe.dfy ===
/** The game logic of tic-tac-toe: a position is a 32-bit mask with two bits
    per cell, held here unpacked as one 2-bit code per cell, and the player
    to move; a move sets the mover's code in its cell's bits; and a position
    is won when three equal cells line up. The search that values positions
    is in `TicTacToeSearch`. */
module TicTacToe {
  import Wrappers
  import opened TicTacToeConstants

  /** `Point`: a cell by column `x` and row `y`. */
  datatype Point = Point(x: int, y: int)

  /** The cell count, `FIELD_COLS * FIELD_ROWS`. */
  const Cells := 9

  /** The mask of `GameLogic.State`, unpacked: cell `id`'s two bits, which
      the mask holds at bit `2 * id`. `Unpack` and `MaskMove` below relate
      the two forms. */
  type Codes = c: seq<bv2> | |c| == Cells witness [0, 0, 0, 0, 0, 0, 0, 0, 0]

  /** `GameLogic.State`: the cells' codes and the player to move. */
  datatype State = State(codes: Codes, turn: GameTurn)

  /** `isInside`. */
  predicate Inside(x: int, y: int)
  {
    0 <= x < FieldCols && 0 <= y < FieldRows
  }

  /** A cell's number: `x * FIELD_ROWS + y`, so that the scans' loop over
      `x` around a loop over `y` visits the numbers in increasing order. */
  function Id(x: int, y: int): (id: nat)
    requires Inside(x, y)
    ensures id < Cells
  {
    x * 3 + y
  }

  /** The cell of a number. */
  function PointOf(id: nat): (p: Point)
    requires id < Cells
    ensures Inside(p.x, p.y) && Id(p.x, p.y) == id
  {
    Point(id / 3, id % 3)
  }

  // ---------------------------------------------------------------------------
  // The packed mask
  // ---------------------------------------------------------------------------

  /** `2 * id`, the position of a cell's low bit in the mask. */
  function Shift(id: nat): (s: bv32)
    requires id < Cells
    ensures s <= 16 && s & 1 == 0
  {
    match id
    case 0 => 0
    case 1 => 2
    case 2 => 4
    case 3 => 6
    case 4 => 8
    case 5 => 10
    case 6 => 12
    case 7 => 14
    case _ => 16
  }

  /** Different cells own different bits. */
  lemma ShiftInjective(a: nat, b: nat)
    requires a < Cells && b < Cells && a != b
    ensures Shift(a) != Shift(b)
  {
  }

  /** The two bits of cell `id`: `(mask >> (2 * id)) & 3`. */
  function Code(mask: bv32, id: nat): (c: bv32)
    requires id < Cells
    ensures c <= 3
  {
    (mask >> Shift(id)) & 3
  }

  /** Cell `id`'s code as two bits. */
  function Field(mask: bv32, id: nat): bv2
    requires id < Cells
  {
    Code(mask, id) as bv2
  }

  /** The codes a mask holds. */
  function Unpack(mask: bv32): (c: Codes)
  {
    seq(Cells, id requires 0 <= id < Cells => Field(mask, id))
  }

  lemma BitsFrame(m: bv32, s: bv32, t: bv32, v: bv32)
    requires s <= 16 && t <= 16 && s & 1 == 0 && t & 1 == 0 && v & 0xFFFF_FFFC == 0
    ensures s != t ==> ((m | (v << s)) >> t) & 3 == (m >> t) & 3
    ensures ((m | (v << s)) >> s) & 3 == ((m >> s) & 3) | v
  {
  }

  /** Or-ing a code into cell `id0`'s bits changes no other cell's bits. */
  lemma OrCodes(m: bv32, id0: nat, v: bv32, id: nat)
    requires id0 < Cells && id < Cells && v & 0xFFFF_FFFC == 0
    ensures id != id0 ==> Code(m | (v << Shift(id0)), id) == Code(m, id)
    ensures id == id0 ==> Code(m | (v << Shift(id0)), id) == Code(m, id) | v
  {
    if id != id0 {
      ShiftInjective(id, id0);
    }
    BitsFrame(m, Shift(id0), Shift(id), v);
  }

  /** Or-ing two bits into the low bits of a code is or-ing them into the
      code's two bits. */
  lemma NarrowOr(c: bv32, v: bv2)
    requires c <= 3
    ensures (c | (v as bv32)) as bv2 == (c as bv2) | v
  {
  }

  /** One cell of the packed form of a move. */
  lemma MaskMoveAt(m: bv32, id0: nat, v: bv2, id: nat)
    requires id0 < Cells && id < Cells
    ensures id != id0 ==> Field(m | ((v as bv32) << Shift(id0)), id) == Field(m, id)
    ensures id == id0 ==> Field(m | ((v as bv32) << Shift(id0)), id) == Field(m, id) | v
  {
    OrCodes(m, id0, v as bv32, id);
    if id == id0 {
      NarrowOr(Code(m, id0), v);
    }
  }

  /** Masks whose fields agree outside cell `id0`, and whose field there is
      the first's or-ed with `v`, unpack to codes that differ in the same
      way. */
  lemma UnpackFields(m: bv32, m2: bv32, id0: nat, v: bv2)
    requires id0 < Cells
    requires forall id :: 0 <= id < Cells && id != id0 ==> Field(m2, id) == Field(m, id)
    requires Field(m2, id0) == Field(m, id0) | v
    ensures Unpack(m2) == Unpack(m)[id0 := Unpack(m)[id0] | v]
  {
  }

  /** The packed form of a move: `mask | turn.getValue() << (2 * id)` holds
      the codes of `mask` with the mover's code or-ed into cell `id0`'s,
      which is how `MakeTurn` below changes the codes. */
  lemma MaskMove(m: bv32, id0: nat, v: bv2)
    requires id0 < Cells
    ensures Unpack(m | ((v as bv32) << Shift(id0))) == Unpack(m)[id0 := Unpack(m)[id0] | v]
  {
    var m2 := m | ((v as bv32) << Shift(id0));
    forall id | 0 <= id < Cells
      ensures id != id0 ==> Field(m2, id) == Field(m, id)
    {
      MaskMoveAt(m, id0, v, id);
    }
    MaskMoveAt(m, id0, v, id0);
    UnpackFields(m, m2, id0, v);
  }

  /** The empty mask `0` holds nine clear codes. */
  lemma UnpackZero()
    ensures Unpack(0) == [0, 0, 0, 0, 0, 0, 0, 0, 0]
  {
  }

  // ---------------------------------------------------------------------------
  // Cells and moves
  // ---------------------------------------------------------------------------

  /** What a code reads as, `FieldValue.get`: 1 is X, 2 is O, and 0 and 3
      read as empty. */
  function CellOf(c: bv2): (v: FieldValue)
    ensures v == FieldValue.X <==> c == 1
    ensures v == FieldValue.O <==> c == 2
  {
    FieldValueOf(c as int)
  }

  /** The whole board as `getCell` reads it, cell by cell in number order. */
  function Board(codes: Codes): (b: seq<FieldValue>)
    ensures |b| == Cells
    ensures forall id :: 0 <= id < Cells ==> b[id] == CellOf(codes[id])
  {
    seq(Cells, id requires 0 <= id < Cells => CellOf(codes[id]))
  }

  /** `getCell`. */
  function GetCell(s: State, x: int, y: int): (v: FieldValue)
    requires Inside(x, y)
    ensures v == Board(s.codes)[Id(x, y)]
  {
    CellOf(s.codes[Id(x, y)])
  }

  /** `isEmpty`. */
  predicate IsEmpty(s: State, x: int, y: int)
    requires Inside(x, y)
  {
    GetCell(s, x, y) == FieldValue.None
  }

  /** The mover's code, `turn.getValue()`. */
  function TurnBits(t: GameTurn): (b: bv2)
    ensures b as int == TurnValue(t)
  {
    match t
    case X => 1
    case O => 2
  }

  /** `makeTurn(x, y)`: the mover's code or-ed into the cell's code, and the
      turn passed on. The cell is not checked: or-ing into a taken cell
      mixes the codes. */
  function MakeTurn(s: State, x: int, y: int): (r: State)
    requires Inside(x, y)
    ensures r.turn == Change(s.turn)
  {
    var id := Id(x, y);
    State(s.codes[id := s.codes[id] | TurnBits(s.turn)], Change(s.turn))
  }

  /** No cell holds the unused code 3, so that a cell reads empty exactly
      when its code is clear. */
  ghost predicate Valid(codes: Codes)
  {
    forall id :: 0 <= id < Cells ==> codes[id] != 3
  }

  /** A move changes no cell other than its own. A move into an empty cell
      of a position without stray codes puts the mover's value there and
      leaves no stray code. A move into a taken cell leaves X on X and O on
      O, but turns X under O's move, or O under X's, into code 3, which
      reads as empty. */
  lemma MoveCells(s: State, x: int, y: int)
    requires Inside(x, y)
    ensures forall id :: 0 <= id < Cells && id != Id(x, y) ==>
      Board(MakeTurn(s, x, y).codes)[id] == Board(s.codes)[id]
    ensures Valid(s.codes) && IsEmpty(s, x, y) ==>
      Valid(MakeTurn(s, x, y).codes) &&
      Board(MakeTurn(s, x, y).codes) == Board(s.codes)[Id(x, y) := TurnCell(s.turn)]
    ensures GetCell(s, x, y) == TurnCell(s.turn) ==> GetCell(MakeTurn(s, x, y), x, y) == TurnCell(s.turn)
    ensures GetCell(s, x, y) == TurnCell(Change(s.turn)) ==> GetCell(MakeTurn(s, x, y), x, y) == FieldValue.None
  {
    var r := MakeTurn(s, x, y);
    if Valid(s.codes) && IsEmpty(s, x, y) {
      assert s.codes[Id(x, y)] == 0;
      assert Board(r.codes) == Board(s.codes)[Id(x, y) := TurnCell(s.turn)];
    }
  }

  // ---------------------------------------------------------------------------
  // The board: empty cells, whose turn, lines
  // ---------------------------------------------------------------------------

  /** Nine cell values. */
  predicate IsBoard(b: seq<FieldValue>)
  {
    |b| == Cells
  }

  /** The empty cells among `from` to 8. */
  function EmptyFrom(b: seq<FieldValue>, from: nat): (n: nat)
    requires IsBoard(b) && from <= Cells
    ensures n <= Cells - from
    decreases Cells - from
  {
    if from == Cells then 0
    else (if b[from] == FieldValue.None then 1 else 0) + EmptyFrom(b, from + 1)
  }

  function Empties(b: seq<FieldValue>): nat
    requires IsBoard(b)
  {
    EmptyFrom(b, 0)
  }

  /** The moves made so far. */
  function Filled(b: seq<FieldValue>): nat
    requires IsBoard(b)
  {
    Cells - Empties(b)
  }

  /** Whose turn it is after the moves on `b`, X having started. */
  function TurnOf(b: seq<FieldValue>): GameTurn
    requires IsBoard(b)
  {
    if Filled(b) % 2 == 0 then GameTurn.X else GameTurn.O
  }

  /** The positions the game reaches: no stray code, and the turn agrees
      with the number of moves made. */
  ghost predicate Consistent(s: State)
  {
    Valid(s.codes) && s.turn == TurnOf(Board(s.codes))
  }

  /** `new State()`: an empty board with X to move. */
  function NewState(): (s: State)
    ensures Consistent(s) && Empties(Board(s.codes)) == Cells
    ensures forall id :: 0 <= id < Cells ==> Board(s.codes)[id] == FieldValue.None
  {
    var codes: Codes := [0, 0, 0, 0, 0, 0, 0, 0, 0];
    EmptyBoard(Board(codes), 0);
    State(codes, GameTurn.X)
  }

  lemma {:induction false} EmptyBoard(b: seq<FieldValue>, from: nat)
    requires IsBoard(b) && from <= Cells
    requires forall id :: 0 <= id < Cells ==> b[id] == FieldValue.None
    ensures EmptyFrom(b, from) == Cells - from
    decreases Cells - from
  {
    if from < Cells {
      EmptyBoard(b, from + 1);
    }
  }

  /** Filling empty cell `id0` leaves one empty cell fewer from `from` on if
      `id0` is among them. */
  lemma {:induction false} EmptyFromTake(b: seq<FieldValue>, id0: nat, v: FieldValue, from: nat)
    requires IsBoard(b) && id0 < Cells && from <= Cells
    requires b[id0] == FieldValue.None && v != FieldValue.None
    ensures EmptyFrom(b[id0 := v], from) == EmptyFrom(b, from) - (if from <= id0 then 1 else 0)
    decreases Cells - from
  {
    if from < Cells {
      EmptyFromTake(b, id0, v, from + 1);
    }
  }

  /** A move into an empty cell of a consistent position fills that cell
      with the mover's value, leaves one empty cell fewer, and gives a
      consistent position with the other player to move. */
  lemma FillOne(s: State, x: int, y: int)
    requires Consistent(s) && Inside(x, y) && IsEmpty(s, x, y)
    ensures var r := MakeTurn(s, x, y);
      Consistent(r) && Board(r.codes) == Board(s.codes)[Id(x, y) := TurnCell(s.turn)] &&
      Empties(Board(r.codes)) == Empties(Board(s.codes)) - 1
  {
    var r := MakeTurn(s, x, y);
    MoveCells(s, x, y);
    var b, b2 := Board(s.codes), Board(r.codes);
    assert b2 == b[Id(x, y) := TurnCell(s.turn)];
    EmptyFromTake(b, Id(x, y), TurnCell(s.turn), 0);
    assert Empties(b2) == Empties(b) - 1;
    NextTurn(b, b2);
  }

  /** One more move passes the turn. */
  lemma NextTurn(b: seq<FieldValue>, b2: seq<FieldValue>)
    requires IsBoard(b) && IsBoard(b2) && Empties(b2) == Empties(b) - 1
    ensures TurnOf(b2) == Change(TurnOf(b))
  {
    assert Filled(b2) == Filled(b) + 1;
    Parity(Filled(b));
  }

  lemma Parity(f: int)
    ensures (f + 1) % 2 == 0 <==> f % 2 == 1
  {
  }

  // ---------------------------------------------------------------------------
  // getWinningRow
  // ---------------------------------------------------------------------------

  /** The four directions the scan tries: up-right, right, down-right and
      down, as steps in `x` and `y`. */
  const Directions := 4
  const Dx: seq<int> := [1, 1, 1, 0]
  const Dy: seq<int> := [-1, 0, 1, 1]

  /** `dx[d] * dist` and `dy[d] * dist`: the offset of the cell `dist`
      steps away in direction `d`. */
  function Offset(d: nat, dist: int): (o: (int, int))
    requires d < Directions
    ensures o == (Dx[d] * dist, Dy[d] * dist)
  {
    match d
    case 0 => (dist, -dist)
    case 1 => (dist, 0)
    case 2 => (dist, dist)
    case _ => (0, dist)
  }

  /** The inner loop of `getWinningRow`: the cells `dist` to `NEED_TO_WIN - 1`
      steps from `(x, y)` in direction `d` are on the board and equal to it. */
  function Aligned(b: seq<FieldValue>, x: int, y: int, d: nat, dist: nat): bool
    requires IsBoard(b) && Inside(x, y) && d < Directions && 1 <= dist <= NeedToWin
    decreases NeedToWin - dist
  {
    if dist == NeedToWin then true
    else
      var o := Offset(d, dist);
      var destX, destY := x + o.0, y + o.1;
      (Inside(destX, destY) && b[Id(x, y)] == b[Id(destX, destY)]) && Aligned(b, x, y, d, dist + 1)
  }

  /** A line starts at the `q / 4`-th cell in the `q % 4`-th direction. */
  predicate LineAt(b: seq<FieldValue>, q: nat)
    requires IsBoard(b)
  {
    q < 36 &&
    var p := PointOf(q / 4);
    b[q / 4] != FieldValue.None && Aligned(b, p.x, p.y, q % 4, 1)
  }

  /** The end points of the line the scan reports at `(id, d)`. */
  function Ends(id: nat, d: nat): (Point, Point)
    requires id < Cells && d < Directions
  {
    var p := PointOf(id);
    var o := Offset(d, NeedToWin - 1);
    (p, Point(p.x + o.0, p.y + o.1))
  }

  /** Whether a line starts at each of the 36 positions, in the order of
      the scan: cell by cell, and direction by direction at each cell. */
  ghost function Lines(b: seq<FieldValue>): (l: seq<bool>)
    requires IsBoard(b)
    ensures |l| == 36
  {
    seq(36, q requires 0 <= q < 36 => LineAt(b, q))
  }

  /** The first true position at or after `q`, or `|l|` when there is
      none. */
  ghost function FirstTrue(l: seq<bool>, q: nat): (f: nat)
    requires q <= |l|
    ensures q <= f <= |l|
    decreases |l| - q
  {
    if q == |l| then q
    else if l[q] then q
    else FirstTrue(l, q + 1)
  }

  /** `FirstTrue` is the first: true there, and false everywhere before it
      from `q` on. */
  lemma {:induction false} FirstTrueIsFirst(l: seq<bool>, q: nat)
    requires q <= |l|
    ensures FirstTrue(l, q) < |l| ==> l[FirstTrue(l, q)]
    ensures forall q' :: q <= q' < FirstTrue(l, q) ==> !l[q']
    decreases |l| - q
  {
    if q < |l| && !l[q] {
      FirstTrueIsFirst(l, q + 1);
    }
  }

  /** Position `4 * id + d` is cell `id`, direction `d`. */
  lemma Position(id: nat, d: nat)
    requires d < Directions
    ensures (4 * id + d) / 4 == id && (4 * id + d) % 4 == d
  {
  }

  /** No line starts at an empty cell. */
  lemma {:induction false} SkipEmpty(b: seq<FieldValue>, id: nat, d: nat)
    requires IsBoard(b) && id < Cells && d <= Directions && b[id] == FieldValue.None
    ensures FirstTrue(Lines(b), 4 * id + d) == FirstTrue(Lines(b), 4 * id + 4)
    decreases Directions - d
  {
    if d < Directions {
      Position(id, d);
      assert !Lines(b)[4 * id + d];
      SkipEmpty(b, id, d + 1);
    }
  }

  /** At a taken cell, a line starts in direction `d` exactly when the cells
      are aligned that way. */
  lemma StepTaken(b: seq<FieldValue>, id: nat, d: nat)
    requires IsBoard(b) && id < Cells && d < Directions && b[id] != FieldValue.None
    ensures var p := PointOf(id);
      Aligned(b, p.x, p.y, d, 1) ==> FirstTrue(Lines(b), 4 * id + d) == 4 * id + d
    ensures var p := PointOf(id);
      !Aligned(b, p.x, p.y, d, 1) ==> FirstTrue(Lines(b), 4 * id + d) == FirstTrue(Lines(b), 4 * id + d + 1)
    ensures (4 * id + d) / 4 == id && (4 * id + d) % 4 == d
  {
    Position(id, d);
    assert Lines(b)[4 * id + d] == LineAt(b, 4 * id + d);
  }

  /** The scan of `getWinningRow` from cell `id`, direction `d` on: an empty
      cell is skipped, and the first aligned direction answers with the
      line's end points. */
  function ScanRow(b: seq<FieldValue>, id: nat, d: nat): (r: Wrappers.Option<(Point, Point)>)
    requires IsBoard(b) && ((id < Cells && d <= Directions) || (id == Cells && d == 0))
    ensures var f := FirstTrue(Lines(b), 4 * id + d);
      r == if f == 36 then Wrappers.None else Wrappers.Some(Ends(f / 4, f % 4))
    decreases Cells - id, Directions - d
  {
    if id == Cells then Wrappers.None
    else if d == Directions then ScanRow(b, id + 1, 0)
    else
      var p := PointOf(id);
      if b[id] == FieldValue.None then
        SkipEmpty(b, id, d);
        ScanRow(b, id + 1, 0)
      else if Aligned(b, p.x, p.y, d, 1) then
        StepTaken(b, id, d);
        Wrappers.Some(Ends(id, d))
      else
        StepTaken(b, id, d);
        ScanRow(b, id, d + 1)
  }

  /** `getWinningRow`: the end points of the first line of three equal
      non-empty cells, scanning the cells in order and the directions in
      order at each, or null when there is none. */
  function GetWinningRow(s: State): (r: Wrappers.Option<(Point, Point)>)
  {
    ScanRow(Board(s.codes), 0, 0)
  }

  /** `getWinningRow` answers null exactly when no line stands, and
      otherwise with the ends of a line before which none starts. */
  lemma WinningRowIsFirst(s: State)
    ensures GetWinningRow(s).None? <==> forall q :: 0 <= q < 36 ==> !LineAt(Board(s.codes), q)
    ensures GetWinningRow(s).Some? ==>
      exists q :: 0 <= q < 36 && LineAt(Board(s.codes), q) &&
        GetWinningRow(s).value == Ends(q / 4, q % 4) &&
        forall q' :: 0 <= q' < q ==> !LineAt(Board(s.codes), q')
  {
    var b := Board(s.codes);
    var l := Lines(b);
    var f := FirstTrue(l, 0);
    FirstTrueIsFirst(l, 0);
    assert forall q :: 0 <= q < 36 ==> l[q] == LineAt(b, q);
    if f < 36 {
      assert LineAt(b, f) && GetWinningRow(s).value == Ends(f / 4, f % 4);
    }
  }

  /** Some line of three equal non-empty cells stands. */
  predicate HasLine(b: seq<FieldValue>)
    requires IsBoard(b)
  {
    exists q :: 0 <= q < 36 && LineAt(b, q)
  }

  /** `getWinningRow` finds a line exactly when one stands. */
  lemma HasLineScan(s: State)
    ensures HasLine(Board(s.codes)) <==> GetWinningRow(s).Some?
  {
    WinningRowIsFirst(s);
  }

  /** The game is over: a line stands or no cell is left. */
  predicate Terminal(b: seq<FieldValue>)
    requires IsBoard(b)
  {
    HasLine(b) || Empties(b) == 0
  }
}

=== FILE: tic_tac_toe_bot.dfy ===
/** The computer players of the single-player games: the easy bot moves into
    a random empty cell, and the hard bot reads the search's tables to move
    into a position lost for its opponent if it can, into a tie if it cannot,
    and anywhere otherwise. */
module TicTacToeBot {
  import Wrappers
  import opened TicTacToeConstants
  import opened TicTacToe
  import opened TicTacToeSearch

  // ---------------------------------------------------------------------------
  // easyStrategy
  // ---------------------------------------------------------------------------

  /** The empty cells among the first `n`, in scan order. */
  function EmptyIds(s: State, n: nat): (ids: seq<nat>)
    requires n <= Cells
    ensures forall i :: 0 <= i < |ids| ==> ids[i] < n && Board(s.codes)[ids[i]] == FieldValue.None
    ensures forall id :: 0 <= id < n && Board(s.codes)[id] == FieldValue.None ==> id in ids
    ensures forall i, j :: 0 <= i < j < |ids| ==> ids[i] < ids[j]
  {
    if n == 0 then []
    else EmptyIds(s, n - 1) + (if Board(s.codes)[n - 1] == FieldValue.None then [n - 1] else [])
  }

  /** `easyStrategy`: the empty cell at the position `draw` picks in the list
      of empty cells. `draw` stands for the random generator's number; a
      board with no empty cell makes `nextInt(0)` throw, here `None`. */
  function EasyStrategy(s: State, draw: nat): (r: Wrappers.Option<Point>)
    ensures r.None? <==> forall id :: 0 <= id < Cells ==> Board(s.codes)[id] != FieldValue.None
    ensures r.Some? ==> Inside(r.value.x, r.value.y) && IsEmpty(s, r.value.x, r.value.y)
  {
    var e := EmptyIds(s, Cells);
    if e == [] then Wrappers.None
    else
      var id := e[draw % |e|];
      var p := PointOf(id);
      assert Board(s.codes)[id] == FieldValue.None;
      Wrappers.Some(p)
  }

  /** Every empty cell is the easy bot's move for some draw. */
  lemma EasyCovers(s: State, id: nat)
    requires id < Cells && Board(s.codes)[id] == FieldValue.None
    ensures exists draw: nat :: EasyStrategy(s, draw) == Wrappers.Some(PointOf(id))
  {
    var e := EmptyIds(s, Cells);
    var i :| 0 <= i < |e| && e[i] == id;
    assert i % |e| == i;
    assert EasyStrategy(s, i) == Wrappers.Some(PointOf(e[i]));
  }

  // ---------------------------------------------------------------------------
  // hardStrategy
  // ---------------------------------------------------------------------------

  /** Cell `id` is empty and, unless `want` is `None`, the tables value the
      move into it as `want`. */
  predicate Fits(t: Tables, s: State, id: nat, want: Wrappers.Option<StateType>)
    requires id < Cells
  {
    Board(s.codes)[id] == FieldValue.None &&
    (want.None? || GetStateType(t, Move(s, id)) == want)
  }

  /** The last cell among the first `n` that fits `want`. */
  function Last(t: Tables, s: State, n: nat, want: Wrappers.Option<StateType>): (r: Wrappers.Option<nat>)
    requires n <= Cells
    ensures r.Some? ==> r.value < n && Fits(t, s, r.value, want)
  {
    if n == 0 then Wrappers.None
    else if Fits(t, s, n - 1, want) then Wrappers.Some(n - 1)
    else Last(t, s, n - 1, want)
  }

  /** `Last` finds a cell exactly when one fits, and no later cell fits. */
  lemma {:induction false} LastIsLast(t: Tables, s: State, n: nat, want: Wrappers.Option<StateType>)
    requires n <= Cells
    ensures Last(t, s, n, want).None? <==> forall id :: 0 <= id < n ==> !Fits(t, s, id, want)
    ensures Last(t, s, n, want).Some? ==> forall id :: Last(t, s, n, want).value < id < n ==> !Fits(t, s, id, want)
  {
    if n > 0 {
      LastIsLast(t, s, n - 1, want);
    }
  }

  /** What the hard bot aims at: a position lost for the opponent if some
      move reaches one, else a tie if some move reaches one, else any. */
  ghost function Aim(t: Tables, s: State): Wrappers.Option<StateType>
  {
    if exists id :: 0 <= id < Cells && Fits(t, s, id, Wrappers.Some(StateType.Lose)) then Wrappers.Some(StateType.Lose)
    else if exists id :: 0 <= id < Cells && Fits(t, s, id, Wrappers.Some(StateType.Tie)) then Wrappers.Some(StateType.Tie)
    else Wrappers.None
  }

  /** Cell `id` is the hard bot's choice: the last cell meeting its aim. */
  ghost predicate Preferred(t: Tables, s: State, id: nat)
  {
    id < Cells && Fits(t, s, id, Aim(t, s)) &&
    forall j :: id < j < Cells ==> !Fits(t, s, j, Aim(t, s))
  }

  /** The cell the hard bot's three remembered moves decide on. */
  ghost function Choice(t: Tables, s: State): Wrappers.Option<nat>
  {
    var win := Last(t, s, Cells, Wrappers.Some(StateType.Lose));
    var tie := Last(t, s, Cells, Wrappers.Some(StateType.Tie));
    if win.Some? then win else if tie.Some? then tie else Last(t, s, Cells, Wrappers.None)
  }

  /** The three remembered moves pick the preferred cell, and none is left
      only on a full board. */
  lemma ChoiceIsPreferred(t: Tables, s: State)
    ensures Choice(t, s).None? <==> forall id :: 0 <= id < Cells ==> Board(s.codes)[id] != FieldValue.None
    ensures Choice(t, s).Some? ==> Preferred(t, s, Choice(t, s).value)
  {
    LastIsLast(t, s, Cells, Wrappers.Some(StateType.Lose));
    LastIsLast(t, s, Cells, Wrappers.Some(StateType.Tie));
    LastIsLast(t, s, Cells, Wrappers.None);
    if Choice(t, s).None? {
      forall id | 0 <= id < Cells
        ensures Board(s.codes)[id] != FieldValue.None
      {
        assert !Fits(t, s, id, Wrappers.None);
      }
    }
  }

  /** `hardStrategy`: scanning the cells in order, it remembers the last
      move into a lost position, the last into a tie and the last of all,
      and answers with the first of the three it has; null (`None`) on a
      full board. */
  method HardStrategy(t: Tables, s: State) returns (r: Wrappers.Option<Point>)
    ensures r.None? <==> forall id :: 0 <= id < Cells ==> Board(s.codes)[id] != FieldValue.None
    ensures r.Some? ==> Inside(r.value.x, r.value.y) && IsEmpty(s, r.value.x, r.value.y)
    ensures r.Some? ==> Preferred(t, s, Id(r.value.x, r.value.y))
  {
    var winTurn: Wrappers.Option<nat> := Wrappers.None;
    var tieTurn: Wrappers.Option<nat> := Wrappers.None;
    var anyTurn: Wrappers.Option<nat> := Wrappers.None;
    var id := 0;
    while id < Cells
      invariant id <= Cells
      invariant winTurn == Last(t, s, id, Wrappers.Some(StateType.Lose))
      invariant tieTurn == Last(t, s, id, Wrappers.Some(StateType.Tie))
      invariant anyTurn == Last(t, s, id, Wrappers.None)
      decreases Cells - id
    {
      winTurn, tieTurn, anyTurn := HardCell(t, s, id, winTurn, tieTurn, anyTurn);
      id := id + 1;
    }
    var pick := if winTurn.Some? then winTurn else if tieTurn.Some? then tieTurn else anyTurn;
    ChoiceIsPreferred(t, s);
    if pick.None? {
      return Wrappers.None;
    }
    r := Wrappers.Some(PointOf(pick.value));
  }

  /** One turn of the loop of `hardStrategy`: cell `id` replaces each
      remembered move it fits. */
  method HardCell(t: Tables, s: State, id: nat, win: Wrappers.Option<nat>, tie: Wrappers.Option<nat>, any: Wrappers.Option<nat>)
    returns (win': Wrappers.Option<nat>, tie': Wrappers.Option<nat>, any': Wrappers.Option<nat>)
    requires id < Cells
    requires win == Last(t, s, id, Wrappers.Some(StateType.Lose))
    requires tie == Last(t, s, id, Wrappers.Some(StateType.Tie))
    requires any == Last(t, s, id, Wrappers.None)
    ensures win' == Last(t, s, id + 1, Wrappers.Some(StateType.Lose))
    ensures tie' == Last(t, s, id + 1, Wrappers.Some(StateType.Tie))
    ensures any' == Last(t, s, id + 1, Wrappers.None)
  {
    win', tie', any' := win, tie, any;
    var p := PointOf(id);
    if IsEmpty(s, p.x, p.y) {
      var next := MakeTurn(s, p.x, p.y);
      assert next == Move(s, id);
      if GetStateType(t, next) == Wrappers.Some(StateType.Lose) {
        win' := Wrappers.Some(id);
      }
      if GetStateType(t, next) == Wrappers.Some(StateType.Tie) {
        tie' := Wrappers.Some(id);
      }
      any' := Wrappers.Some(id);
    }
  }

  /** With the finished tables, the hard bot never gives a position away:
      from a won position its move leaves the opponent lost, and from a
      tied one it leaves a tie. Its move is legal, so the new position is
      reachable too. */
  lemma HardKeeps(t: Tables, s: State, id: nat)
    requires Complete(t) && Reachable(s) && !Terminal(Board(s.codes)) && Preferred(t, s, id)
    ensures Reachable(Move(s, id))
    ensures Classify(s) == StateType.Win ==> Classify(Move(s, id)) == StateType.Lose
    ensures Classify(s) == StateType.Tie ==> Classify(Move(s, id)) == StateType.Tie
  {
    ReachableStep(s, id);
    ChildrenAnswer(t, s);
    ClassifyOpen(s);
    ChildValue(s, id);
    AimByChildren(t, s, Children(s));
  }

  /** When the tables value every move as `c` lists them, the hard bot aims
      at a lost position exactly when `c` holds one, else at a tie exactly
      when `c` holds one, and a cell fits an aim exactly when `c` gives it
      that value. */
  lemma AimByChildren(t: Tables, s: State, c: seq<Wrappers.Option<StateType>>)
    requires |c| == Cells
    requires forall j :: 0 <= j < Cells ==> (c[j].Some? <==> Board(s.codes)[j] == FieldValue.None)
    requires forall j :: 0 <= j < Cells && Board(s.codes)[j] == FieldValue.None ==> GetStateType(t, Move(s, j)) == c[j]
    ensures Aim(t, s) == if Wrappers.Some(StateType.Lose) in c then Wrappers.Some(StateType.Lose)
                         else if Wrappers.Some(StateType.Tie) in c then Wrappers.Some(StateType.Tie)
                         else Wrappers.None
    ensures forall j, ty :: 0 <= j < Cells ==> (Fits(t, s, j, Wrappers.Some(ty)) <==> c[j] == Wrappers.Some(ty))
  {
    assert forall j, ty :: 0 <= j < Cells ==> (Fits(t, s, j, Wrappers.Some(ty)) <==> c[j] == Wrappers.Some(ty));
    if Wrappers.Some(StateType.Lose) in c {
      var j :| 0 <= j < Cells && c[j] == Wrappers.Some(StateType.Lose);
      assert Fits(t, s, j, Wrappers.Some(StateType.Lose));
    } else if Wrappers.Some(StateType.Tie) in c {
      var j :| 0 <= j < Cells && c[j] == Wrappers.Some(StateType.Tie);
      assert Fits(t, s, j, Wrappers.Some(StateType.Tie));
    }
  }

  /** The value of a move into an empty cell, as `Children` lists it. */
  lemma ChildValue(s: State, id: nat)
    requires Consistent(s) && id < Cells && Board(s.codes)[id] == FieldValue.None
    ensures Consistent(Move(s, id))
    ensures Children(s)[id] == Wrappers.Some(Classify(Move(s, id)))
  {
    var p := PointOf(id);
    FillOne(s, p.x, p.y);
  }

  /** On a reachable position, the tables value each move as `Children`
      does. */
  lemma ChildrenAnswer(t: Tables, s: State)
    requires Complete(t) && Reachable(s) && !Terminal(Board(s.codes))
    ensures forall j :: 0 <= j < Cells && Board(s.codes)[j] == FieldValue.None ==>
      GetStateType(t, Move(s, j)) == Children(s)[j]
  {
    forall j | 0 <= j < Cells && Board(s.codes)[j] == FieldValue.None
      ensures GetStateType(t, Move(s, j)) == Children(s)[j]
    {
      ReachableStep(s, j);
      TablesAnswer(t, Move(s, j));
      ChildValue(s, j);
    }
  }

  // ---------------------------------------------------------------------------
  // Games against the hard bot
  // ---------------------------------------------------------------------------

  /** Whatever move is made from a tied position, the mover's opponent is
      not lost; from a lost position every move leaves the opponent won. */
  lemma AnyMove(s: State, id: nat)
    requires Consistent(s) && !Terminal(Board(s.codes)) && id < Cells && Board(s.codes)[id] == FieldValue.None
    ensures Consistent(Move(s, id))
    ensures Classify(s) == StateType.Tie ==> Classify(Move(s, id)) != StateType.Lose
    ensures Classify(s) == StateType.Lose ==> Classify(Move(s, id)) == StateType.Win
  {
    ClassifyOpen(s);
    ChildValue(s, id);
    var c := Children(s);
    if Classify(Move(s, id)) == StateType.Lose {
      assert Wrappers.Some(StateType.Lose) in c;
    } else if Classify(Move(s, id)) == StateType.Tie {
      assert Wrappers.Some(StateType.Tie) in c;
    }
  }

  /** The winner of a game is named by the player's own value. */
  function Winner(p: GameTurn): GameStatus
  {
    match p
    case X => GameStatus.X
    case O => GameStatus.O
  }

  /** A finished position is never won for the player to move: it is lost
      exactly when the previous mover has a line, and tied exactly when the
      board is full with no line. */
  lemma FinishedValue(s: State)
    requires Consistent(s) && Terminal(Board(s.codes))
    ensures Classify(s) != StateType.Win
    ensures Classify(s) == StateType.Lose ==> Status(Board(s.codes)) == Winner(Change(s.turn))
    ensures Classify(s) == StateType.Tie ==> Status(Board(s.codes)) == GameStatus.Tie
  {
  }

  /** In the game `moves`, player `hard` made every one of its moves as the
      hard bot does. */
  ghost predicate HardGame(t: Tables, moves: seq<nat>, hard: GameTurn)
    decreases |moves|
  {
    moves == [] ||
    (var before := moves[..|moves| - 1];
     HardGame(t, before, hard) &&
     (Play(before).Some? && Play(before).value.turn == hard ==> Preferred(t, Play(before).value, moves[|moves| - 1])))
  }

  /** Position `s` is safe for player `hard` by the tables: not lost when
      `hard` is to move, and not won for the opponent when the opponent
      is. */
  predicate SafeFor(t: Tables, s: State, hard: GameTurn)
  {
    (s.turn == hard ==> GetStateType(t, s) != Wrappers.Some(StateType.Lose)) &&
    (s.turn != hard ==> GetStateType(t, s) != Wrappers.Some(StateType.Win))
  }

  /** A reachable position safe for `hard` has not been won by the
      opponent. */
  lemma SafeStatus(t: Tables, s: State, hard: GameTurn)
    requires Complete(t) && Reachable(s) && SafeFor(t, s, hard)
    ensures Status(Board(s.codes)) != Winner(Change(hard))
  {
    TablesAnswer(t, s);
    if Terminal(Board(s.codes)) {
      FinishedValue(s);
    }
  }

  /** A move keeps a position safe for `hard` when `hard` makes it as the
      hard bot does; the opponent's moves keep it safe whatever they are. */
  lemma SafeStep(t: Tables, p: State, id: nat, hard: GameTurn)
    requires Complete(t) && Reachable(p) && !Terminal(Board(p.codes)) && id < Cells && Board(p.codes)[id] == FieldValue.None
    requires p.turn == hard ==> Preferred(t, p, id)
    requires SafeFor(t, p, hard)
    ensures Reachable(Move(p, id)) && SafeFor(t, Move(p, id), hard)
  {
    ReachableStep(p, id);
    TablesAnswer(t, p);
    TablesAnswer(t, Move(p, id));
    if p.turn == hard {
      HardKeeps(t, p, id);
    } else {
      AnyMove(p, id);
    }
  }

  /** After the game `moves`, the position is reachable and safe for
      `hard`. */
  ghost predicate SafeAfter(t: Tables, moves: seq<nat>, hard: GameTurn)
  {
    Play(moves).Some? && Reachable(Play(moves).value) && SafeFor(t, Play(moves).value, hard)
  }

  /** If the tables value the empty board as a tie, every position of a
      game in which `hard` moves as the hard bot does is safe for `hard`,
      whatever its opponent does (the easy bot included). */
  lemma {:induction false} HardStaysSafe(t: Tables, moves: seq<nat>, hard: GameTurn)
    requires Complete(t) && GetStateType(t, NewState()) == Wrappers.Some(StateType.Tie)
    requires Play(moves).Some? && HardGame(t, moves, hard)
    ensures SafeAfter(t, moves, hard)
    decreases |moves|
  {
    if moves == [] {
      SafeStart(t, hard);
    } else {
      HardStaysSafe(t, moves[..|moves| - 1], hard);
      SafeGame(t, moves, hard);
    }
  }

  /** The empty board, valued as a tie, is safe for either player. */
  lemma SafeStart(t: Tables, hard: GameTurn)
    requires Complete(t) && GetStateType(t, NewState()) == Wrappers.Some(StateType.Tie)
    ensures SafeAfter(t, [], hard)
  {
    PlayReachable([]);
  }

  /** The step of `HardStaysSafe` for a game with a last move. */
  lemma SafeGame(t: Tables, moves: seq<nat>, hard: GameTurn)
    requires Complete(t) && moves != [] && Play(moves).Some? && HardGame(t, moves, hard)
    requires SafeAfter(t, moves[..|moves| - 1], hard)
    ensures SafeAfter(t, moves, hard)
  {
    PlayLast(moves);
    SafeStep(t, Play(moves[..|moves| - 1]).value, moves[|moves| - 1], hard);
  }

  /** If the tables value the empty board as a tie, the hard bot never
      loses, whatever its opponent does: no game it plays ends in a win for
      the opponent. */
  lemma HardNeverLoses(t: Tables, moves: seq<nat>, hard: GameTurn)
    requires Complete(t) && GetStateType(t, NewState()) == Wrappers.Some(StateType.Tie)
    requires Play(moves).Some? && HardGame(t, moves, hard)
    ensures Status(Board(Play(moves).value.codes)) != Winner(Change(hard))
  {
    HardStaysSafe(t, moves, hard);
    SafeStatus(t, Play(moves).value, hard);
  }

  /** Two hard bots playing each other, when the tables value the empty
      board as a tie, never leave a winner. */
  lemma HardVsHard(t: Tables, moves: seq<nat>)
    requires Complete(t) && GetStateType(t, NewState()) == Wrappers.Some(StateType.Tie)
    requires Play(moves).Some? && HardGame(t, moves, GameTurn.X) && HardGame(t, moves, GameTurn.O)
    ensures Status(Board(Play(moves).value.codes)) in {GameStatus.None, GameStatus.Tie}
  {
    HardNeverLoses(t, moves, GameTurn.X);
    HardNeverLoses(t, moves, GameTurn.O);
  }

  // ---------------------------------------------------------------------------
  // makeTurn
  // ---------------------------------------------------------------------------

  /** `Bot.makeTurn`: the easy or the hard bot's move by the game type, and
      null (`None`) in a game between two people. */
  method BotMakeTurn(gameType: GameType, t: Tables, s: State, draw: nat) returns (r: Wrappers.Option<Point>)
    ensures gameType == GameType.Multiplayer ==> r.None?
    ensures gameType == GameType.SingleplayerEasy ==> r == EasyStrategy(s, draw)
    ensures gameType == GameType.SingleplayerHard ==>
      (r.None? <==> forall id :: 0 <= id < Cells ==> Board(s.codes)[id] != FieldValue.None)
    ensures gameType == GameType.SingleplayerHard && r.Some? ==>
      Inside(r.value.x, r.value.y) && Preferred(t, s, Id(r.value.x, r.value.y))
  {
    match gameType
    case SingleplayerEasy =>
      r := EasyStrategy(s, draw);
    case SingleplayerHard =>
      r := HardStrategy(t, s);
    case Multiplayer =>
      r := Wrappers.None;
  }
}

=== FILE: tic_tac_toe_constants.dfy ===
/** The enumerations of the tic-tac-toe game: whose turn it is, what a cell
    holds, how a game stands, how a position is valued, and the game types
    offered. The numeric codes are those the board mask stores. */
module TicTacToeConstants {
  import Wrappers

  /** The board is `FieldCols` columns by `FieldRows` rows, and a line of
      `NeedToWin` equal cells wins. */
  const FieldRows := 3
  const FieldCols := 3
  const NeedToWin := 3

  datatype GameTurn = X | O

  datatype FieldValue = X | O | None

  datatype GameStatus = X | O | Tie | None

  datatype StateType = Win | Lose | Tie

  datatype GameType = Multiplayer | SingleplayerEasy | SingleplayerHard

  /** `GameTurn.getValue`: X is 1 and O is 2. */
  function TurnValue(t: GameTurn): (v: int)
    ensures v == 1 || v == 2
  {
    match t
    case X => 1
    case O => 2
  }

  /** `GameTurn.change`: the other player. */
  function Change(t: GameTurn): (r: GameTurn)
    ensures r != t
  {
    if t == GameTurn.X then GameTurn.O else GameTurn.X
  }

  /** Changing the turn twice gives it back, and the two turns have
      different codes. */
  lemma ChangeInvolution(t: GameTurn)
    ensures Change(Change(t)) == t
    ensures TurnValue(Change(t)) != TurnValue(t) && TurnValue(Change(t)) == 3 - TurnValue(t)
  {
  }

  /** `FieldValue.getValue`: X is 1, O is 2 and an empty cell 0. */
  function FieldCode(v: FieldValue): (code: int)
    ensures 0 <= code <= 2
  {
    match v
    case X => 1
    case O => 2
    case None => 0
  }

  /** `FieldValue.get`: the value of a code, every code other than 1 and 2
      reading as empty. */
  function FieldValueOf(code: int): (v: FieldValue)
    ensures code == 1 <==> v == FieldValue.X
    ensures code == 2 <==> v == FieldValue.O
  {
    if code == 1 then FieldValue.X
    else if code == 2 then FieldValue.O
    else FieldValue.None
  }

  /** `get` inverts `getValue`, and a turn's code is the code of the cell
      value of the same name. */
  lemma CodesAgree(v: FieldValue, t: GameTurn)
    ensures FieldValueOf(FieldCode(v)) == v
    ensures FieldCode(FieldValueOf(FieldCode(v))) == FieldCode(v)
    ensures FieldValueOf(TurnValue(t)) == TurnCell(t)
    ensures FieldCode(TurnCell(t)) == TurnValue(t)
  {
  }

  /** The cell value a player's move leaves. */
  function TurnCell(t: GameTurn): FieldValue
  {
    match t
    case X => FieldValue.X
    case O => FieldValue.O
  }

  /** `GameType.get`: the type named on the menu, or null for any other
      name. */
  function GameTypeOf(name: string): (r: Wrappers.Option<GameType>)
    ensures r == Wrappers.Some(GameType.Multiplayer) <==> name == "Multiplayer"
    ensures r == Wrappers.Some(GameType.SingleplayerEasy) <==> name == "Easy"
    ensures r == Wrappers.Some(GameType.SingleplayerHard) <==> name == "Hard"
    ensures r.None? <==> name !in {"Multiplayer", "Easy", "Hard"}
  {
    if name == "Multiplayer" then Wrappers.Some(GameType.Multiplayer)
    else if name == "Easy" then Wrappers.Some(GameType.SingleplayerEasy)
    else if name == "Hard" then Wrappers.Some(GameType.SingleplayerHard)
    else Wrappers.None
  }
}

=== FILE: tic_tac_toe_process.dfy ===
/** `GameProcess`, the state the game screen reads and changes: the game type
    chosen on the menu and the current position. The class keeps both in
    static fields; here they are a `Process` value passed in and returned,
    and the search's tables, which `getWinner` reads, are a parameter. */
module TicTacToeProcess {
  import Wrappers
  import opened TicTacToeConstants
  import opened TicTacToe
  import opened TicTacToeSearch

  /** The two static fields: the game type, null (`None`) until one is
      set, and the current position. */
  datatype Process = Process(gameType: Wrappers.Option<GameType>, current: State)

  /** `setGameType`: the type is replaced and the position kept. */
  function SetGameType(p: Process, g: GameType): (r: Process)
    ensures GetGameType(r) == Wrappers.Some(g)
    ensures GetCurrentTurn(r) == GetCurrentTurn(p) && r.current == p.current
  {
    p.(gameType := Wrappers.Some(g))
  }

  /** `initialize`: a fresh game, empty board and X to move, under the same
      game type. */
  function Initialize(p: Process): (r: Process)
    ensures GetGameType(r) == GetGameType(p)
    ensures GetCurrentTurn(r) == GameTurn.X
    ensures forall id :: 0 <= id < Cells ==> Board(r.current.codes)[id] == FieldValue.None
  {
    p.(current := NewState())
  }

  /** `makeTurn(x, y)`: the current position moves on by `State.makeTurn`.
      The cell is not checked here; callers ask `possibleTurn` first. */
  function MakeTurn(p: Process, x: int, y: int): (r: Process)
    requires Inside(x, y)
    ensures GetGameType(r) == GetGameType(p)
    ensures GetCurrentTurn(r) == Change(GetCurrentTurn(p))
    ensures forall id :: 0 <= id < Cells && id != Id(x, y) ==>
      Board(r.current.codes)[id] == Board(p.current.codes)[id]
    ensures Consistent(p.current) && IsEmpty(p.current, x, y) ==>
      GetCell(r.current, x, y) == TurnCell(GetCurrentTurn(p))
  {
    MoveCells(p.current, x, y);
    p.(current := TicTacToe.MakeTurn(p.current, x, y))
  }

  /** `getGameType`. */
  function GetGameType(p: Process): Wrappers.Option<GameType>
  {
    p.gameType
  }

  /** `getCurrentTurn`: on a consistent position, X exactly when an even
      number of cells is taken. */
  function GetCurrentTurn(p: Process): (r: GameTurn)
    ensures Consistent(p.current) ==> r == TurnOf(Board(p.current.codes))
  {
    p.current.turn
  }

  /** `getWinningRow`: the ends of a standing line, present exactly when
      some line of three equal taken cells stands. */
  function GetWinningRow(p: Process): (r: Wrappers.Option<(Point, Point)>)
    ensures r.Some? <==> HasLine(Board(p.current.codes))
  {
    HasLineScan(p.current);
    TicTacToe.GetWinningRow(p.current)
  }

  /** `getWinner`: what the tables record for the current position. */
  function GetWinner(t: Tables, p: Process): (g: GameStatus)
    ensures g != GameStatus.None ==> p.current.codes in t.gameStatus
  {
    TicTacToeSearch.GetWinner(t, p.current)
  }

  /** `isFinished`: the tables record a winner or a tie. */
  predicate IsFinished(t: Tables, p: Process)
  {
    GetWinner(t, p) != GameStatus.None
  }

  /** `possibleTurn(x, y)`: the game goes on and the cell is empty. */
  predicate PossibleTurn(t: Tables, p: Process, x: int, y: int)
    requires Inside(x, y)
  {
    !IsFinished(t, p) && IsEmpty(p.current, x, y)
  }

  // ---------------------------------------------------------------------------
  // What the screen sees during a game
  // ---------------------------------------------------------------------------

  /** On a reachable position and finished tables, `getWinner` names who has
      won, and `isFinished` holds exactly when a line stands or the board
      is full. */
  lemma FinishedMeans(t: Tables, p: Process)
    requires Complete(t) && Reachable(p.current)
    ensures GetWinner(t, p) == Status(Board(p.current.codes))
    ensures IsFinished(t, p) <==> Terminal(Board(p.current.codes))
  {
    TablesAnswer(t, p.current);
  }

  /** On a reachable position and finished tables, `possibleTurn(x, y)`
      holds exactly when the game goes on and the cell is empty, and a move
      it allows leads to a reachable position. */
  lemma PossibleTurnKeeps(t: Tables, p: Process, x: int, y: int)
    requires Complete(t) && Reachable(p.current) && Inside(x, y)
    ensures PossibleTurn(t, p, x, y) <==>
      !Terminal(Board(p.current.codes)) && Board(p.current.codes)[Id(x, y)] == FieldValue.None
    ensures PossibleTurn(t, p, x, y) ==> Reachable(MakeTurn(p, x, y).current)
  {
    FinishedMeans(t, p);
    if PossibleTurn(t, p, x, y) {
      var id := Id(x, y);
      assert Move(p.current, id) == MakeTurn(p, x, y).current;
      ReachableStep(p.current, id);
    }
  }

  /** The cells of `pts` by number. */
  function Ids(pts: seq<Point>): (ids: seq<nat>)
    requires forall i :: 0 <= i < |pts| ==> Inside(pts[i].x, pts[i].y)
    ensures |ids| == |pts|
    ensures forall i :: 0 <= i < |pts| ==> ids[i] == Id(pts[i].x, pts[i].y)
  {
    seq(|pts|, i requires 0 <= i < |pts| => Id(pts[i].x, pts[i].y))
  }

  /** A sequence of clicks on the game screen, each made only if
      `possibleTurn` allows it. The answer is `None` when some click is
      refused, that is when the clicks do not form a legal game; the screen
      itself ignores a refused click and goes on with the later ones, which
      this function does not follow. */
  function Session(t: Tables, p: Process, pts: seq<Point>): (r: Wrappers.Option<Process>)
    requires forall i :: 0 <= i < |pts| ==> Inside(pts[i].x, pts[i].y)
    ensures r.Some? ==> GetGameType(r.value) == GetGameType(p)
    decreases |pts|
  {
    if pts == [] then Wrappers.Some(p)
    else
      var before := Session(t, p, pts[..|pts| - 1]);
      var q := pts[|pts| - 1];
      if before.Some? && PossibleTurn(t, before.value, q.x, q.y) then Wrappers.Some(MakeTurn(before.value, q.x, q.y))
      else Wrappers.None
  }

  /** With finished tables, the clicks a game started by `initialize`
      accepts are exactly the legal games: every click is accepted exactly
      when the moves are legal, and the position shown is the one they
      reach. */
  lemma {:induction false} SessionPlays(t: Tables, p: Process, pts: seq<Point>)
    requires Complete(t)
    requires forall i :: 0 <= i < |pts| ==> Inside(pts[i].x, pts[i].y)
    ensures Session(t, Initialize(p), pts).Some? <==> Play(Ids(pts)).Some?
    ensures Session(t, Initialize(p), pts).Some? ==>
      Session(t, Initialize(p), pts).value.current == Play(Ids(pts)).value
    decreases |pts|
  {
    if pts != [] {
      var front := pts[..|pts| - 1];
      SessionPlays(t, p, front);
      assert Ids(pts)[..|pts| - 1] == Ids(front);
      SessionStep(t, p, pts);
    }
  }

  /** One more click: accepted exactly when the move is legal, if the clicks
      before it were. */
  lemma {:induction false} SessionStep(t: Tables, p: Process, pts: seq<Point>)
    requires Complete(t) && pts != []
    requires forall i :: 0 <= i < |pts| ==> Inside(pts[i].x, pts[i].y)
    requires Ids(pts)[..|pts| - 1] == Ids(pts[..|pts| - 1])
    requires Session(t, Initialize(p), pts[..|pts| - 1]).Some? <==> Play(Ids(pts[..|pts| - 1])).Some?
    requires Session(t, Initialize(p), pts[..|pts| - 1]).Some? ==>
      Session(t, Initialize(p), pts[..|pts| - 1]).value.current == Play(Ids(pts[..|pts| - 1])).value
    ensures Session(t, Initialize(p), pts).Some? <==> Play(Ids(pts)).Some?
    ensures Session(t, Initialize(p), pts).Some? ==>
      Session(t, Initialize(p), pts).value.current == Play(Ids(pts)).value
  {
    var before := Session(t, Initialize(p), pts[..|pts| - 1]);
    if before.Some? {
      PlayReachable(Ids(pts[..|pts| - 1]));
      var q := pts[|pts| - 1];
      PossibleTurnKeeps(t, before.value, q.x, q.y);
    }
  }
}

=== FILE: tic_tac_toe_search.dfy ===
/** The memoised search of `GameLogic`: `dfs` values every position reachable
    from the empty board, for the player to move, as a win, a loss or a tie,
    and records who has won each finished position. The two static hash maps
    are a `Tables` value here, passed in and returned. */
module TicTacToeSearch {
  import Wrappers
  import opened TicTacToeConstants
  import opened TicTacToe

  /** The move into cell `id`. */
  function Move(s: State, id: nat): (r: State)
    requires id < Cells
    ensures r == MakeTurn(s, PointOf(id).x, PointOf(id).y)
  {
    var p := PointOf(id);
    MakeTurn(s, p.x, p.y)
  }

  /** The position a key of the tables stands for: the turn follows from the
      number of moves made. */
  function StateOf(k: Codes): State
  {
    State(k, TurnOf(Board(k)))
  }

  // ---------------------------------------------------------------------------
  // The value of a position
  // ---------------------------------------------------------------------------

  /** The value of a position for the player to move under best play: a
      standing line means the previous mover has won, so it is lost; a full
      board is a tie; otherwise it is won if some move leads to a lost
      position, a tie if some move leads to a tie, and lost if every move
      leads to a won one. */
  ghost function Classify(s: State): StateType
    requires Consistent(s)
    decreases Empties(Board(s.codes)), 2
  {
    var b := Board(s.codes);
    if HasLine(b) then StateType.Lose
    else if Empties(b) == 0 then StateType.Tie
    else
      var c := Children(s);
      if Wrappers.Some(StateType.Lose) in c then StateType.Win
      else if Wrappers.Some(StateType.Tie) in c then StateType.Tie
      else StateType.Lose
  }

  /** The values of the moves from `s`, cell by cell: `None` for a taken
      cell. */
  ghost function Children(s: State): (c: seq<Wrappers.Option<StateType>>)
    requires Consistent(s)
    ensures |c| == Cells
    ensures forall id :: 0 <= id < Cells ==> (c[id].Some? <==> Board(s.codes)[id] == FieldValue.None)
    decreases Empties(Board(s.codes)), 1
  {
    seq(Cells, id requires 0 <= id < Cells =>
      if Board(s.codes)[id] == FieldValue.None then Wrappers.Some(ChildType(s, id)) else Wrappers.None)
  }

  /** The value of the move into empty cell `id`, for the opponent. */
  ghost function ChildType(s: State, id: nat): StateType
    requires Consistent(s) && id < Cells && Board(s.codes)[id] == FieldValue.None
    decreases Empties(Board(s.codes)), 0
  {
    var p := PointOf(id);
    FillOne(s, p.x, p.y);
    Classify(Move(s, id))
  }

  /** Who has won a finished position: the previous mover if a line stands,
      nobody (a tie) if the board is full, and `None` while the game goes
      on. */
  function Status(b: seq<FieldValue>): (g: GameStatus)
    requires IsBoard(b)
    ensures g == GameStatus.None <==> !Terminal(b)
  {
    if HasLine(b) then (if TurnOf(b) == GameTurn.O then GameStatus.X else GameStatus.O)
    else if Empties(b) == 0 then GameStatus.Tie
    else GameStatus.None
  }

  // ---------------------------------------------------------------------------
  // The tables
  // ---------------------------------------------------------------------------

  /** `gameState` and `gameStatus`, keyed by the mask. */
  datatype Tables = Tables(gameState: map<Codes, StateType>, gameStatus: map<Codes, GameStatus>)

  /** What is true of a key: whether it has no stray code, its value, its
      winner (`None` while the game goes on), and the keys its moves lead
      to. */
  datatype Fact = Fact(valid: bool, value: StateType, status: GameStatus, moves: set<Codes>)

  /** The keys the moves from `k` lead to. */
  ghost function MovesOf(k: Codes): set<Codes>
    requires Valid(k)
  {
    set id | 0 <= id < Cells && Board(k)[id] == FieldValue.None :: Move(StateOf(k), id).codes
  }

  ghost function FactOf(k: Codes): Fact
  {
    if Valid(k) then Fact(true, Classify(StateOf(k)), Status(Board(k)), MovesOf(k))
    else Fact(false, StateType.Lose, GameStatus.None, {})
  }

  /** The tables agree with fact `f` about key `k`: the value is right, it
      has a winner entry exactly when the game is over there, that entry
      names the winner, and an unfinished key's moves are keys too. */
  ghost predicate Entry(t: Tables, k: Codes, f: Fact)
    requires k in t.gameState
  {
    f.valid && t.gameState[k] == f.value &&
    (k in t.gameStatus <==> f.status != GameStatus.None) &&
    (k in t.gameStatus ==> t.gameStatus[k] == f.status) &&
    (f.status == GameStatus.None ==> f.moves <= t.gameState.Keys)
  }

  /** The tables agree with `facts` about every key. */
  ghost predicate SoundWith(t: Tables, facts: Codes -> Fact)
  {
    (forall k {:trigger t.gameState[k]} :: k in t.gameState ==> Entry(t, k, facts(k))) &&
    t.gameStatus.Keys <= t.gameState.Keys
  }

  /** `facts` is `FactOf`. The search carries its facts as a parameter so
      that a fact is worked out only where a proof asks for `FactOf`. */
  ghost predicate Faithful(facts: Codes -> Fact)
  {
    forall k {:trigger FactOf(k)} :: facts(k) == FactOf(k)
  }

  /** Recording key `k` with the value and winner its fact gives keeps the
      tables in agreement with the facts, provided an unfinished key's moves
      are keys already. */
  lemma Record(t: Tables, facts: Codes -> Fact, k: Codes, ty: StateType, g: GameStatus)
    requires SoundWith(t, facts) && facts(k).valid && facts(k).value == ty && facts(k).status == g
    requires g == GameStatus.None ==> facts(k).moves <= t.gameState.Keys
    ensures SoundWith(Tables(t.gameState[k := ty],
                             if g == GameStatus.None then t.gameStatus else t.gameStatus[k := g]), facts)
    ensures Grows(t, Tables(t.gameState[k := ty], t.gameStatus))
  {
    var t2 := Tables(t.gameState[k := ty], if g == GameStatus.None then t.gameStatus else t.gameStatus[k := g]);
    forall k' | k' in t2.gameState
      ensures Entry(t2, k', facts(k'))
    {
      if k' != k {
        assert Entry(t, k', facts(k'));
      }
    }
  }

  /** Every key of `t` is a key of `t2` with the same value. */
  ghost predicate Grows(t: Tables, t2: Tables)
  {
    forall k :: k in t.gameState ==> k in t2.gameState && t2.gameState[k] == t.gameState[k]
  }

  /** The fact of a consistent position's key. */
  lemma FactOfState(s: State)
    requires Consistent(s)
    ensures FactOf(s.codes) == Fact(true, Classify(s), Status(Board(s.codes)), MovesOf(s.codes))
  {
    assert StateOf(s.codes) == s;
  }

  /** The value the tables hold for a move into an empty cell is that
      move's value. */
  lemma ChildEntry(t: Tables, facts: Codes -> Fact, s: State, id: nat)
    requires SoundWith(t, facts) && Faithful(facts) && Consistent(s) && id < Cells && Board(s.codes)[id] == FieldValue.None
    requires Move(s, id).codes in t.gameState
    ensures t.gameState[Move(s, id).codes] == ChildType(s, id)
  {
    var p := PointOf(id);
    FillOne(s, p.x, p.y);
    var k := Move(s, id).codes;
    assert Entry(t, k, facts(k));
    FactOfState(Move(s, id));
  }

  // ---------------------------------------------------------------------------
  // dfs
  // ---------------------------------------------------------------------------

  /** `dfs(state, depth)`: values `s`, searching its moves that the tables
      do not hold yet, and records every position it values. */
  method Dfs(s: State, depth: nat, t0: Tables, ghost facts: Codes -> Fact) returns (t: Tables)
    requires Consistent(s) && depth == Filled(Board(s.codes)) && SoundWith(t0, facts) && Faithful(facts)
    ensures SoundWith(t, facts) && s.codes in t.gameState
    ensures Grows(t0, t)
    decreases Empties(Board(s.codes)), 1
  {
    FactOfState(s);
    HasLineScan(s);
    if GetWinningRow(s).Some? {
      var g := if depth % 2 == 1 then GameStatus.X else GameStatus.O;
      WinnerByDepth(s, depth);
      Record(t0, facts, s.codes, StateType.Lose, g);
      t := Tables(t0.gameState[s.codes := StateType.Lose], t0.gameStatus[s.codes := g]);
      return;
    }
    if depth == FieldCols * FieldRows {
      Record(t0, facts, s.codes, StateType.Tie, GameStatus.Tie);
      t := Tables(t0.gameState[s.codes := StateType.Tie], t0.gameStatus[s.codes := GameStatus.Tie]);
      return;
    }
    ghost var keys := MoveKeys(s);
    var existsTie, existsLose;
    t, existsTie, existsLose := SearchMoves(s, depth, t0, facts, keys);
    ClassifyByMoves(t, facts, s, keys, existsTie, existsLose);
    if existsLose && s.codes !in t.gameState {
      Record(t, facts, s.codes, StateType.Win, GameStatus.None);
      t := Tables(t.gameState[s.codes := StateType.Win], t.gameStatus);
    }
    if existsTie && s.codes !in t.gameState {
      Record(t, facts, s.codes, StateType.Tie, GameStatus.None);
      t := Tables(t.gameState[s.codes := StateType.Tie], t.gameStatus);
    }
    if s.codes !in t.gameState {
      Record(t, facts, s.codes, StateType.Lose, GameStatus.None);
      t := Tables(t.gameState[s.codes := StateType.Lose], t.gameStatus);
    }
  }

  /** `depth % 2 == 1 ? X : O` names the previous mover, which is the winner
      `Status` gives when a line stands. */
  lemma WinnerByDepth(s: State, depth: nat)
    requires Consistent(s) && depth == Filled(Board(s.codes)) && HasLine(Board(s.codes))
    ensures Status(Board(s.codes)) == if depth % 2 == 1 then GameStatus.X else GameStatus.O
  {
  }

  /** The keys of the moves from `s`, cell by cell (a taken cell's entry
      is never read). */
  ghost predicate KeysOf(s: State, keys: seq<Codes>)
  {
    |keys| == Cells && forall i {:trigger Move(s, i)} :: 0 <= i < Cells ==> keys[i] == Move(s, i).codes
  }

  /** Every move into an empty cell among the first `n` has its key in the
      tables. */
  ghost predicate Searched(t: Tables, b: seq<FieldValue>, keys: seq<Codes>, n: nat)
    requires |b| == Cells && |keys| == Cells && n <= Cells
  {
    n == 0 || (Searched(t, b, keys, n - 1) && (b[n - 1] == FieldValue.None ==> keys[n - 1] in t.gameState))
  }

  /** Some move into an empty cell among the first `n` reaches a table
      entry `ty`. */
  ghost predicate Found(t: Tables, b: seq<FieldValue>, keys: seq<Codes>, n: nat, ty: StateType)
    requires |b| == Cells && |keys| == Cells && n <= Cells
  {
    n > 0 &&
    (Found(t, b, keys, n - 1, ty) ||
     (b[n - 1] == FieldValue.None && keys[n - 1] in t.gameState && t.gameState[keys[n - 1]] == ty))
  }

  /** `Searched` and `Found` say what their names promise. */
  lemma {:induction false} SearchedMeans(t: Tables, b: seq<FieldValue>, keys: seq<Codes>, n: nat, ty: StateType)
    requires |b| == Cells && |keys| == Cells && n <= Cells
    ensures Searched(t, b, keys, n) <==> forall i :: 0 <= i < n && b[i] == FieldValue.None ==> keys[i] in t.gameState
    ensures Found(t, b, keys, n, ty) <==>
      exists i :: 0 <= i < n && b[i] == FieldValue.None && keys[i] in t.gameState && t.gameState[keys[i]] == ty
  {
    if n > 0 {
      SearchedMeans(t, b, keys, n - 1, ty);
    }
  }

  /** Growing the tables keeps what the first `n` moves found. */
  lemma {:induction false} SearchedGrows(t: Tables, t2: Tables, b: seq<FieldValue>, keys: seq<Codes>, n: nat)
    requires |b| == Cells && |keys| == Cells && n <= Cells
    requires Grows(t, t2) && Searched(t, b, keys, n)
    ensures Searched(t2, b, keys, n)
    ensures forall ty :: Found(t2, b, keys, n, ty) == Found(t, b, keys, n, ty)
  {
    if n > 0 {
      SearchedGrows(t, t2, b, keys, n - 1);
    }
  }

  /** The keys of the moves from `s`. */
  ghost function MoveKeys(s: State): (keys: seq<Codes>)
    ensures KeysOf(s, keys)
  {
    seq(Cells, i requires 0 <= i < Cells => Move(s, i).codes)
  }

  /** Once every move of `s` is in sound tables, the tables hold the value
      of each move. */
  lemma ChildrenInTable(t: Tables, facts: Codes -> Fact, s: State, keys: seq<Codes>)
    requires SoundWith(t, facts) && Faithful(facts) && Consistent(s) && KeysOf(s, keys)
    requires Searched(t, Board(s.codes), keys, Cells)
    ensures forall i :: 0 <= i < Cells && Board(s.codes)[i] == FieldValue.None ==>
      keys[i] in t.gameState && Children(s)[i] == Wrappers.Some(t.gameState[keys[i]])
    ensures MovesOf(s.codes) <= t.gameState.Keys
  {
    var b := Board(s.codes);
    SearchedMeans(t, b, keys, Cells, StateType.Lose);
    forall i | 0 <= i < Cells && b[i] == FieldValue.None
      ensures keys[i] in t.gameState && Children(s)[i] == Wrappers.Some(t.gameState[keys[i]])
    {
      assert keys[i] == Move(s, i).codes;
      ChildEntry(t, facts, s, i);
    }
    assert StateOf(s.codes) == s;
  }

  /** An unfinished position's value follows from its moves' values. */
  lemma ClassifyOpen(s: State)
    requires Consistent(s) && !Terminal(Board(s.codes))
    ensures var c := Children(s);
      Classify(s) == if Wrappers.Some(StateType.Lose) in c then StateType.Win
                     else if Wrappers.Some(StateType.Tie) in c then StateType.Tie
                     else StateType.Lose
  {
  }

  /** With every move of an unfinished position in sound tables, the flags
      of `dfs` decide the position's value as `Classify` does. */
  lemma ClassifyByMoves(t: Tables, facts: Codes -> Fact, s: State, keys: seq<Codes>, existsTie: bool, existsLose: bool)
    requires SoundWith(t, facts) && Faithful(facts) && Consistent(s) && !Terminal(Board(s.codes)) && KeysOf(s, keys)
    requires Searched(t, Board(s.codes), keys, Cells)
    requires existsLose == Found(t, Board(s.codes), keys, Cells, StateType.Lose)
    requires existsTie == Found(t, Board(s.codes), keys, Cells, StateType.Tie)
    ensures MovesOf(s.codes) <= t.gameState.Keys
    ensures Classify(s) == if existsLose then StateType.Win else if existsTie then StateType.Tie else StateType.Lose
  {
    var b := Board(s.codes);
    ChildrenInTable(t, facts, s, keys);
    ClassifyOpen(s);
    SearchedMeans(t, b, keys, Cells, StateType.Lose);
    SearchedMeans(t, b, keys, Cells, StateType.Tie);
    var c := Children(s);
    FoundIn(t, b, keys, c, StateType.Lose);
    FoundIn(t, b, keys, c, StateType.Tie);
  }

  /** A value some move reaches is a value among the moves' values. */
  lemma FoundIn(t: Tables, b: seq<FieldValue>, keys: seq<Codes>, c: seq<Wrappers.Option<StateType>>, ty: StateType)
    requires |b| == Cells && |keys| == Cells && |c| == Cells
    requires forall i :: 0 <= i < Cells ==> (c[i].Some? <==> b[i] == FieldValue.None)
    requires forall i :: 0 <= i < Cells && b[i] == FieldValue.None ==> keys[i] in t.gameState && c[i] == Wrappers.Some(t.gameState[keys[i]])
    ensures (exists i :: 0 <= i < Cells && b[i] == FieldValue.None && keys[i] in t.gameState && t.gameState[keys[i]] == ty) <==>
      Wrappers.Some(ty) in c
  {
    if Wrappers.Some(ty) in c {
      var i :| 0 <= i < Cells && c[i] == Wrappers.Some(ty);
      assert b[i] == FieldValue.None;
    }
  }

  /** The loop of `dfs` over the cells: every move into an empty cell is
      searched unless the tables hold it already, and the flags say whether
      some move leads to a lost position and whether some leads to a tie. */
  method SearchMoves(s: State, depth: nat, t0: Tables, ghost facts: Codes -> Fact, ghost keys: seq<Codes>)
    returns (t: Tables, existsTie: bool, existsLose: bool)
    requires Consistent(s) && depth == Filled(Board(s.codes)) && SoundWith(t0, facts) && Faithful(facts) && KeysOf(s, keys)
    ensures SoundWith(t, facts) && Grows(t0, t)
    ensures Searched(t, Board(s.codes), keys, Cells)
    ensures existsLose == Found(t, Board(s.codes), keys, Cells, StateType.Lose)
    ensures existsTie == Found(t, Board(s.codes), keys, Cells, StateType.Tie)
    decreases Empties(Board(s.codes)), 0, 1
  {
    var b := Board(s.codes);
    existsTie, existsLose := false, false;
    t := t0;
    var id := 0;
    while id < Cells
      invariant id <= Cells
      invariant SoundWith(t, facts) && Grows(t0, t)
      invariant Searched(t, b, keys, id)
      invariant existsLose == Found(t, b, keys, id, StateType.Lose)
      invariant existsTie == Found(t, b, keys, id, StateType.Tie)
      decreases Cells - id
    {
      var p := PointOf(id);
      if IsEmpty(s, p.x, p.y) {
        var ty;
        ghost var t1 := t;
        t, ty := SearchMove(s, depth, id, t, facts);
        SearchedGrows(t1, t, b, keys, id);
        GrowsTrans(t0, t1, t);
        assert keys[id] == Move(s, id).codes;
        existsTie := existsTie || ty == StateType.Tie;
        existsLose := existsLose || ty == StateType.Lose;
      }
      id := id + 1;
    }
  }

  /** Growing is transitive. */
  lemma GrowsTrans(t: Tables, t2: Tables, t3: Tables)
    requires Grows(t, t2) && Grows(t2, t3)
    ensures Grows(t, t3)
  {
  }

  /** One turn of the loop of `dfs`: the move into empty cell `id` is
      searched unless the tables hold it already, and its entry read. */
  method SearchMove(s: State, depth: nat, id: nat, t0: Tables, ghost facts: Codes -> Fact)
    returns (t: Tables, ty: StateType)
    requires Consistent(s) && depth == Filled(Board(s.codes)) && SoundWith(t0, facts) && Faithful(facts)
    requires id < Cells && Board(s.codes)[id] == FieldValue.None
    ensures SoundWith(t, facts) && Grows(t0, t)
    ensures Move(s, id).codes in t.gameState && ty == t.gameState[Move(s, id).codes]
    decreases Empties(Board(s.codes)), 0, 0
  {
    var p := PointOf(id);
    var next := MakeTurn(s, p.x, p.y);
    t := t0;
    if next.codes !in t.gameState {
      FillOne(s, p.x, p.y);
      t := Dfs(next, depth + 1, t, facts);
    }
    ty := t.gameState[next.codes];
  }

  // ---------------------------------------------------------------------------
  // countStates, getWinner, getStateType
  // ---------------------------------------------------------------------------

  /** The tables of a finished search: everything they hold is right and
      the empty board is among their keys. */
  ghost predicate Complete(t: Tables)
  {
    NewState().codes in t.gameState && exists facts :: Faithful(facts) && SoundWith(t, facts)
  }

  /** `countStates`: the tables are built by one search from the empty
      board the first time they are asked for, and kept afterwards. */
  method CountStates(cache: Wrappers.Option<Tables>) returns (t: Tables)
    ensures cache.Some? ==> t == cache.value
    ensures cache.None? ==> Complete(t)
  {
    if cache.Some? {
      return cache.value;
    }
    var s := NewState();
    ghost var facts := TrueFacts();
    t := Dfs(s, 0, Tables(map[], map[]), facts);
  }

  /** The facts the search is checked against: `FactOf` itself. */
  lemma TrueFacts() returns (facts: Codes -> Fact)
    ensures Faithful(facts)
  {
    facts := FactOf;
  }

  /** `getWinner`: the recorded winner of `s`'s board, `None` if the tables
      record none. */
  function GetWinner(t: Tables, s: State): (g: GameStatus)
    ensures g != GameStatus.None ==> s.codes in t.gameStatus && t.gameStatus[s.codes] == g
    ensures s.codes !in t.gameStatus ==> g == GameStatus.None
  {
    if s.codes in t.gameStatus then t.gameStatus[s.codes] else GameStatus.None
  }

  /** `getStateType`: the recorded value of `s`'s board, null (`None`) if the
      tables hold none. */
  function GetStateType(t: Tables, s: State): (r: Wrappers.Option<StateType>)
    ensures r.Some? <==> s.codes in t.gameState
    ensures r.Some? ==> t.gameState[s.codes] == r.value
  {
    if s.codes in t.gameState then Wrappers.Some(t.gameState[s.codes]) else Wrappers.None
  }

  /** The position after `moves`, cells numbered `x * 3 + y`, starting from
      the empty board; `None` once a move is into a taken cell or off the
      board, or is made after the game is over. */
  function Play(moves: seq<nat>): (r: Wrappers.Option<State>)
    ensures moves == [] ==> r == Wrappers.Some(NewState())
    decreases |moves|
  {
    if moves == [] then Wrappers.Some(NewState())
    else
      var before := Play(moves[..|moves| - 1]);
      var id := moves[|moves| - 1];
      if before.None? then Wrappers.None
      else if id < Cells && Board(before.value.codes)[id] == FieldValue.None && !Terminal(Board(before.value.codes))
      then Wrappers.Some(Move(before.value, id))
      else Wrappers.None
  }

  /** A game that reaches a position made its last move legally from the
      position before. */
  lemma PlayLast(moves: seq<nat>)
    requires moves != [] && Play(moves).Some?
    ensures var before := Play(moves[..|moves| - 1]);
      var id := moves[|moves| - 1];
      before.Some? && id < Cells && Board(before.value.codes)[id] == FieldValue.None &&
      !Terminal(Board(before.value.codes)) && Play(moves).value == Move(before.value, id)
  {
  }

  /** A position is reachable when some sequence of legal moves leads to
      it; such a position is consistent (`PlayReachable`), which is part of
      the definition here so that `Classify` applies to it. */
  ghost predicate Reachable(s: State)
  {
    Consistent(s) && exists moves: seq<nat> {:trigger Play(moves)} :: Play(moves) == Wrappers.Some(s)
  }

  /** Legal play keeps the position consistent, so every position it
      reaches is reachable. */
  lemma {:induction false} PlayReachable(moves: seq<nat>)
    requires Play(moves).Some?
    ensures Consistent(Play(moves).value) && Reachable(Play(moves).value)
    decreases |moves|
  {
    if moves != [] {
      var before := moves[..|moves| - 1];
      PlayReachable(before);
      var p := Play(before).value;
      var q := PointOf(moves[|moves| - 1]);
      FillOne(p, q.x, q.y);
    }
  }

  /** A legal move from a reachable position reaches a position. */
  lemma ReachableStep(s: State, id: nat)
    requires Reachable(s) && id < Cells && Board(s.codes)[id] == FieldValue.None && !Terminal(Board(s.codes))
    ensures Reachable(Move(s, id))
  {
    var moves: seq<nat> :| Play(moves) == Wrappers.Some(s);
    var next := moves + [id];
    assert next[..|next| - 1] == moves;
    assert Play(next) == Wrappers.Some(Move(s, id));
    PlayReachable(next);
  }

  /** One legal move from a consistent position whose key the finished
      tables hold leads to a consistent position whose key they hold. */
  lemma StepReaches(t: Tables, facts: Codes -> Fact, p: State, id: nat)
    requires SoundWith(t, facts) && Faithful(facts) && Consistent(p) && p.codes in t.gameState
    requires id < Cells && Board(p.codes)[id] == FieldValue.None && !Terminal(Board(p.codes))
    ensures Consistent(Move(p, id)) && Move(p, id).codes in t.gameState
  {
    var q := PointOf(id);
    FillOne(p, q.x, q.y);
    assert Entry(t, p.codes, facts(p.codes));
    FactOfState(p);
    assert StateOf(p.codes) == p;
    assert Move(p, id).codes in MovesOf(p.codes);
  }

  /** Every position legal play reaches is consistent and a key of the
      finished tables. */
  lemma {:induction false} PlayReaches(t: Tables, facts: Codes -> Fact, moves: seq<nat>)
    requires SoundWith(t, facts) && Faithful(facts) && NewState().codes in t.gameState && Play(moves).Some?
    ensures Consistent(Play(moves).value) && Play(moves).value.codes in t.gameState
    decreases |moves|
  {
    if moves != [] {
      var before := moves[..|moves| - 1];
      PlayReaches(t, facts, before);
      StepReaches(t, facts, Play(before).value, moves[|moves| - 1]);
    }
  }

  /** On every reachable position the finished tables answer as the game
      does: `getStateType` gives its value under best play, and `getWinner`
      gives who has won, `None` exactly while the game goes on. */
  lemma TablesAnswer(t: Tables, s: State)
    requires Complete(t) && Reachable(s)
    ensures GetStateType(t, s) == Wrappers.Some(Classify(s))
    ensures GetWinner(t, s) == Status(Board(s.codes))
    ensures GetWinner(t, s) == GameStatus.None <==> !Terminal(Board(s.codes))
  {
    var moves: seq<nat> :| Play(moves) == Wrappers.Some(s);
    var facts :| Faithful(facts) && SoundWith(t, facts);
    AnswerWith(t, facts, moves);
  }

  lemma AnswerWith(t: Tables, facts: Codes -> Fact, moves: seq<nat>)
    requires SoundWith(t, facts) && Faithful(facts) && NewState().codes in t.gameState && Play(moves).Some?
    ensures var s := Play(moves).value;
      Consistent(s) &&
      GetStateType(t, s) == Wrappers.Some(Classify(s)) &&
      GetWinner(t, s) == Status(Board(s.codes))
  {
    var s := Play(moves).value;
    PlayReaches(t, facts, moves);
    assert Entry(t, s.codes, facts(s.codes));
    FactOfState(s);
  }
}

=== FILE: trie.dfy ===
/** The prefix-counting trie. A node is identified by the path of characters
    leading to it from the root, so the trie is the set of existing node
    paths, the set of paths whose node carries the end-of-word flag, and the
    weight stored in every node. Both variants of the trie share these
    operations; they differ only in how they are written to a stream. */
module Trie {

  datatype Trie = Trie(nodes: set<string>, ends: set<string>, weight: map<string, int>)

  /** The stored words that have `p` as a prefix. */
  ghost function Extending(words: set<string>, p: string): set<string>
  {
    set u | u in words && p <= u
  }

  /** Representation invariant: the root exists, nodes are closed under
      prefixes (every node hangs below its parent), flagged nodes exist, and
      every node's weight counts the stored words passing through it. */
  ghost predicate Valid(t: Trie)
  {
    && "" in t.nodes
    && (forall p, i | p in t.nodes && 0 <= i <= |p| :: p[..i] in t.nodes)
    && t.ends <= t.nodes
    && (forall q :: q in t.weight <==> q in t.nodes)
    && (forall q | q in t.nodes :: t.weight[q] == |Extending(t.ends, q)|)
  }

  /** A trie that is just its root (`new Trie()`, and the fresh root of the
      text-format `deserialize`). */
  function Empty(): (t: Trie)
    ensures Valid(t) && t.ends == {}
  {
    Trie({""}, {}, map["" := 0])
  }

  /** No stored word runs through a node that does not exist. */
  lemma MissingNodeHasNoWords(t: Trie, q: string)
    requires Valid(t) && q !in t.nodes
    ensures Extending(t.ends, q) == {}
  {
    assert forall u :: u in t.ends && q <= u ==> u[..|q|] == q;
  }

  /** Follows the edges `w[i]`, `w[i+1]`, ... from the node `w[..i]` (the
      `canMove`/`move` loop of `contains` and `startsWith`), reporting whether
      every edge exists. */
  function PathExists(t: Trie, w: string, i: nat): (r: bool)
    requires Valid(t) && i <= |w| && w[..i] in t.nodes
    ensures r <==> w in t.nodes
    decreases |w| - i
  {
    if i == |w| then
      assert w[..i] == w;
      true
    else if w[..i + 1] !in t.nodes then
      false
    else PathExists(t, w, i + 1)
  }

  /** `contains`: the path exists and ends at a flagged node. */
  function Contains(t: Trie, w: string): (r: bool)
    requires Valid(t)
    ensures r <==> w in t.ends
  {
    assert w[..0] == "";
    PathExists(t, w, 0) && w in t.ends
  }

  /** `startsWith`: the weight of the node at the end of `p`, or 0 when the
      path breaks off. */
  function StartsWith(t: Trie, p: string): (r: int)
    requires Valid(t)
    ensures r == |Extending(t.ends, p)|
  {
    assert p[..0] == "";
    if PathExists(t, p, 0) then t.weight[p]
    else
      MissingNodeHasNoWords(t, p);
      0
  }

  /** `size`: the weight of the root. */
  function Size(t: Trie): (r: int)
    requires Valid(t)
    ensures r == |t.ends|
  {
    assert Extending(t.ends, "") == t.ends;
    t.weight[""]
  }

  /** The empty prefix is a prefix of every stored word, the empty word included. */
  lemma StartsWithEmptyIsSize(t: Trie)
    requires Valid(t)
    ensures StartsWith(t, "") == Size(t)
  {
  }

  /** Weight a node had before an update, 0 for a node the update creates. */
  ghost function Before(t: Trie, q: string): int
  {
    if q in t.weight then t.weight[q] else 0
  }

  /** The paths `w[..j]` for `j <= i`. */
  ghost function Prefixes(w: string, i: nat): set<string>
    requires i <= |w|
  {
    set j | 0 <= j <= i :: w[..j]
  }

  lemma PrefixesStep(w: string, i: nat)
    requires i < |w|
    ensures Prefixes(w, i + 1) == Prefixes(w, i) + {w[..i + 1]}
  {
    forall j | 0 <= j <= i + 1 ensures w[..j] in Prefixes(w, i) + {w[..i + 1]} {
      if j <= i { assert w[..j] in Prefixes(w, i); }
    }
  }

  /** Adding a new word raises by one the count of every node on its path,
      including nodes created for it, and leaves every other count alone. */
  lemma AddedWordCounts(t: Trie, w: string, q: string)
    requires Valid(t) && w !in t.ends
    requires q in t.nodes || q <= w
    ensures |Extending(t.ends + {w}, q)| == Before(t, q) + (if q <= w then 1 else 0)
  {
    if q !in t.nodes {
      MissingNodeHasNoWords(t, q);
    }
    if q <= w {
      assert Extending(t.ends + {w}, q) == Extending(t.ends, q) + {w};
    } else {
      assert Extending(t.ends + {w}, q) == Extending(t.ends, q);
    }
  }

  /** Removing a stored word lowers by one the count of every node on its path. */
  lemma RemovedWordCounts(t: Trie, w: string, q: string)
    requires Valid(t) && w in t.ends && q in t.nodes
    ensures |Extending(t.ends - {w}, q)| == t.weight[q] - (if q <= w then 1 else 0)
  {
    if q <= w {
      assert Extending(t.ends, q) == Extending(t.ends - {w}, q) + {w};
    } else {
      assert Extending(t.ends - {w}, q) == Extending(t.ends, q);
    }
  }

  /** `add`: the root-to-leaf walk raises every weight on the path of `w`,
      creating missing nodes with weight 0 on the way, then flags the last
      node. A word already present leaves the trie untouched. */
  method Add(t: Trie, w: string) returns (added: bool, r: Trie)
    requires Valid(t)
    ensures Valid(r)
    ensures added <==> w !in t.ends
    ensures r.ends == t.ends + {w}
    ensures t.nodes <= r.nodes
    ensures !added ==> r == t
  {
    if Contains(t, w) {
      return false, t;
    }
    var nodes, weight := RaisePath(t, w);
    if w in t.ends {
      // the end-of-word flag was already set: ruled out by `contains` above
      assert false;
    }
    r := Trie(nodes, t.ends + {w}, weight);
    AddKeepsValid(t, w, r);
    added := true;
  }

  /** Where `RaisePath`'s walk stands: the nodes are those of `t` and the
      path down to `w[..i]`, and every node on the path shorter than
      `raised` has gained one unit. */
  ghost predicate Raised(t: Trie, w: string, i: nat, raised: nat, nodes: set<string>, weight: map<string, int>)
    requires i <= |w|
  {
    && nodes == t.nodes + Prefixes(w, i)
    && (forall q :: q in weight <==> q in nodes)
    && (forall q | q in nodes :: weight[q] == Before(t, q) + (if |q| < raised && q <= w then 1 else 0))
  }

  /** One step of the walk: raise the node at depth `i`, then create the
      next one with weight 0 if it is missing. */
  function RaiseOne(w: string, i: nat, nodes: set<string>, weight: map<string, int>): (r: (set<string>, map<string, int>))
    requires i < |w| && w[..i] in weight
    ensures r.0 == nodes + {w[..i + 1]}
  {
    var raised := weight[w[..i] := weight[w[..i]] + 1];
    var next := w[..i + 1];
    if next in nodes then (nodes, raised) else (nodes + {next}, raised[next := 0])
  }

  /** Raising the node at depth `i` accounts for the path down to it. */
  lemma RaiseAt(t: Trie, w: string, i: nat, nodes: set<string>, weight: map<string, int>)
    requires i <= |w| && Raised(t, w, i, i, nodes, weight)
    ensures w[..i] in weight
    ensures Raised(t, w, i, i + 1, nodes, weight[w[..i] := weight[w[..i]] + 1])
  {
    assert w[..i] in Prefixes(w, i);
    assert forall q :: |q| == i && q <= w ==> q == w[..i];
  }

  /** Creating the node at depth `i + 1` with weight 0, when it is missing,
      extends the path by one level. */
  lemma GrowAt(t: Trie, w: string, i: nat, nodes: set<string>, weight: map<string, int>)
    requires Valid(t) && i < |w| && Raised(t, w, i, i + 1, nodes, weight)
    ensures var next := w[..i + 1];
      Raised(t, w, i + 1, i + 1, nodes + {next}, if next in nodes then weight else weight[next := 0])
  {
    PrefixesStep(w, i);
    GrowWeights(t, w, i, nodes, weight);
  }

  /** The weights after creating the node at depth `i + 1` if missing. */
  lemma GrowWeights(t: Trie, w: string, i: nat, nodes: set<string>, weight: map<string, int>)
    requires Valid(t) && i < |w| && t.nodes <= nodes
    requires forall q :: q in weight <==> q in nodes
    requires forall q | q in nodes :: weight[q] == Before(t, q) + (if |q| < i + 1 && q <= w then 1 else 0)
    ensures var next := w[..i + 1];
      var grown := if next in nodes then weight else weight[next := 0];
      (forall q :: q in grown <==> q in nodes + {next}) &&
      forall q | q in nodes + {next} :: grown[q] == Before(t, q) + (if |q| < i + 1 && q <= w then 1 else 0)
  {
    var next := w[..i + 1];
    if next !in nodes {
      assert Before(t, next) == 0;
    }
  }

  /** The walk of `add`: every node on the path of `w` gains one unit of
      weight, and `move` creates each missing node with weight 0 first. */
  method RaisePath(t: Trie, w: string) returns (nodes: set<string>, weight: map<string, int>)
    requires Valid(t)
    ensures nodes == t.nodes + Prefixes(w, |w|)
    ensures forall q :: q in weight <==> q in nodes
    ensures forall q | q in nodes :: weight[q] == Before(t, q) + (if q <= w then 1 else 0)
  {
    nodes := t.nodes;
    weight := t.weight;
    var i := 0;
    assert w[..0] == "";
    while i < |w|
      invariant 0 <= i <= |w|
      invariant Raised(t, w, i, i, nodes, weight)
    {
      RaiseAt(t, w, i, nodes, weight);
      GrowAt(t, w, i, nodes, weight[w[..i] := weight[w[..i]] + 1]);
      var r := RaiseOne(w, i, nodes, weight);
      nodes, weight := r.0, r.1;
      i := i + 1;
    }
    RaiseAt(t, w, |w|, nodes, weight);
    assert w[..|w|] == w;
    weight := weight[w := weight[w] + 1];
    assert forall q | q in nodes && q <= w :: |q| < |w| + 1;
  }

  /** The nodes and weights `RaisePath` leaves, with `w` flagged, form a
      valid trie storing one more word. */
  lemma AddKeepsValid(t: Trie, w: string, r: Trie)
    requires Valid(t) && w !in t.ends
    requires r.nodes == t.nodes + Prefixes(w, |w|)
    requires forall q :: q in r.weight <==> q in r.nodes
    requires forall q | q in r.nodes :: r.weight[q] == Before(t, q) + (if q <= w then 1 else 0)
    requires r.ends == t.ends + {w}
    ensures Valid(r)
  {
    assert w[..|w|] == w;
    forall p, k | p in r.nodes && 0 <= k <= |p| ensures p[..k] in r.nodes {
      if p !in t.nodes {
        var j :| 0 <= j <= |w| && p == w[..j];
        assert p[..k] == w[..k];
      }
    }
    forall q | q in r.nodes ensures r.weight[q] == |Extending(r.ends, q)| {
      if q !in t.nodes {
        var j :| 0 <= j <= |w| && q == w[..j];
        assert q <= w;
      }
      AddedWordCounts(t, w, q);
    }
  }

  /** `remove`: the walk lowers every weight on the path of `w` and clears
      the end-of-word flag; nodes are never unlinked. A word not present
      leaves the trie untouched. */
  method Remove(t: Trie, w: string) returns (removed: bool, r: Trie)
    requires Valid(t)
    ensures Valid(r)
    ensures removed <==> w in t.ends
    ensures r.ends == t.ends - {w}
    ensures r.nodes == t.nodes
    ensures !removed ==> r == t
  {
    if !Contains(t, w) {
      return false, t;
    }
    var weight := t.weight;
    var i := 0;
    while i < |w|
      invariant 0 <= i <= |w|
      invariant forall q :: q in weight <==> q in t.nodes
      invariant forall q | q in t.nodes ::
        weight[q] == t.weight[q] - (if |q| < i && q <= w then 1 else 0)
    {
      assert w[..i] in t.nodes;
      assert forall q :: |q| == i && q <= w ==> q == w[..i];
      weight := weight[w[..i] := weight[w[..i]] - 1];
      i := i + 1;
    }
    assert w[..|w|] == w;
    weight := weight[w := weight[w] - 1];
    assert forall q | q in t.nodes :: weight[q] == t.weight[q] - (if q <= w then 1 else 0) by {
      forall q | q in t.nodes && q <= w && |q| == |w| ensures q == w { }
    }
    r := Trie(t.nodes, t.ends - {w}, weight);
    forall q | q in t.nodes ensures weight[q] == |Extending(r.ends, q)| {
      RemovedWordCounts(t, w, q);
    }
    removed := true;
  }

  /** Looking a word up never changes the trie, and the words a trie stores
      are fixed by adds and removes alone: after adding and then removing a
      word that was absent, the trie stores the same words as before. */
  method AddThenRemove(t: Trie, w: string) returns (r: Trie)
    requires Valid(t)
    ensures Valid(r)
    ensures w !in t.ends ==> r.ends == t.ends
    ensures w in t.ends ==> r.ends == t.ends - {w}
  {
    var _, mid := Add(t, w);
    var _, last := Remove(mid, w);
    r := last;
  }

  // ---------------------------------------------------------------------------
  // Text format: one stored word per line out, whitespace-separated tokens in
  // ---------------------------------------------------------------------------

  /** Characters `Character.isWhitespace` accepts: the ASCII separators and
      control characters 0x1C-0x1F, and the Unicode space, line and paragraph
      separators other than the non-breaking ones. */
  predicate IsWhitespace(c: char)
  {
    || c == ' ' || c == '\t' || c == '\n' || c == '\r'
    || c == '\U{000B}' || c == '\U{000C}'
    || ('\U{001C}' <= c <= '\U{001F}')
    || c == '\U{1680}'
    || ('\U{2000}' <= c <= '\U{2006}') || ('\U{2008}' <= c <= '\U{200A}')
    || c == '\U{2028}' || c == '\U{2029}' || c == '\U{205F}' || c == '\U{3000}'
  }

  /** A word that survives whitespace tokenising unchanged. */
  predicate IsToken(w: string)
  {
    w != [] && forall i :: 0 <= i < |w| ==> !IsWhitespace(w[i])
  }

  /** Length of the run of non-whitespace characters `s` starts with. */
  function TokenLength(s: string): (n: nat)
    requires s != [] && !IsWhitespace(s[0])
    ensures 0 < n <= |s|
    ensures n < |s| ==> IsWhitespace(s[n])
    ensures IsToken(s[..n])
  {
    if |s| == 1 || IsWhitespace(s[1]) then 1 else 1 + TokenLength(s[1..])
  }

  /** What successive `Scanner.next()` calls return: the maximal runs of
      non-whitespace characters, in order. */
  function Tokens(s: string): (r: seq<string>)
    ensures forall i :: 0 <= i < |r| ==> IsToken(r[i])
    decreases |s|
  {
    if s == [] then []
    else if IsWhitespace(s[0]) then Tokens(s[1..])
    else
      var n := TokenLength(s);
      [s[..n]] + Tokens(s[n..])
  }

  /** The text `println` writes for a sequence of lines. */
  function Text(lines: seq<string>): string
  {
    if lines == [] then "" else lines[0] + "\n" + Text(lines[1..])
  }

  /** Tokenising a text of token lines gives the lines back. */
  lemma {:induction false} TokensOfText(lines: seq<string>)
    requires forall i :: 0 <= i < |lines| ==> IsToken(lines[i])
    ensures Tokens(Text(lines)) == lines
  {
    if lines != [] {
      var w := lines[0];
      var rest := Text(lines[1..]);
      var s := w + "\n" + rest;
      TokenLengthOfLine(w, rest);
      assert s[..|w|] == w;
      assert s[|w|..] == "\n" + rest;
      assert ("\n" + rest)[1..] == rest;
      TokensOfText(lines[1..]);
    }
  }

  lemma {:induction false} TokenLengthOfLine(w: string, rest: string)
    requires IsToken(w)
    ensures TokenLength(w + "\n" + rest) == |w|
    decreases |w|
  {
    var s := w + "\n" + rest;
    if |w| > 1 {
      assert s[1..] == w[1..] + "\n" + rest;
      TokenLengthOfLine(w[1..], rest);
    }
  }

  /** Picks a shortest word of a non-empty set. */
  method Shortest(s: set<string>) returns (u: string)
    requires s != {}
    ensures u in s && forall v :: v in s ==> |u| <= |v|
    decreases |s|
  {
    var x :| x in s;
    if s == {x} {
      u := x;
    } else {
      var m := Shortest(s - {x});
      u := if |x| <= |m| then x else m;
    }
  }

  /** Lists a set of words, each exactly once, shortest first. */
  method ListShortestFirst(words: set<string>) returns (lines: seq<string>)
    ensures forall u :: u in lines <==> u in words
    ensures forall i, j :: 0 <= i < j < |lines| ==> lines[i] != lines[j]
    ensures forall i, j :: 0 <= i < j < |lines| ==> |lines[i]| <= |lines[j]|
    ensures |lines| == |words|
  {
    lines := [];
    var rest := words;
    while rest != {}
      invariant rest <= words
      invariant forall u :: u in lines <==> u in words && u !in rest
      invariant forall i, j :: 0 <= i < j < |lines| ==> lines[i] != lines[j]
      invariant forall i, j :: 0 <= i < j < |lines| ==> |lines[i]| <= |lines[j]|
      invariant forall i, v :: 0 <= i < |lines| && v in rest ==> |lines[i]| <= |v|
      invariant |lines| + |rest| == |words|
      decreases |rest|
    {
      var u := Shortest(rest);
      assert forall i :: 0 <= i < |lines| ==> lines[i] != u;
      lines := lines + [u];
      rest := rest - {u};
    }
  }

  /** `serialize` of the text-format trie: the depth-first walk prints the
      word of every flagged node, each on its own line, a node before the
      nodes below it. The order among siblings follows the hash map and is
      left open here. */
  method Serialize(t: Trie) returns (text: string, lines: seq<string>)
    requires Valid(t)
    ensures text == Text(lines)
    ensures forall u :: u in lines <==> u in t.ends
    ensures forall i, j :: 0 <= i < j < |lines| ==> lines[i] != lines[j]
    ensures forall i, j :: 0 <= i < |lines| && 0 <= j < |lines| && lines[i] < lines[j] ==> i < j
    ensures |lines| == Size(t)
  {
    lines := ListShortestFirst(t.ends);
    text := Text(lines);
  }

  /** `deserialize` of the text-format trie: a fresh root, then `add` of every
      whitespace-separated token read. */
  method Deserialize(text: string) returns (r: Trie)
    ensures Valid(r)
    ensures r.ends == set u | u in Tokens(text)
  {
    var tokens := Tokens(text);
    r := Empty();
    var i := 0;
    while i < |tokens|
      invariant 0 <= i <= |tokens|
      invariant Valid(r)
      invariant r.ends == set u | u in tokens[..i]
    {
      assert tokens[..i + 1] == tokens[..i] + [tokens[i]];
      var _, next := Add(r, tokens[i]);
      r := next;
      i := i + 1;
    }
    assert tokens[..i] == tokens;
  }

  /** Writing a trie out and reading it back restores its words exactly when
      every word is a non-empty run of non-whitespace characters; otherwise the
      text holds tokens that are not stored words, or misses stored words. */
  method TextRoundTrip(t: Trie) returns (r: Trie)
    requires Valid(t)
    ensures Valid(r)
    ensures (forall u :: u in t.ends ==> IsToken(u)) ==> r.ends == t.ends
    ensures forall u :: u in r.ends ==> IsToken(u)
  {
    var text, lines := Serialize(t);
    r := Deserialize(text);
    if forall u :: u in t.ends ==> IsToken(u) {
      assert forall i :: 0 <= i < |lines| ==> lines[i] in t.ends;
      TokensOfText(lines);
    }
  }

  /** The empty word is stored and printed as an empty line, but reading that
      line back yields no token, so it is lost. */
  lemma EmptyWordIsLost()
    ensures Text([""]) == "\n" && Tokens(Text([""])) == []
  {
    assert Text([""]) == "" + "\n" + Text([]);
  }

  /** A stored word containing a space comes back as two words. */
  lemma SpacedWordIsSplit()
    ensures Tokens(Text(["a b"])) == ["a", "b"]
  {
    assert Text(["a b"]) == "a b\n";
    assert Tokens("\n") == [] by {
      assert "\n"[1..] == "";
    }
    assert Tokens("b\n") == ["b"] by {
      assert TokenLength("b\n") == 1;
      assert "b\n"[..1] == "b" && "b\n"[1..] == "\n";
    }
    assert Tokens(" b\n") == ["b"] by {
      assert " b\n"[1..] == "b\n";
    }
    assert TokenLength("a b\n") == 1;
    assert "a b\n"[..1] == "a" && "a b\n"[1..] == " b\n";
  }

  // ---------------------------------------------------------------------------
  // Object-stream format: the whole trie is written as one object and
  // reading replaces the root wholesale
  // ---------------------------------------------------------------------------

  /** `deserialize` of the object-stream trie: whatever the trie held, its
      root becomes the root of the trie read back, so it then holds exactly
      the words of the written trie, with the same counts. */
  function ReplaceRoot(current: Trie, written: Trie): (r: Trie)
    requires Valid(current) && Valid(written)
    ensures Valid(r)
    ensures r.ends == written.ends
    ensures forall p :: StartsWith(r, p) == StartsWith(written, p)
  {
    written
  }
}

=== FILE: weighted_set.dfy ===
/** The insert-only search tree whose nodes carry subtree weights: every node
    stores how many nodes its subtree holds, so the size of the set is the
    weight of the root. Keys are integers in their natural order. */
module WeightedSet {

  /** A possibly-null node reference; `weight` starts at 1 for a new node. */
  datatype WNode = Nil | Node(left: WNode, key: int, right: WNode, weight: int)

  function Keys(n: WNode): set<int>
  {
    match n
    case Nil => {}
    case Node(l, k, r, _) => Keys(l) + {k} + Keys(r)
  }

  /** Number of nodes in a subtree. */
  function Count(n: WNode): nat
  {
    match n
    case Nil => 0
    case Node(l, _, r, _) => Count(l) + 1 + Count(r)
  }

  /** Greater keys to the right, smaller ones to the left. */
  ghost predicate Ordered(n: WNode)
  {
    match n
    case Nil => true
    case Node(l, k, r, _) =>
      && Ordered(l) && Ordered(r)
      && (forall y :: y in Keys(l) ==> y < k)
      && (forall y :: y in Keys(r) ==> k < y)
  }

  /** Every node's weight is the size of its subtree. */
  ghost predicate Weighted(n: WNode)
  {
    match n
    case Nil => true
    case Node(l, _, r, w) => Weighted(l) && Weighted(r) && w == Count(n)
  }

  ghost predicate Valid(n: WNode) { Ordered(n) && Weighted(n) }

  /** In an ordered tree the nodes hold distinct keys, so the node count is the
      number of keys. */
  lemma {:induction false} CountIsKeyCount(n: WNode)
    requires Ordered(n)
    ensures Count(n) == |Keys(n)|
  {
    match n
    case Nil =>
    case Node(l, k, r, _) =>
      CountIsKeyCount(l);
      CountIsKeyCount(r);
      SeparatedUnionSize(Keys(l), k, Keys(r));
  }

  /** Keys below and above a separating key are distinct from each other and from it. */
  lemma SeparatedUnionSize(a: set<int>, k: int, b: set<int>)
    requires forall y :: y in a ==> y < k
    requires forall y :: y in b ==> k < y
    ensures |a + {k} + b| == |a| + 1 + |b|
  {
    assert a * b == {} by {
      forall y | y in a * b ensures false { }
    }
    assert (a + {k}) * b == {};
  }

  /** `contains`: walk right past smaller node keys and left past greater ones
      until a node with the key is met. */
  function Contains(n: WNode, k: int): (r: bool)
    requires Ordered(n)
    ensures r <==> k in Keys(n)
  {
    match n
    case Nil => false
    case Node(l, x, rt, _) =>
      if x == k then true
      else if x < k then Contains(rt, k)
      else Contains(l, k)
  }

  /** The walk of `add` below the root: every node passed gains one unit of
      weight and the new leaf hangs where the walk falls off the tree. */
  function AddPath(n: WNode, k: int): (r: WNode)
    requires n != Nil && Valid(n) && k !in Keys(n)
    ensures r != Nil && Valid(r)
    ensures Keys(r) == Keys(n) + {k}
    ensures r.weight == n.weight + 1
  {
    var Node(l, x, rt, w) := n;
    if x < k then
      if rt == Nil then Node(l, x, Node(Nil, k, Nil, 1), w + 1)
      else Node(l, x, AddPath(rt, k), w + 1)
    else
      if l == Nil then Node(Node(Nil, k, Nil, 1), x, rt, w + 1)
      else Node(AddPath(l, k), x, rt, w + 1)
  }

  /** `add`: returns whether the key was new, together with the new tree; a
      present key leaves every weight as it was. */
  function Add(n: WNode, k: int): (res: (bool, WNode))
    requires Valid(n)
    ensures Valid(res.1)
    ensures res.0 <==> k !in Keys(n)
    ensures Keys(res.1) == Keys(n) + {k}
    ensures !res.0 ==> res.1 == n
  {
    if Contains(n, k) then (false, n)
    else if n == Nil then (true, Node(Nil, k, Nil, 1))
    else (true, AddPath(n, k))
  }

  /** `size`: the weight of the root, or 0 for an empty tree. */
  function Size(n: WNode): (r: int)
    requires Valid(n)
    ensures r == |Keys(n)|
  {
    CountIsKeyCount(n);
    if n == Nil then 0 else n.weight
  }

  /** Adds the keys one after the other, starting from an empty set. */
  function AddAll(keys: seq<int>): (n: WNode)
    ensures Valid(n)
  {
    if keys == [] then Nil else Add(AddAll(keys[..|keys| - 1]), keys[|keys| - 1]).1
  }

  /** The keys of a sequence with one more key at the end. */
  lemma KeysOfSnoc(front: seq<int>, k: int)
    ensures (set x | x in front + [k]) == (set x | x in front) + {k}
  {
    assert forall x :: x in front + [k] <==> x in front || x == k;
  }

  /** After any sequence of adds, the tree holds exactly the keys added. */
  lemma {:induction false} AddAllKeys(keys: seq<int>)
    ensures Keys(AddAll(keys)) == set x | x in keys
  {
    if keys != [] {
      var front := keys[..|keys| - 1];
      AddAllKeys(front);
      assert keys == front + [keys[|keys| - 1]];
      KeysOfSnoc(front, keys[|keys| - 1]);
    }
  }

  /** After any sequence of adds, the tree holds exactly the keys added and its
      size is the number of distinct keys among them. */
  lemma SizeCountsDistinctAdds(keys: seq<int>)
    ensures Keys(AddAll(keys)) == set x | x in keys
    ensures Size(AddAll(keys)) == |set x | x in keys|
  {
    AddAllKeys(keys);
  }
}

=== FILE: wrappers.dfy ===
/** Failure-carrying wrappers shared by every component: `Option` stands for a
    Java reference that may be `null`, `Result` for a call that may throw. */
module Wrappers {

  /** A nullable reference: `None` is Java's `null`. */
  datatype Option<T> = None | Some(value: T)

  /** The outcome of a call that either returns `value` or throws `error`. */
  datatype Result<T, E> = Ok(value: T) | Err(error: E)
}

=== FILE: xunit.dfy ===
/** `TestInvoker`, the xUnit runner: it collects the annotated methods of a
    test class, refusing a class whose annotations clash, then runs them in
    the order BeforeClass, (Before, Test, After) for every test not ignored,
    AfterClass, and counts the tests that pass.

    Reflection is abstracted away: a method is a record of its name, its
    annotations and the outcome of invoking it, and the class is its
    constructor kind and its declared methods in the order reflection lists
    them. */
module XUnit {
  import opened Wrappers

  /** The four annotations of which a class may carry at most one each. */
  datatype Hook = Before | After | BeforeClass | AfterClass

  /** The arguments of `@Test`: the expected exception class (`None` for the
      default `Test.NONE`) and the reason to ignore it (`""` for none). */
  datatype TestArgs = TestArgs(expected: Option<string>, ignore: string)

  /** What invoking a method does: return normally, or throw an exception of
      the named class. */
  datatype Outcome = Returns | Throws(exception: string)

  /** A declared method: its name, its `@Test` annotation if any, the other
      xUnit annotations it carries, and its outcome. */
  datatype Method = Method(name: string, test: Option<TestArgs>, hooks: set<Hook>, outcome: Outcome)

  /** What `newInstance` finds: a public default constructor, a default
      constructor that is not public, or none at all. */
  datatype Constructor = PublicDefault | HiddenDefault | NoDefault

  /** The class under test. */
  datatype TestClass = TestClass(creation: Constructor, methods: seq<Method>)

  /** `TestMethod`: a test with its annotation's arguments. */
  datatype TestMethod = TestMethod(test: Method, expected: Option<string>, ignore: string)

  /** `ClassMethods`: the tests in declaration order and the method found for
      each of the four hooks. */
  datatype ClassMethods = ClassMethods(
    tests: seq<TestMethod>,
    before: Option<Method>,
    after: Option<Method>,
    beforeClass: Option<Method>,
    afterClass: Option<Method>)

  /** The exceptions `getTestMethods` throws. */
  datatype Error =
    | TooManyAnnotations(hook: Hook)
    | IncompatibleAnnotations
    | IllegalAccess
    | Instantiation

  /** The annotation name a `TooManyAnnotationsException` message carries. */
  function HookName(h: Hook): string
  {
    match h
    case Before => "Before"
    case After => "After"
    case BeforeClass => "BeforeClass"
    case AfterClass => "AfterClass"
  }

  /** The message of a `TooManyAnnotationsException` tells the hooks apart:
      two clashes carry the same annotation name only for the same hook. */
  lemma HookNameIdentifies(h1: Hook, h2: Hook)
    ensures HookName(h1) == HookName(h2) <==> h1 == h2
  {
  }

  /** The number of xUnit annotations on `m`. */
  function Annotations(m: Method): nat
  {
    (if m.test.Some? then 1 else 0) + |m.hooks|
  }

  /** The method recorded for hook `h`. */
  function Slot(c: ClassMethods, h: Hook): Option<Method>
  {
    match h
    case Before => c.before
    case After => c.after
    case BeforeClass => c.beforeClass
    case AfterClass => c.afterClass
  }

  /** `c` with `m` recorded for hook `h`. */
  function Fill(c: ClassMethods, h: Hook, m: Method): (r: ClassMethods)
    ensures r.tests == c.tests
    ensures Slot(r, h) == Some(m)
    ensures forall g :: g != h ==> Slot(r, g) == Slot(c, g)
  {
    match h
    case Before => c.(before := Some(m))
    case After => c.(after := Some(m))
    case BeforeClass => c.(beforeClass := Some(m))
    case AfterClass => c.(afterClass := Some(m))
  }

  /** The empty `ClassMethods` the scan starts from. */
  function NoMethods(): ClassMethods
  {
    ClassMethods([], None, None, None, None)
  }

  // ---------------------------------------------------------------------------
  // Collecting the annotated methods (`getTestMethods`)
  // ---------------------------------------------------------------------------

  /** One hook check: if `m` carries `h`, it is recorded, unless a method was
      recorded for `h` already. */
  function Register(c: ClassMethods, m: Method, h: Hook): Result<ClassMethods, Error>
  {
    if h !in m.hooks then Ok(c)
    else if Slot(c, h).Some? then Err(TooManyAnnotations(h))
    else Ok(Fill(c, h, m))
  }

  /** The test entry of a method annotated with `@Test`. */
  function Entry(m: Method): TestMethod
    requires m.test.Some?
  {
    TestMethod(m, m.test.value.expected, m.test.value.ignore)
  }

  /** The order in which one method's hook annotations are checked. */
  const HookOrder: seq<Hook> := [Hook.Before, Hook.After, Hook.BeforeClass, Hook.AfterClass]

  /** The hook checks for `m`, in the order `hs`, stopping at the first
      exception. */
  function RegisterEach(c: ClassMethods, m: Method, hs: seq<Hook>): Result<ClassMethods, Error>
    decreases |hs|
  {
    if hs == [] then Ok(c)
    else
      match Register(c, m, hs[0])
      case Err(e) => Err(e)
      case Ok(c1) => RegisterEach(c1, m, hs[1..])
  }

  /** One iteration of the scan: a test is appended, then the four hooks are
      checked in `HookOrder`, and only then is a method with more than one
      annotation refused. */
  function AddMethod(c: ClassMethods, m: Method): Result<ClassMethods, Error>
  {
    var c0 := if m.test.Some? then c.(tests := c.tests + [Entry(m)]) else c;
    match RegisterEach(c0, m, HookOrder)
    case Err(e) => Err(e)
    case Ok(c4) => if Annotations(m) > 1 then Err(IncompatibleAnnotations) else Ok(c4)
  }

  /** The scan over the declared methods, stopping at the first exception. */
  function Collect(ms: seq<Method>): Result<ClassMethods, Error>
  {
    if ms == [] then Ok(NoMethods())
    else
      match Collect(ms[..|ms| - 1])
      case Err(e) => Err(e)
      case Ok(c) => AddMethod(c, ms[|ms| - 1])
  }

  /** The tests among `ms`, in order. */
  function TestsOf(ms: seq<Method>): seq<TestMethod>
  {
    if ms == [] then []
    else
      var last := ms[|ms| - 1];
      TestsOf(ms[..|ms| - 1]) + (if last.test.Some? then [Entry(last)] else [])
  }

  /** Some method of `seen` carries hook `h`. */
  predicate Seen(seen: seq<Method>, h: Hook)
  {
    exists k :: 0 <= k < |seen| && h in seen[k].hooks
  }

  /** The first hook of `hs` that `m` carries and some method of `seen`
      carries already. */
  function Clash(seen: seq<Method>, m: Method, hs: seq<Hook>): (r: Option<Hook>)
    ensures r.Some? ==> r.value in hs && r.value in m.hooks && Seen(seen, r.value)
    ensures r.None? ==> forall h :: h in hs && h in m.hooks ==> !Seen(seen, h)
  {
    if hs == [] then None
    else if hs[0] in m.hooks && Seen(seen, hs[0]) then Some(hs[0])
    else Clash(seen, m, hs[1..])
  }

  /** The exception `m` raises after the methods `seen` were accepted: the
      first of its hooks another method already carries, else a clash of
      annotations on `m` itself, else none. */
  function Fault(seen: seq<Method>, m: Method): Option<Error>
  {
    match Clash(seen, m, HookOrder)
    case Some(h) => Some(TooManyAnnotations(h))
    case None => if Annotations(m) > 1 then Some(IncompatibleAnnotations) else None
  }

  /** No declared method raises an exception. */
  predicate Valid(ms: seq<Method>)
  {
    forall p :: 0 <= p < |ms| ==> Fault(ms[..p], ms[p]).None?
  }

  /** `e` is the exception of the first method of `ms` that raises one. */
  predicate FirstFault(ms: seq<Method>, e: Error)
  {
    exists p :: 0 <= p < |ms| && Fault(ms[..p], ms[p]) == Some(e) && Valid(ms[..p])
  }

  /** `c` is what the scan holds after accepting `seen`: its tests, and for
      every hook, a method of `seen` carrying it exactly when one exists. */
  predicate Tracks(c: ClassMethods, seen: seq<Method>)
  {
    c.tests == TestsOf(seen) &&
    forall h :: (Slot(c, h).Some? <==> Seen(seen, h)) &&
      (Slot(c, h).Some? ==> h in Slot(c, h).value.hooks && Slot(c, h).value in seen)
  }

  /** One hook check against the methods accepted so far. */
  lemma RegisterMeans(c: ClassMethods, seen: seq<Method>, m: Method, h: Hook)
    requires Slot(c, h).Some? <==> Seen(seen, h)
    ensures Register(c, m, h).Err? <==> h in m.hooks && Seen(seen, h)
    ensures Register(c, m, h).Err? ==> Register(c, m, h).error == TooManyAnnotations(h)
    ensures Register(c, m, h).Ok? ==> Register(c, m, h).value.tests == c.tests
    ensures Register(c, m, h).Ok? ==> forall g :: g != h ==> Slot(Register(c, m, h).value, g) == Slot(c, g)
    ensures Register(c, m, h).Ok? ==>
      Slot(Register(c, m, h).value, h) == (if h in m.hooks then Some(m) else Slot(c, h))
  {
  }

  /** The hook checks of `hs` against the methods accepted so far: they
      fail exactly at the first clash, and otherwise record `m` for the hooks
      of `hs` it carries and change nothing else. */
  lemma {:induction false} RegisterEachMeans(c: ClassMethods, seen: seq<Method>, m: Method, hs: seq<Hook>)
    requires forall i :: 0 <= i < |hs| ==> (Slot(c, hs[i]).Some? <==> Seen(seen, hs[i]))
    requires forall i, j :: 0 <= i < j < |hs| ==> hs[i] != hs[j]
    ensures RegisterEach(c, m, hs).Err? <==> Clash(seen, m, hs).Some?
    ensures RegisterEach(c, m, hs).Err? ==>
      RegisterEach(c, m, hs).error == TooManyAnnotations(Clash(seen, m, hs).value)
    ensures RegisterEach(c, m, hs).Ok? ==> RegisterEach(c, m, hs).value.tests == c.tests
    ensures RegisterEach(c, m, hs).Ok? ==> forall h ::
      Slot(RegisterEach(c, m, hs).value, h) == (if h in hs && h in m.hooks then Some(m) else Slot(c, h))
    decreases |hs|
  {
    if hs != [] {
      RegisterMeans(c, seen, m, hs[0]);
      match Register(c, m, hs[0])
      case Err(e) =>
      case Ok(c1) =>
        assert forall i :: 0 <= i < |hs[1..]| ==> hs[1..][i] == hs[i + 1] && hs[i + 1] != hs[0];
        RegisterEachMeans(c1, seen, m, hs[1..]);
        assert forall h :: h in hs <==> h == hs[0] || h in hs[1..];
    }
  }

  /** Every hook is checked. */
  lemma AllHooks(h: Hook)
    ensures h in HookOrder
  {
    match h
    case Before =>
    case After =>
    case BeforeClass =>
    case AfterClass =>
  }

  /** The slots after the hook checks of `m` succeed. */
  lemma FilledSlots(c: ClassMethods, seen: seq<Method>, m: Method, r: ClassMethods)
    requires Tracks(c.(tests := TestsOf(seen)), seen)
    requires forall h :: Slot(r, h) == (if h in m.hooks then Some(m) else Slot(c, h))
    requires forall h :: h in m.hooks ==> !Seen(seen, h)
    requires r.tests == TestsOf(seen + [m])
    ensures Tracks(r, seen + [m])
  {
    var s := seen + [m];
    assert s[..|s| - 1] == seen;
    forall h
      ensures (Slot(r, h).Some? <==> Seen(s, h)) &&
        (Slot(r, h).Some? ==> h in Slot(r, h).value.hooks && Slot(r, h).value in s)
    {
      assert Slot(c.(tests := TestsOf(seen)), h) == Slot(c, h);
      if h in m.hooks {
        assert h in s[|s| - 1].hooks;
      } else if Seen(s, h) {
        var k :| 0 <= k < |s| && h in s[k].hooks;
        assert k < |seen| && s[k] == seen[k];
      }
    }
  }

  /** One iteration accepts `m` exactly when `m` raises no exception, raises
      the one `Fault` names otherwise, and keeps `Tracks`. */
  lemma AddMethodMeans(c: ClassMethods, seen: seq<Method>, m: Method)
    requires Tracks(c, seen)
    ensures AddMethod(c, m).Err? <==> Fault(seen, m).Some?
    ensures AddMethod(c, m).Err? ==> Some(AddMethod(c, m).error) == Fault(seen, m)
    ensures AddMethod(c, m).Ok? ==> Tracks(AddMethod(c, m).value, seen + [m])
  {
    var c0 := if m.test.Some? then c.(tests := c.tests + [Entry(m)]) else c;
    AddTest(c, seen, m, c0);
    HookChecks(c0, seen, m);
    match RegisterEach(c0, m, HookOrder)
    case Err(_) =>
    case Ok(r4) =>
      if Annotations(m) <= 1 {
        FilledSlots(c0, seen, m, r4);
      }
  }

  /** Appending the test entry of `m` leaves the hook slots alone. */
  lemma AddTest(c: ClassMethods, seen: seq<Method>, m: Method, c0: ClassMethods)
    requires Tracks(c, seen)
    requires c0 == if m.test.Some? then c.(tests := c.tests + [Entry(m)]) else c
    ensures c0.tests == TestsOf(seen + [m])
    ensures c0.(tests := TestsOf(seen)) == c
    ensures forall h :: Slot(c0, h).Some? <==> Seen(seen, h)
  {
    var s := seen + [m];
    assert s[..|s| - 1] == seen;
    assert forall g :: Slot(c0, g) == Slot(c, g);
  }

  /** The four hook checks of one iteration, in `HookOrder`. */
  lemma HookChecks(c0: ClassMethods, seen: seq<Method>, m: Method)
    requires forall h :: Slot(c0, h).Some? <==> Seen(seen, h)
    ensures RegisterEach(c0, m, HookOrder).Err? <==> Clash(seen, m, HookOrder).Some?
    ensures RegisterEach(c0, m, HookOrder).Err? ==>
      RegisterEach(c0, m, HookOrder).error == TooManyAnnotations(Clash(seen, m, HookOrder).value)
    ensures RegisterEach(c0, m, HookOrder).Ok? ==> RegisterEach(c0, m, HookOrder).value.tests == c0.tests
    ensures RegisterEach(c0, m, HookOrder).Ok? ==> forall h ::
      Slot(RegisterEach(c0, m, HookOrder).value, h) == (if h in m.hooks then Some(m) else Slot(c0, h))
    ensures Clash(seen, m, HookOrder).None? ==> forall h :: h in m.hooks ==> !Seen(seen, h)
  {
    RegisterEachMeans(c0, seen, m, HookOrder);
    forall h ensures h in HookOrder {
      AllHooks(h);
    }
  }

  /** The scan accepts the methods exactly when none raises an exception,
      and otherwise raises the exception of the first one that does; what it
      accepts records the tests in order and, for each hook, the one method
      carrying it. */
  lemma {:induction false} CollectMeans(ms: seq<Method>)
    ensures Collect(ms).Ok? <==> Valid(ms)
    ensures Collect(ms).Ok? ==> Tracks(Collect(ms).value, ms)
    ensures Collect(ms).Err? ==> FirstFault(ms, Collect(ms).error)
  {
    if ms == [] {
      assert Tracks(NoMethods(), ms);
    } else {
      var front, m := ms[..|ms| - 1], ms[|ms| - 1];
      assert ms == front + [m];
      CollectMeans(front);
      ScanStep(front, m);
    }
  }

  /** A sequence is valid iff its front is and its last method raises no
      exception after the front. */
  lemma ValidSnoc(ms: seq<Method>)
    requires ms != []
    ensures Valid(ms) <==> Valid(ms[..|ms| - 1]) && Fault(ms[..|ms| - 1], ms[|ms| - 1]).None?
  {
    var front := ms[..|ms| - 1];
    assert forall p :: 0 <= p < |front| ==> ms[..p] == front[..p] && ms[p] == front[p];
    assert ms[..|front|] == front;
  }

  /** One more iteration keeps the meaning of the scan. */
  lemma ScanStep(front: seq<Method>, m: Method)
    requires Collect(front).Ok? <==> Valid(front)
    requires Collect(front).Ok? ==> Tracks(Collect(front).value, front)
    requires Collect(front).Err? ==> FirstFault(front, Collect(front).error)
    ensures Collect(front + [m]).Ok? <==> Valid(front + [m])
    ensures Collect(front + [m]).Ok? ==> Tracks(Collect(front + [m]).value, front + [m])
    ensures Collect(front + [m]).Err? ==> FirstFault(front + [m], Collect(front + [m]).error)
  {
    var ms := front + [m];
    assert ms[..|ms| - 1] == front && ms[|ms| - 1] == m;
    if Collect(front).Err? {
      FaultStays(front, m, Collect(front).error);
    } else {
      AcceptStep(front, m, Collect(front).value);
    }
  }

  /** The first exception of the front stays the first of the whole. */
  lemma FaultStays(front: seq<Method>, m: Method, e: Error)
    requires FirstFault(front, e)
    ensures FirstFault(front + [m], e)
  {
    var ms := front + [m];
    var p :| 0 <= p < |front| && Fault(front[..p], front[p]) == Some(e) && Valid(front[..p]);
    assert ms[..p] == front[..p] && ms[p] == front[p];
  }

  /** The last iteration of a scan that accepted the front. */
  lemma AcceptStep(front: seq<Method>, m: Method, c: ClassMethods)
    requires Collect(front) == Ok(c)
    requires Valid(front) && Tracks(c, front)
    ensures Collect(front + [m]) == AddMethod(c, m)
    ensures AddMethod(c, m).Ok? <==> Valid(front + [m])
    ensures AddMethod(c, m).Ok? ==> Tracks(AddMethod(c, m).value, front + [m])
    ensures AddMethod(c, m).Err? ==> FirstFault(front + [m], AddMethod(c, m).error)
  {
    var ms := front + [m];
    assert ms[..|ms| - 1] == front && ms[|ms| - 1] == m;
    ValidSnoc(ms);
    AddMethodMeans(c, front, m);
    assert ms[..|front|] == front;
  }

  /** `getTestMethods`: the instance is created first, so a class without a
      public default constructor is refused before its annotations are
      looked at; then the scan decides. */
  function GetTestMethods(k: TestClass): (r: Result<ClassMethods, Error>)
    ensures r.Ok? <==> k.creation == PublicDefault && Valid(k.methods)
    ensures r == Err(IllegalAccess) <==> k.creation == HiddenDefault
    ensures r == Err(Instantiation) <==> k.creation == NoDefault
    ensures k.creation == PublicDefault && r.Err? ==> FirstFault(k.methods, r.error)
    ensures r.Ok? ==> Tracks(r.value, k.methods)
  {
    CollectMeans(k.methods);
    match k.creation
    case HiddenDefault => Err(IllegalAccess)
    case NoDefault => Err(Instantiation)
    case PublicDefault =>
      Collect(k.methods)
  }

  /** The first method that raises an exception decides the scan's
      exception. */
  lemma FaultDecides(ms: seq<Method>, q: nat)
    requires q < |ms| && Valid(ms[..q]) && Fault(ms[..q], ms[q]).Some?
    ensures Collect(ms) == Err(Fault(ms[..q], ms[q]).value)
  {
    CollectMeans(ms);
    assert !Valid(ms) by {
      assert ms[..q] == ms[..q];
    }
    var p :| 0 <= p < |ms| && Fault(ms[..p], ms[p]) == Some(Collect(ms).error) && Valid(ms[..p]);
    ValidBefore(ms, p);
    ValidBefore(ms, q);
    assert p == q;
  }

  /** The methods before an accepted prefix's end raise nothing. */
  lemma ValidBefore(ms: seq<Method>, q: nat)
    requires q <= |ms| && Valid(ms[..q])
    ensures forall a :: 0 <= a < q ==> Fault(ms[..a], ms[a]).None?
  {
    forall a | 0 <= a < q
      ensures Fault(ms[..a], ms[a]).None?
    {
      assert ms[..q][..a] == ms[..a] && ms[..q][a] == ms[a];
    }
  }

  /** A second method carrying hook `h` is refused for too many annotations,
      not for incompatible ones, even if it carries others too; when `h` is
      its only annotation, the exception names `h`. */
  lemma DuplicateHook(ms: seq<Method>, q: nat, h: Hook)
    requires q < |ms| && Valid(ms[..q])
    requires h in ms[q].hooks && Seen(ms[..q], h)
    ensures Collect(ms).Err? && Collect(ms).error.TooManyAnnotations?
    ensures ms[q].hooks == {h} ==> Collect(ms) == Err(TooManyAnnotations(h))
  {
    AllHooks(h);
    FaultDecides(ms, q);
  }

  /** A method with two annotations, none of whose hooks an earlier method
      carries, is refused as incompatible. */
  lemma IncompatibleMethod(ms: seq<Method>, q: nat)
    requires q < |ms| && Valid(ms[..q]) && Annotations(ms[q]) > 1
    requires forall h :: h in ms[q].hooks ==> !Seen(ms[..q], h)
    ensures Collect(ms) == Err(IncompatibleAnnotations)
  {
    FaultDecides(ms, q);
  }

  // ---------------------------------------------------------------------------
  // Running the tests (`invoke`)
  // ---------------------------------------------------------------------------

  /** How one test ended. */
  datatype Verdict = Passed | Failed | Ignored

  /** The loop's state: the methods invoked so far, the verdicts of the tests
      seen, `passedTests` and `allTests`. */
  datatype Progress = Progress(calls: seq<string>, verdicts: seq<Verdict>, passed: int, allTests: int)

  /** What `invoke` reports: the methods it invoked, in order, the verdicts,
      the line "Tests passed: passed/total", and whether it stopped on an
      unexpected exception from BeforeClass or AfterClass. */
  datatype Report = Report(calls: seq<string>, verdicts: seq<Verdict>, passed: int, total: int, unexpected: bool)

  /** The name of a hook's method, if the class has one. */
  function Names(o: Option<Method>): seq<string>
  {
    if o.Some? then [o.value.name] else []
  }

  /** A hook that is missing or returns normally. */
  predicate Quiet(o: Option<Method>)
  {
    o.None? || o.value.outcome == Returns
  }

  /** The test body does what its annotation asks: it returns and expects
      nothing, or throws exactly the expected class. */
  predicate Meets(t: TestMethod)
  {
    match t.test.outcome
    case Returns => t.expected.None?
    case Throws(e) => t.expected == Some(e)
  }

  /** A test that is run passes: Before and After return normally and the
      body meets its annotation. */
  predicate Passes(c: ClassMethods, t: TestMethod)
  {
    Quiet(c.before) && Meets(t) && Quiet(c.after)
  }

  /** One run of a test that is not ignored: Before, whose exception fails
      the test at once; the body, whose exception, or missing expected
      exception, is held; After, which runs in either case; the test passes
      when nothing was held and After returned. */
  function Attempt(c: ClassMethods, t: TestMethod): (r: (seq<string>, bool))
    ensures r.1 <==> Passes(c, t)
    ensures Quiet(c.before) ==> r.0 == Names(c.before) + [t.test.name] + Names(c.after)
    ensures !Quiet(c.before) ==> r.0 == Names(c.before)
  {
    if c.before.Some? && c.before.value.outcome.Throws? then (Names(c.before), false)
    else
      var held := match t.test.outcome
        case Returns => t.expected.Some?
        case Throws(e) => t.expected != Some(e);
      var calls := Names(c.before) + [t.test.name] + Names(c.after);
      (calls, !held && Quiet(c.after))
  }

  /** One iteration of the loop over the tests. */
  function Step(c: ClassMethods, p: Progress, t: TestMethod): Progress
  {
    if t.ignore != "" then p.(verdicts := p.verdicts + [Ignored], allTests := p.allTests - 1)
    else
      var (calls, success) := Attempt(c, t);
      p.(calls := p.calls + calls,
         verdicts := p.verdicts + [if success then Passed else Failed],
         passed := if success then p.passed + 1 else p.passed)
  }

  /** The loop after the first `n` tests. */
  function RunTests(c: ClassMethods, n: nat): Progress
    requires n <= |c.tests|
  {
    if n == 0 then Progress([], [], 0, |c.tests|)
    else Step(c, RunTests(c, n - 1), c.tests[n - 1])
  }

  /** The number of occurrences of `v` in `vs`. */
  function Count(vs: seq<Verdict>, v: Verdict): nat
  {
    if vs == [] then 0 else Count(vs[..|vs| - 1], v) + (if vs[|vs| - 1] == v then 1 else 0)
  }

  /** Passed and ignored tests are different tests. */
  lemma {:induction false} CountBound(vs: seq<Verdict>)
    ensures Count(vs, Passed) + Count(vs, Ignored) <= |vs|
  {
    if vs != [] {
      CountBound(vs[..|vs| - 1]);
    }
  }

  /** Counting a verdict appended at the end. */
  lemma CountSnoc(vs: seq<Verdict>, v: Verdict, x: Verdict)
    ensures Count(vs + [v], x) == Count(vs, x) + (if v == x then 1 else 0)
  {
    assert (vs + [v])[..|vs|] == vs;
  }

  /** The counters agree with the verdicts. */
  predicate Counted(c: ClassMethods, p: Progress)
  {
    p.passed == Count(p.verdicts, Passed) &&
    p.allTests == |c.tests| - Count(p.verdicts, Ignored)
  }

  /** One iteration appends the test's verdict, ignored exactly when its
      `ignore` is not empty and passed exactly when it is run and `Passes`,
      and keeps the counters in step with the verdicts. */
  lemma StepMeans(c: ClassMethods, p: Progress, t: TestMethod)
    requires Counted(c, p)
    ensures Step(c, p, t).verdicts[..|p.verdicts|] == p.verdicts
    ensures |Step(c, p, t).verdicts| == |p.verdicts| + 1
    ensures Step(c, p, t).verdicts[|p.verdicts|] == Ignored <==> t.ignore != ""
    ensures Step(c, p, t).verdicts[|p.verdicts|] == Passed <==> t.ignore == "" && Passes(c, t)
    ensures Counted(c, Step(c, p, t))
  {
    var v := Step(c, p, t).verdicts[|p.verdicts|];
    assert Step(c, p, t).verdicts == p.verdicts + [v];
    CountSnoc(p.verdicts, v, Passed);
    CountSnoc(p.verdicts, v, Ignored);
  }

  /** The verdict of test `i` after the first `n` tests. */
  predicate Judged(c: ClassMethods, vs: seq<Verdict>, i: nat)
    requires i < |vs| && i < |c.tests|
  {
    (vs[i] == Ignored <==> c.tests[i].ignore != "") &&
    (vs[i] == Passed <==> c.tests[i].ignore == "" && Passes(c, c.tests[i]))
  }

  /** After `n` tests: a test is ignored exactly when its `ignore` is not
      empty, passes exactly when it is run and `Passes`, `passedTests`
      counts the passes and `allTests` the tests not ignored. */
  lemma {:induction false} RunTestsMeans(c: ClassMethods, n: nat)
    requires n <= |c.tests|
    ensures |RunTests(c, n).verdicts| == n
    ensures forall i :: 0 <= i < n ==> Judged(c, RunTests(c, n).verdicts, i)
    ensures Counted(c, RunTests(c, n))
  {
    if n > 0 {
      var before := RunTests(c, n - 1);
      RunTestsMeans(c, n - 1);
      var p := Step(c, before, c.tests[n - 1]);
      assert RunTests(c, n) == p;
      StepMeans(c, before, c.tests[n - 1]);
      forall i | 0 <= i < n
        ensures Judged(c, p.verdicts, i)
      {
        if i < n - 1 {
          assert p.verdicts[i] == p.verdicts[..n - 1][i] == before.verdicts[i];
          assert Judged(c, before.verdicts, i);
        }
      }
    }
  }

  /** `invoke`: BeforeClass, whose exception ends the run with nothing
      counted; the loop over the tests; AfterClass, whose exception is
      reported after the counts are final. */
  function Invoke(c: ClassMethods): (r: Report)
    ensures 0 <= r.passed <= r.total <= |c.tests|
    ensures !Quiet(c.beforeClass) ==> r.verdicts == [] && r.passed == 0 && r.total == |c.tests| && r.unexpected
    ensures Quiet(c.beforeClass) ==> |r.verdicts| == |c.tests|
    ensures Quiet(c.beforeClass) ==> forall i :: 0 <= i < |c.tests| ==> Judged(c, r.verdicts, i)
    ensures Quiet(c.beforeClass) ==> r.passed == Count(r.verdicts, Passed)
    ensures Quiet(c.beforeClass) ==> r.total == |c.tests| - Count(r.verdicts, Ignored)
    ensures r.unexpected <==> !Quiet(c.beforeClass) || !Quiet(c.afterClass)
  {
    if c.beforeClass.Some? && c.beforeClass.value.outcome.Throws? then
      Report(Names(c.beforeClass), [], 0, |c.tests|, true)
    else
      var p := RunTests(c, |c.tests|);
      RunTestsMeans(c, |c.tests|);
      CountBound(p.verdicts);
      var calls := Names(c.beforeClass) + p.calls + Names(c.afterClass);
      Report(calls, p.verdicts, p.passed, p.allTests, !Quiet(c.afterClass))
  }

  /** `processClass`: collect, then run. */
  function ProcessClass(k: TestClass): (r: Result<Report, Error>)
    ensures r.Ok? <==> k.creation == PublicDefault && Valid(k.methods)
    ensures r.Ok? ==> r.value == Invoke(GetTestMethods(k).value)
  {
    match GetTestMethods(k)
    case Err(e) => Err(e)
    case Ok(c) => Ok(Invoke(c))
  }

  // ---------------------------------------------------------------------------
  // Run order
  // ---------------------------------------------------------------------------

  /** The invocations a test that is run contributes when Before returns. */
  function Round(c: ClassMethods, t: TestMethod): seq<string>
  {
    if t.ignore == "" then Names(c.before) + [t.test.name] + Names(c.after) else []
  }

  /** Before, Test, After for every test not ignored, in order. */
  function Rounds(c: ClassMethods, ts: seq<TestMethod>): seq<string>
  {
    if ts == [] then [] else Round(c, ts[0]) + Rounds(c, ts[1..])
  }

  /** Appending a test appends its round. */
  lemma {:induction false} RoundsSnoc(c: ClassMethods, ts: seq<TestMethod>, t: TestMethod)
    ensures Rounds(c, ts + [t]) == Rounds(c, ts) + Round(c, t)
  {
    if ts == [] {
      assert ts + [t] == [t];
      assert Rounds(c, [t]) == Round(c, t) + Rounds(c, []);
    } else {
      assert (ts + [t])[1..] == ts[1..] + [t];
      RoundsSnoc(c, ts[1..], t);
    }
  }

  /** When Before returns, the loop invokes exactly the rounds of the tests
      so far. */
  lemma {:induction false} RunTestsOrder(c: ClassMethods, n: nat)
    requires n <= |c.tests| && Quiet(c.before)
    ensures RunTests(c, n).calls == Rounds(c, c.tests[..n])
  {
    if n > 0 {
      RunTestsOrder(c, n - 1);
      assert c.tests[..n] == c.tests[..n - 1] + [c.tests[n - 1]];
      RoundsSnoc(c, c.tests[..n - 1], c.tests[n - 1]);
    }
  }

  /** The run order: BeforeClass once, then Before, Test, After for every
      test not ignored, then AfterClass once, whatever the tests do; when
      BeforeClass throws, nothing else runs. */
  lemma InvokeOrder(c: ClassMethods)
    ensures Quiet(c.beforeClass) && Quiet(c.before) ==>
      Invoke(c).calls == Names(c.beforeClass) + Rounds(c, c.tests) + Names(c.afterClass)
    ensures !Quiet(c.beforeClass) ==> Invoke(c).calls == Names(c.beforeClass)
  {
    if Quiet(c.beforeClass) && Quiet(c.before) {
      RunTestsOrder(c, |c.tests|);
      assert c.tests[..|c.tests|] == c.tests;
    }
  }

  /** An ignored test is never invoked, as long as method names are
      distinct. */
  lemma {:induction false} IgnoredNotRun(c: ClassMethods, ts: seq<TestMethod>, name: string)
    requires forall i :: 0 <= i < |ts| && ts[i].test.name == name ==> ts[i].ignore != ""
    requires Names(c.before) != [name] && Names(c.after) != [name]
    ensures name !in Rounds(c, ts)
  {
    if ts != [] {
      IgnoredNotRun(c, ts[1..], name);
      assert forall i :: 0 <= i < |ts[1..]| ==> ts[1..][i] == ts[i + 1];
    }
  }
}

/** The example classes of the runner's own tests, as values of the model. */
module XUnitExamples {
  import opened Wrappers
  import opened XUnit

  /** A method with only hook `h`, returning normally. */
  function HookMethod(name: string, h: Hook): Method
  {
    Method(name, None, {h}, Returns)
  }

  /** A plain test (no expected exception, not ignored) with outcome `o`. */
  function PlainTest(name: string, o: Outcome): Method
  {
    Method(name, Some(TestArgs(None, "")), {}, o)
  }

  /** `examples.Order`, whose methods, named `n[0]` to `n[6]` in
      declaration order, each append one digit to a shared writer:
      BeforeClass 1, Before 2, the three tests 3, After 4, AfterClass 5.
      Every method returns normally. */
  function OrderClass(n: seq<string>): TestClass
    requires |n| == 7
  {
    TestClass(PublicDefault, [
      HookMethod(n[0], Hook.BeforeClass),
      HookMethod(n[1], Hook.Before),
      PlainTest(n[2], Returns),
      PlainTest(n[3], Returns),
      PlainTest(n[4], Returns),
      HookMethod(n[5], Hook.After),
      HookMethod(n[6], Hook.AfterClass)])
  }

  /** What the scan collects from `examples.Order`. */
  lemma OrderScan(n: seq<string>)
    requires |n| == 7
    ensures GetTestMethods(OrderClass(n)) == Ok(ClassMethods(
      [Entry(OrderClass(n).methods[2]), Entry(OrderClass(n).methods[3]), Entry(OrderClass(n).methods[4])],
      Some(OrderClass(n).methods[1]), Some(OrderClass(n).methods[5]),
      Some(OrderClass(n).methods[0]), Some(OrderClass(n).methods[6])))
  {
    var ms := OrderClass(n).methods;
    var e1, e2, e3 := Entry(ms[2]), Entry(ms[3]), Entry(ms[4]);
    assert [] + [e1] == [e1] && [e1] + [e2] == [e1, e2] && [e1, e2] + [e3] == [e1, e2, e3];
    AddHook(NoMethods(), ms[0], Hook.BeforeClass);
    AddHook(ClassMethods([], None, None, Some(ms[0]), None), ms[1], Hook.Before);
    AddTest(ClassMethods([], Some(ms[1]), None, Some(ms[0]), None), ms[2]);
    AddTest(ClassMethods([e1], Some(ms[1]), None, Some(ms[0]), None), ms[3]);
    AddTest(ClassMethods([e1, e2], Some(ms[1]), None, Some(ms[0]), None), ms[4]);
    AddHook(ClassMethods([e1, e2, e3], Some(ms[1]), None, Some(ms[0]), None), ms[5], Hook.After);
    AddHook(ClassMethods([e1, e2, e3], Some(ms[1]), Some(ms[5]), Some(ms[0]), None), ms[6], Hook.AfterClass);
    Scanned(ms, 1, NoMethods(), ClassMethods([], None, None, Some(ms[0]), None));
    Scanned(ms, 2, ClassMethods([], None, None, Some(ms[0]), None),
      ClassMethods([], Some(ms[1]), None, Some(ms[0]), None));
    Scanned(ms, 3, ClassMethods([], Some(ms[1]), None, Some(ms[0]), None),
      ClassMethods([e1], Some(ms[1]), None, Some(ms[0]), None));
    Scanned(ms, 4, ClassMethods([e1], Some(ms[1]), None, Some(ms[0]), None),
      ClassMethods([e1, e2], Some(ms[1]), None, Some(ms[0]), None));
    Scanned(ms, 5, ClassMethods([e1, e2], Some(ms[1]), None, Some(ms[0]), None),
      ClassMethods([e1, e2, e3], Some(ms[1]), None, Some(ms[0]), None));
    Scanned(ms, 6, ClassMethods([e1, e2, e3], Some(ms[1]), None, Some(ms[0]), None),
      ClassMethods([e1, e2, e3], Some(ms[1]), Some(ms[5]), Some(ms[0]), None));
    Scanned(ms, 7, ClassMethods([e1, e2, e3], Some(ms[1]), Some(ms[5]), Some(ms[0]), None),
      ClassMethods([e1, e2, e3], Some(ms[1]), Some(ms[5]), Some(ms[0]), Some(ms[6])));
    assert ms[..7] == ms;
  }

  /** `examples.Order` invokes BeforeClass, then Before, the test and After
      for each of the three tests, then AfterClass (the digits
      "12342342345"), and all three tests pass. */
  lemma OrderRuns(n: seq<string>)
    requires |n| == 7
    ensures ProcessClass(OrderClass(n)).Ok?
    ensures ProcessClass(OrderClass(n)).value.calls ==
      [n[0], n[1], n[2], n[5], n[1], n[3], n[5], n[1], n[4], n[5], n[6]]
    ensures ProcessClass(OrderClass(n)).value.passed == ProcessClass(OrderClass(n)).value.total == 3
  {
    OrderScan(n);
    var ms := OrderClass(n).methods;
    OrderInvoke(n, ClassMethods([Entry(ms[2]), Entry(ms[3]), Entry(ms[4])], Some(ms[1]), Some(ms[5]), Some(ms[0]), Some(ms[6])));
  }

  /** The run of what the scan collects from `examples.Order`. */
  lemma OrderInvoke(n: seq<string>, c: ClassMethods)
    requires |n| == 7
    requires c.tests == [Entry(PlainTest(n[2], Returns)), Entry(PlainTest(n[3], Returns)), Entry(PlainTest(n[4], Returns))]
    requires c.before == Some(HookMethod(n[1], Hook.Before)) && c.after == Some(HookMethod(n[5], Hook.After))
    requires c.beforeClass == Some(HookMethod(n[0], Hook.BeforeClass))
    requires c.afterClass == Some(HookMethod(n[6], Hook.AfterClass))
    ensures Invoke(c).calls == [n[0], n[1], n[2], n[5], n[1], n[3], n[5], n[1], n[4], n[5], n[6]]
    ensures Invoke(c).passed == Invoke(c).total == 3
  {
    ThreeRounds(c);
    AllPass(c);
  }

  /** The calls of a run of three tests when BeforeClass and Before
      return. */
  lemma ThreeRounds(c: ClassMethods)
    requires |c.tests| == 3 && Quiet(c.beforeClass) && Quiet(c.before)
    ensures Invoke(c).calls == Names(c.beforeClass) +
      Round(c, c.tests[0]) + Round(c, c.tests[1]) + Round(c, c.tests[2]) + Names(c.afterClass)
  {
    InvokeOrder(c);
    RoundsThree(c, c.tests);
  }

  /** The rounds of three tests, one after the other. */
  lemma RoundsThree(c: ClassMethods, ts: seq<TestMethod>)
    requires |ts| == 3
    ensures Rounds(c, ts) == Round(c, ts[0]) + Round(c, ts[1]) + Round(c, ts[2])
  {
    assert ts[2..][1..] == [];
    assert Rounds(c, ts[2..]) == Round(c, ts[2]);
    assert ts[1..][1..] == ts[2..];
  }

  /** Three tests that all pass. */
  lemma AllPass(c: ClassMethods)
    requires |c.tests| == 3 && Quiet(c.beforeClass)
    requires forall i :: 0 <= i < 3 ==> c.tests[i].ignore == "" && Passes(c, c.tests[i])
    ensures Invoke(c).passed == Invoke(c).total == 3
  {
    var vs := Invoke(c).verdicts;
    assert Judged(c, vs, 0) && Judged(c, vs, 1) && Judged(c, vs, 2);
    CountUniform(vs, Passed, Ignored);
  }

  /** In a sequence holding only `v`, `v` occurs everywhere and any other
      verdict nowhere. */
  lemma {:induction false} CountUniform(vs: seq<Verdict>, v: Verdict, w: Verdict)
    requires forall i :: 0 <= i < |vs| ==> vs[i] == v
    requires w != v
    ensures Count(vs, v) == |vs| && Count(vs, w) == 0
  {
    if vs != [] {
      CountUniform(vs[..|vs| - 1], v, w);
    }
  }

  /** A class of BeforeClass, Before and three tests, in that order, as in
      `examples.CorrectTests` and `examples.IncorrectTests1`. */
  lemma ScanFive(ms: seq<Method>)
    requires |ms| == 5
    requires ms[0].test.None? && ms[0].hooks == {Hook.BeforeClass}
    requires ms[1].test.None? && ms[1].hooks == {Hook.Before}
    requires forall i :: 2 <= i < 5 ==> ms[i].test.Some? && ms[i].hooks == {}
    ensures GetTestMethods(TestClass(PublicDefault, ms)) ==
      Ok(ClassMethods([Entry(ms[2]), Entry(ms[3]), Entry(ms[4])], Some(ms[1]), None, Some(ms[0]), None))
  {
    var e1, e2, e3 := Entry(ms[2]), Entry(ms[3]), Entry(ms[4]);
    assert [] + [e1] == [e1] && [e1] + [e2] == [e1, e2] && [e1, e2] + [e3] == [e1, e2, e3];
    AddHook(NoMethods(), ms[0], Hook.BeforeClass);
    AddHook(ClassMethods([], None, None, Some(ms[0]), None), ms[1], Hook.Before);
    AddTest(ClassMethods([], Some(ms[1]), None, Some(ms[0]), None), ms[2]);
    AddTest(ClassMethods([e1], Some(ms[1]), None, Some(ms[0]), None), ms[3]);
    AddTest(ClassMethods([e1, e2], Some(ms[1]), None, Some(ms[0]), None), ms[4]);
    Scanned(ms, 1, NoMethods(), ClassMethods([], None, None, Some(ms[0]), None));
    Scanned(ms, 2, ClassMethods([], None, None, Some(ms[0]), None),
      ClassMethods([], Some(ms[1]), None, Some(ms[0]), None));
    Scanned(ms, 3, ClassMethods([], Some(ms[1]), None, Some(ms[0]), None),
      ClassMethods([e1], Some(ms[1]), None, Some(ms[0]), None));
    Scanned(ms, 4, ClassMethods([e1], Some(ms[1]), None, Some(ms[0]), None),
      ClassMethods([e1, e2], Some(ms[1]), None, Some(ms[0]), None));
    Scanned(ms, 5, ClassMethods([e1, e2], Some(ms[1]), None, Some(ms[0]), None),
      ClassMethods([e1, e2, e3], Some(ms[1]), None, Some(ms[0]), None));
    assert ms[..5] == ms;
  }

  /** `examples.CorrectTests`: `test1` returns, `test2` throws the
      `AssertionError` it expects, and `test3` is ignored. */
  function CorrectTests(n: seq<string>, ignored: Outcome): TestClass
    requires |n| == 5
  {
    TestClass(PublicDefault, [
      HookMethod(n[0], Hook.BeforeClass),
      HookMethod(n[1], Hook.Before),
      PlainTest(n[2], Returns),
      Method(n[3], Some(TestArgs(Some("AssertionError"), "")), {}, Throws("AssertionError")),
      Method(n[4], Some(TestArgs(None, "Invalid test")), {}, ignored)])
  }

  /** `examples.IncorrectTests1`: `test1` returns, `test2` throws the
      `AssertionError` it expects, and `test3` throws one it does not. */
  function IncorrectTests1(n: seq<string>): TestClass
    requires |n| == 5
  {
    TestClass(PublicDefault, [
      HookMethod(n[0], Hook.BeforeClass),
      HookMethod(n[1], Hook.Before),
      PlainTest(n[2], Returns),
      Method(n[3], Some(TestArgs(Some("AssertionError"), "")), {}, Throws("AssertionError")),
      PlainTest(n[4], Throws("AssertionError"))])
  }

  /** Counting the verdicts of three tests. */
  lemma CountThree(a: Verdict, b: Verdict, c: Verdict, v: Verdict)
    ensures Count([a, b, c], v) == (if a == v then 1 else 0) + (if b == v then 1 else 0) + (if c == v then 1 else 0)
  {
    assert [a][..0] == [];
    assert Count([a], v) == (if a == v then 1 else 0);
    assert [a, b][..1] == [a];
    assert Count([a, b], v) == Count([a], v) + (if b == v then 1 else 0);
    assert [a, b, c][..2] == [a, b];
  }

  /** `CorrectTests` reports "Tests passed: 2/2": two passes, the ignored
      test neither run nor counted, whatever it would do. */
  lemma CorrectTestsReport(n: seq<string>, ignored: Outcome)
    requires |n| == 5
    ensures ProcessClass(CorrectTests(n, ignored)).Ok?
    ensures ProcessClass(CorrectTests(n, ignored)).value.verdicts == [Passed, Passed, Ignored]
    ensures ProcessClass(CorrectTests(n, ignored)).value.passed == 2
    ensures ProcessClass(CorrectTests(n, ignored)).value.total == 2
  {
    var ms := CorrectTests(n, ignored).methods;
    ScanFive(ms);
    var c := ClassMethods([Entry(ms[2]), Entry(ms[3]), Entry(ms[4])], Some(ms[1]), None, Some(ms[0]), None);
    var vs := Invoke(c).verdicts;
    assert Judged(c, vs, 0) && Judged(c, vs, 1) && Judged(c, vs, 2);
    assert vs == [Passed, Passed, Ignored];
    CountThree(Passed, Passed, Ignored, Passed);
    CountThree(Passed, Passed, Ignored, Ignored);
  }

  /** `IncorrectTests1` reports "Tests passed: 2/3": the test that throws
      an exception it does not expect fails. */
  lemma IncorrectTests1Report(n: seq<string>)
    requires |n| == 5
    ensures ProcessClass(IncorrectTests1(n)).Ok?
    ensures ProcessClass(IncorrectTests1(n)).value.verdicts == [Passed, Passed, Failed]
    ensures ProcessClass(IncorrectTests1(n)).value.passed == 2
    ensures ProcessClass(IncorrectTests1(n)).value.total == 3
  {
    var ms := IncorrectTests1(n).methods;
    ScanFive(ms);
    var c := ClassMethods([Entry(ms[2]), Entry(ms[3]), Entry(ms[4])], Some(ms[1]), None, Some(ms[0]), None);
    var vs := Invoke(c).verdicts;
    assert Judged(c, vs, 0) && Judged(c, vs, 1) && Judged(c, vs, 2);
    assert vs == [Passed, Passed, Failed];
    CountThree(Passed, Passed, Failed, Passed);
    CountThree(Passed, Passed, Failed, Ignored);
  }

  /** The hook checks of a method with no hook change nothing. */
  lemma {:induction false} RegisterEachNone(c: ClassMethods, m: Method, hs: seq<Hook>)
    requires m.hooks == {}
    ensures RegisterEach(c, m, hs) == Ok(c)
    decreases |hs|
  {
    if hs != [] {
      RegisterEachNone(c, m, hs[1..]);
    }
  }

  /** The hook checks of a method with the one hook `h`, free so far,
      record it. */
  lemma {:induction false} RegisterEachSingle(c: ClassMethods, m: Method, hs: seq<Hook>, h: Hook)
    requires m.hooks == {h}
    requires forall i, j :: 0 <= i < j < |hs| ==> hs[i] != hs[j]
    requires h in hs ==> Slot(c, h).None?
    ensures RegisterEach(c, m, hs) == Ok(if h in hs then Fill(c, h, m) else c)
    decreases |hs|
  {
    if hs != [] {
      assert forall i :: 0 <= i < |hs[1..]| ==> hs[1..][i] == hs[i + 1];
      assert h in hs <==> h == hs[0] || h in hs[1..];
      if hs[0] == h {
        assert h !in hs[1..];
        RegisterEachSingle(Fill(c, h, m), m, hs[1..], h);
      } else {
        RegisterEachSingle(c, m, hs[1..], h);
      }
    }
  }

  /** The scan appends a test with no other annotation. */
  lemma AddTest(c: ClassMethods, m: Method)
    requires m.test.Some? && m.hooks == {}
    ensures AddMethod(c, m) == Ok(c.(tests := c.tests + [Entry(m)]))
  {
    RegisterEachNone(c.(tests := c.tests + [Entry(m)]), m, HookOrder);
  }

  /** The scan records a method with the one free hook `h`. */
  lemma AddHook(c: ClassMethods, m: Method, h: Hook)
    requires m.test.None? && m.hooks == {h} && Slot(c, h).None?
    ensures AddMethod(c, m) == Ok(Fill(c, h, m))
  {
    AllHooks(h);
    RegisterEachSingle(c, m, HookOrder, h);
  }

  /** One more method accepted by the scan. */
  lemma Scanned(ms: seq<Method>, n: nat, before: ClassMethods, after: ClassMethods)
    requires 0 < n <= |ms|
    requires Collect(ms[..n - 1]) == Ok(before)
    requires AddMethod(before, ms[n - 1]) == Ok(after)
    ensures Collect(ms[..n]) == Ok(after)
  {
    assert ms[..n][..n - 1] == ms[..n - 1];
  }
}
